=== FILE: README.md ===
# Invoice dashboard, modelled in Dafny

A Dafny model of the logic in an invoice dashboard. The dashboard has three parts:

- an Express/Prisma API for invoices, vendors, users, departments, files, settings and chat history, with a seeding script;
- React pages that call the API;
- a Python text-to-SQL service that turns a question into a `SELECT` statement and streams its progress as server-sent events.

Every operation is a pure function over immutable data. The database is a set of maps and sequences, "now" is a parameter, and the output of the language model is an arbitrary string. Lemmas state what the system promises about these operations:

- the analytics folds conserve their totals;
- writes keep names, emails and invoice numbers unique;
- what is saved reads back;
- the SQL clean-up returns a fenced query unchanged;
- the event stream ends in exactly one `done` or one `error`;
- the browser's line framer gives the same result however the response is cut into reads.

The modules follow the source:

| module | models |
|---|---|
| `Wrappers` | `Option`, and `Reply`: an HTTP status with a body or an error |
| `Text` | case mapping (ASCII only), whitespace trimming in both languages, `split` and `join`, decimal text and padding |
| `Calendar` | dates and instants, JavaScript's `setMonth` including its day overflow, the role lookback rule |
| `Json` | JSON values, `JSON.stringify`, Python's `json.dumps`, `JSON.parse` and their round trip |
| `Grouping`, `Ledger`, `Ordering` | the map-based group-by fold, sums of amounts, ordering of listings |
| `CashOutflow`, `VendorRanking`, `InvoiceTrends`, `PaymentStatus`, `CategorySpend`, `Stats` | the analytics routes |
| `Requests` | query-string and body field handling shared by the routes, pagination |
| `InvoicesRoute`, `UsersRoute`, `DepartmentsRoute`, `FilesRoute`, `SettingsRoute`, `ChatHistoryRoute` | the CRUD routes over an in-memory store |
| `Seed` | the seeding script |
| `EnvConfig`, `SqlCleanup`, `SseStream` | the text-to-SQL service: configuration, query clean-up and gate, the event stream and the non-streaming endpoint |
| `ChatClient` | the chat page: sending, line framing, event handling, cell formatting |
| `InvoicePage`, `InvoicesTable`, `UsersPage`, `DepartmentsPage`, `FilesPage`, `SettingsPage` | the other pages and the invoices table |

JavaScript's `setMonth` day overflow is modelled deliberately. Asking for 31 February gives 3 March, and that overflow is what exposes two of the findings below.

The stream lemmas in `SseStream` are stated for the cleaned query as a parameter `q`, so they hold for every query. Both endpoints clean the completion with the same cut, one character short for the `postgresql` tag, and `Query(run)` models that as-written clean-up. `CorrectedQuery(run)` is the clean-up with the whole tag removed. `PostgresFenceRefused` and `CorrectedFenceAnswered` show where the two differ.

## Model

| member | source | states |
|---|---|---|
| Grouping.FirstIndex | apps/api/src/routes/payment-status.ts:17-19 | the position of the first entry under a key, or the length when none carries it; no earlier entry carries it |
| Grouping.Find | apps/api/src/routes/payment-status.ts:19 | `statusMap.get(status)`: the position of the group with that key, or the number of groups when the map has no such key |
| Grouping.GroupMembership | apps/api/src/routes/payment-status.ts:17-26 | a key has a group in the map exactly when some entry carries it |
| Grouping.GroupKeyOccurs | apps/api/src/routes/payment-status.ts:17-26 | every group's key comes from some entry |
| Grouping.GroupDistinct | apps/api/src/routes/payment-status.ts:15-26 | no key has two groups (a `Map` holds each key once) |
| Grouping.AbsentNotCounted | apps/api/src/routes/payment-status.ts:17-24 | a key no entry carries has count 0 and total 0 |
| Grouping.GroupCounts | apps/api/src/routes/payment-status.ts:19-23 | each group holds the number of entries with its key and the sum of their amounts |
| Grouping.GroupOrder | apps/api/src/routes/payment-status.ts:26 | `Array.from(map.entries())` lists groups in the order their keys first occur |
| Grouping.CountsAddUp | apps/api/src/routes/payment-status.ts:17-24 | every entry is counted exactly once: the counts add up to the number of entries |
| Grouping.TotalsAddUp | apps/api/src/routes/payment-status.ts:17-24 | conservation: the group totals add up to the sum of all amounts |
| Calendar.MakeDate | apps/api/src/routes/stats.ts:13-14 | `new Date(y, m, day)` is a valid date in month `m`, or in the next month within its first three days, exactly when `day` is past the end of month `m` |
| Calendar.ShiftMonthsEarlyDay | apps/api/src/routes/invoice-trends.ts:14-19 | `setMonth(getMonth() + delta)` on a day that exists in every month moves exactly `delta` months and keeps the day |
| Calendar.MonthsAgo | apps/api/src/routes/category-spend.ts:30-32 | `new Date(new Date().setMonth(getMonth() - k))` is a valid instant |
| Calendar.RoleLookback | apps/api/src/routes/category-spend.ts:29-32 | the role query value restricts the window by six months for `manager`, three for `user`, and not at all otherwise |
| Calendar.UnrestrictedRoleSeesEverything | apps/api/src/routes/category-spend.ts:29-36 | any role other than `manager` and `user` keeps every issue date |
| Calendar.UserWindowInsideManagerWindow | apps/api/src/routes/category-spend.ts:30-32 | what a user may see, a manager may see too: the three-month cutoff is never earlier than the six-month one |
| Calendar.MonthKeyInjective | apps/api/src/routes/invoice-trends.ts:38 | distinct months give distinct `YYYY-MM` keys |
| PaymentStatus.DefaultStatus | apps/api/src/routes/payment-status.ts:18 | the status shown is never empty: a non-empty status is kept and an empty one becomes `pending` |
| PaymentStatus.Labelled | apps/api/src/routes/payment-status.ts:26-30 | one row per group, in group order: the capitalised status with the group's count and total |
| PaymentStatus.InvoiceEntries | apps/api/src/routes/payment-status.ts:17-18 | one entry per invoice, in order, keyed by its defaulted status with its total |
| PaymentStatus.Report | apps/api/src/routes/payment-status.ts:6-32 | the response has at most one row per invoice |
| PaymentStatus.ReportCountsInvoices | apps/api/src/routes/payment-status.ts:17-30 | the response's counts add up to the number of invoices |
| PaymentStatus.LabelledKeepsCounts | apps/api/src/routes/payment-status.ts:26-30 | capitalising the labels keeps the counts' sum |
| PaymentStatus.EmptyStatusIsPending | apps/api/src/routes/payment-status.ts:18 | an invoice with an empty status makes a `pending` group appear |
| PaymentStatus.ChartEntry | apps/web/src/components/charts/payment-status-chart.tsx:34-38 | a missing status is `pending`, a present non-empty one is kept, and a missing total adds 0 |
| PaymentStatus.ChartEntries | apps/web/src/components/charts/payment-status-chart.tsx:33-40 | one entry per fetched invoice, in order |
| PaymentStatus.ChartRows | apps/web/src/components/charts/payment-status-chart.tsx:42-46 | one row per status group, at most one per invoice, with the capitalised status, the group's count and total, and the fill `COLORS[index % 3]` |
| PaymentStatus.ChartCountIsCountSum | apps/web/src/components/charts/payment-status-chart.tsx:42-46 | rows that carry the groups' counts position by position count as many invoices as the groups do |
| PaymentStatus.ChartCountsInvoices | apps/web/src/components/charts/payment-status-chart.tsx:28-46 | the pie's counts add up to the number of invoices received |
| CategorySpend.CategoryName | apps/api/src/routes/category-spend.ts:41 | the category shown is never empty: a non-empty category is kept and an empty one is named `Uncategorized` |
| CategorySpend.Entries | apps/api/src/routes/category-spend.ts:10-43 | the kept items become at most one entry each |
| CategorySpend.Report | apps/api/src/routes/category-spend.ts:45-48 | one `{ name, total }` per category group, in the groups' order |
| CategorySpend.EntriesAmount | apps/api/src/routes/category-spend.ts:40-43 | the entries' amounts add up to the total of the kept items (the reference sum) |
| CategorySpend.EntriesTotalOf | apps/api/src/routes/category-spend.ts:40-43 | the entries under a name add up to the kept items reported under that name |
| CategorySpend.EntriesOccur | apps/api/src/routes/category-spend.ts:40-43 | a name has an entry exactly when some kept item is reported under it |
| CategorySpend.ReportConserves | apps/api/src/routes/category-spend.ts:38-48 | conservation: the reported totals add up to the totals of the kept items |
| CategorySpend.ReportedExactly | apps/api/src/routes/category-spend.ts:38-48 | a name is reported exactly when some kept item carries it |
| CategorySpend.ReportDistinct | apps/api/src/routes/category-spend.ts:38-48 | no name is reported twice |
| CategorySpend.ReportedTotal | apps/api/src/routes/category-spend.ts:40-48 | each reported total is the sum of the kept items under that name |
| CategorySpend.NullCategoryIgnored | apps/api/src/routes/category-spend.ts:11-14 | adding an item with a null category leaves the response unchanged |
| CategorySpend.KeptByRole | apps/api/src/routes/category-spend.ts:28-36 | without a restricting role every categorised item is kept; with one, an item without an invoice is dropped |
| CategorySpend.EmptyCategoryIsUncategorized | apps/api/src/routes/category-spend.ts:41 | a kept item with an empty category makes `Uncategorized` appear in the response |
| InvoiceTrends.Lookback | apps/api/src/routes/invoice-trends.ts:13-19 | the query looks back 6 months for a manager, 3 for a user and 12 for everyone else |
| InvoiceTrends.Tag | apps/api/src/routes/invoice-trends.ts:21-32 | the fetched invoices, at most one entry each |
| InvoiceTrends.TagNoMatch | apps/api/src/routes/invoice-trends.ts:21-38 | when no fetched invoice falls in a month, no entry carries its key |
| InvoiceTrends.GroupMatchesCounts | apps/api/src/routes/invoice-trends.ts:35-44 | `monthlyData` has an entry exactly for the months with fetched invoices, holding their number and total |
| InvoiceTrends.Point | apps/api/src/routes/invoice-trends.ts:51-58 | a month's point has the short month name, the number of fetched invoices in that month and their total |
| InvoiceTrends.Report | apps/api/src/routes/invoice-trends.ts:47-59 | one point per month asked for, in the same order |
| InvoiceTrends.AsWrittenMonths | apps/api/src/routes/invoice-trends.ts:48-51 | the loop as written produces twelve valid dates |
| InvoiceTrends.CalendarMonth | apps/api/src/routes/invoice-trends.ts:48-51 | the first day of the month `11 - j` months before the current one |
| InvoiceTrends.CalendarMonths | apps/api/src/routes/invoice-trends.ts:48-51 | the twelve calendar months ending with the current one, oldest first |
| InvoiceTrends.TrendsAsWritten | apps/api/src/routes/invoice-trends.ts:6-61 | the response as written has twelve points; `TrendsAsWrittenAgreesEarlyInMonth` ties it to `Trends` and `AsWrittenCountsMarchTwice` shows where they part |
| InvoiceTrends.Trends | apps/api/src/routes/invoice-trends.ts:6-61 | the corrected handler, one point per calendar month: twelve points, oldest first, the last being the current month, each labelled with its month's short name and carrying the number and the summed totals of the fetched invoices issued in that month |
| InvoiceTrends.TrendsAsWrittenAgreesEarlyInMonth | apps/api/src/routes/invoice-trends.ts:47-58 | on days 1 to 28 no step of the loop rolls over, so the handler as written gives exactly the corrected response |
| InvoiceTrends.CalendarKeysDistinct | apps/api/src/routes/invoice-trends.ts:48-51 | the twelve calendar months have twelve different keys |
| InvoiceTrends.ReportCountSum | apps/api/src/routes/invoice-trends.ts:47-59 | the reported counts add up to the sum, over the months asked for, of the invoices in each |
| InvoiceTrends.TrendCountsBounded | apps/api/src/routes/invoice-trends.ts:21-59 | no invoice is reported twice: the counts add up to at most the number of fetched invoices, which is at most the number of invoices |
| InvoiceTrends.EmptyMonthReportsZero | apps/api/src/routes/invoice-trends.ts:56-57 | a month without fetched invoices reports 0 invoices and 0 spend |
| InvoiceTrends.MarchStep | apps/api/src/routes/invoice-trends.ts:48-51 | seen on 31 March 2025, no step of the loop lands in February |
| InvoiceTrends.AsWrittenSkipsFebruary | apps/api/src/routes/invoice-trends.ts:48-51 | on 31 March 2025 the loop asks for 31 February, which rolls over to 3 March, so no point is February |
| InvoiceTrends.AsWrittenCountsMarchTwice | apps/api/src/routes/invoice-trends.ts:48-58 | on 31 March 2025 two points are labelled `Mar` and both count every March invoice |
| Stats.WindowStart | apps/api/src/routes/stats.ts:17-31 | the lower bound of the spend and count window: six months back for a manager, three for a user, 1 January of this year otherwise |
| Stats.WindowBounds | apps/api/src/routes/stats.ts:17-31 | the window starts on 1 January for unrestricted roles, and between six months back and now for a manager or a user |
| Stats.MonthRange | apps/api/src/routes/stats.ts:13-14 | `new Date(y, m, 1)` to `new Date(y, m + 1, 0)`: midnight of the first day to midnight of the last day of that month |
| Stats.LastMonth | apps/api/src/routes/stats.ts:11-14 | the previous calendar month: December of last year in January, the month before otherwise |
| Stats.StartOfCurrentMonth | apps/api/src/routes/stats.ts:80-81 | midnight of the first day of the current month |
| Stats.LastMonthBeforeCurrent | apps/api/src/routes/stats.ts:13-14 | every instant of last month's range lies before the start of the current month |
| Stats.AsWrittenLastMonthIsCurrentMonth | apps/api/src/routes/stats.ts:11-14 | on 31 March 2025, `setMonth(getMonth() - 1)` rolls over to 3 March, so "last month" as written is March rather than February |
| Stats.AsWrittenAgreesEarlyInMonth | apps/api/src/routes/stats.ts:11-14 | on days 1 to 28 the code as written and the calendar previous month agree |
| Stats.IssuedCount | apps/api/src/routes/stats.ts:60-73 | `prisma.invoice.count` on issue date counts at most every invoice |
| Stats.CreatedCount | apps/api/src/routes/stats.ts:82-97 | `prisma.invoice.count` on creation time counts at most every invoice |
| Stats.SumAggregate | apps/api/src/routes/stats.ts:34-53 | `_sum.total` is null exactly when no invoice matches, and otherwise the sum of the matching totals |
| Stats.AvgAggregate | apps/api/src/routes/stats.ts:102-121 | `_avg.total` is null exactly when no invoice matches, and otherwise a value that times the count gives the sum |
| Stats.PercentChange | apps/api/src/routes/stats.ts:55-57 | 0 when last month's sum is null; a sum of 0 is a Decimal, which is truthy, so the division runs and gives NaN when this month is also 0 and a signed infinity otherwise; any other sum gives the change relative to it in percent |
| Stats.CountChange | apps/api/src/routes/stats.ts:75-77 | 0 when last month had no invoices, otherwise the relative change in percent |
| Stats.PercentChangeSign | apps/api/src/routes/stats.ts:55-57 | with a positive figure last month the change is a finite number, positive exactly when the figure grew and zero exactly when it stayed |
| Stats.SummaryOver | apps/api/src/routes/stats.ts:33-136 | `totalInvoices` and `totalSpendYTD` count and sum the invoices issued in the role window; the average is their quotient, 0 without invoices; `documentsThisMonth` counts the invoices created this month; `documentsChange` is last month's count minus this month's |
| Stats.SpendChangeAgainstLast | apps/api/src/routes/stats.ts:33-57 | `totalSpendChange` is 0 when no invoice was issued last month; otherwise it is the window's sum relative to last month's sum in percent, NaN or a signed infinity when that sum is 0 |
| Stats.CountChangeAgainstLast | apps/api/src/routes/stats.ts:59-77 | `totalInvoicesChange` is 0 when no invoice was issued last month, and otherwise the window's count relative to last month's count in percent |
| Stats.AverageChangeAgainstLast | apps/api/src/routes/stats.ts:101-125 | `averageInvoiceValueChange` is 0 when no invoice was issued last month; otherwise it is the window's average relative to last month's average in percent, NaN or a signed infinity when that average is 0 |
| Stats.ComputeSummary | apps/api/src/routes/stats.ts:6-136 | the corrected handler, over the calendar previous month: last month's and this month's uploads are disjoint, so together they are at most every invoice, and `documentsChange` is last month's count minus this month's, never below minus the number of invoices |
| Stats.CreatedApart | apps/api/src/routes/stats.ts:79-97 | invoices created in a range that ends before another starts are counted apart: the two counts add up to at most every invoice |
| Stats.SummaryAsWritten | apps/api/src/routes/stats.ts:6-136 | the handler as written, with last month found by `setMonth` on today's date: on days 1 to 28 it gives the corrected handler's response |
| Stats.AsWrittenCountsUploadTwice | apps/api/src/routes/stats.ts:11-14 | on 31 March 2025 an invoice created on 10 March counts both as this month's upload and as last month's, so `documentsChange` is 0 where the corrected handler gives -1 |
| Stats.EmptyWindowReportsZero | apps/api/src/routes/stats.ts:55-57 | with no invoices in the window or in last month, every figure and every change is 0 |
| Stats.NoneIssuedSumsToZero | apps/api/src/routes/stats.ts:128 | with nothing matching, the sum reported is 0 |
| CashOutflow.Add | apps/api/src/routes/cash-outflow.ts:57-65 | `result[bucket] += amount` adds to that bucket and leaves the other three as they were |
| CashOutflow.Compute | apps/api/src/routes/cash-outflow.ts:44-66 | the response holds, for each bucket, the sum of the pending or overdue invoices of the role window whose due date lands in it (the reference definition) |
| CashOutflow.BucketsPartition | apps/api/src/routes/cash-outflow.ts:51-66 | the four buckets together hold exactly the total of the invoices that have a due date |
| CashOutflow.IgnoredInvoice | apps/api/src/routes/cash-outflow.ts:13-17 | an invoice without a due date, or one neither pending nor overdue, changes no bucket |
| CashOutflow.BeyondExactly | apps/api/src/routes/cash-outflow.ts:37-65 | an offset falls in `60+ days` exactly when it is before today, in a gap between two ranges, or past 60 days |
| CashOutflow.WholeDays | apps/api/src/routes/cash-outflow.ts:37-65 | a due date a whole number of days from today lands in 0-7, 8-30, 31-60 or 60+ by that number |
| Ordering.SortBy | apps/api/src/routes/departments.ts:18-20 | `orderBy: { name: 'asc' }`: a permutation of the rows, ordered by the key |
| Ordering.SortByNum | apps/api/src/routes/chat-history.ts:17-20 | a permutation of the rows, ordered by a numeric key |
| Ordering.SortedByNumPairs | apps/api/src/routes/chat-history.ts:104 | in a list sorted by a numeric key, every earlier element's key is at most every later one's |
| Ordering.SortByNumKeepsSorted | apps/api/src/routes/invoices.ts:122-126 | sorting a list already in order by a numeric key gives it back unchanged |
| Ledger.SumAppend | apps/api/src/routes/vendors.ts:68-70 | `reduce((sum, v) => sum + v, 0)` over a concatenation is the sum of the two parts |
| Ledger.PrefixSumMonotone | apps/api/src/routes/vendors.ts:70 | over non-negative amounts, a longer prefix never sums to less |
| Ledger.SumZeroMeansAllZero | apps/api/src/routes/vendors.ts:68 | non-negative amounts summing to zero are all zero |
| Ledger.Totals | apps/api/src/routes/vendors.ts:49-53 | the invoices' totals, one per invoice, in order |
| VendorRanking.ListByName | apps/api/src/routes/vendors.ts:7-15 | `GET /api/vendors`: every vendor exactly once, ordered by name |
| VendorRanking.InvoicesOf | apps/api/src/routes/vendors.ts:27-47 | a vendor's included invoices are exactly its invoices inside the role window |
| VendorRanking.SpendOf | apps/api/src/routes/vendors.ts:49-60 | the vendor's id and name, `invoiceCount` the number of its invoices inside the role window and `totalSpend` the sum of their totals |
| VendorRanking.UnmatchedVendorHasZeroSpend | apps/api/src/routes/vendors.ts:50-53 | a vendor without invoices in the window reports 0 spend and 0 invoices |
| VendorRanking.Spends | apps/api/src/routes/vendors.ts:68 | the spends of the rows, one per row |
| VendorRanking.InsertBySpend | apps/api/src/routes/vendors.ts:63-64 | inserting into a list ordered by descending spend keeps it ordered and adds exactly that row |
| VendorRanking.SortBySpend | apps/api/src/routes/vendors.ts:63-64 | `sort((a, b) => b.totalSpend - a.totalSpend)`: a permutation in descending spend order |
| VendorRanking.PrefixDominates | apps/api/src/routes/vendors.ts:63-65 | in a descending list, every row left out of a prefix spends no more than any row in it |
| VendorRanking.Top10 | apps/api/src/routes/vendors.ts:63-65 | `.slice(0, 10)`: ten rows, or all of them when there are fewer, in descending spend order |
| VendorRanking.Top10Dominates | apps/api/src/routes/vendors.ts:63-65 | the top ten are drawn from the vendors, and every vendor left out spends no more than each of them |
| Ledger.Divide | apps/api/src/routes/vendors.ts:73-74 | JavaScript division: a finite quotient for a non-zero divisor; NaN for 0/0 and a signed infinity for x/0 |
| VendorRanking.WithPercentages | apps/api/src/routes/vendors.ts:68-76 | one row per top vendor, keeping it, with its share of the top-ten spend and the share of all rows up to it |
| VendorRanking.TopVendors | apps/api/src/routes/vendors.ts:22-78 | the response has at most ten rows, in descending spend order |
| VendorRanking.CumulativeIsRunningShare | apps/api/src/routes/vendors.ts:69-74 | each cumulative percentage is the previous one plus the row's own percentage |
| VendorRanking.LastCumulativeIsHundred | apps/api/src/routes/vendors.ts:68-74 | with a non-zero total, the last cumulative percentage is exactly 100 |
| VendorRanking.SharesAddUp | apps/api/src/routes/vendors.ts:68-74 | the percentages of the first `n` rows add up to the `n`-th cumulative percentage |
| VendorRanking.PercentagesSumToHundred | apps/api/src/routes/vendors.ts:68-74 | with a non-zero total, the percentages add up to 100 |
| VendorRanking.CumulativeNonDecreasing | apps/api/src/routes/vendors.ts:70-74 | with non-negative spends, the cumulative percentage never decreases down the list |
| VendorRanking.ZeroSpendGivesNaN | apps/api/src/routes/vendors.ts:73-74 | when no top vendor has spent anything, every percentage and every cumulative percentage is NaN (`0 / 0`) |
| InvoicesRoute.Filter | apps/api/src/routes/invoices.ts:23-50 | the rows kept are exactly those matching the role window, the search over number, customer and vendor name, the status and the vendor |
| InvoicesRoute.List | apps/api/src/routes/invoices.ts:6-97 | a page below 1 answers 500 "Failed to fetch invoices"; otherwise the page is the requested slice `skip = (page - 1) * limit`, `take = limit` of the matching invoices, and the pagination echoes the page and limit, counts every matching invoice as `total`, and reports exactly `Math.ceil(total / limit)` pages |
| InvoicesRoute.DefaultListing | apps/api/src/routes/invoices.ts:8-21 | with no parameters the listing succeeds as page 1 of 50 rows, and those are the first 50 invoices in the order the rows arrive |
| InvoicesRoute.ListPagesCoverMatches | apps/api/src/routes/invoices.ts:18-93 | requesting pages 1 to the reported `totalPages` in turn lists every matching invoice exactly once, in order |
| InvoicesRoute.LatestPaymentsFirst | apps/api/src/routes/invoices.ts:122-126 | `orderBy: { paymentDate: 'desc' }`: the same payments, latest payment date first |
| InvoicesRoute.Get | apps/api/src/routes/invoices.ts:101-132 | `GET /api/invoices/:id` answers 404 "Invoice not found" for an unknown id; otherwise the stored invoice, unchanged but for its payments, which are the same payments ordered latest `paymentDate` first |
| InvoicesRoute.LatestFirstKept | apps/api/src/routes/invoices.ts:122-126 | payments already stored latest first come back in their stored order |
| InvoicesRoute.CreateValidation | apps/api/src/routes/invoices.ts:194-196 | the create answers 400 "Missing required fields" exactly when the number or vendor is falsy or the subtotal is undefined |
| InvoicesRoute.FailureChangesNothing | apps/api/src/routes/invoices.ts:194-250 | a refused create leaves the database as it was |
| InvoicesRoute.CreatedInvoice | apps/api/src/routes/invoices.ts:181-230 | a created invoice is added under its id and nothing else changes; status, tax and currency default to `pending`, 0 and `EUR`; a missing or zero total becomes subtotal plus tax; one line item carries the subtotal |
| InvoicesRoute.DuplicateNumberRefused | apps/api/src/routes/invoices.ts:246-248 | a number already in use answers 400 "Invoice number already exists" and leaves the database unchanged |
| InvoicesRoute.CreatePreservesUniqueNumbers | apps/api/src/routes/invoices.ts:201-248 | creating keeps invoice numbers unique |
| UsersRoute.Filter | apps/api/src/routes/users.ts:24-43 | the users kept are exactly those matching the search over name and email and the role, status and department filters |
| UsersRoute.List | apps/api/src/routes/users.ts:7-92 | a page below 1 answers 500 "Failed to fetch users"; otherwise the page is the requested slice of the matching users, and the pagination echoes the page and limit, counts every matching user as `total`, and reports exactly `Math.ceil(total / limit)` pages |
| UsersRoute.SearchIgnoresCase | apps/api/src/routes/users.ts:26-31 | `mode: 'insensitive'`: a search and its lower-cased form keep the same users |
| UsersRoute.Get | apps/api/src/routes/users.ts:95-114 | `GET /api/users/:id` answers the stored user exactly when the id exists, and 404 otherwise |
| UsersRoute.Delete | apps/api/src/routes/users.ts:239-255 | deleting answers 404 for an unknown id and leaves the database alone; otherwise exactly that user is gone and everyone else is untouched |
| UsersRoute.Create | apps/api/src/routes/users.ts:136-184 | 400 "Name and email are required" exactly when the name or email is falsy; a refusal changes nothing, a success adds just the new user, whose role and status are never empty |
| UsersRoute.CreateDefaults | apps/api/src/routes/users.ts:138-153 | a missing role or status becomes `user` or `active`, and a falsy department, avatar or phone is stored as null |
| UsersRoute.Patch | apps/api/src/routes/users.ts:194-202 | a truthy name, email, role or status is written and a falsy one keeps the old value; an undefined department, avatar or phone keeps it, a non-empty one sets it, and null or empty clears it |
| UsersRoute.EmptyPatchIsIdentity | apps/api/src/routes/users.ts:194-202 | an update body with nothing in it leaves the user unchanged |
| UsersRoute.PatchIdempotent | apps/api/src/routes/users.ts:194-202 | applying the same update twice is the same as applying it once |
| UsersRoute.Update | apps/api/src/routes/users.ts:187-236 | an unknown id answers 404 and changes nothing; otherwise only that user is replaced by the patched one |
| UsersRoute.CreatePreservesUniqueEmails | apps/api/src/routes/users.ts:144-181 | creating keeps emails unique (a taken email is refused with 400) |
| UsersRoute.UpdatePreservesUniqueEmails | apps/api/src/routes/users.ts:192-233 | updating keeps emails unique |
| UsersRoute.UpdateTouchesOneUser | apps/api/src/routes/users.ts:192-211 | an update leaves every other user as it was |
| DepartmentsRoute.CountIn | apps/api/src/routes/departments.ts:11-16 | `_count` counts at most every reference |
| DepartmentsRoute.MemberRefs | apps/api/src/routes/departments.ts:11-16 | the department each user belongs to, one per user |
| DepartmentsRoute.List | apps/api/src/routes/departments.ts:7-36 | every department exactly once, ordered by name, with its number of users and files and its stored budget, 0 included, since the Decimal object is truthy even at 0 |
| DepartmentsRoute.MembersOf | apps/api/src/routes/departments.ts:57-66 | the users of the department, and all of them |
| DepartmentsRoute.Get | apps/api/src/routes/departments.ts:44-86 | 404 for an unknown id; otherwise the stored department with its member count and at most ten of its members, all of them when it has ten or fewer, and its stored budget as it is |
| DepartmentsRoute.BudgetOf | apps/api/src/routes/departments.ts:106 | `budget ? parseFloat(budget) : null`: a budget is stored exactly when one is given and non-zero |
| DepartmentsRoute.Create | apps/api/src/routes/departments.ts:94-139 | 400 "Name is required" exactly when the name is falsy; a refusal changes nothing; a success adds the department, with no budget or description when none (or zero, or empty) was given |
| DepartmentsRoute.Patch | apps/api/src/routes/departments.ts:149-155 | a falsy name keeps the old one; an undefined field keeps its value; a given description, colour or avatar is stored when truthy and cleared to null when empty or null; a given budget is stored as `BudgetOf` says |
| DepartmentsRoute.Update | apps/api/src/routes/departments.ts:142-188 | an unknown id answers 404 and changes nothing; otherwise only that department is replaced by the patched one |
| DepartmentsRoute.Delete | apps/api/src/routes/departments.ts:191-207 | 404 for an unknown id, changing nothing; otherwise exactly that department is gone and the rest are untouched |
| DepartmentsRoute.WritesPreserveUniqueNames | apps/api/src/routes/departments.ts:132-136 | creating and updating keep department names unique (a taken name is refused with 400) |
| DepartmentsRoute.ZeroBudgetIsNull | apps/api/src/routes/departments.ts:106 | a budget of 0 is stored as null, both on create and on update |
| FilesRoute.LastDot | apps/api/src/routes/files.ts:115 | the position of the last `.` of the name, or -1 when there is none |
| FilesRoute.BaseName | apps/api/src/routes/files.ts:115 | the base name `path.extname` looks at: the end of the name after its last `/`, holding no `/`, the whole name when it has none |
| FilesRoute.ExtensionType | apps/api/src/routes/files.ts:115 | the lower-cased text after the last dot of a base name, with no dot in it; empty when the only candidate dot starts the name |
| FilesRoute.FileType | apps/api/src/routes/files.ts:115 | `path.extname(name).slice(1).toLowerCase()` is the type of the base name: it never contains a dot or a `/`, is no longer than the name, and for a name without `/` is read off the whole name |
| FilesRoute.BaseNameAfterSlash | apps/api/src/routes/files.ts:115 | the base name of `dir/name` is `name` |
| FilesRoute.FileTypeIgnoresDirectory | apps/api/src/routes/files.ts:115 | a directory in front of the name never changes the type |
| FilesRoute.FileTypeOfExtension | apps/api/src/routes/files.ts:115 | a name `base.ext` without `/`, with a non-empty base, gets the lower-cased `ext` as its type |
| FilesRoute.ExtensionTypeOf | apps/api/src/routes/files.ts:115 | a base name `base.ext` with a non-empty base gets the lower-cased `ext` as its type |
| FilesRoute.NoDotNoType | apps/api/src/routes/files.ts:115 | a name without a dot has the empty type |
| FilesRoute.Filter | apps/api/src/routes/files.ts:37-53 | the files kept are exactly those matching the search over name, file name and description and the type and department filters |
| FilesRoute.List | apps/api/src/routes/files.ts:21-101 | a page below 1 answers 500 "Failed to fetch files"; otherwise the page is the requested slice of the matching files, and the pagination echoes the page and limit, counts every matching file as `total`, and reports exactly `Math.ceil(total / limit)` pages |
| FilesRoute.TagsOf | apps/api/src/routes/files.ts:133 | tags given as an array are kept, a non-empty string is split on `,`, and no tags give the empty list |
| FilesRoute.TagsRoundTrip | apps/api/src/routes/files.ts:133 | joining the tags split from a string with `,` gives the string back |
| FilesRoute.Create | apps/api/src/routes/files.ts:106-163 | no file answers 400 "No file uploaded"; a file over the 50 MiB limit is refused; a refusal changes nothing and a success adds just the new record |
| FilesRoute.UploadedRecord | apps/api/src/routes/files.ts:112-135 | the record keeps the original name as file name, derives the type from it, takes the given name or else the file name, has the url `/uploads/` plus the stored name, and no tags when none were given |
| FilesRoute.Delete | apps/api/src/routes/files.ts:166-192 | 404 "File not found" exactly for an unknown id, changing nothing; otherwise exactly that record is gone and the rest are untouched |
| FilesRoute.DeleteTwice | apps/api/src/routes/files.ts:170-176 | deleting the same file again answers 404 |
| SettingsRoute.NonStringRoundTrip | apps/api/src/routes/settings.ts:78 | a non-string value stored with `JSON.stringify` reads back through `tryParseJSON` as the same value |
| SettingsRoute.StringRoundTrip | apps/api/src/routes/settings.ts:78 | a string stored verbatim reads back as itself exactly when it is not valid JSON, and as the value it spells otherwise |
| SettingsRoute.StringLooksLikeJson | apps/api/src/routes/settings.ts:168-174 | the string `"true"` reads back as the boolean `true` |
| SettingsRoute.Filter | apps/api/src/routes/settings.ts:11-14 | the settings kept are exactly those of the category asked for, or all when none is |
| SettingsRoute.Listed | apps/api/src/routes/settings.ts:16-21 | the listing is a permutation of the kept settings, ordered by category |
| SettingsRoute.List | apps/api/src/routes/settings.ts:24-34 | one view per listed setting, in order, with its value passed through `tryParseJSON` |
| SettingsRoute.Get | apps/api/src/routes/settings.ts:42-62 | the stored setting's view exactly when the key exists, and 404 "Setting not found" otherwise |
| SettingsRoute.Delete | apps/api/src/routes/settings.ts:149-165 | succeeds exactly when the key exists; removes that key only and leaves every other setting as it was |
| SettingsRoute.Save | apps/api/src/routes/settings.ts:70-110 | 400 "Key is required" exactly when the key is falsy; otherwise an upsert: the key is present afterwards, no other key appears or changes, and the reply is the stored setting's view |
| SettingsRoute.SavedSetting | apps/api/src/routes/settings.ts:72-95 | the category defaults to `general`, falsy description and updater become null, a non-string value reads back unchanged, and an existing setting keeps its id |
| SettingsRoute.SaveIdempotent | apps/api/src/routes/settings.ts:80-95 | repeating the same POST gives the same store and reply |
| SettingsRoute.SaveKeepsKeys | apps/api/src/routes/settings.ts:80-95 | the store stays keyed: every setting sits under its own key |
| SettingsRoute.Update | apps/api/src/routes/settings.ts:113-146 | an unknown key answers 404 and creates nothing; a known key keeps the same key set, and no other setting changes |
| SettingsRoute.UpdatedSetting | apps/api/src/routes/settings.ts:118-127 | the value is always rewritten; the category only when truthy, the description only when defined, the updater only when truthy |
| SettingsRoute.EmptyUpdateTouchesTime | apps/api/src/routes/settings.ts:118-127 | an update with no value and no other field changes only the update time |
| SettingsRoute.UpdateThenDelete | apps/api/src/routes/settings.ts:120-155 | deleting after an update leaves the same store as deleting straight away |
| ChatHistoryRoute.Select | apps/api/src/routes/chat-history.ts:12-15 | the messages kept are exactly those of the session, and of the user when one is given |
| ChatHistoryRoute.Present | apps/api/src/routes/chat-history.ts:25-27 | an empty sql or explanation becomes `undefined`; a non-empty one is kept |
| ChatHistoryRoute.EntryOf | apps/api/src/routes/chat-history.ts:22-29 | formatting a message fails exactly when it holds non-empty `data` that `JSON.parse` rejects |
| ChatHistoryRoute.Format | apps/api/src/routes/chat-history.ts:22-29 | the history formats exactly when every message does, one entry per message in order |
| ChatHistoryRoute.Ordered | apps/api/src/routes/chat-history.ts:17-20 | `orderBy: { createdAt: 'asc' }`: a permutation of the session's messages in ascending creation time |
| ChatHistoryRoute.History | apps/api/src/routes/chat-history.ts:7-36 | the reply lists every message of the session in ascending creation time, and fails with 500 exactly when some stored `data` does not parse |
| ChatHistoryRoute.HistoryNeverFails | apps/api/src/routes/chat-history.ts:26 | when every stored `data` parses, reading a session never fails |
| ChatHistoryRoute.DataText | apps/api/src/routes/chat-history.ts:54 | `data ? JSON.stringify(data) : null`: stored exactly when the value is truthy |
| ChatHistoryRoute.Post | apps/api/src/routes/chat-history.ts:39-73 | 400 exactly when the session id, role or content is falsy, changing nothing; otherwise one message is appended |
| ChatHistoryRoute.PostSaves | apps/api/src/routes/chat-history.ts:47-68 | a saved message is appended, and the reply gives back truthy `data` as it was sent and empty sql or explanation as null |
| ChatHistoryRoute.PostKeepsDataParsing | apps/api/src/routes/chat-history.ts:54 | saving keeps every stored `data` parseable |
| ChatHistoryRoute.SavedInHistory | apps/api/src/routes/chat-history.ts:26-54 | `data` round-trips: a message just saved appears in its session's history with the data it was sent with |
| ChatHistoryRoute.SavedEntry | apps/api/src/routes/chat-history.ts:22-29 | a saved message reads back with its data, its sql exactly when one was sent, and its explanation exactly when one was sent |
| ChatHistoryRoute.Remove | apps/api/src/routes/chat-history.ts:80-82 | `deleteMany({ where: { sessionId } })` keeps exactly the messages of other sessions |
| ChatHistoryRoute.Clear | apps/api/src/routes/chat-history.ts:76-89 | after deleting a session none of its messages remain |
| ChatHistoryRoute.ClearEmptiesSession | apps/api/src/routes/chat-history.ts:80-84 | the cleared session's history is empty and every other session's history is unchanged |
| ChatHistoryRoute.ClearKeepsOthers | apps/api/src/routes/chat-history.ts:80-82 | clearing one session leaves the selection of any other session as it was |
| ChatHistoryRoute.ClearKeepsDataParsing | apps/api/src/routes/chat-history.ts:80-82 | clearing keeps every stored `data` parseable |
| ChatHistoryRoute.OfUser | apps/api/src/routes/chat-history.ts:96-99 | the messages kept are exactly those of the user, or all when none is given |
| ChatHistoryRoute.Distinct | apps/api/src/routes/chat-history.ts:105 | `distinct: ['sessionId']` keeps one message per session, drawn from the rows, covering every session |
| ChatHistoryRoute.DistinctKeepsLatest | apps/api/src/routes/chat-history.ts:104-105 | on rows newest first, the message kept for a session is its latest |
| ChatHistoryRoute.DistinctKeepsOrder | apps/api/src/routes/chat-history.ts:104-105 | on rows newest first, the kept messages stay newest first |
| ChatHistoryRoute.Count | apps/api/src/routes/chat-history.ts:115-128 | a session's message count is positive exactly when it has messages |
| ChatHistoryRoute.Preview | apps/api/src/routes/chat-history.ts:127 | `substring(0, 100)`: a prefix of at most 100 characters, the whole content when it is short enough |
| ChatHistoryRoute.LatestPerSession | apps/api/src/routes/chat-history.ts:102-111 | one message per session of the user, newest first, and no message of that session is later |
| ChatHistoryRoute.Sessions | apps/api/src/routes/chat-history.ts:125-130 | one summary per latest message: the session, its preview, its message count and its time |
| ChatHistoryRoute.SessionsListing | apps/api/src/routes/chat-history.ts:92-132 | one entry per session, latest activity first; each count is the session's number of messages and at least 1; previews are at most 100 characters; every message of the user belongs to a listed session no older than it |
| ChatHistoryRoute.SessionsOrdered | apps/api/src/routes/chat-history.ts:102-111 | sessions are listed once each, latest activity first |
| ChatHistoryRoute.SessionsCounted | apps/api/src/routes/chat-history.ts:115-128 | each listed count is the session's number of messages, at least 1, and each preview is at most 100 characters |
| ChatHistoryRoute.SessionsCover | apps/api/src/routes/chat-history.ts:102-111 | every message of the user belongs to a listed session whose last activity is not earlier |
| Requests.OrNull | apps/api/src/routes/users.ts:150-152 | a value is stored exactly when the field is truthy, and then it is the field's value; otherwise `null` |
| Requests.OrElse | apps/api/src/routes/users.ts:148-149 | the field when truthy, the fallback otherwise |
| Requests.SetIfDefined | apps/api/src/routes/users.ts:199-201 | an undefined field keeps the column; any other sets it to the field when truthy and to `null` otherwise |
| Requests.NullIfEmpty | apps/web/src/app/users/page.tsx:136-137 | the pages send an empty input as `null`, which the routes then store as nothing, and a non-empty one as itself |
| Requests.TotalPages | apps/api/src/routes/users.ts:85 | `Math.ceil(total / limit)`: the fewest pages of `limit` rows that hold every row |
| Requests.PageOf | apps/api/src/routes/users.ts:20-22 | `skip = (page - 1) * limit`, `take = limit`: at most `limit` consecutive rows starting at the skip, a full page when enough rows follow and none past the end |
| Requests.PagesPrefix | apps/api/src/routes/users.ts:20-22 | reading pages 1 to `p` gives the first `p * limit` rows |
| Requests.PagesCoverAll | apps/api/src/routes/users.ts:20-85 | reading pages 1 to `totalPages` gives every row exactly once, in order |
| Requests.PageOfRow | apps/api/src/routes/users.ts:20-85 | every row lies on one page, and that page is among the `totalPages` reported |
| Requests.Where | apps/api/src/routes/users.ts:24-62 | `findMany({ where })` keeps exactly the rows that satisfy the `where` object, and nothing else |
| Requests.WhereKeepsAll | apps/api/src/routes/invoices.ts:23-50 | a `where` object every row satisfies keeps all rows, in order |
| Requests.WhereAgree | apps/api/src/routes/users.ts:24-62 | two filters that agree on every row keep the same rows in the same order |
| Requests.Paginate | apps/api/src/routes/users.ts:20-85 | a page below 1 gives a negative skip, which the database client refuses, so the route answers 500; otherwise the page is the slice at `(page - 1) * limit`, with the echoed page and limit, the total count, and exactly `Math.ceil(total / limit)` pages |
| Requests.PaginateCoversAll | apps/api/src/routes/users.ts:20-85 | requesting pages 1 to the reported `totalPages` one after the other returns every matching row exactly once, in order |
| Requests.RequestedPages | apps/api/src/routes/users.ts:20-85 | requesting pages 1 to `p` gives the same rows as reading those pages off the matching rows |
| Seed.NumberCounter | apps/api/prisma/seed.ts:157 | `INV-2025-` followed by the counter padded to at least three digits, whose digits spell the counter |
| Seed.NumberInjective | apps/api/prisma/seed.ts:157 | different counters give different invoice numbers |
| Seed.NumberBound | apps/api/prisma/seed.ts:157-161 | a number shorter than `bound` comes from a counter below 10 to the `bound`, so the search for a free number ends |
| Seed.SampleShape | apps/api/prisma/seed.ts:165-207 | sample `i` is issued in month `floor(i / 5)` of the eleven-to-two-months-back range on day 1 to 28, due 30 days later, with one line item carrying the subtotal, total = subtotal + 19% tax, and a payment of the total exactly when it is paid |
| Seed.NextFree | apps/api/prisma/seed.ts:157-161 | the inner `while` stops at the first counter from `start` whose number is not taken |
| Seed.Counters | apps/api/prisma/seed.ts:154-163 | fifty strictly increasing counters from `startIndex + 1`, none naming an existing number, and every free counter up to the last one used |
| Seed.Generate | apps/api/prisma/seed.ts:131-212 | fifty samples, pairwise distinct in number and distinct from every existing number |
| Seed.Stored | apps/api/prisma/seed.ts:99-103 | the stored status and currency are never empty: an empty one becomes `pending` or `EUR` |
| Seed.ProcessAdds | apps/api/prisma/seed.ts:64-126 | seeding adds exactly the file's invoice numbers and vendor names, and never changes a stored invoice or vendor |
| Seed.ProcessAddsInvoices | apps/api/prisma/seed.ts:81-123 | an existing invoice number is skipped: the invoices afterwards are the old ones plus the new numbers |
| Seed.ProcessAddsVendors | apps/api/prisma/seed.ts:66-79 | a vendor is created only when no vendor has its name |
| Seed.FirstInvoiceWins | apps/api/prisma/seed.ts:82-123 | among entries sharing a number, the first one is stored |
| Seed.ProcessNothingNew | apps/api/prisma/seed.ts:82-89 | when every number and vendor is already stored, seeding changes nothing |
| Seed.ProcessIdempotent | apps/api/prisma/seed.ts:64-126 | seeding the same file twice gives the same database as seeding it once |
| Seed.SampleData | apps/api/prisma/seed.ts:214-251 | without a data file one vendor and one invoice are created; this succeeds exactly when neither exists yet |
| Seed.Run | apps/api/prisma/seed.ts:41-129 | a missing file gives the sample data; otherwise the file is seeded, preceded by fifty fresh, distinct samples exactly when it holds fewer than ten invoices |
| InvoicePage.DatePart | apps/web/src/app/invoice/page.tsx:96-97 | `split("T")[0]` keeps the text before the first `T`, which holds no `T` |
| InvoicePage.Cells | apps/web/src/app/invoice/page.tsx:92-101 | one cell per header column, eight in all |
| InvoicePage.QuoteAll | apps/web/src/app/invoice/page.tsx:105 | every cell wrapped in double quotes, with no escaping, in order |
| InvoicePage.RowTexts | apps/web/src/app/invoice/page.tsx:103-106 | one quoted, comma-joined line per invoice |
| InvoicePage.Unquoted | apps/web/src/app/invoice/page.tsx:129 | `replace(/"/g, "")` removes every double quote and leaves a quote-free text alone |
| InvoicePage.UnquotedAppend | apps/web/src/app/invoice/page.tsx:129 | removing quotes from a concatenation removes them from each part |
| InvoicePage.WithoutBlanks | apps/web/src/app/invoice/page.tsx:135 | `replace(/\s+/g, "")` leaves no whitespace |
| InvoicePage.CleanAll | apps/web/src/app/invoice/page.tsx:132 | every value trimmed and stripped of quotes, one per part, in order |
| InvoicePage.Records | apps/web/src/app/invoice/page.tsx:131-138 | one record per data line |
| InvoicePage.Import | apps/web/src/app/invoice/page.tsx:127-138 | the number of records read is the number of lines minus one |
| InvoicePage.ExportImport | apps/web/src/app/invoice/page.tsx:90-138 | round trip: importing an export whose cells hold no quote, comma or newline gives back one record per invoice, keyed by the lower-cased, space-free header, holding exactly the exported cells |
| InvoicePage.DocumentImport | apps/web/src/app/invoice/page.tsx:103-138 | the round trip holds for any header row of bare names, not only the export's own |
| InvoicePage.RecordsOfRows | apps/web/src/app/invoice/page.tsx:131-138 | each exported row reads back as the record of its invoice's cells |
| InvoicePage.RowsReadBack | apps/web/src/app/invoice/page.tsx:105-132 | an exported row holds no newline, and splitting it on `,` and cleaning each part gives back its cells |
| InvoicePage.ImportLines | apps/web/src/app/invoice/page.tsx:128-132 | importing lines joined by `\n` reads the first as the header and each other as a record |
| InvoicePage.HeaderCells | apps/web/src/app/invoice/page.tsx:91 | the eight export headers are bare: no quote, comma, newline or surrounding whitespace |
| InvoicePage.BareRow | apps/web/src/app/invoice/page.tsx:104-129 | a header row of bare names joined by `,` splits and cleans back to the same names |
| InvoicePage.RowReadBack | apps/web/src/app/invoice/page.tsx:105-132 | a row of plain cells, quoted and comma-joined, splits and cleans back to those cells |
| InvoicePage.QuotedCell | apps/web/src/app/invoice/page.tsx:105-132 | cleaning a quoted cell that held no quote gives the cell back |
| InvoicePage.RecordValues | apps/web/src/app/invoice/page.tsx:134-136 | with distinct keys and enough values, each header's key holds the value at its position |
| InvoicePage.EmptyForm | apps/web/src/app/invoice/page.tsx:187-197 | the reset form is pending, in EUR, dated today, with empty number, subtotal and tax |
| InvoicePage.CreateRequest | apps/web/src/app/invoice/page.tsx:154-182 | nothing is sent exactly when the number, vendor or subtotal is empty; otherwise they are sent with the parsed subtotal and a null due date exactly when none was typed |
| InvoicePage.TaxRule | apps/web/src/app/invoice/page.tsx:163-165 | the typed tax is sent when it parses to a non-zero number and 19% of the subtotal otherwise; the total is subtotal plus tax |
| SettingsPage.Slots | apps/web/src/app/settings/page.tsx:64-68 | one slot per loaded row, in order: its category, the field it is filed under, its value |
| SettingsPage.LastValue | apps/web/src/app/settings/page.tsx:64-68 | the reference for the grouping: present exactly when some slot is filed under that category and field, holding one of their values |
| SettingsPage.GroupCategories | apps/web/src/app/settings/page.tsx:63-69 | `settingsMap` holds a category exactly when some loaded row is in it |
| SettingsPage.GroupFields | apps/web/src/app/settings/page.tsx:63-69 | `settingsMap` holds a field exactly when some row is filed under it, with the value of the last such row |
| SettingsPage.Load | apps/web/src/app/settings/page.tsx:61-75 | an empty listing leaves the form alone; otherwise the form gains exactly the loaded categories |
| SettingsPage.LoadShallow | apps/web/src/app/settings/page.tsx:71-74 | the merge is shallow: a loaded category holds exactly the loaded fields, losing its defaults, and every other category is kept |
| SettingsPage.WithHealth | apps/web/src/app/settings/page.tsx:78-97 | an OK health reply marks the database connected, a failed request disconnected, any other reply changes nothing; other categories are kept |
| SettingsPage.ChangeOneField | apps/web/src/app/settings/page.tsx:142-180 | a change handler sets one field of one category and leaves every other field and category as it was |
| SettingsPage.CompositeKey | apps/web/src/app/settings/page.tsx:112 | `${category}.${key}` starts with the category and a dot, and the rest is the field |
| SettingsPage.SaveRequests | apps/web/src/app/settings/page.tsx:122-131 | no request for a category the form lacks; otherwise one request per field of the category, under its composite key, and no other |
| SettingsPage.SavedField | apps/web/src/app/settings/page.tsx:105-116 | each request is stored under the composite key in the category, and reads back as the field's value unless that value is a string that is itself JSON text |
| SettingsPage.RowField | apps/web/src/app/settings/page.tsx:64-68 | a row of a saved section comes from one of its fields, and as written is filed under its composite key rather than the field |
| SettingsPage.ReloadMissesFields | apps/web/src/app/settings/page.tsx:68 | as written, reloading what was saved files each value under `category.field`: the category no longer holds the field itself |
| SettingsPage.AppNameLost | apps/web/src/app/settings/page.tsx:68 | saving the general section and reloading leaves no `appName` field |
| SettingsPage.ListingSlots | apps/web/src/app/settings/page.tsx:64-68 | with the prefix dropped, a listing of a saved section loads exactly that section |
| SettingsPage.SectionField | apps/web/src/app/settings/page.tsx:63-69 | a field of a section loaded from its slots is present exactly when it is in the section, with the section's value |
| SettingsPage.GroupRestores | apps/web/src/app/settings/page.tsx:63-69 | slots that load a non-empty section group into exactly that section |
| SettingsPage.ReloadRestores | apps/web/src/app/settings/page.tsx:61-74 | with the prefix dropped on loading, reloading what was saved gives back the saved category exactly |
| UsersPage.Initials | apps/web/src/app/users/page.tsx:179-186 | at most two initials |
| UsersPage.WordStarts | apps/web/src/app/users/page.tsx:180-183 | the reference for the initials: at most one character per input character, never a space |
| UsersPage.FirstsAreWordStarts | apps/web/src/app/users/page.tsx:180-183 | splitting on spaces and taking each part's first character finds exactly the characters that begin a word |
| UsersPage.InitialsOfWords | apps/web/src/app/users/page.tsx:179-186 | the initials are the first two word starts upper-cased, and contain no space |
| UsersPage.Save | apps/web/src/app/users/page.tsx:116-137 | nothing is sent unless both name and email are filled in; an edit is a PUT to the user's path, a new user a POST to the collection; the avatar is never sent |
| UsersPage.CreatedFromForm | apps/web/src/app/users/page.tsx:116-137 | a user the route creates from the dialog holds the typed name and email, no department or phone when those were left empty, and opens again as the same form |
| UsersPage.NewFormDefaults | apps/web/src/app/users/page.tsx:90-101 | the new-user form's role and status are what the route would default them to |
| UsersPage.UnchangedEditKeepsUser | apps/web/src/app/users/page.tsx:103-137 | saving the edit form of a user unchanged leaves the stored user as it was |
| UsersPage.EditClears | apps/web/src/app/users/page.tsx:136-137 | emptying the department or phone clears it on the stored user; the avatar is kept |
| DepartmentsPage.CardColour | apps/web/src/app/departments/page.tsx:158-167 | a stored colour starting with `#` is used as it is, and every other card takes the palette entry of its position |
| DepartmentsPage.PaletteCycles | apps/web/src/app/departments/page.tsx:35-42 | the palette repeats every six cards, and neighbouring palette cards never share a swatch |
| DepartmentsPage.Avatars | apps/web/src/app/departments/page.tsx:268-280 | at most five lettered avatars `A`, `B`, … plus a `+n more` label exactly when there are more than five, the two adding up to the member count |
| DepartmentsPage.BudgetField | apps/web/src/app/departments/page.tsx:115 | the budget is sent as a number exactly when the box is filled in and parses, and as `null` otherwise |
| DepartmentsPage.Save | apps/web/src/app/departments/page.tsx:95-118 | nothing is sent without a name; an edit is a PUT to the department's path, a new department a POST to the collection |
| DepartmentsPage.CreatedFromForm | apps/web/src/app/departments/page.tsx:95-118 | a department created from the dialog has the typed name, nothing for an empty description or colour, and a budget exactly when the box parses to a non-zero number |
| DepartmentsPage.EditWritesAll | apps/web/src/app/departments/page.tsx:112-117 | saving an edit clears the description, budget or colour that was emptied, and keeps the avatar |
| DepartmentsPage.UnchangedEditKeepsDepartment | apps/web/src/app/departments/page.tsx:84-118 | when parsing reads back what display writes, saving an unchanged edit form leaves the department as it was |
| FilesPage.ColourFollowsIcon | apps/web/src/app/files/page.tsx:147-162 | the card colour is determined by the icon group, grey exactly for pictures and unknown types, and neither depends on letter case |
| FilesPage.UploadedTypeIcon | apps/web/src/app/files/page.tsx:147-154 | a file uploaded as `name.ext` gets the icon of `ext`, whatever its case |
| FilesPage.IconOfLowered | apps/web/src/app/files/page.tsx:147-154 | the icon does not depend on letter case: a lower-cased type gets the icon of the type it came from |
| FilesPage.Filtered | apps/web/src/app/files/page.tsx:164-172 | the search box never adds files, and an empty search keeps them all |
| FilesPage.PageFilterIsRouteSearch | apps/web/src/app/files/page.tsx:164-172 | the page keeps exactly the files, in order, that the route's search filter keeps for the same text |
| FilesPage.FilterTwice | apps/web/src/app/files/page.tsx:164-172 | filtering again by the same search removes nothing more |
| FilesPage.Select | apps/web/src/app/files/page.tsx:71-77 | choosing a file puts its name in the name box and changes nothing else |
| FilesPage.UploadBody | apps/web/src/app/files/page.tsx:79-97 | nothing is sent without a chosen file; the name falls back to the file's, the description is always sent, department and tags only when filled in |
| FilesPage.UploadedFromForm | apps/web/src/app/files/page.tsx:79-97 | the route records the typed or the file's name, nothing for an empty description or department, and tags that join back to the typed text |
| InvoicesTable.HandleSort | apps/web/src/components/invoices-table.tsx:76-83 | the clicked column becomes current; the same column reverses its direction and a new one starts ascending |
| InvoicesTable.SortTwice | apps/web/src/components/invoices-table.tsx:76-83 | two clicks on the current column give back the state before them; a second click on a new column sorts it descending |
| InvoicesTable.SortIcon | apps/web/src/components/invoices-table.tsx:85-94 | the neutral arrows exactly for columns that are not current, the up arrow exactly for the current column ascending |
| InvoicesTable.Get | apps/web/src/components/invoices-table.tsx:44-50 | a key is missing exactly when no parameter carries it |
| InvoicesTable.SortReadBack | apps/web/src/components/invoices-table.tsx:44-50 | the listing request carries the current column and direction under `sortBy` and `sortOrder`, whatever the filters |
| InvoicesTable.FiltersReadBack | apps/web/src/components/invoices-table.tsx:47-50 | `search` is sent exactly when the box is not empty and `role` exactly when it is not `all`, each with its value |
| InvoicesTable.Split3 | apps/web/src/components/invoices-table.tsx:44-50 | the parameters are the optional search, the two sort keys and the optional role, in that order |
| InvoicesTable.GetAppend | apps/web/src/components/invoices-table.tsx:44-50 | a lookup in appended parameters finds the first part's value, or else the second part's |
| InvoicesTable.ColourIgnoresCase | apps/web/src/components/invoices-table.tsx:96-107 | two statuses equal up to letter case get the same badge colour |
| InvoicesTable.GreyForOthers | apps/web/src/components/invoices-table.tsx:96-107 | the badge is grey exactly for statuses other than paid, pending and overdue in any case |
| InvoicesTable.LabelOnlyRecases | apps/web/src/components/invoices-table.tsx:225 | the badge text keeps the status's length and all but its first character, and differs only in letter case |
| Text.Upper | apps/web/src/app/users/page.tsx:184 | upper-casing keeps the length and maps every character on its own |
| Text.Lower | apps/web/src/components/invoices-table.tsx:97 | lower-casing keeps the length and maps every character on its own |
| Text.Capitalize | apps/web/src/components/invoices-table.tsx:225 | only the first character is upper-cased; the rest stays as it was |
| Text.LowerIdempotent | apps/web/src/app/files/page.tsx:148 | lower-casing a lower-cased text changes nothing |
| Text.TrimStart | services/vanna/main.py:230 | drops exactly the leading blanks: a suffix of the input, blank before it, not starting with a blank |
| Text.TrimEnd | services/vanna/main.py:230 | drops exactly the trailing blanks: a prefix of the input, blank after it, not ending with a blank |
| Text.Trim | apps/web/src/app/chat/page.tsx:111-116 | the trimmed text is a slice of the input that neither starts nor ends with a blank |
| Text.TrimStartOfTrimmed | services/vanna/main.py:243 | a text that does not start with a blank is left alone by trimming its start |
| Text.TrimEndOfTrimmed | services/vanna/main.py:243 | a text that does not end with a blank is left alone by trimming its end |
| Text.TrimIdempotent | services/vanna/main.py:240-243 | trimming twice is trimming once |
| Text.RStripChar | services/vanna/main.py:243 | `rstrip('`')` drops exactly the trailing backticks: a prefix of the input, only backticks after it, not ending with one |
| Text.Split | apps/api/src/routes/files.ts:133 | splitting gives at least one part and no part holds the separator |
| Text.JoinSplit | apps/api/src/routes/files.ts:133 | joining the parts of a split with the same separator gives back the text |
| Text.SplitJoin | apps/api/src/routes/files.ts:133 | splitting a join of separator-free parts gives back the parts |
| Text.JoinCons | apps/web/src/app/invoice/page.tsx:104-106 | joining a part in front of a non-empty list puts one separator between them |
| Text.JoinAppend | apps/web/src/app/invoice/page.tsx:104-106 | joining two non-empty lists is joining each with one separator between |
| Text.SplitNoSep | apps/web/src/app/invoice/page.tsx:129-132 | a text without the separator splits into itself |
| Text.SplitConcat | apps/web/src/app/invoice/page.tsx:129-132 | a separator-free part, the separator and the rest split into the part followed by the rest's parts |
| Text.JoinAvoids | apps/web/src/app/invoice/page.tsx:104-106 | a character in none of the parts, other than the separator, is not in their join |
| Text.NatToString | apps/api/prisma/seed.ts:157 | the decimal text of a number is non-empty, all digits, with no leading zero |
| Text.NatToStringValue | apps/api/prisma/seed.ts:157 | the digits read back as the number |
| Text.NatToStringInjective | apps/api/prisma/seed.ts:157 | different numbers have different decimal texts |
| Text.NatToStringBound | apps/api/prisma/seed.ts:157 | a number written in at most k digits is below ten to the k |
| Text.LeadingZerosValue | apps/api/prisma/seed.ts:157 | zeros in front of digits do not change their value |
| Text.PadStart | apps/api/prisma/seed.ts:157 | `padStart` gives the text at full width, ending with the input, with only the fill character before it |
| Text.IntToStringInjective | apps/api/src/routes/invoice-trends.ts:38 | different integers have different decimal texts |
| Text.LexLeTotal | apps/api/src/routes/departments.ts:18-20 | any two names are ordered one way or the other |
| Json.Field | apps/web/src/app/chat/page.tsx:165-170 | a property is found exactly when the value is an object with a member of that name |
| Json.MemberValue | apps/web/src/app/chat/page.tsx:165-170 | a key is found exactly when some member carries it, and the value found is that of one of its members |
| Json.MemberValueAt | apps/web/src/app/chat/page.tsx:165-170 | the value found under a key is that of its first member |
| Json.Parse | apps/api/src/routes/settings.ts:170 | a text parses only when one value reads from it with nothing but whitespace after |
| Json.ParseSerialise | apps/api/src/routes/settings.ts:78 | parsing the text of a well-formed value, in either serialiser's style, gives the value back |
| Json.StringifyRoundTrip | apps/api/src/routes/chat-history.ts:54 | `JSON.parse(JSON.stringify(v))` is `v` for every well-formed value |
| Json.DumpsRoundTrip | services/vanna/main.py:314 | what `json.dumps` writes, `JSON.parse` reads back as the same value |
| Json.ValueRoundTrip | apps/web/src/app/chat/page.tsx:165 | a serialised value followed by a delimiter parses to the value, leaving the delimiter and the rest |
| Json.StringRoundTrip | apps/web/src/app/chat/page.tsx:165 | an escaped string, in either style, reads back as the string, leaving what follows its closing quote |
| Json.SurrogatePair | services/vanna/main.py:407 | a character above the basic plane, escaped by `json.dumps` as two surrogate halves, reads back as that character |
| Json.StringifyExample | apps/api/src/routes/settings.ts:78 | `JSON.stringify` writes no spaces and keeps non-ASCII characters as they are |
| Json.DumpsExample | services/vanna/main.py:456 | `json.dumps` puts a space after the comma and escapes non-ASCII characters |
| Json.ParsedStringShorter | apps/api/src/routes/settings.ts:168-174 | a string read from a text is shorter than the text, so no text parses to itself as a string |
| Json.SerialiseOneLine | services/vanna/main.py:314 | no serialised text holds a line break, so one event is always one `data:` line |
| EnvConfig.LineEnd | services/vanna/main.py:92 | the end of the first line: no line break before it, and a line break at it unless the text ends there |
| EnvConfig.SplitLines | services/vanna/main.py:92 | no line `splitlines` returns holds a line break |
| EnvConfig.SplitLinesJoin | services/vanna/main.py:92 | break-free lines joined with newlines, the last non-empty, split back into the same lines |
| EnvConfig.Unquote | services/vanna/main.py:104-107 | one pair of matching double or single quotes around the value is removed; a value that does not start with a quote is kept |
| EnvConfig.KeyedNotSkipped | services/vanna/main.py:98-101 | a `DATABASE_URL=` line is never taken for a blank line or a comment |
| EnvConfig.ScanFirst | services/vanna/main.py:93-111 | the fallback takes the value of the first `DATABASE_URL=` line and ignores every later one |
| EnvConfig.ScanStep | services/vanna/main.py:93-111 | a keyed first line decides the value; any other first line is passed over |
| EnvConfig.ScanNone | services/vanna/main.py:93-114 | without a `DATABASE_URL=` line nothing is found |
| EnvConfig.StartupScanUnquoted | services/vanna/main.py:36-49 | the startup scan finds a value exactly when the fallback does, and differs from it only in keeping the quotes |
| EnvConfig.QuotedLineRoundTrip | services/vanna/main.py:93-111 | a file holding `DATABASE_URL="url"` yields the url without its quotes |
| EnvConfig.BareLineRoundTrip | services/vanna/main.py:93-111 | a file holding `DATABASE_URL=url` yields the url |
| EnvConfig.SingleLine | services/vanna/main.py:93-111 | a file of one keyed line yields its value stripped and unquoted |
| EnvConfig.StripBare | services/vanna/main.py:94 | stripping a text without surrounding whitespace changes nothing |
| EnvConfig.OneLine | services/vanna/main.py:92-97 | a break-free keyed line is one line and is left alone by the cleaning |
| EnvConfig.CommentsIgnored | services/vanna/main.py:99-100 | a comment line in front changes nothing the fallback finds |
| EnvConfig.Rewrite | services/vanna/main.py:126-127 | the SQLAlchemy driver scheme is replaced by the plain one; any other url is kept |
| EnvConfig.RewriteOnce | services/vanna/main.py:126-127 | rewriting twice is rewriting once |
| EnvConfig.RewriteLeavesInnerScheme | services/vanna/main.py:127 | only the first occurrence of the driver scheme is replaced |
| EnvConfig.ConnectionUrl | services/vanna/main.py:84-129 | the environment wins, then a reload, then the file; no url at all exactly when all three give nothing, in which case the connection is refused |
| EnvConfig.FileFallback | services/vanna/main.py:84-129 | with nothing in the environment, a quoted url in the file is what the service connects to, rewritten |
| SqlCleanup.FindFrom | services/vanna/main.py:236 | the first occurrence of the fence at or after a position: it is there, and nowhere between |
| SqlCleanup.Find | services/vanna/main.py:236 | found exactly when the text contains the fence, at its first occurrence |
| SqlCleanup.TagCut | services/vanna/main.py:237-240 | the language tag branch never cuts more than the body |
| SqlCleanup.Finish | services/vanna/main.py:243 | the final clean-up leaves no white space at either end |
| SqlCleanup.CleanWith | services/vanna/main.py:233-243 | the clean-up for a given cut after the `postgresql` tag: no white space at either end, and an answer that does not start with a fence is only stripped and cleared of trailing backticks |
| SqlCleanup.CleanAsWritten | services/vanna/main.py:233-243 | the clean-up as both endpoints write it, cutting nine characters after `postgresql`; it differs from the corrected clean-up only on a `postgresql` fence |
| SqlCleanup.CutsAgreeOffPostgres | services/vanna/main.py:237-240 | the cut after `postgresql` matters only to a fence with that tag |
| SqlCleanup.Clean | services/vanna/main.py:233-243 | the corrected clean-up, which removes the whole tag; it leaves no white space at either end |
| SqlCleanup.Gate | services/vanna/main.py:248-252 | a query passes exactly when it starts with `SELECT` in upper case after upper-casing, unchanged; any other is refused with a 400 whose detail ends with the query |
| SqlCleanup.GateIgnoresCase | services/vanna/main.py:248 | the gate passes exactly the queries whose first six characters spell `select` in any mix of cases |
| SqlCleanup.CleanFenced | services/vanna/main.py:233-243 | with the whole tag removed, a tidy query in a bare, `sql` or `postgresql` fence, or unfenced, comes back as itself |
| SqlCleanup.UntagFenced | services/vanna/main.py:237-240 | removing a whole tag from a fence body leaves the query once stripped |
| SqlCleanup.TagCutFenced | services/vanna/main.py:237-240 | with the whole tag removed, the cut is exactly the tag |
| SqlCleanup.FinishTidy | services/vanna/main.py:243 | the final clean-up leaves a tidy query alone |
| SqlCleanup.CleanAsWrittenPostgres | services/vanna/main.py:239 | as written, a query in a `postgresql` fence comes out with a stray `l` line in front, which the SELECT gate then refuses |
| SqlCleanup.FinishKept | services/vanna/main.py:243-248 | the stray `l` survives the final clean-up and fails the gate |
| SqlCleanup.UnfenceAsWritten | services/vanna/main.py:236-240 | as written, unfencing a `postgresql` block leaves the tag's last letter in front of the query |
| SqlCleanup.UntagAsWritten | services/vanna/main.py:239 | cutting nine of the ten tag characters leaves `l` and the line break in front of the query |
| SqlCleanup.StripLeadingL | services/vanna/main.py:239-240 | stripping keeps the stray `l` line |
| SqlCleanup.CleanFencedGate | services/vanna/main.py:233-252 | with the whole tag removed, a fenced query passes the gate exactly when the bare query does |
| SqlCleanup.StripTidy | services/vanna/main.py:240 | stripping a tidy query changes nothing |
| SqlCleanup.StripPadded | services/vanna/main.py:240 | stripping the line breaks around a fence body gives the query |
| SqlCleanup.NotFenced | services/vanna/main.py:235 | a tidy query does not take the fence branch and loses no backtick |
| SqlCleanup.FencedBody | services/vanna/main.py:236 | splitting a fenced answer on the fence finds the tag, the query and the line breaks around it |
| SqlCleanup.NoFenceInBody | services/vanna/main.py:236 | the body of a fenced tidy query holds no fence |
| SqlCleanup.NoFenceAt | services/vanna/main.py:236 | no fence starts anywhere in the body |
| SqlCleanup.FirstFenceAtEnd | services/vanna/main.py:236 | the first fence after a fence-free body is the closing one |
| SseStream.RowCountMessageInjective | services/vanna/main.py:440 | different row counts give different `Query returned n rows` messages |
| SseStream.Query | services/vanna/main.py:409-420 | the query the stream sends is the as-written clean-up of the concatenated deltas; it is the corrected one unless the answer is a `postgresql` fence |
| SseStream.Events | services/vanna/main.py:310-481 | the stream ends in `done` exactly when the run succeeds with the query as written, in an error otherwise, and every `sql` event carries that query |
| SseStream.Respond | services/vanna/main.py:143-303 | 503 without a model client; an answer exactly when the run succeeds with the query as written, and then it carries that query and the rows |
| SseStream.Answering | services/vanna/main.py:143-303 | an answer, given any cleaned query, carries that query and the rows the run returned |
| SseStream.PostgresFenceRefused | services/vanna/main.py:416-417 | as written, a tidy query in a `postgresql` fence is streamed with a stray `l` line in front, the stream never reaches `done`, and the plain endpoint answers 400 |
| SseStream.Refused | services/vanna/main.py:423-433 | a query the gate refuses is still sent as a `sql` event, `done` never follows, and the plain endpoint answers 400 |
| SseStream.CorrectedFenceAnswered | services/vanna/main.py:409-420 | with the whole tag removed, the same fenced answer gives the query back, `done` is sent exactly when it is a SELECT, and the plain endpoint answers exactly then |
| SseStream.ChunkEvents | services/vanna/main.py:404-407 | one `sql_chunk` event per non-empty delta, and nothing else |
| SseStream.Drafted | services/vanna/main.py:319-407 | before the query is known the stream has sent at least three status events and the chunks, never the execution status |
| SseStream.AfterCases | services/vanna/main.py:409-433 | once the completion is read: a failed completion ends in its error; a refused query sends the query, then the gate's error; an accepted one sends the query, the execution status, then the execution events |
| SseStream.ExecutedSucceeds | services/vanna/main.py:435-462 | a run with no failure reports the row count, the explaining status, the rows, the stripped explanation and `done`, in that order |
| SseStream.ExplainedEnd | services/vanna/main.py:443-481 | the explanation step ends the stream in `done` exactly when nothing fails and in an error otherwise, with no error before the last event |
| SseStream.ExecutedEnd | services/vanna/main.py:435-481 | the execution step ends in `done` exactly when nothing fails and in an error otherwise, with no error before the last event |
| SseStream.CountedNoError | services/vanna/main.py:440-443 | the progress reports hold no error |
| SseStream.FinishedNoError | services/vanna/main.py:456-462 | the results, explanation and `done` events hold no error |
| SseStream.ExecutedDone | services/vanna/main.py:456-471 | `done` is sent exactly when nothing fails up to it: a failure in closing the cursor comes after `done` |
| SseStream.ExecutedResults | services/vanna/main.py:440-456 | the rows sent are the rows the query returned, and their count was reported before |
| SseStream.ExecutedQuiet | services/vanna/main.py:433-481 | no query or chunk event is sent once execution starts |
| SseStream.CountedQuiet | services/vanna/main.py:440-443 | the progress reports carry no query text |
| SseStream.ExplainedQuiet | services/vanna/main.py:443-481 | the explanation step carries no query text |
| SseStream.FinishedQuiet | services/vanna/main.py:456-462 | the final events carry no query text |
| SseStream.ClosingQuiet | services/vanna/main.py:470-481 | a closing failure carries no query text |
| SseStream.QuietAppend | services/vanna/main.py:433-481 | two stretches without query events make one |
| SseStream.ErrorOnlyLastAppend | services/vanna/main.py:433-481 | error-free events in front of a stretch whose only error is last keep the error last |
| SseStream.AfterEnd | services/vanna/main.py:409-481 | once the completion is read, the stream ends in `done` exactly when the run succeeds and in an error otherwise, and no error comes before the last event |
| SseStream.AfterKinds | services/vanna/main.py:409-481 | after the completion no chunk is sent, and every query event carries the cleaned query |
| SseStream.EventsEnd | services/vanna/main.py:310-481 | every stream is non-empty, ends in `done` exactly when the run succeeds and in one error otherwise, and has no error before its last event |
| SseStream.DoneMeansAccepted | services/vanna/main.py:310-481 | `done` is sent exactly when there is a client, the cleaned query passes the SELECT gate, and nothing fails before the cursor is closed |
| SseStream.ExecutesOnlySelect | services/vanna/main.py:423-433 | the execution status is sent only for a query that passed the gate, and only after the query itself was sent |
| SseStream.SqlCarriesAppend | services/vanna/main.py:423 | two stretches whose query events carry the query make one |
| SseStream.SqlEventIsQuery | services/vanna/main.py:423 | every `sql` event carries the cleaned query |
| SseStream.ResultsCounted | services/vanna/main.py:435-456 | the rows in a `results` event are those the query returned, and the stream also reported their count |
| SseStream.ChunkTextAppend | services/vanna/main.py:404-407 | the chunk text of two stretches is the concatenation of theirs |
| SseStream.ChunkTextOfChunks | services/vanna/main.py:404-407 | the chunk events spell exactly the concatenated deltas |
| SseStream.NoChunks | services/vanna/main.py:404-407 | a stretch without chunk events spells nothing |
| SseStream.ChunksSpellCompletion | services/vanna/main.py:312-407 | the chunks of a stream spell the whole completion the model streamed, or nothing when generation never started |
| SseStream.RowValues | services/vanna/main.py:437 | each row becomes one object, in order |
| SseStream.RowsOfValues | services/vanna/main.py:437-456 | the objects the rows become read back as the rows |
| SseStream.FromToJson | services/vanna/main.py:314-481 | every event read back from its JSON object is the event itself |
| SseStream.ToJsonWellFormed | services/vanna/main.py:314-481 | the JSON object of an event with printable fields is well formed |
| SseStream.DataLines | services/vanna/main.py:314-481 | one `data:` line per event, in order |
| SseStream.BodyLinesCons | services/vanna/main.py:314-481 | each event contributes its `data:` line and a blank line |
| SseStream.DataLineOneLine | services/vanna/main.py:314-481 | a `data:` line holds no line break |
| SseStream.BodySplit | services/vanna/main.py:314-481 | the response body splits on line breaks into each event's `data:` line followed by a blank line |
| SseStream.FramesSplit | services/vanna/main.py:314-481 | lines without breaks, each framed by a blank line, split back into those lines and blanks |
| SseStream.FrameSplit | services/vanna/main.py:314-481 | one framed line splits off as the line and a blank |
| SseStream.DataLineRoundTrip | services/vanna/main.py:314-481 | a `data:` line starts with the field name, and the rest parses to the event's JSON, which reads back as the event |
| SseStream.EndpointsAgree | services/vanna/main.py:143-303 | the non-streaming answer exists exactly when the stream ends in `done` and carries the streamed query, rows and explanation; a 400 carries the stream's error text, extended by the query when execution failed |
| ChatClient.Send | apps/web/src/app/chat/page.tsx:110-128 | nothing happens for a blank input or while loading; otherwise the trimmed query is appended as a user message, saved, and followed by an empty assistant placeholder, with the reader state fresh |
| ChatClient.UpdateLast | apps/web/src/app/chat/page.tsx:170-177 | an update touches only the last message, and only when it is the assistant's |
| ChatClient.HandleEvent | apps/web/src/app/chat/page.tsx:165-248 | handling the JSON object of an event the service sends has exactly the event's effect |
| ChatClient.DispatchDraft | apps/web/src/app/chat/page.tsx:167-202 | the `type` switch gives status, chunk and query events their effects |
| ChatClient.DispatchAnswer | apps/web/src/app/chat/page.tsx:204-247 | the `type` switch gives results, explanation, error and done events their effects |
| ChatClient.ResultsArrayOrEmpty | apps/web/src/app/chat/page.tsx:205 | the rows kept are the `results` array, or none when the field is not an array |
| ChatClient.ChunkAppendsSqlReplaces | apps/web/src/app/chat/page.tsx:181-193 | a chunk extends the query text, and the final query replaces whatever the chunks spelled |
| ChatClient.OnlyLastChanges | apps/web/src/app/chat/page.tsx:170-247 | handling a line never adds or removes messages and changes none but the last; without an assistant message last, nothing changes and nothing is saved |
| ChatClient.LinesAppend | apps/web/src/app/chat/page.tsx:162-253 | handling two batches of lines is handling the first, then the second |
| ChatClient.Feed | apps/web/src/app/chat/page.tsx:158-160 | the carried-over buffer never holds a line break |
| ChatClient.FeedFraming | apps/web/src/app/chat/page.tsx:158-160 | the complete lines and the carried-over rest join back to the buffer plus the new text |
| ChatClient.SplitAppend | apps/web/src/app/chat/page.tsx:159-160 | splitting appended text finds the complete lines of the first part, then the split of its unfinished last line with the rest |
| ChatClient.FeedTwice | apps/web/src/app/chat/page.tsx:154-160 | reading two pieces one after the other leaves the same state as reading them at once |
| ChatClient.SplitTwice | apps/web/src/app/chat/page.tsx:159-160 | splitting the buffer with two appended pieces is splitting after the first, then continuing with the second |
| ChatClient.FeedAllConcat | apps/web/src/app/chat/page.tsx:154-160 | however the body is cut into reads, the page ends in the state of reading it whole |
| ChatClient.LinesOfBody | apps/web/src/app/chat/page.tsx:162-253 | the lines of a well-formed stream body have exactly the effect of its events in order |
| ChatClient.ReadsOfBody | apps/web/src/app/chat/page.tsx:154-253 | any cutting of the service's response into reads has the effect of its events, with nothing left in the buffer |
| ChatClient.DraftedKeeps | apps/web/src/app/chat/page.tsx:168-190 | status and chunk events change only the last assistant message, save nothing, and leave results and explanation alone |
| ChatClient.ApplyAppend | apps/web/src/app/chat/page.tsx:162-253 | the events of two stretches are the events of the first, then the second |
| ChatClient.SuccessShown | apps/web/src/app/chat/page.tsx:130-254 | a stream that ends in `done` leaves the placeholder as an answer carrying the cleaned query, the rows and the explanation, and saves exactly that answer |
| ChatClient.SucceededStream | apps/web/src/app/chat/page.tsx:130-254 | a successful stream is the drafting events followed by the query, the statuses, the rows, the explanation and `done` |
| ChatClient.TailShown | apps/web/src/app/chat/page.tsx:192-247 | the final events turn the placeholder into the answer and save it once |
| ChatClient.FinaleSteps | apps/web/src/app/chat/page.tsx:192-247 | the final events take effect one after the other in the order sent |
| ChatClient.AnswerSteps | apps/web/src/app/chat/page.tsx:204-247 | results, explanation and done take effect in that order |
| ChatClient.ApplyCons | apps/web/src/app/chat/page.tsx:162-253 | the first event takes effect before the rest |
| ChatClient.StatusesThen | apps/web/src/app/chat/page.tsx:168-178 | three status events take effect one after another before the rest |
| ChatClient.ErrorSwallowed | apps/web/src/app/chat/page.tsx:229-251 | as written, an `error` event is thrown inside the per-line `try` and caught there, so the whole stream of a service without a model key leaves the page exactly as it was, placeholder empty |
| ChatClient.ErrorShown | apps/web/src/app/chat/page.tsx:229-265 | when the error reaches the outer handler, a failed stream leaves reading stopped and the last message showing the apology with the error text, or `Unknown error` when it is empty |
| ChatClient.NoErrorKeeps | apps/web/src/app/chat/page.tsx:162-253 | events without an error keep reading going and keep the assistant message last |
| ChatClient.Refused | apps/web/src/app/chat/page.tsx:138-140 | a refused request stops reading, adds no message, and shows the HTTP status in the apology |
| ChatClient.FormatValueReadsBack | apps/web/src/app/chat/page.tsx:271-279 | a cell that is an array or object is shown as JSON that parses back to it; a string as itself; a missing or null cell as `null`; a boolean never as `null` |
| Grouping.GroupByKey | apps/api/src/routes/payment-status.ts:15-26 | never more groups than entries |
| Ordering.InsertBy | apps/api/src/routes/departments.ts:18-20 | inserting into a list sorted by name keeps it sorted and adds exactly the new row |
| Ordering.InsertByNum | apps/api/src/routes/chat-history.ts:17-20 | inserting into a list sorted by a numeric key keeps it sorted and adds exactly the new row |
| Calendar.DaysInMonth | apps/api/src/routes/stats.ts:13-14 | every month has 28 to 31 days |
| Calendar.ShiftMonths | apps/api/src/routes/invoice-trends.ts:14-19 | moving a valid date by whole months gives a valid date |
| CategorySpend.ReportSumIsTotalSum | apps/api/src/routes/category-spend.ts:39-47 | every prefix of the report sums to the same prefix of the grouped totals |
| InvoiceTrends.MonthKeys | apps/api/src/routes/invoice-trends.ts:51 | one `YYYY-MM` key per month shown, in order |
| Ledger.SumNonNegative | apps/api/src/routes/vendors.ts:68 | non-negative amounts have a non-negative sum |
| Ledger.TotalsPrefix | apps/api/src/routes/vendors.ts:49-53 | the totals of a prefix of the invoices are the prefix of their totals |
| VendorRanking.SpendsPrefix | apps/api/src/routes/vendors.ts:68 | the spends of a prefix of the rows are the prefix of their spends |
| FilesRoute.LastDotAfter | apps/api/src/routes/files.ts:115 | a dot with no dot after it is the one the type is taken after |
| ChatHistoryRoute.SelectNone | apps/api/src/routes/chat-history.ts:12-15 | a session no message belongs to has an empty history |
| ChatHistoryRoute.LastIsOldest | apps/api/src/routes/chat-history.ts:104 | in a newest-first listing, the last message is the oldest |
| Seed.Finished | apps/api/prisma/seed.ts:154-163 | after fifty draws the counters start above `startIndex`, strictly increase, name no existing number and skip no free one |
| Seed.Advance | apps/api/prisma/seed.ts:157-162 | taking the next free counter keeps the search's invariant and makes its number taken |
| Seed.CountersIncrease | apps/api/prisma/seed.ts:154-163 | strictly increasing counters are ordered between any two positions |
| Seed.SkippedWereMade | apps/api/prisma/seed.ts:158-161 | a counter the search passed over named an existing number or one it had already made |

## Left out

- Database access: Prisma, psycopg2 and SQL execution are not modelled. The store is a set of in-memory maps and sequences, and Prisma errors are reduced to not-found and duplicate outcomes. Any other database error appears only as a failure in a run.
- Database ordering: `orderBy` on text is modelled as code-point order, not the database's collation.
- Language model calls: generated SQL, streamed deltas and explanations are arbitrary input strings.
- Clock and randomness are parameters: "now", and the seeding script's `Math.random` draws.
- Time zones: the server clock is taken to be UTC, with no offset and no daylight-saving time, and every date is read in that one zone. The source mixes the two readings. Dates are stored as UTC midnights (`new Date("YYYY-MM-DD")` and `toISOString().split('T')[0]` in the seeding script). The routes read them with local-time calls: `setHours(0, 0, 0, 0)` for the cash outflow, `new Date(y, m, 1)` for the month starts in the statistics, and `getMonth()` for the trend keys. On a server east or west of UTC, an invoice issued on the first or last day of a month can fall in the neighbouring month or day. That shift is not modelled.
- The `/files/stats` endpoint (apps/api/src/routes/files.ts:195-224) is not part of this model.
- The chat-with-data proxy route and the server's wiring (CORS, static files) are not part of this model. They pipe bytes and hold no logic of their own.
- Disk and browser side effects are not modelled, only the records and values they produce:
  - multer, `fs.unlinkSync`, the stored file name;
  - `Blob`, download links, `FileReader`;
  - `alert` and `confirm`, including delete confirmations;
  - the API base prefix of page URLs.
- The list requests the users and files pages send on load are not modelled.
- React state updates are treated as sequential transitions. Concurrent updaters and async interleavings are not modelled.
- An updater that runs on an empty message list throws in the page, because it reads the last message. The model treats an empty list as having no assistant message last, and leaves it unchanged.
- Floating point and formatting:
  - money and percentages are `real`;
  - `parseFloat`, `Number.prototype.toString` and `toLocaleString` are function parameters;
  - integers in JSON are the only numbers whose text is modelled exactly;
- Text handling:
  - case mapping covers ASCII letters only; Python's `upper()` and JavaScript's `toLowerCase()` on other letters are not modelled;
  - decoding bytes to text is not modelled;
  - lone surrogates in JSON text are not modelled.
- Text-to-SQL service failures:
  - `json.dumps` failing on database values such as `Decimal` or `datetime` is not modelled; rows are JSON values;
  - events with non-string payloads are not modelled;
  - a failure while closing the cursor is one failure point of the run, with no further detail.
- Export: CSV cells that themselves hold a comma or a quote are excluded from the round-trip lemmas. The code writes them without escaping, so they do not read back; the lemmas' preconditions say so. The `export-utils` helper is not part of this model.
- The payment-status chart's request asks for at most 1000 invoices. The model takes whatever list the request returns, so the 1000 bound is not stated.
- `Object.entries` lists integer-like keys first. The settings page's categories are never integer-like, so insertion order is modelled there.
- CategorySpend.Report: lists the categories in the order they first occur. `Object.entries` on the plain object lists integer-like category names first, in numeric order. A category named `__proto__` is not stored as an entry at all. A category named like an inherited member such as `constructor` or `toString` starts from that function instead of 0, and its total becomes text. None of these cases is modelled.
- Sorting is modelled as a permutation into sorted order. Stability, which the database does not promise either, is not stated.
- Page texts are not modelled: the settings page's `alert` messages, the health URL rewrite on the settings page, and the emoji behind each file icon (modelled as a datatype).
- Requests.TotalPages: requires a positive limit, while the routes accept whatever `parseInt` gives. A limit of 0 gives `Infinity` and a non-number gives `NaN`.
- Requests.PageOf: requires a page of at least 1 and a positive limit. A page below 1 makes the skip negative, and `Paginate` answers that with the route's 500; a limit of 0 or below is not modelled.
- Requests.Paginate: requires a positive limit. With `take: 0` the page is empty and `totalPages` is `Infinity` or `NaN`, and a negative `take` reads backwards from the skip; neither is modelled. A `page` or `limit` that is not a number gives `NaN` from `parseInt`; it is not modelled either, since the query parameters are integers or absent.
- InvoicesRoute.List: requires a positive limit, as `Requests.Paginate` does. The rows arrive already in the order of `sortBy` and `sortOrder` (issue date, newest first, by default). Ordering them, and the 500 for a `sortBy` that names no column, are not modelled.
- InvoicesRoute.DefaultListing: the first 50 invoices are the first 50 in the order the rows arrive, the newest issue dates first under the default sort, which is not modelled.
- UsersRoute.List: requires a positive limit, and the rows arrive already in the order of `sortBy` and `sortOrder` (creation time, newest first, by default), as in `InvoicesRoute.List`.
- FilesRoute.List: requires a positive limit, and the rows arrive already in the order of `sortBy` and `sortOrder` (creation time, newest first, by default), as in `InvoicesRoute.List`.
- ChatHistoryRoute.Preview: counts characters, while `substring(0, 100)` counts UTF-16 code units. A message with characters above the basic multilingual plane (emoji, for example) keeps fewer than 100 characters in the source, as few as 50, and the cut can split a surrogate pair, leaving a lone surrogate at the end. Neither is modelled.
- UsersPage.Initials: takes the first character of each word, while `n[0]` takes the first UTF-16 code unit. For a word starting with a character above the basic multilingual plane (an emoji, say) the source's initial is a lone surrogate. That case is not modelled.
- InvoicesRoute.Get: the nested `orderBy: { createdAt: 'asc' }` on line items is not modelled, because a line item carries no creation time here. Line items come back in their stored order, which is taken to be the order they were created in. Payments that share a `paymentDate` come back in their stored order; the database leaves that order open.
- FilesRoute.FileType: a name ending in `/` has the empty type here, while `path.extname` skips trailing slashes first (`a.txt/` gives `txt`). Uploaded file names never end in `/`.

## Findings

| source | as written | input that shows it | evidently intended | confidence | as-written member | corrected member |
|---|---|---|---|---|---|---|
| services/vanna/main.py:238-239 | the `postgresql` branch cuts `[9:]`, one character short of the ten-character tag | a fenced answer with the `postgresql` tag and the line `SELECT 1`: the clean query is `l` then `SELECT 1` on the next line, and the gate refuses it | cut the whole tag, as the `sql` branch does | not executed | SqlCleanup.CleanAsWrittenPostgres | SqlCleanup.CleanFenced |
| apps/api/src/routes/invoice-trends.ts:49-50 | each month is found with `setMonth(getMonth() - i)` on today's date, which overflows on the 29th to 31st | today 31 March 2025: the point for February is 3 March, so two points are `Mar` and both count March's invoices | step back whole calendar months from the first of the month | not executed | InvoiceTrends.AsWrittenCountsMarchTwice | InvoiceTrends.CalendarKeysDistinct |
| apps/api/src/routes/stats.ts:11-14 | last month is `setMonth(getMonth() - 1)` on today's date | today 31 March 2025: last month is 3 March, so the previous-month range is March | the previous calendar month | not executed | Stats.AsWrittenLastMonthIsCurrentMonth | Stats.LastMonthBeforeCurrent |
| apps/api/src/routes/stats.ts:79-99 | `documentsChange` compares this month's uploads with those of the `setMonth` "last month" | today 31 March 2025 with one invoice created on 10 March: it is counted as this month's and as last month's upload, so the change is 0 | last month's uploads are those of the calendar previous month, here 0, so the change is -1 | not executed | Stats.AsWrittenCountsUploadTwice | Stats.ComputeSummary |
| services/vanna/main.py:416-417 | the streaming endpoint repeats the `[9:]` cut after `postgresql` | the same fenced `SELECT 1` streamed in any number of deltas: the `sql` event carries `l` then `SELECT 1`, and the stream ends in the gate's error | cut the whole tag | not executed | SseStream.PostgresFenceRefused | SseStream.CorrectedFenceAnswered |
| apps/web/src/app/settings/page.tsx:68 | settings are saved under `category.field` but loaded under their stored key | save the general section, then reload: `general.appName` is set and `appName` is not | load each value back under its field name | not executed | SettingsPage.ReloadMissesFields | SettingsPage.ReloadRestores |
| apps/web/src/app/chat/page.tsx:229-251 | an `error` event is thrown inside the per-line `try` and caught there | a service with no model key: its only event is an `error`, and the page keeps an empty answer | show the apology with the error message | not executed | ChatClient.ErrorSwallowed | ChatClient.ErrorShown |

=== FILE: calendar.dfy ===
/** Dates as the API handlers use them: JavaScript `Date` values reduced to a
    calendar day plus milliseconds since midnight, `setMonth` with its
    day-overflow behaviour, and the role-to-lookback rule every analytics
    route repeats. "Now" is always a parameter. */
module Calendar {
  import opened Wrappers
  import opened Text

  const DAY_MS: int := 24 * 60 * 60 * 1000

  /** A calendar day; `month` counts from 1. */
  datatype Date = Date(year: int, month: int, day: int)

  /** A point in time: a day and the milliseconds elapsed since its midnight. */
  datatype Instant = Instant(date: Date, ms: int)

  predicate IsLeapYear(y: int) {
    (y % 4 == 0 && y % 100 != 0) || y % 400 == 0
  }

  function DaysInMonth(y: int, m: int): (n: int)
    requires 1 <= m <= 12
    ensures 28 <= n <= 31
  {
    if m == 2 then (if IsLeapYear(y) then 29 else 28)
    else if m == 4 || m == 6 || m == 9 || m == 11 then 30
    else 31
  }

  predicate ValidDate(d: Date) {
    1 <= d.month <= 12 && 1 <= d.day <= DaysInMonth(d.year, d.month)
  }

  predicate ValidInstant(t: Instant) {
    ValidDate(t.date) && 0 <= t.ms < DAY_MS
  }

  /** Months since January of year 0: `year * 12 + getMonth()`. */
  function MonthIndex(d: Date): int {
    d.year * 12 + d.month - 1
  }

  function YearOfIndex(i: int): int { i / 12 }

  function MonthOfIndex(i: int): (m: int)
    ensures 1 <= m <= 12
  {
    i % 12 + 1
  }

  /** `new Date(y, monthIndex, day)` for `1 <= day <= 31`: a day past the end of
      the month rolls over into the following month, as JavaScript does. */
  function MakeDate(i: int, day: int): (d: Date)
    requires 1 <= day <= 31
    ensures ValidDate(d)
    ensures MonthIndex(d) == i || (MonthIndex(d) == i + 1 && d.day <= 3)
    ensures MonthIndex(d) == i <==> day <= DaysInMonth(YearOfIndex(i), MonthOfIndex(i))
  {
    var y, m := YearOfIndex(i), MonthOfIndex(i);
    var dim := DaysInMonth(y, m);
    if day <= dim then Date(y, m, day)
    else Date(YearOfIndex(i + 1), MonthOfIndex(i + 1), day - dim)
  }

  /** `d.setMonth(d.getMonth() + delta)`: same day-of-month in the target month,
      rolling over when that month is shorter. */
  function ShiftMonths(d: Date, delta: int): (r: Date)
    requires ValidDate(d)
    ensures ValidDate(r)
  {
    MakeDate(MonthIndex(d) + delta, d.day)
  }

  /** A day that exists in every month never rolls over. */
  lemma ShiftMonthsEarlyDay(d: Date, delta: int)
    requires ValidDate(d) && d.day <= 28
    ensures ShiftMonths(d, delta) == Date(YearOfIndex(MonthIndex(d) + delta), MonthOfIndex(MonthIndex(d) + delta), d.day)
    ensures MonthIndex(ShiftMonths(d, delta)) == MonthIndex(d) + delta
  {
  }

  /** Chronological position of an instant (monotone in year, month, day, time). */
  function Stamp(t: Instant): int {
    (MonthIndex(t.date) * 32 + t.date.day) * DAY_MS + t.ms
  }

  predicate AtOrAfter(a: Instant, b: Instant) {
    Stamp(a) >= Stamp(b)
  }

  predicate AtOrBefore(a: Instant, b: Instant) {
    Stamp(a) <= Stamp(b)
  }

  /** Days since 1970-01-01 in the proleptic Gregorian calendar. */
  function EpochDay(d: Date): int {
    var y := if d.month <= 2 then d.year - 1 else d.year;
    var era := y / 400;
    var yoe := y - era * 400;
    var mp := (d.month + 9) % 12;
    var doy := (153 * mp + 2) / 5 + d.day - 1;
    var doe := yoe * 365 + yoe / 4 - yoe / 100 + doy;
    era * 146097 + doe - 719468
  }

  /** `date.getTime()`: milliseconds since 1970-01-01 00:00. */
  function EpochMs(t: Instant): int {
    EpochDay(t.date) * DAY_MS + t.ms
  }

  /** `new Date()` followed by `setMonth(getMonth() - k)`: the time of day is kept. */
  function MonthsAgo(now: Instant, k: nat): (t: Instant)
    requires ValidInstant(now)
    ensures ValidInstant(t)
  {
    Instant(ShiftMonths(now.date, -(k as int)), now.ms)
  }

  /** The lookback every analytics route applies for the `role` query
      parameter: six months for a manager, three for a user, none otherwise. */
  function RoleLookback(role: string): (k: Option<nat>)
    ensures k == Some(6) <==> role == "manager"
    ensures k == Some(3) <==> role == "user"
    ensures k.None? <==> role != "manager" && role != "user"
  {
    if role == "manager" then Some(6)
    else if role == "user" then Some(3)
    else None
  }

  /** The earliest issue date the role may see, if the role is restricted. */
  function RoleCutoff(role: string, now: Instant): Option<Instant>
    requires ValidInstant(now)
  {
    match RoleLookback(role)
    case Some(k) => Some(MonthsAgo(now, k))
    case None => None
  }

  /** `issueDate >= cutoff` when the role restricts, and always true otherwise. */
  predicate InRoleWindow(role: string, now: Instant, issued: Instant)
    requires ValidInstant(now)
  {
    match RoleCutoff(role, now)
    case Some(c) => AtOrAfter(issued, c)
    case None => true
  }

  lemma UnrestrictedRoleSeesEverything(role: string, now: Instant, issued: Instant)
    requires ValidInstant(now)
    requires role != "manager" && role != "user"
    ensures InRoleWindow(role, now, issued)
  {
  }

  /** A manager's window contains a user's: three months back is never
      earlier than six months back. */
  lemma {:induction false} UserWindowInsideManagerWindow(now: Instant, issued: Instant)
    requires ValidInstant(now)
    ensures InRoleWindow("user", now, issued) ==> InRoleWindow("manager", now, issued)
  {
    var six := MonthsAgo(now, 6);
    var three := MonthsAgo(now, 3);
    var i := MonthIndex(now.date);
    assert MonthIndex(six.date) <= i - 6 + 1;
    assert MonthIndex(three.date) >= i - 3;
    assert Stamp(six) < Stamp(three);
  }

  // ---------------------------------------------------------------------------
  // `YYYY-MM` month keys
  // ---------------------------------------------------------------------------

  /** `String(n).padStart(2, '0')` for a month number. */
  function TwoDigits(m: nat): string {
    PadStart(NatToString(m), 2, '0')
  }

  lemma TwoDigitsShape(m: nat)
    requires m < 100
    ensures TwoDigits(m) == [DigitChar(m / 10), DigitChar(m % 10)]
  {
    if m >= 10 {
      assert NatToString(m / 10) == [DigitChar(m / 10)];
    }
  }

  /** `${year}-${String(month).padStart(2, '0')}`. */
  function MonthKey(year: int, month: int): string
    requires 1 <= month <= 12
  {
    IntToString(year) + "-" + TwoDigits(month)
  }

  lemma SplitKey(a: string, b: string, x: string, y: string)
    requires |x| == 2 && |y| == 2
    requires a + "-" + x == b + "-" + y
    ensures a == b && x == y
  {
    var k := a + "-" + x;
    assert |a| == |b|;
    assert a == k[..|a|];
    assert b == k[..|b|];
    assert x == k[|a| + 1..];
  }

  lemma DigitCharInjective(a: nat, b: nat)
    requires a < 10 && b < 10 && DigitChar(a) == DigitChar(b)
    ensures a == b
  {
  }

  /** Distinct months have distinct keys. */
  lemma MonthKeyInjective(y1: int, m1: int, y2: int, m2: int)
    requires 1 <= m1 <= 12 && 1 <= m2 <= 12
    requires MonthKey(y1, m1) == MonthKey(y2, m2)
    ensures y1 == y2 && m1 == m2
  {
    TwoDigitsShape(m1);
    TwoDigitsShape(m2);
    SplitKey(IntToString(y1), IntToString(y2), TwoDigits(m1), TwoDigits(m2));
    assert TwoDigits(m1)[0] == TwoDigits(m2)[0] && TwoDigits(m1)[1] == TwoDigits(m2)[1];
    DigitCharInjective(m1 / 10, m2 / 10);
    DigitCharInjective(m1 % 10, m2 % 10);
    IntToStringInjective(y1, y2);
  }

  function DateMonthKey(d: Date): string
    requires ValidDate(d)
  {
    MonthKey(d.year, d.month)
  }
}

=== FILE: cash_outflow.dfy ===
/** `GET /api/cash-outflow`: the totals of unpaid invoices, aged by due date
    into four buckets counted from today's midnight. */
module CashOutflow {
  import opened Calendar
  import opened Ledger

  datatype Bucket = UpToWeek | UpToMonth | UpToTwoMonths | Beyond

  /** The response object: `0-7 days`, `8-30 days`, `31-60 days`, `60+ days`. */
  datatype Outflow = Outflow(week: real, month: real, twoMonths: real, beyond: real)

  function Get(o: Outflow, b: Bucket): real {
    match b
    case UpToWeek => o.week
    case UpToMonth => o.month
    case UpToTwoMonths => o.twoMonths
    case Beyond => o.beyond
  }

  /** `result[key] += amount` for one key. */
  function Add(o: Outflow, b: Bucket, amount: real): (r: Outflow)
    ensures Get(r, b) == Get(o, b) + amount
    ensures forall c :: c != b ==> Get(r, c) == Get(o, c)
  {
    match b
    case UpToWeek => o.(week := o.week + amount)
    case UpToMonth => o.(month := o.month + amount)
    case UpToTwoMonths => o.(twoMonths := o.twoMonths + amount)
    case Beyond => o.(beyond := o.beyond + amount)
  }

  /** `today` after `setHours(0, 0, 0, 0)`. */
  function Today(now: Instant): Instant {
    Instant(now.date, 0)
  }

  /** Milliseconds from today's midnight to the due date (negative when past due). */
  function Offset(due: Instant, now: Instant): int {
    EpochMs(due) - EpochMs(Today(now))
  }

  /** The chain of range tests. The `60+` test is reached by every offset the
      first three ranges miss, because its `end === null` disjunct always holds. */
  function BucketOf(off: int): Bucket {
    if 0 <= off <= 7 * DAY_MS then UpToWeek
    else if 8 * DAY_MS <= off <= 30 * DAY_MS then UpToMonth
    else if 31 * DAY_MS <= off <= 60 * DAY_MS then UpToTwoMonths
    else Beyond
  }

  /** The `where` clause: status pending or overdue, and the role window. */
  predicate Considered(inv: Invoice, role: string, now: Instant)
    requires ValidInstant(now)
  {
    (inv.status == "pending" || inv.status == "overdue") && InRoleWindow(role, now, inv.issueDate)
  }

  /** The invoice is fetched, has a due date and ages into bucket `b`. */
  predicate Lands(inv: Invoice, role: string, now: Instant, b: Bucket)
    requires ValidInstant(now)
  {
    Considered(inv, role, now) && inv.dueDate.Some? && BucketOf(Offset(inv.dueDate.value, now)) == b
  }

  /** Reference total of bucket `b`. */
  function BucketTotal(invoices: seq<Invoice>, role: string, now: Instant, b: Bucket): real
    requires ValidInstant(now)
  {
    if |invoices| == 0 then 0.0
    else
      var inv := invoices[|invoices| - 1];
      BucketTotal(invoices[..|invoices| - 1], role, now, b) + (if Lands(inv, role, now, b) then inv.total else 0.0)
  }

  /** Total of the fetched invoices that have a due date. */
  function DueTotal(invoices: seq<Invoice>, role: string, now: Instant): real
    requires ValidInstant(now)
  {
    if |invoices| == 0 then 0.0
    else
      var inv := invoices[|invoices| - 1];
      DueTotal(invoices[..|invoices| - 1], role, now)
        + (if Considered(inv, role, now) && inv.dueDate.Some? then inv.total else 0.0)
  }

  /** The handler's `forEach` over the fetched invoices. */
  method Compute(invoices: seq<Invoice>, role: string, now: Instant) returns (r: Outflow)
    requires ValidInstant(now)
    ensures forall b :: Get(r, b) == BucketTotal(invoices, role, now, b)
  {
    r := Outflow(0.0, 0.0, 0.0, 0.0);
    var i := 0;
    while i < |invoices|
      invariant 0 <= i <= |invoices|
      invariant forall b :: Get(r, b) == BucketTotal(invoices[..i], role, now, b)
    {
      var inv := invoices[i];
      assert invoices[..i + 1][..i] == invoices[..i];
      if Considered(inv, role, now) && inv.dueDate.Some? {
        r := Add(r, BucketOf(Offset(inv.dueDate.value, now)), inv.total);
      }
      i := i + 1;
    }
    assert invoices[..i] == invoices;
  }

  /** Conservation: the four buckets together hold exactly the totals of the
      fetched invoices that have a due date. */
  lemma {:induction false} BucketsPartition(invoices: seq<Invoice>, role: string, now: Instant)
    requires ValidInstant(now)
    ensures BucketTotal(invoices, role, now, UpToWeek) + BucketTotal(invoices, role, now, UpToMonth)
          + BucketTotal(invoices, role, now, UpToTwoMonths) + BucketTotal(invoices, role, now, Beyond)
         == DueTotal(invoices, role, now)
  {
    if |invoices| > 0 {
      BucketsPartition(invoices[..|invoices| - 1], role, now);
    }
  }

  /** An invoice without a due date, or with a status other than pending or
      overdue, leaves every bucket unchanged. */
  lemma {:induction false} IgnoredInvoice(invoices: seq<Invoice>, inv: Invoice, role: string, now: Instant, b: Bucket)
    requires ValidInstant(now)
    requires inv.dueDate.None? || (inv.status != "pending" && inv.status != "overdue")
    ensures BucketTotal(invoices + [inv], role, now, b) == BucketTotal(invoices, role, now, b)
  {
    assert (invoices + [inv])[..|invoices|] == invoices;
  }

  /** Exactly the offsets that no named range covers land in `60+ days`: past
      due dates, the gaps after day 7 and after day 30, and beyond day 60. */
  lemma BeyondExactly(off: int)
    ensures BucketOf(off) == Beyond <==>
      off < 0 || 7 * DAY_MS < off < 8 * DAY_MS || 30 * DAY_MS < off < 31 * DAY_MS || off > 60 * DAY_MS
  {
  }

  /** A due date `n` whole days after today ages by its day count. */
  lemma WholeDays(n: int)
    ensures BucketOf(n * DAY_MS) == (if 0 <= n <= 7 then UpToWeek
                                     else if 8 <= n <= 30 then UpToMonth
                                     else if 31 <= n <= 60 then UpToTwoMonths
                                     else Beyond)
  {
    if n < 0 {
      assert n * DAY_MS < 0;
    } else if n <= 7 {
      assert n * DAY_MS <= 7 * DAY_MS;
    } else if n <= 30 {
      assert 8 * DAY_MS <= n * DAY_MS <= 30 * DAY_MS;
    } else if n <= 60 {
      assert 31 * DAY_MS <= n * DAY_MS <= 60 * DAY_MS;
    } else {
      assert n * DAY_MS > 60 * DAY_MS;
    }
  }
}

=== FILE: category_spend.dfy ===
/** `GET /api/category-spend`: line-item totals summed per category, with the
    role's issue-date cutoff applied to the item's invoice. */
module CategorySpend {
  import opened Wrappers
  import opened Calendar
  import opened Grouping

  /** A line item as selected: its category, its total and the issue date of
      its invoice (absent when the item has no invoice). */
  datatype Item = Item(category: Option<string>, total: real, issued: Option<Instant>)

  /** One element of the response. */
  datatype CategoryTotal = CategoryTotal(name: string, total: real)

  /** `item.category || 'Uncategorized'`. */
  function CategoryName(category: string): (s: string)
    ensures s != ""
    ensures category != "" ==> s == category
    ensures category == "" ==> s == "Uncategorized"
  {
    if category == "" then "Uncategorized" else category
  }

  /** The query keeps items whose category is not null; a manager or a user
      additionally needs an invoice issued at or after the role's cutoff. */
  predicate Kept(item: Item, role: string, now: Instant)
    requires ValidInstant(now)
  {
    item.category.Some?
    && match RoleCutoff(role, now)
       case None => true
       case Some(c) => item.issued.Some? && AtOrAfter(item.issued.value, c)
  }

  /** The kept items, as (category name, total) entries in query order. */
  function Entries(items: seq<Item>, role: string, now: Instant): (es: seq<Entry>)
    requires ValidInstant(now)
    ensures |es| <= |items|
  {
    if |items| == 0 then []
    else
      var item := items[|items| - 1];
      Entries(items[..|items| - 1], role, now)
        + (if Kept(item, role, now) then [Entry(CategoryName(item.category.value), item.total)] else [])
  }

  /** Reference: the sum of the kept items' totals. */
  function KeptTotal(items: seq<Item>, role: string, now: Instant): real
    requires ValidInstant(now)
  {
    if |items| == 0 then 0.0
    else
      var item := items[|items| - 1];
      KeptTotal(items[..|items| - 1], role, now) + (if Kept(item, role, now) then item.total else 0.0)
  }

  /** Reference: the sum of the kept items' totals that are reported under `name`. */
  function NamedTotal(items: seq<Item>, role: string, now: Instant, name: string): real
    requires ValidInstant(now)
  {
    if |items| == 0 then 0.0
    else
      var item := items[|items| - 1];
      NamedTotal(items[..|items| - 1], role, now, name)
        + (if Kept(item, role, now) && CategoryName(item.category.value) == name then item.total else 0.0)
  }

  /** Some kept item is reported under `name`. */
  predicate Occurs(items: seq<Item>, role: string, now: Instant, name: string)
    requires ValidInstant(now)
  {
    exists k :: 0 <= k < |items| && Kept(items[k], role, now) && CategoryName(items[k].category.value) == name
  }

  /** The response: `Object.entries(categorySpend)` as `{ name, total }`. */
  function Report(items: seq<Item>, role: string, now: Instant): (r: seq<CategoryTotal>)
    requires ValidInstant(now)
    ensures |r| == |GroupByKey(Entries(items, role, now))| <= |items|
    ensures forall i :: 0 <= i < |r| ==>
              r[i] == CategoryTotal(GroupByKey(Entries(items, role, now))[i].key, GroupByKey(Entries(items, role, now))[i].total)
  {
    var gs := GroupByKey(Entries(items, role, now));
    seq(|gs|, i requires 0 <= i < |gs| => CategoryTotal(gs[i].key, gs[i].total))
  }

  function ReportSum(r: seq<CategoryTotal>): real {
    if |r| == 0 then 0.0 else ReportSum(r[..|r| - 1]) + r[|r| - 1].total
  }

  // ---------------------------------------------------------------------------
  // Properties
  // ---------------------------------------------------------------------------

  lemma {:induction false} EntriesAmount(items: seq<Item>, role: string, now: Instant)
    requires ValidInstant(now)
    ensures AmountSum(Entries(items, role, now)) == KeptTotal(items, role, now)
  {
    if |items| > 0 {
      var init := items[..|items| - 1];
      var item := items[|items| - 1];
      EntriesAmount(init, role, now);
      var a := Entries(init, role, now);
      if Kept(item, role, now) {
        var e := Entry(CategoryName(item.category.value), item.total);
        assert (a + [e])[..|a|] == a;
      } else {
        assert a + [] == a;
      }
    }
  }

  lemma {:induction false} EntriesTotalOf(items: seq<Item>, role: string, now: Instant, name: string)
    requires ValidInstant(now)
    ensures TotalOf(Entries(items, role, now), name) == NamedTotal(items, role, now, name)
  {
    if |items| > 0 {
      var init := items[..|items| - 1];
      var item := items[|items| - 1];
      EntriesTotalOf(init, role, now, name);
      var a := Entries(init, role, now);
      if Kept(item, role, now) {
        var e := Entry(CategoryName(item.category.value), item.total);
        assert (a + [e])[..|a|] == a;
      } else {
        assert a + [] == a;
      }
    }
  }

  lemma {:induction false} EntriesOccur(items: seq<Item>, role: string, now: Instant, name: string)
    requires ValidInstant(now)
    ensures FirstIndex(Entries(items, role, now), name) < |Entries(items, role, now)| <==> Occurs(items, role, now, name)
  {
    if |items| > 0 {
      var init := items[..|items| - 1];
      var item := items[|items| - 1];
      EntriesOccur(init, role, now, name);
      var a := Entries(init, role, now);
      assert forall k :: 0 <= k < |init| ==> init[k] == items[k];
      if Occurs(init, role, now, name) {
        var k :| 0 <= k < |init| && Kept(init[k], role, now) && CategoryName(init[k].category.value) == name;
        assert Kept(items[k], role, now) && CategoryName(items[k].category.value) == name;
      }
      if Occurs(items, role, now, name) && !Occurs(init, role, now, name) {
        var k :| 0 <= k < |items| && Kept(items[k], role, now) && CategoryName(items[k].category.value) == name;
        assert k == |items| - 1;
      }
      if Kept(item, role, now) {
        var e := Entry(CategoryName(item.category.value), item.total);
        assert (a + [e])[..|a|] == a;
        assert CategoryName(items[|items| - 1].category.value) == e.key;
      } else {
        assert a + [] == a;
      }
    }
  }

  lemma {:induction false} ReportSumIsTotalSum(items: seq<Item>, role: string, now: Instant, n: nat)
    requires ValidInstant(now)
    requires n <= |Report(items, role, now)|
    ensures ReportSum(Report(items, role, now)[..n]) == TotalSum(GroupByKey(Entries(items, role, now))[..n])
  {
    if n > 0 {
      ReportSumIsTotalSum(items, role, now, n - 1);
      var r := Report(items, role, now);
      var gs := GroupByKey(Entries(items, role, now));
      assert r[..n][..n - 1] == r[..n - 1];
      assert gs[..n][..n - 1] == gs[..n - 1];
    }
  }

  /** Conservation: the reported totals add up to the totals of the kept items. */
  lemma ReportConserves(items: seq<Item>, role: string, now: Instant)
    requires ValidInstant(now)
    ensures ReportSum(Report(items, role, now)) == KeptTotal(items, role, now)
  {
    var r := Report(items, role, now);
    var gs := GroupByKey(Entries(items, role, now));
    ReportSumIsTotalSum(items, role, now, |r|);
    assert r[..|r|] == r;
    assert gs[..|gs|] == gs;
    TotalsAddUp(Entries(items, role, now));
    EntriesAmount(items, role, now);
  }

  /** One entry per category name: a name is reported exactly when some kept
      item carries it, at most once, with the sum of that name's items. */
  lemma ReportedExactly(items: seq<Item>, role: string, now: Instant, name: string)
    requires ValidInstant(now)
    ensures (exists i :: 0 <= i < |Report(items, role, now)| && Report(items, role, now)[i].name == name)
            <==> Occurs(items, role, now, name)
  {
    var es := Entries(items, role, now);
    var gs := GroupByKey(es);
    var r := Report(items, role, now);
    GroupMembership(es, name);
    EntriesOccur(items, role, now, name);
    if exists i :: 0 <= i < |r| && r[i].name == name {
      var i :| 0 <= i < |r| && r[i].name == name;
      assert gs[i].key == name;
    }
    if Find(gs, name) < |gs| {
      assert r[Find(gs, name)].name == name;
    }
  }

  lemma ReportDistinct(items: seq<Item>, role: string, now: Instant)
    requires ValidInstant(now)
    ensures forall i, j :: 0 <= i < j < |Report(items, role, now)| ==>
              Report(items, role, now)[i].name != Report(items, role, now)[j].name
  {
    GroupDistinct(Entries(items, role, now));
  }

  lemma ReportedTotal(items: seq<Item>, role: string, now: Instant, i: int)
    requires ValidInstant(now)
    requires 0 <= i < |Report(items, role, now)|
    ensures Report(items, role, now)[i].total == NamedTotal(items, role, now, Report(items, role, now)[i].name)
  {
    GroupCounts(Entries(items, role, now), i);
    EntriesTotalOf(items, role, now, Report(items, role, now)[i].name);
  }

  /** An item whose category is null never reaches the response. */
  lemma NullCategoryIgnored(items: seq<Item>, item: Item, role: string, now: Instant)
    requires ValidInstant(now)
    requires item.category.None?
    ensures Report(items + [item], role, now) == Report(items, role, now)
  {
    assert (items + [item])[..|items|] == items;
    assert Entries(items + [item], role, now) == Entries(items, role, now) + [];
    assert Entries(items + [item], role, now) == Entries(items, role, now);
    var a, b := Report(items + [item], role, now), Report(items, role, now);
    assert |a| == |b| && forall i :: 0 <= i < |a| ==> a[i] == b[i];
  }

  /** Without a restricting role every categorised item is kept, with or
      without an invoice; with one, an item without an invoice is dropped. */
  lemma KeptByRole(item: Item, role: string, now: Instant)
    requires ValidInstant(now)
    ensures role != "manager" && role != "user" ==> (Kept(item, role, now) <==> item.category.Some?)
    ensures item.issued.None? && (role == "manager" || role == "user") ==> !Kept(item, role, now)
  {
  }

  /** An item with an empty category is reported as `Uncategorized`. */
  lemma EmptyCategoryIsUncategorized(items: seq<Item>, role: string, now: Instant, k: int)
    requires ValidInstant(now)
    requires 0 <= k < |items| && Kept(items[k], role, now) && items[k].category == Some("")
    ensures exists i :: 0 <= i < |Report(items, role, now)| && Report(items, role, now)[i].name == "Uncategorized"
  {
    assert CategoryName(items[k].category.value) == "Uncategorized";
    ReportedExactly(items, role, now, "Uncategorized");
  }
}

=== FILE: chat_client.dfy ===
/** The chat page's side of the stream: `handleSend` appends the question and
    an empty assistant message, cuts the response body into lines as it
    arrives, reads every `data: ` line as JSON, and lets each event update the
    last message. `formatValue` renders a result cell. */
module ChatClient {
  import opened Wrappers
  import opened Text
  import Json
  import SseStream

  const DONE_TEXT: string := "Query executed successfully"
  const SORRY: string := "Sorry, I encountered an error: "
  const UNKNOWN_ERROR: string := "Unknown error"

  datatype Role = User | Assistant

  /** A chat message; `sql`, `data` and `explanation` are absent on the
      user's messages. */
  datatype Message = Message(
    role: Role,
    content: string,
    sql: Option<string>,
    data: Option<seq<Json.Value>>,
    explanation: Option<string>)

  /** The assistant message appended before the request is sent. */
  const PLACEHOLDER: Message := Message(Assistant, "", Some(""), Some([]), Some(""))

  /** The local variables of one `handleSend` call besides the line buffer:
      what has been accumulated so far, and whether reading has stopped. */
  datatype Reader = Reader(sql: string, explanation: string, results: seq<Json.Value>, status: string, stopped: bool)

  const FRESH: Reader := Reader("", "", [], "", false)

  /** The page's messages, the messages handed to `saveMessage` so far, and
      the reader of the current request. */
  datatype Chat = Chat(messages: seq<Message>, saved: seq<Message>, reader: Reader)

  /** How an `error` event is treated: as the page does it, where the throw
      is caught by the handler of the one line, or as evidently intended,
      where it reaches the handler of the whole request. */
  datatype Mode = AsWritten | ErrorsShown

  // ---------------------------------------------------------------------------
  // Sending
  // ---------------------------------------------------------------------------

  /** `handleSend` up to the request: nothing when the trimmed input is empty
      or a request is running; otherwise the trimmed question and the
      placeholder are appended, the question is saved, and the reader starts
      afresh. The second component is the query sent. */
  function Send(chat: Chat, input: string, loading: bool): (r: Option<(Chat, string)>)
    ensures r.None? <==> JsTrim(input) == "" || loading
    ensures r.Some? ==>
              var (after, query) := r.value;
              var n := |chat.messages|;
              && query == JsTrim(input) && query != ""
              && |after.messages| == n + 2
              && after.messages[..n] == chat.messages
              && after.messages[n] == Message(User, query, None, None, None)
              && after.messages[n + 1] == PLACEHOLDER
              && after.saved == chat.saved + [after.messages[n]]
              && after.reader == FRESH
  {
    var query := JsTrim(input);
    if query == "" || loading then None
    else
      var question := Message(User, query, None, None, None);
      Some((Chat(chat.messages + [question, PLACEHOLDER], chat.saved + [question], FRESH), query))
  }

  // ---------------------------------------------------------------------------
  // Updating the last message
  // ---------------------------------------------------------------------------

  /** The changes a `setMessages` updater makes to the last message. */
  datatype Update =
    | SetContent(content: string)
    | SetSql(sql: string)
    | SetData(data: seq<Json.Value>)
    | SetExplained(explanation: string)
    | Finish(content: string, sql: string, data: seq<Json.Value>, explanation: string)

  function Apply(m: Message, u: Update): Message {
    match u
    case SetContent(c) => m.(content := c)
    case SetSql(s) => m.(sql := Some(s))
    case SetData(d) => m.(data := Some(d))
    case SetExplained(x) => m.(content := x, explanation := Some(x))
    case Finish(c, s, d, x) => m.(content := c, sql := Some(s), data := Some(d), explanation := Some(x))
  }

  predicate LastIsAssistant(ms: seq<Message>) {
    |ms| > 0 && ms[|ms| - 1].role == Assistant
  }

  /** The update is made to the last message, and only when it is the
      assistant's. */
  function UpdateLast(ms: seq<Message>, u: Update): (r: seq<Message>)
    ensures |r| == |ms|
    ensures forall i :: 0 <= i < |ms| - 1 ==> r[i] == ms[i]
    ensures LastIsAssistant(ms) ==> r[|r| - 1] == Apply(ms[|ms| - 1], u)
    ensures !LastIsAssistant(ms) ==> r == ms
  {
    if LastIsAssistant(ms) then ms[..|ms| - 1] + [Apply(ms[|ms| - 1], u)] else ms
  }

  // ---------------------------------------------------------------------------
  // The effect of each event
  // ---------------------------------------------------------------------------

  function OnStatus(c: Chat, m: string): Chat {
    c.(reader := c.reader.(status := m), messages := UpdateLast(c.messages, SetContent(m)))
  }

  function OnChunk(c: Chat, chunk: string): Chat {
    var sql := c.reader.sql + chunk;
    c.(reader := c.reader.(sql := sql), messages := UpdateLast(c.messages, SetSql(sql)))
  }

  function OnSql(c: Chat, sql: string): Chat {
    c.(reader := c.reader.(sql := sql), messages := UpdateLast(c.messages, SetSql(sql)))
  }

  function OnResults(c: Chat, rows: seq<Json.Value>): Chat {
    c.(reader := c.reader.(results := rows), messages := UpdateLast(c.messages, SetData(rows)))
  }

  function OnExplanation(c: Chat, x: string): Chat {
    c.(reader := c.reader.(explanation := x), messages := UpdateLast(c.messages, SetExplained(x)))
  }

  /** `done`: the content becomes the explanation, or a fixed text when there
      is none, the accumulated values are copied, and the message is saved. */
  function OnDone(c: Chat): Chat {
    var r := c.reader;
    var u := Finish(if r.explanation != "" then r.explanation else DONE_TEXT, r.sql, r.results, r.explanation);
    var ms := UpdateLast(c.messages, u);
    c.(messages := ms, saved := if LastIsAssistant(c.messages) then c.saved + [ms[|ms| - 1]] else c.saved)
  }

  /** The handler of the whole request: the apology replaces the content and
      reading stops. */
  function OnFailure(c: Chat, message: string): Chat {
    c.(reader := c.reader.(stopped := true), messages := UpdateLast(c.messages, SetContent(SORRY + message)))
  }

  /** `error`: `throw new Error(data.message || "Unknown error")`. */
  function OnError(mode: Mode, c: Chat, message: string): Chat {
    match mode
    case AsWritten => c
    case ErrorsShown => OnFailure(c, if message != "" then message else UNKNOWN_ERROR)
  }

  /** The effect of an event, read off the event itself. */
  function Effect(mode: Mode, c: Chat, e: SseStream.Event): Chat {
    if c.reader.stopped then c
    else
      match e
      case Status(m) => OnStatus(c, m)
      case SqlChunk(chunk) => OnChunk(c, chunk)
      case Sql(q) => OnSql(c, q)
      case Results(rows) => OnResults(c, SseStream.RowValues(rows))
      case Explanation(x) => OnExplanation(c, x)
      case Done => OnDone(c)
      case Error(m, _) => OnError(mode, c, m)
  }

  /** The events applied one after the other. */
  function ApplyEvents(mode: Mode, c: Chat, es: seq<SseStream.Event>): Chat
    decreases |es|
  {
    if |es| == 0 then c else ApplyEvents(mode, Effect(mode, c, es[0]), es[1..])
  }

  // ---------------------------------------------------------------------------
  // The handler of one parsed line
  // ---------------------------------------------------------------------------

  /** A string property, read as the empty string when it is missing or not
      a string. */
  function TextField(v: Json.Value, key: string): string {
    match Json.Field(v, key)
    case Some(JStr(s)) => s
    case _ => ""
  }

  /** The `switch (data.type)` over a parsed line. */
  function Handle(mode: Mode, c: Chat, v: Json.Value): Chat {
    if c.reader.stopped then c
    else
      match Json.Field(v, "type")
      case Some(JStr(t)) => Dispatch(mode, c, t, v)
      case _ => c
  }

  /** The cases of the switch; an unknown type changes nothing. */
  function Dispatch(mode: Mode, c: Chat, t: string, v: Json.Value): Chat {
    if t == "status" then OnStatus(c, TextField(v, "message"))
    else if t == "sql_chunk" then OnChunk(c, TextField(v, "chunk"))
    else if t == "sql" then OnSql(c, TextField(v, "sql"))
    else if t == "results" then
      OnResults(c, match Json.Field(v, "results") case Some(JArr(items)) => items case _ => [])
    else if t == "explanation" then OnExplanation(c, TextField(v, "explanation"))
    else if t == "error" then OnError(mode, c, TextField(v, "message"))
    else if t == "done" then OnDone(c)
    else c
  }

  /** A dictionary the service sends has the effect of its event. */
  lemma HandleEvent(mode: Mode, c: Chat, e: SseStream.Event)
    ensures Handle(mode, c, SseStream.ToJson(e)) == Effect(mode, c, e)
  {
    var v := SseStream.ToJson(e);
    Json.MemberValueAt(v.members, 0, "type");
    if !c.reader.stopped {
      assert Handle(mode, c, v) == Dispatch(mode, c, v.members[0].value.s, v);
      if e.Status? || e.SqlChunk? || e.Sql? {
        DispatchDraft(mode, c, e);
      } else {
        DispatchAnswer(mode, c, e);
      }
    }
  }

  lemma DispatchDraft(mode: Mode, c: Chat, e: SseStream.Event)
    requires !c.reader.stopped && (e.Status? || e.SqlChunk? || e.Sql?)
    ensures var v := SseStream.ToJson(e);
      Dispatch(mode, c, v.members[0].value.s, v) == Effect(mode, c, e)
  {
    var v := SseStream.ToJson(e);
    match e
    case Status(m) => Json.MemberValueAt(v.members, 1, "message");
    case SqlChunk(chunk) => Json.MemberValueAt(v.members, 1, "chunk");
    case Sql(q) => Json.MemberValueAt(v.members, 1, "sql");
  }

  lemma DispatchAnswer(mode: Mode, c: Chat, e: SseStream.Event)
    requires !c.reader.stopped && !(e.Status? || e.SqlChunk? || e.Sql?)
    ensures var v := SseStream.ToJson(e);
      Dispatch(mode, c, v.members[0].value.s, v) == Effect(mode, c, e)
  {
    var v := SseStream.ToJson(e);
    match e
    case Results(rows) => Json.MemberValueAt(v.members, 1, "results");
    case Explanation(x) => Json.MemberValueAt(v.members, 1, "explanation");
    case Done =>
    case Error(m, _) => Json.MemberValueAt(v.members, 1, "message");
  }

  /** `results` keeps the payload when it is an array and `[]` otherwise;
      other events leave the accumulated rows alone. */
  lemma ResultsArrayOrEmpty(mode: Mode, c: Chat, v: Json.Value)
    requires !c.reader.stopped && Json.Field(v, "type") == Some(Json.JStr("results"))
    ensures Json.Field(v, "results").Some? && Json.Field(v, "results").value.JArr? ==>
              Handle(mode, c, v).reader.results == Json.Field(v, "results").value.items
    ensures !(Json.Field(v, "results").Some? && Json.Field(v, "results").value.JArr?) ==>
              Handle(mode, c, v).reader.results == []
  {
  }

  /** `sql_chunk` appends to the accumulated query and `sql` replaces it. */
  lemma ChunkAppendsSqlReplaces(mode: Mode, c: Chat, chunk: string, q: string)
    requires !c.reader.stopped
    ensures Effect(mode, c, SseStream.SqlChunk(chunk)).reader.sql == c.reader.sql + chunk
    ensures Effect(mode, c, SseStream.Sql(q)).reader.sql == q
    ensures Effect(mode, Effect(mode, c, SseStream.SqlChunk(chunk)), SseStream.Sql(q)).reader.sql == q
  {
  }

  /** Every event changes the last message at most, and only when it is the
      assistant's; the messages before it never change. */
  lemma OnlyLastChanges(mode: Mode, c: Chat, v: Json.Value)
    ensures var r := Handle(mode, c, v);
      && |r.messages| == |c.messages|
      && (forall i :: 0 <= i < |c.messages| - 1 ==> r.messages[i] == c.messages[i])
      && (!LastIsAssistant(c.messages) ==> r.messages == c.messages && r.saved == c.saved)
      && (LastIsAssistant(c.messages) ==> r.messages[|r.messages| - 1].role == Assistant)
  {
  }

  // ---------------------------------------------------------------------------
  // Lines and chunks of the body
  // ---------------------------------------------------------------------------

  /** One complete line: only `data: ` lines are read, as JSON after the
      six-character prefix; a line that does not parse changes nothing. */
  function Line(mode: Mode, c: Chat, line: string): Chat {
    if StartsWith(line, SseStream.DATA_FIELD) then
      match Json.Parse(line[|SseStream.DATA_FIELD|..])
      case Some(v) => Handle(mode, c, v)
      case None => c
    else c
  }

  function Lines(mode: Mode, c: Chat, lines: seq<string>): Chat
    decreases |lines|
  {
    if |lines| == 0 then c else Lines(mode, Line(mode, c, lines[0]), lines[1..])
  }

  lemma {:induction false} LinesAppend(mode: Mode, c: Chat, a: seq<string>, b: seq<string>)
    ensures Lines(mode, c, a + b) == Lines(mode, Lines(mode, c, a), b)
    decreases |a|
  {
    if |a| == 0 {
      assert a + b == b;
    } else {
      assert (a + b)[1..] == a[1..] + b;
      LinesAppend(mode, Line(mode, c, a[0]), a[1..], b);
    }
  }

  /** The chat and the unfinished line kept between reads. */
  datatype Progress = Progress(chat: Chat, buffer: string)

  /** One read: `buffer += text`, the complete lines handled in order, the
      rest kept as the new buffer. */
  function Feed(mode: Mode, p: Progress, text: string): (r: Progress)
    ensures '\n' !in r.buffer
  {
    var parts := Split(p.buffer + text, '\n');
    assert parts[|parts| - 1] in parts;
    Progress(Lines(mode, p.chat, parts[..|parts| - 1]), parts[|parts| - 1])
  }

  /** The complete lines of a read joined again, with the new buffer after
      them, are the old buffer followed by what was read. */
  lemma FeedFraming(p: Progress, text: string)
    ensures var parts := Split(p.buffer + text, '\n');
      Join(parts[..|parts| - 1] + [parts[|parts| - 1]], '\n') == p.buffer + text
  {
    var parts := Split(p.buffer + text, '\n');
    assert parts[..|parts| - 1] + [parts[|parts| - 1]] == parts;
    JoinSplit(p.buffer + text, '\n');
  }

  /** Splitting a longer text keeps the complete lines of its start and
      re-splits the unfinished one together with the rest. */
  lemma {:induction false} SplitAppend(x: string, y: string, sep: char)
    ensures var s := Split(x, sep);
      Split(x + y, sep) == s[..|s| - 1] + Split(s[|s| - 1] + y, sep)
    decreases |x|
  {
    if |x| == 0 {
      assert x + y == y;
      assert "" + y == y;
    } else {
      assert (x + y)[1..] == x[1..] + y;
      SplitAppend(x[1..], y, sep);
      if x[0] == sep {
        SplitAppendSep(x, y, sep);
      } else if |Split(x[1..], sep)| == 1 {
        SplitAppendOne(x, y, sep);
      } else {
        SplitAppendMany(x, y, sep);
      }
    }
  }

  lemma SplitAppendSep(x: string, y: string, sep: char)
    requires |x| > 0 && x[0] == sep && (x + y)[1..] == x[1..] + y
    requires var t := Split(x[1..], sep);
      Split(x[1..] + y, sep) == t[..|t| - 1] + Split(t[|t| - 1] + y, sep)
    ensures var s := Split(x, sep);
      Split(x + y, sep) == s[..|s| - 1] + Split(s[|s| - 1] + y, sep)
  {
    var t := Split(x[1..], sep);
    assert Split(x, sep) == [""] + t;
    assert Split(x + y, sep) == [""] + Split(x[1..] + y, sep);
  }

  lemma SplitAppendOne(x: string, y: string, sep: char)
    requires |x| > 0 && x[0] != sep && |Split(x[1..], sep)| == 1
    ensures var s := Split(x, sep);
      Split(x + y, sep) == s[..|s| - 1] + Split(s[|s| - 1] + y, sep)
  {
    var t := Split(x[1..], sep);
    JoinSplit(x[1..], sep);
    assert Split(x, sep) == [[x[0]] + t[0]];
    assert x == [x[0]] + t[0];
  }

  lemma SplitAppendMany(x: string, y: string, sep: char)
    requires |x| > 0 && x[0] != sep && |Split(x[1..], sep)| > 1 && (x + y)[1..] == x[1..] + y
    requires var t := Split(x[1..], sep);
      Split(x[1..] + y, sep) == t[..|t| - 1] + Split(t[|t| - 1] + y, sep)
    ensures var s := Split(x, sep);
      Split(x + y, sep) == s[..|s| - 1] + Split(s[|s| - 1] + y, sep)
  {
    var t := Split(x[1..], sep);
    var r := Split(x[1..] + y, sep);
    var s := Split(x, sep);
    assert s == [[x[0]] + t[0]] + t[1..];
    assert r[0] == t[0];
    assert Split(x + y, sep) == [[x[0]] + r[0]] + r[1..];
    assert r[1..] == t[1..|t| - 1] + Split(t[|t| - 1] + y, sep);
    assert s[..|s| - 1] == [[x[0]] + t[0]] + t[1..|t| - 1];
  }

  /** Two reads handle the same lines and keep the same buffer as one read
      of both texts: how the body is cut into reads does not matter. */
  lemma FeedTwice(mode: Mode, p: Progress, a: string, b: string)
    ensures Feed(mode, Feed(mode, p, a), b) == Feed(mode, p, a + b)
  {
    var s1 := Split(p.buffer + a, '\n');
    var s2 := Split(s1[|s1| - 1] + b, '\n');
    SplitTwice(p.buffer, a, b);
    DropLast(s1[..|s1| - 1], s2);
    LinesAppend(mode, p.chat, s1[..|s1| - 1], s2[..|s2| - 1]);
  }

  /** The parts of two reads, split one after the other: the complete lines
      of the first, then the parts of its unfinished line and the second. */
  lemma SplitTwice(buffer: string, a: string, b: string)
    ensures var s1 := Split(buffer + a, '\n');
      Split(buffer + (a + b), '\n') == s1[..|s1| - 1] + Split(s1[|s1| - 1] + b, '\n')
  {
    assert buffer + (a + b) == (buffer + a) + b;
    SplitAppend(buffer + a, b, '\n');
  }

  lemma DropLast(x: seq<string>, y: seq<string>)
    requires |y| >= 1
    ensures (x + y)[..|x + y| - 1] == x + y[..|y| - 1]
    ensures (x + y)[|x + y| - 1] == y[|y| - 1]
  {
  }

  /** Reads in order. */
  function FeedAll(mode: Mode, p: Progress, chunks: seq<string>): Progress
    decreases |chunks|
  {
    if |chunks| == 0 then p else FeedAll(mode, Feed(mode, p, chunks[0]), chunks[1..])
  }

  lemma {:induction false} FeedAllConcat(mode: Mode, p: Progress, chunks: seq<string>)
    requires '\n' !in p.buffer
    ensures FeedAll(mode, p, chunks) == Feed(mode, p, SseStream.Concat(chunks))
    decreases |chunks|
  {
    if |chunks| == 0 {
      SplitNoSep(p.buffer, '\n');
      assert p.buffer + "" == p.buffer;
    } else {
      FeedAllConcat(mode, Feed(mode, p, chunks[0]), chunks[1..]);
      FeedTwice(mode, p, chunks[0], SseStream.Concat(chunks[1..]));
    }
  }

  /** The lines of a body have the effects of its events. */
  lemma {:induction false} LinesOfBody(mode: Mode, c: Chat, es: seq<SseStream.Event>)
    requires forall i :: 0 <= i < |es| ==> SseStream.Printable(es[i])
    ensures Lines(mode, c, SseStream.BodyLines(es)) == ApplyEvents(mode, c, es)
    decreases |es|
  {
    if |es| > 0 {
      var line := SseStream.DataLine(es[0]);
      SseStream.DataLineRoundTrip(es[0]);
      HandleEvent(mode, c, es[0]);
      assert Line(mode, c, line) == Effect(mode, c, es[0]);
      var next := Effect(mode, c, es[0]);
      assert Line(mode, next, "") == next;
      SseStream.BodyLinesCons(es);
      LinesAppend(mode, c, [line, ""], SseStream.BodyLines(es[1..]));
      LinesOfBody(mode, next, es[1..]);
    }
  }

  /** However the body of a stream is cut into reads, the page ends with the
      effects of its events and an empty buffer. */
  lemma ReadsOfBody(mode: Mode, c: Chat, es: seq<SseStream.Event>, chunks: seq<string>)
    requires forall i :: 0 <= i < |es| ==> SseStream.Printable(es[i])
    requires SseStream.Concat(chunks) == SseStream.Body(es)
    ensures FeedAll(mode, Progress(c, ""), chunks) == Progress(ApplyEvents(mode, c, es), "")
  {
    FeedAllConcat(mode, Progress(c, ""), chunks);
    assert "" + SseStream.Body(es) == SseStream.Body(es);
    SseStream.BodySplit(es);
    var parts := SseStream.BodyLines(es) + [""];
    assert parts[..|parts| - 1] == SseStream.BodyLines(es);
    LinesOfBody(mode, c, es);
  }

  // ---------------------------------------------------------------------------
  // What a whole stream does to the page
  // ---------------------------------------------------------------------------

  /** Status reports and chunks touch only the content and the query of the
      last message, and neither save nor stop anything. */
  lemma {:induction false} DraftedKeeps(mode: Mode, c: Chat, es: seq<SseStream.Event>)
    requires forall i :: 0 <= i < |es| ==> es[i].Status? || es[i].SqlChunk?
    requires LastIsAssistant(c.messages) && !c.reader.stopped
    ensures var r := ApplyEvents(mode, c, es);
      && |r.messages| == |c.messages|
      && r.messages[..|r.messages| - 1] == c.messages[..|c.messages| - 1]
      && LastIsAssistant(r.messages)
      && r.saved == c.saved
      && r.reader.explanation == c.reader.explanation
      && r.reader.results == c.reader.results
      && !r.reader.stopped
    decreases |es|
  {
    if |es| > 0 {
      var next := Effect(mode, c, es[0]);
      assert next.messages[..|next.messages| - 1] == c.messages[..|c.messages| - 1];
      DraftedKeeps(mode, next, es[1..]);
    }
  }

  lemma {:induction false} ApplyAppend(mode: Mode, c: Chat, a: seq<SseStream.Event>, b: seq<SseStream.Event>)
    ensures ApplyEvents(mode, c, a + b) == ApplyEvents(mode, ApplyEvents(mode, c, a), b)
    decreases |a|
  {
    if |a| == 0 {
      assert a + b == b;
    } else {
      assert (a + b)[1..] == a[1..] + b;
      ApplyAppend(mode, Effect(mode, c, a[0]), a[1..], b);
    }
  }

  /** The assistant message a successful request ends with. */
  function Answered(q: string, rows: seq<SseStream.Row>, x: string): Message {
    Message(Assistant, if x != "" then x else DONE_TEXT, Some(q), Some(SseStream.RowValues(rows)), Some(x))
  }

  /** After a successful stream the last message shows the explanation (or the
      fixed text), the query, the rows and the explanation, and exactly that
      message has been saved; the messages before it are untouched. This
      holds however errors are treated. */
  lemma SuccessShown(mode: Mode, c: Chat, run: SseStream.Run, q: string)
    requires LastIsAssistant(c.messages) && c.reader == FRESH
    requires SseStream.Succeeded(run, q)
    ensures var r := ApplyEvents(mode, c, SseStream.Stream(run, q));
      var n := |c.messages|;
      var a := Answered(q, run.rows, PyStrip(run.explanation));
      && |r.messages| == n
      && r.messages[..n - 1] == c.messages[..n - 1]
      && r.messages[n - 1] == a
      && r.saved == c.saved + [a]
  {
    var d := SseStream.Drafted(run);
    var x := PyStrip(run.explanation);
    var tail := Finale(q, run.rows, x);
    SucceededStream(run, q);
    ApplyAppend(mode, c, d, tail);
    DraftedKeeps(mode, c, d);
    TailShown(mode, ApplyEvents(mode, c, d), q, run.rows, x);
  }

  /** What a successful stream sends after the chunks of the query. */
  function Finale(q: string, rows: seq<SseStream.Row>, x: string): seq<SseStream.Event> {
    [SseStream.Sql(q), SseStream.Status(SseStream.EXECUTING),
     SseStream.Status(SseStream.RowCountMessage(|rows|)), SseStream.Status(SseStream.EXPLAINING),
     SseStream.Results(rows), SseStream.Explanation(x), SseStream.Done]
  }

  lemma SucceededStream(run: SseStream.Run, q: string)
    requires SseStream.Succeeded(run, q)
    ensures SseStream.Stream(run, q) == SseStream.Drafted(run) + Finale(q, run.rows, PyStrip(run.explanation))
  {
    SseStream.AfterCases(run, q);
    SseStream.ExecutedSucceeds(run, q);
  }

  /** The events after the chunks of a successful stream, applied to a page
      whose last message is the assistant's. */
  lemma TailShown(mode: Mode, m: Chat, q: string, rows: seq<SseStream.Row>, x: string)
    requires LastIsAssistant(m.messages) && !m.reader.stopped && m.reader.explanation == "" && m.reader.results == []
    ensures var r := ApplyEvents(mode, m, Finale(q, rows, x));
      var n := |m.messages|;
      && |r.messages| == n
      && r.messages[..n - 1] == m.messages[..n - 1]
      && r.messages[n - 1] == Answered(q, rows, x)
      && r.saved == m.saved + [Answered(q, rows, x)]
  {
    var n := |m.messages|;
    FinaleSteps(mode, m, q, rows, x);
    var m4 := OnStatus(OnStatus(OnStatus(OnSql(m, q), SseStream.EXECUTING), SseStream.RowCountMessage(|rows|)), SseStream.EXPLAINING);
    var m6 := OnExplanation(OnResults(m4, SseStream.RowValues(rows)), x);
    assert m6.reader.explanation == x && m6.reader.sql == q && m6.reader.results == SseStream.RowValues(rows);
    assert |m6.messages| == n && m6.messages[..n - 1] == m.messages[..n - 1];
    assert LastIsAssistant(m6.messages);
  }

  /** The finale applied event by event. */
  lemma FinaleSteps(mode: Mode, m: Chat, q: string, rows: seq<SseStream.Row>, x: string)
    requires !m.reader.stopped
    ensures ApplyEvents(mode, m, Finale(q, rows, x))
         == OnDone(OnExplanation(OnResults(OnStatus(OnStatus(OnStatus(OnSql(m, q), SseStream.EXECUTING),
              SseStream.RowCountMessage(|rows|)), SseStream.EXPLAINING), SseStream.RowValues(rows)), x))
  {
    var e4 := [SseStream.Results(rows), SseStream.Explanation(x), SseStream.Done];
    var e1 := [SseStream.Status(SseStream.EXECUTING), SseStream.Status(SseStream.RowCountMessage(|rows|)),
               SseStream.Status(SseStream.EXPLAINING)] + e4;
    var m1 := OnSql(m, q);
    var m4 := OnStatus(OnStatus(OnStatus(m1, SseStream.EXECUTING), SseStream.RowCountMessage(|rows|)), SseStream.EXPLAINING);
    var m6 := OnExplanation(OnResults(m4, SseStream.RowValues(rows)), x);
    assert Finale(q, rows, x) == [SseStream.Sql(q)] + e1;
    calc {
      ApplyEvents(mode, m, [SseStream.Sql(q)] + e1);
      { ApplyCons(mode, m, SseStream.Sql(q), e1); }
      ApplyEvents(mode, m1, e1);
      { StatusesThen(mode, m1, SseStream.EXECUTING, SseStream.RowCountMessage(|rows|), SseStream.EXPLAINING, e4); }
      ApplyEvents(mode, m4, e4);
      { AnswerSteps(mode, m4, rows, x); }
      OnDone(m6);
    }
  }

  lemma AnswerSteps(mode: Mode, m: Chat, rows: seq<SseStream.Row>, x: string)
    requires !m.reader.stopped
    ensures ApplyEvents(mode, m, [SseStream.Results(rows), SseStream.Explanation(x), SseStream.Done])
         == OnDone(OnExplanation(OnResults(m, SseStream.RowValues(rows)), x))
  {
    var m5 := OnResults(m, SseStream.RowValues(rows));
    var m6 := OnExplanation(m5, x);
    calc {
      ApplyEvents(mode, m, [SseStream.Results(rows), SseStream.Explanation(x), SseStream.Done]);
      { assert [SseStream.Results(rows), SseStream.Explanation(x), SseStream.Done]
            == [SseStream.Results(rows)] + [SseStream.Explanation(x), SseStream.Done];
        ApplyCons(mode, m, SseStream.Results(rows), [SseStream.Explanation(x), SseStream.Done]); }
      ApplyEvents(mode, m5, [SseStream.Explanation(x), SseStream.Done]);
      { assert [SseStream.Explanation(x), SseStream.Done] == [SseStream.Explanation(x)] + [SseStream.Done];
        ApplyCons(mode, m5, SseStream.Explanation(x), [SseStream.Done]); }
      ApplyEvents(mode, m6, [SseStream.Done]);
    }
  }

  lemma ApplyCons(mode: Mode, c: Chat, e: SseStream.Event, rest: seq<SseStream.Event>)
    ensures ApplyEvents(mode, c, [e] + rest) == ApplyEvents(mode, Effect(mode, c, e), rest)
  {
    assert ([e] + rest)[1..] == rest;
  }

  /** Three status reports in a row, applied while reading goes on. */
  lemma StatusesThen(mode: Mode, c: Chat, a: string, b: string, d: string, rest: seq<SseStream.Event>)
    requires !c.reader.stopped
    ensures ApplyEvents(mode, c, [SseStream.Status(a), SseStream.Status(b), SseStream.Status(d)] + rest)
         == ApplyEvents(mode, OnStatus(OnStatus(OnStatus(c, a), b), d), rest)
  {
    var s := [SseStream.Status(a), SseStream.Status(b), SseStream.Status(d)] + rest;
    assert s == [SseStream.Status(a)] + ([SseStream.Status(b)] + ([SseStream.Status(d)] + rest));
    ApplyCons(mode, c, SseStream.Status(a), [SseStream.Status(b)] + ([SseStream.Status(d)] + rest));
    ApplyCons(mode, OnStatus(c, a), SseStream.Status(b), [SseStream.Status(d)] + rest);
    ApplyCons(mode, OnStatus(OnStatus(c, a), b), SseStream.Status(d), rest);
  }

  /** As the page is written, an `error` event changes nothing: the stream
      of a service without a model key leaves the empty placeholder in place
      and saves nothing. */
  lemma ErrorSwallowed(c: Chat, run: SseStream.Run, q: string, chunks: seq<string>)
    requires !run.hasClient
    requires SseStream.Concat(chunks) == SseStream.Body(SseStream.Stream(run, q))
    ensures FeedAll(AsWritten, Progress(c, ""), chunks) == Progress(c, "")
  {
    ReadsOfBody(AsWritten, c, SseStream.Stream(run, q), chunks);
  }

  /** With errors reaching the request's handler, every failed request ends
      with the apology and the stream's error message (or "Unknown error"
      when it is empty) in the last message. */
  lemma ErrorShown(c: Chat, run: SseStream.Run, q: string)
    requires LastIsAssistant(c.messages) && c.reader == FRESH
    requires !SseStream.Succeeded(run, q)
    ensures var es := SseStream.Stream(run, q);
      var r := ApplyEvents(ErrorsShown, c, es);
      && |es| >= 1 && es[|es| - 1].Error?
      && r.reader.stopped
      && |r.messages| == |c.messages|
      && var m := es[|es| - 1].message;
         r.messages[|r.messages| - 1].content == SORRY + (if m != "" then m else UNKNOWN_ERROR)
  {
    var es := SseStream.Stream(run, q);
    SseStream.EventsEnd(run, q);
    var k := |es| - 1;
    assert es == es[..k] + [es[k]];
    ApplyAppend(ErrorsShown, c, es[..k], [es[k]]);
    assert forall i :: 0 <= i < k ==> !es[..k][i].Error?;
    NoErrorKeeps(c, es[..k]);
  }

  /** Events without errors keep the last message the assistant's and
      reading going. */
  lemma {:induction false} NoErrorKeeps(c: Chat, es: seq<SseStream.Event>)
    requires forall i :: 0 <= i < |es| ==> !es[i].Error?
    requires LastIsAssistant(c.messages) && !c.reader.stopped
    ensures var r := ApplyEvents(ErrorsShown, c, es);
      |r.messages| == |c.messages| && LastIsAssistant(r.messages) && !r.reader.stopped
    decreases |es|
  {
    if |es| > 0 {
      NoErrorKeeps(Effect(ErrorsShown, c, es[0]), es[1..]);
    }
  }

  // ---------------------------------------------------------------------------
  // Failures of the request itself
  // ---------------------------------------------------------------------------

  /** A response that is not OK is answered with `HTTP <status>` behind the
      apology. */
  function Refused(c: Chat, status: int): (r: Chat)
    ensures |r.messages| == |c.messages| && r.reader.stopped
    ensures LastIsAssistant(c.messages) ==> r.messages[|r.messages| - 1].content == SORRY + "HTTP " + IntToString(status)
  {
    OnFailure(c, "HTTP " + IntToString(status))
  }

  // ---------------------------------------------------------------------------
  // Result cells
  // ---------------------------------------------------------------------------

  /** `formatValue`: "null" for a missing or null cell, JSON text for arrays
      and objects, the locale's rendering for numbers (a parameter), and
      `String(value)` otherwise. */
  function FormatValue(cell: Option<Json.Value>, locale: real -> string): (r: string)
    requires cell.Some? ==> Json.WellFormed(cell.value)
  {
    match cell
    case None => "null"
    case Some(JNull) => "null"
    case Some(JArr(_)) => Json.Stringify(cell.value)
    case Some(JObj(_)) => Json.Stringify(cell.value)
    case Some(JNum(n)) => locale(n)
    case Some(JBool(b)) => if b then "true" else "false"
    case Some(JStr(s)) => s
  }

  /** Arrays and objects are shown as text that parses back to them; a
      string is shown as itself; only a missing or null cell shows "null"
      among the values that are not strings. */
  lemma FormatValueReadsBack(cell: Json.Value, locale: real -> string)
    requires Json.WellFormed(cell)
    ensures (cell.JArr? || cell.JObj?) ==> Json.Parse(FormatValue(Some(cell), locale)) == Some(cell)
    ensures cell.JStr? ==> FormatValue(Some(cell), locale) == cell.s
    ensures FormatValue(None, locale) == "null" && FormatValue(Some(Json.JNull), locale) == "null"
    ensures cell.JBool? ==> FormatValue(Some(cell), locale) != "null"
  {
    if cell.JArr? || cell.JObj? {
      Json.StringifyRoundTrip(cell);
    }
  }
}

=== FILE: chat_history_route.dfy ===
/** `/api/chat-history`: the messages of chat sessions, with the history of
    one session, saving a message, clearing a session and the session list,
    over an in-memory message table in insertion order. */
module ChatHistoryRoute {
  import opened Wrappers
  import opened Text
  import opened Requests
  import opened Ordering
  import Json

  /** `content.substring(0, 100)`. */
  const PREVIEW_LENGTH: nat := 100

  /** A stored message; `data` holds the JSON text of the query results. */
  datatype Message = Message(
    id: string,
    sessionId: string,
    userId: Option<string>,
    role: string,
    content: string,
    sql: Option<string>,
    data: Option<string>,
    explanation: Option<string>,
    createdAt: int)

  datatype Db = Db(messages: seq<Message>)

  /** Every stored data text is JSON, as it is when only this route writes it. */
  predicate DataParses(db: Db) {
    forall i :: 0 <= i < |db.messages| ==> DataOk(db.messages[i])
  }

  predicate DataOk(m: Message) {
    m.data.Some? ==> Json.Parse(m.data.value).Some?
  }

  function CreatedAt(m: Message): int {
    m.createdAt
  }

  /** Later messages first. */
  function Recency(m: Message): int {
    -m.createdAt
  }

  // ---------------------------------------------------------------------------
  // GET /api/chat-history/:sessionId
  // ---------------------------------------------------------------------------

  /** The `where` object: the session, and the user when the query names one. */
  predicate InHistory(m: Message, sessionId: string, userId: string) {
    m.sessionId == sessionId && (userId == "" || m.userId == Some(userId))
  }

  function Select(rows: seq<Message>, sessionId: string, userId: string): (r: seq<Message>)
    ensures |r| <= |rows|
    ensures forall x :: x in r ==> x in rows && InHistory(x, sessionId, userId)
    ensures forall x :: x in rows && InHistory(x, sessionId, userId) ==> x in r
  {
    Where(rows, x => InHistory(x, sessionId, userId))
  }

  /** A message as the history reports it: empty texts become `undefined`,
      and the data text is parsed back. */
  datatype Entry = Entry(
    role: string,
    content: string,
    sql: Option<string>,
    data: Option<Json.Value>,
    explanation: Option<string>,
    createdAt: int)

  /** `x || undefined` on a nullable text column. */
  function Present(t: Option<string>): (r: Option<string>)
    ensures r.Some? <==> t.Some? && t.value != ""
    ensures r.Some? ==> r == t
  {
    if t.Some? && t.value != "" then t else None
  }

  /** `msg.data ? JSON.parse(msg.data) : undefined`; `None` when the parse throws. */
  function EntryOf(m: Message): (r: Option<Entry>)
    ensures r.None? <==> m.data.Some? && m.data.value != "" && Json.Parse(m.data.value).None?
  {
    if m.data.Some? && m.data.value != "" then
      match Json.Parse(m.data.value)
      case None => None
      case Some(v) => Some(Entry(m.role, m.content, Present(m.sql), Some(v), Present(m.explanation), m.createdAt))
    else Some(Entry(m.role, m.content, Present(m.sql), None, Present(m.explanation), m.createdAt))
  }

  /** The formatted messages, or `None` as soon as one data text is not JSON. */
  function Format(rows: seq<Message>): (r: Option<seq<Entry>>)
    ensures r.Some? <==> forall i :: 0 <= i < |rows| ==> EntryOf(rows[i]).Some?
    ensures r.Some? ==> |r.value| == |rows| && forall i :: 0 <= i < |rows| ==> r.value[i] == EntryOf(rows[i]).value
  {
    if |rows| == 0 then Some([])
    else
      match Format(rows[..|rows| - 1])
      case None => None
      case Some(init) =>
        match EntryOf(rows[|rows| - 1])
        case None => None
        case Some(e) => Some(init + [e])
  }

  /** The messages of the session in the order they were written, oldest first. */
  function Ordered(rows: seq<Message>, sessionId: string, userId: string): (r: seq<Message>)
    ensures SortedByNum(r, CreatedAt)
    ensures multiset(r) == multiset(Select(rows, sessionId, userId))
    ensures forall x :: x in r <==> x in rows && InHistory(x, sessionId, userId)
  {
    var chosen := Select(rows, sessionId, userId);
    var sorted := SortByNum(chosen, CreatedAt);
    assert forall x :: x in sorted <==> x in multiset(sorted);
    assert forall x :: x in chosen <==> x in multiset(chosen);
    sorted
  }

  /** The handler: 500 when a stored data text does not parse. */
  function History(db: Db, sessionId: string, userId: string): (r: Reply<seq<Entry>>)
    ensures r.Ok? <==> Format(Ordered(db.messages, sessionId, userId)).Some?
    ensures r.Fail? ==> r == Fail(SERVER_ERROR, "Failed to fetch chat history")
    ensures r.Ok? ==> |r.value| == |Ordered(db.messages, sessionId, userId)|
    ensures r.Ok? ==> forall i :: 0 <= i < |r.value| - 1 ==> r.value[i].createdAt <= r.value[i + 1].createdAt
  {
    var ordered := Ordered(db.messages, sessionId, userId);
    match Format(ordered)
    case None => Fail(SERVER_ERROR, "Failed to fetch chat history")
    case Some(entries) =>
      assert forall i :: 0 <= i < |entries| ==> entries[i].createdAt == ordered[i].createdAt;
      Ok(entries)
  }

  /** While every stored data text is JSON, reading a history never fails. */
  lemma HistoryNeverFails(db: Db, sessionId: string, userId: string)
    requires DataParses(db)
    ensures History(db, sessionId, userId).Ok?
  {
    var ordered := Ordered(db.messages, sessionId, userId);
    forall i | 0 <= i < |ordered|
      ensures EntryOf(ordered[i]).Some?
    {
      assert ordered[i] in db.messages;
    }
  }

  // ---------------------------------------------------------------------------
  // POST /api/chat-history
  // ---------------------------------------------------------------------------

  /** The request body; `data` is absent or the query results as JSON. */
  datatype Body = Body(
    sessionId: Field<string>,
    userId: Field<string>,
    role: Field<string>,
    content: Field<string>,
    sql: Field<string>,
    data: Option<Json.Value>,
    explanation: Field<string>)

  /** The saved message as the route echoes it: nullable texts as stored. */
  datatype Saved = Saved(
    id: string,
    sessionId: string,
    role: string,
    content: string,
    sql: Option<string>,
    data: Option<Json.Value>,
    explanation: Option<string>,
    createdAt: int)

  predicate Printable(data: Option<Json.Value>) {
    data.None? || Json.WellFormed(data.value)
  }

  /** `data ? JSON.stringify(data) : null`. */
  function DataText(data: Option<Json.Value>): (r: Option<string>)
    requires Printable(data)
    ensures r.Some? <==> data.Some? && Json.Truthy(data.value)
  {
    if data.Some? && Json.Truthy(data.value) then Some(Json.Stringify(data.value)) else None
  }

  /** The row the route creates. */
  function NewMessage(b: Body, id: string, now: int): Message
    requires Truthy(b.sessionId) && Truthy(b.role) && Truthy(b.content) && Printable(b.data)
  {
    Message(id, b.sessionId.value, OrNull(b.userId), b.role.value, b.content.value, OrNull(b.sql),
            DataText(b.data), OrNull(b.explanation), now)
  }

  /** The handler. `id` and `now` are what the database assigns. The row is
      written before its data text is parsed back, so a parse failure would
      answer 500 with the row already stored. */
  function Post(db: Db, b: Body, id: string, now: int): (o: (Db, Reply<Saved>))
    requires Printable(b.data)
    ensures o.1 == Fail(BAD_REQUEST, "sessionId, role, and content are required")
            <==> !Truthy(b.sessionId) || !Truthy(b.role) || !Truthy(b.content)
    ensures o.1 == Fail(BAD_REQUEST, "sessionId, role, and content are required") ==> o.0 == db
    ensures o.0 != db ==> o.0.messages == db.messages + [NewMessage(b, id, now)]
  {
    if !Truthy(b.sessionId) || !Truthy(b.role) || !Truthy(b.content) then
      (db, Fail(BAD_REQUEST, "sessionId, role, and content are required"))
    else
      var m := NewMessage(b, id, now);
      var after := Db(db.messages + [m]);
      if m.data.Some? && Json.Parse(m.data.value).None? then (after, Fail(SERVER_ERROR, "Failed to save chat history"))
      else
        var data := if m.data.Some? then Some(Json.Parse(m.data.value).value) else None;
        (after, Ok(Saved(id, m.sessionId, m.role, m.content, m.sql, data, m.explanation, now)))
  }

  /** A valid message is saved and echoed: its data comes back as sent when
      truthy and as null otherwise, and empty texts come back null. */
  lemma PostSaves(db: Db, b: Body, id: string, now: int)
    requires Printable(b.data)
    requires Truthy(b.sessionId) && Truthy(b.role) && Truthy(b.content)
    ensures var (after, reply) := Post(db, b, id, now);
            && after.messages == db.messages + [NewMessage(b, id, now)]
            && reply.Ok?
            && (b.data.Some? && Json.Truthy(b.data.value) ==> reply.value.data == b.data)
            && (b.data.None? || !Json.Truthy(b.data.value) ==> reply.value.data.None?)
            && (reply.value.sql.None? <==> !Truthy(b.sql))
            && (reply.value.explanation.None? <==> !Truthy(b.explanation))
  {
    if b.data.Some? && Json.Truthy(b.data.value) {
      Json.StringifyRoundTrip(b.data.value);
    }
  }

  /** Saving keeps every stored data text parseable. */
  lemma PostKeepsDataParsing(db: Db, b: Body, id: string, now: int)
    requires Printable(b.data) && DataParses(db)
    ensures DataParses(Post(db, b, id, now).0)
  {
    if b.data.Some? && Json.Truthy(b.data.value) {
      Json.StringifyRoundTrip(b.data.value);
    }
  }

  /** A saved message shows up in its session's history with its data
      parsed back, its empty texts as `undefined`. */
  lemma SavedInHistory(db: Db, b: Body, id: string, now: int)
    requires Printable(b.data) && DataParses(db)
    requires Truthy(b.sessionId) && Truthy(b.role) && Truthy(b.content)
    ensures var after := Post(db, b, id, now).0;
            var h := History(after, b.sessionId.value, "");
            && h.Ok?
            && exists i :: 0 <= i < |h.value| && h.value[i] == EntryOf(NewMessage(b, id, now)).value
  {
    PostKeepsDataParsing(db, b, id, now);
    var after := Post(db, b, id, now).0;
    var m := NewMessage(b, id, now);
    HistoryNeverFails(after, b.sessionId.value, "");
    var ordered := Ordered(after.messages, b.sessionId.value, "");
    assert m in after.messages;
    assert m in ordered;
    var i :| 0 <= i < |ordered| && ordered[i] == m;
    var h := History(after, b.sessionId.value, "");
    assert h.value == Format(ordered).value;
    assert h.value[i] == EntryOf(m).value;
  }

  /** The stored entry of a saved message: the data round trip and `undefined`
      for empty texts. */
  lemma SavedEntry(b: Body, id: string, now: int)
    requires Printable(b.data)
    requires Truthy(b.sessionId) && Truthy(b.role) && Truthy(b.content)
    ensures var e := EntryOf(NewMessage(b, id, now));
            && e.Some?
            && (b.data.Some? && Json.Truthy(b.data.value) ==> e.value.data == b.data)
            && (b.data.None? || !Json.Truthy(b.data.value) ==> e.value.data.None?)
            && (e.value.sql.None? <==> !Truthy(b.sql))
            && (e.value.sql.Some? ==> e.value.sql.value == b.sql.value)
            && (e.value.explanation.None? <==> !Truthy(b.explanation))
  {
    if b.data.Some? && Json.Truthy(b.data.value) {
      Json.StringifyRoundTrip(b.data.value);
    }
  }

  // ---------------------------------------------------------------------------
  // DELETE /api/chat-history/:sessionId
  // ---------------------------------------------------------------------------

  /** `deleteMany({ where: { sessionId } })` on the rows: every message of
      the session goes, every other stays in order. */
  function Remove(rows: seq<Message>, sessionId: string): (r: seq<Message>)
    ensures forall x :: x in r <==> x in rows && x.sessionId != sessionId
    ensures |r| <= |rows|
  {
    if |rows| == 0 then []
    else
      var init := Remove(rows[..|rows| - 1], sessionId);
      var last := rows[|rows| - 1];
      assert forall x :: x in rows <==> x in rows[..|rows| - 1] || x == last;
      if last.sessionId == sessionId then init else init + [last]
  }

  /** The handler; an unknown session succeeds too. */
  function Clear(db: Db, sessionId: string): (r: Db)
    ensures forall x :: x in r.messages ==> x.sessionId != sessionId
  {
    Db(Remove(db.messages, sessionId))
  }

  /** After clearing, the session's history is empty and every other
      session's history is as before. */
  lemma ClearEmptiesSession(db: Db, sessionId: string, other: string, userId: string)
    requires other != sessionId
    ensures Ordered(Clear(db, sessionId).messages, sessionId, userId) == []
    ensures Ordered(Clear(db, sessionId).messages, other, userId) == Ordered(db.messages, other, userId)
  {
    SelectNone(Clear(db, sessionId).messages, sessionId, userId);
    ClearKeepsOthers(db.messages, sessionId, other, userId);
  }

  lemma {:induction false} SelectNone(rows: seq<Message>, sessionId: string, userId: string)
    requires forall x :: x in rows ==> x.sessionId != sessionId
    ensures Select(rows, sessionId, userId) == []
  {
    if |rows| > 0 {
      assert forall x :: x in rows[..|rows| - 1] ==> x in rows;
      SelectNone(rows[..|rows| - 1], sessionId, userId);
    }
  }

  lemma {:induction false} ClearKeepsOthers(rows: seq<Message>, sessionId: string, other: string, userId: string)
    requires other != sessionId
    ensures Select(Remove(rows, sessionId), other, userId) == Select(rows, other, userId)
  {
    if |rows| > 0 {
      ClearKeepsOthers(rows[..|rows| - 1], sessionId, other, userId);
      var init := Remove(rows[..|rows| - 1], sessionId);
      var last := rows[|rows| - 1];
      if last.sessionId != sessionId {
        assert (init + [last])[..|init + [last]| - 1] == init;
      }
    }
  }

  /** Clearing keeps every stored data text parseable. */
  lemma ClearKeepsDataParsing(db: Db, sessionId: string)
    requires DataParses(db)
    ensures DataParses(Clear(db, sessionId))
  {
    var after := Clear(db, sessionId);
    forall i | 0 <= i < |after.messages|
      ensures DataOk(after.messages[i])
    {
      assert after.messages[i] in db.messages;
    }
  }

  // ---------------------------------------------------------------------------
  // GET /api/chat-history
  // ---------------------------------------------------------------------------

  predicate ByUser(m: Message, userId: string) {
    userId == "" || m.userId == Some(userId)
  }

  function OfUser(rows: seq<Message>, userId: string): (r: seq<Message>)
    ensures forall x :: x in r <==> x in rows && ByUser(x, userId)
  {
    Where(rows, x => ByUser(x, userId))
  }

  function SessionIds(rows: seq<Message>): set<string> {
    set x | x in rows :: x.sessionId
  }

  /** `distinct: ['sessionId']`: the first row of each session, in order. */
  function Distinct(rows: seq<Message>): (r: seq<Message>)
    ensures forall x :: x in r ==> x in rows
    ensures forall i, j :: 0 <= i < j < |r| ==> r[i].sessionId != r[j].sessionId
    ensures SessionIds(r) == SessionIds(rows)
  {
    if |rows| == 0 then []
    else
      var front := rows[..|rows| - 1];
      var last := rows[|rows| - 1];
      var init := Distinct(front);
      assert forall x :: x in rows <==> x in front || x == last;
      assert SessionIds(rows) == SessionIds(front) + {last.sessionId};
      if last.sessionId in SessionIds(init) then init
      else
        assert forall x :: x in init + [last] <==> x in init || x == last;
        assert SessionIds(init + [last]) == SessionIds(init) + {last.sessionId};
        init + [last]
  }

  /** In rows ordered latest first, the last row is the oldest. */
  lemma LastIsOldest(rows: seq<Message>)
    requires SortedByNum(rows, Recency) && |rows| > 0
    ensures forall y :: y in rows ==> y.createdAt >= rows[|rows| - 1].createdAt
  {
    forall y | y in rows
      ensures y.createdAt >= rows[|rows| - 1].createdAt
    {
      var k :| 0 <= k < |rows| && rows[k] == y;
      SortedByNumPairs(rows, Recency, k, |rows| - 1);
    }
  }

  /** Over rows ordered latest first, the row `Distinct` keeps for a session
      is its latest message. */
  lemma {:induction false} DistinctKeepsLatest(rows: seq<Message>)
    requires SortedByNum(rows, Recency)
    ensures forall x, y :: x in Distinct(rows) && y in rows && y.sessionId == x.sessionId ==> y.createdAt <= x.createdAt
  {
    if |rows| > 0 {
      var front := rows[..|rows| - 1];
      var last := rows[|rows| - 1];
      assert SortedByNum(front, Recency);
      DistinctKeepsLatest(front);
      LastIsOldest(rows);
      assert forall x :: x in rows <==> x in front || x == last;
      var init := Distinct(front);
      if last.sessionId !in SessionIds(init) {
        assert forall y :: y in front ==> y.sessionId in SessionIds(front);
      }
    }
  }

  /** Over rows ordered latest first, the rows `Distinct` keeps stay latest first. */
  lemma {:induction false} DistinctKeepsOrder(rows: seq<Message>)
    requires SortedByNum(rows, Recency)
    ensures SortedByNum(Distinct(rows), Recency)
  {
    if |rows| > 0 {
      var front := rows[..|rows| - 1];
      assert SortedByNum(front, Recency);
      DistinctKeepsOrder(front);
      LastIsOldest(rows);
      var init := Distinct(front);
      if |init| > 0 {
        assert init[|init| - 1] in front;
        assert init[|init| - 1] in rows;
      }
    }
  }

  /** The number of messages of a session. */
  function Count(rows: seq<Message>, sessionId: string): (n: nat)
    ensures n <= |rows|
    ensures n > 0 <==> sessionId in SessionIds(rows)
  {
    if |rows| == 0 then 0
    else
      var front := rows[..|rows| - 1];
      assert forall x :: x in rows <==> x in front || x == rows[|rows| - 1];
      Count(front, sessionId) + (if rows[|rows| - 1].sessionId == sessionId then 1 else 0)
  }

  datatype Session = Session(sessionId: string, lastMessage: string, messageCount: nat, lastActivity: int)

  function Preview(content: string): (p: string)
    ensures |p| <= PREVIEW_LENGTH && |p| <= |content| && p == content[..|p|]
    ensures |content| <= PREVIEW_LENGTH ==> p == content
  {
    content[..Min(PREVIEW_LENGTH, |content|)]
  }

  /** The latest message of each session the user wrote in, latest first. */
  function LatestPerSession(db: Db, userId: string): (r: seq<Message>)
    ensures forall x :: x in r ==> x in db.messages && ByUser(x, userId)
    ensures forall i, j :: 0 <= i < j < |r| ==> r[i].sessionId != r[j].sessionId
    ensures SortedByNum(r, Recency)
    ensures forall m :: m in db.messages && ByUser(m, userId) ==>
              m.sessionId in SessionIds(r)
              && forall x :: x in r && x.sessionId == m.sessionId ==> m.createdAt <= x.createdAt
  {
    var mine := OfUser(db.messages, userId);
    var ordered := SortByNum(mine, Recency);
    assert forall x :: x in ordered <==> x in multiset(ordered);
    assert forall x :: x in mine <==> x in multiset(mine);
    DistinctKeepsLatest(ordered);
    DistinctKeepsOrder(ordered);
    var r := Distinct(ordered);
    assert forall m :: m in ordered ==> m.sessionId in SessionIds(ordered);
    r
  }

  /** The handler. The counts come from a second query over the listed
      sessions that does not repeat the user filter, so a session's count
      covers the messages of every user. */
  function Sessions(db: Db, userId: string): (r: seq<Session>)
    ensures |r| == |LatestPerSession(db, userId)|
    ensures forall i :: 0 <= i < |r| ==>
              var x := LatestPerSession(db, userId)[i];
              r[i] == Session(x.sessionId, Preview(x.content), Count(db.messages, x.sessionId), x.createdAt)
  {
    var latest := LatestPerSession(db, userId);
    seq(|latest|, i requires 0 <= i < |latest| =>
      Session(latest[i].sessionId, Preview(latest[i].content), Count(db.messages, latest[i].sessionId),
              latest[i].createdAt))
  }

  /** What the session list promises: one entry per session the user wrote
      in, latest activity first, each with its latest message's time, a
      preview of at most 100 characters and a count of at least one. */
  lemma SessionsListing(db: Db, userId: string)
    ensures var r := Sessions(db, userId);
            && (forall i, j :: 0 <= i < j < |r| ==> r[i].sessionId != r[j].sessionId)
            && (forall i :: 0 <= i < |r| - 1 ==> r[i].lastActivity >= r[i + 1].lastActivity)
            && (forall i :: 0 <= i < |r| ==> r[i].messageCount == Count(db.messages, r[i].sessionId) >= 1)
            && (forall i :: 0 <= i < |r| ==> |r[i].lastMessage| <= PREVIEW_LENGTH)
            && (forall m :: m in db.messages && ByUser(m, userId) ==>
                  exists i :: 0 <= i < |r| && r[i].sessionId == m.sessionId && m.createdAt <= r[i].lastActivity)
  {
    SessionsOrdered(db, userId);
    SessionsCounted(db, userId);
    SessionsCover(db, userId);
  }

  lemma SessionsOrdered(db: Db, userId: string)
    ensures var r := Sessions(db, userId);
            && (forall i, j :: 0 <= i < j < |r| ==> r[i].sessionId != r[j].sessionId)
            && (forall i :: 0 <= i < |r| - 1 ==> r[i].lastActivity >= r[i + 1].lastActivity)
  {
  }

  lemma SessionsCounted(db: Db, userId: string)
    ensures var r := Sessions(db, userId);
            && (forall i :: 0 <= i < |r| ==> r[i].messageCount == Count(db.messages, r[i].sessionId) >= 1)
            && (forall i :: 0 <= i < |r| ==> |r[i].lastMessage| <= PREVIEW_LENGTH)
  {
    var latest := LatestPerSession(db, userId);
    var r := Sessions(db, userId);
    forall i | 0 <= i < |r|
      ensures r[i].messageCount >= 1
    {
      assert latest[i] in db.messages;
      assert latest[i].sessionId in SessionIds(db.messages);
    }
  }

  lemma SessionsCover(db: Db, userId: string)
    ensures var r := Sessions(db, userId);
            forall m :: m in db.messages && ByUser(m, userId) ==>
              exists i :: 0 <= i < |r| && r[i].sessionId == m.sessionId && m.createdAt <= r[i].lastActivity
  {
    var latest := LatestPerSession(db, userId);
    var r := Sessions(db, userId);
    forall m | m in db.messages && ByUser(m, userId)
      ensures exists i :: 0 <= i < |r| && r[i].sessionId == m.sessionId && m.createdAt <= r[i].lastActivity
    {
      var i :| 0 <= i < |latest| && latest[i].sessionId == m.sessionId;
      assert r[i].sessionId == m.sessionId;
    }
  }

}

=== FILE: departments_page.dfy ===
/** The departments page: the colour of each department card, the member
    avatars on it, and the request the department dialog sends, read against
    the `/api/departments` route that receives it. */
module DepartmentsPage {
  import opened Wrappers
  import opened Text
  import opened Requests
  import DepartmentsRoute

  // ---------------------------------------------------------------------------
  // Card colour
  // ---------------------------------------------------------------------------

  /** A palette entry: background and text class. */
  datatype Swatch = Swatch(bg: string, text: string)

  const PALETTE: seq<Swatch> := [
    Swatch("bg-blue-100", "text-blue-600"),
    Swatch("bg-green-100", "text-green-600"),
    Swatch("bg-purple-100", "text-purple-600"),
    Swatch("bg-orange-100", "text-orange-600"),
    Swatch("bg-pink-100", "text-pink-600"),
    Swatch("bg-yellow-100", "text-yellow-600")
  ]

  datatype Colour = Custom(hex: string) | Palette(swatch: Swatch)

  /** `getDepartmentColor`: a stored colour starting with `#` is used as it
      is; anything else, including no colour, falls back to the palette
      entry of the card's position. */
  function CardColour(color: Option<string>, index: nat): (r: Colour)
    ensures r.Custom? <==> color.Some? && StartsWith(color.value, "#")
    ensures r.Custom? ==> r.hex == color.value
    ensures r.Palette? ==> r.swatch == PALETTE[index % |PALETTE|]
  {
    if color.Some? && color.value != "" && StartsWith(color.value, "#") then Custom(color.value)
    else Palette(PALETTE[index % |PALETTE|])
  }

  /** The palette repeats every six cards, and two neighbouring cards
      without a custom colour never share a swatch. */
  lemma PaletteCycles(color: Option<string>, other: Option<string>, index: nat)
    ensures CardColour(color, index + |PALETTE|) == CardColour(color, index)
    ensures CardColour(color, index).Palette? && CardColour(other, index + 1).Palette? ==>
              CardColour(color, index) != CardColour(other, index + 1)
  {
    var i := index % 6;
    var j := (index + 1) % 6;
    assert j == if i == 5 then 0 else i + 1;
    assert (index + 6) % 6 == i;
  }

  // ---------------------------------------------------------------------------
  // Member avatars
  // ---------------------------------------------------------------------------

  const MAX_AVATARS: nat := 5

  /** The placeholder avatars, lettered `A`, `B`, … by
      `String.fromCharCode(65 + i)`, and the `+n more` label. */
  function Avatars(memberCount: nat): (r: (string, Option<nat>))
    ensures |r.0| == if memberCount < MAX_AVATARS then memberCount else MAX_AVATARS
    ensures forall i :: 0 <= i < |r.0| ==> r.0[i] == (65 + i) as char
    ensures r.1.Some? <==> memberCount > MAX_AVATARS
    ensures |r.0| + r.1.GetOr(0) == memberCount
  {
    var shown := if memberCount < MAX_AVATARS then memberCount else MAX_AVATARS;
    (seq(shown, i requires 0 <= i < shown => (65 + i) as char),
     if memberCount > MAX_AVATARS then Some(memberCount - MAX_AVATARS) else None)
  }

  // ---------------------------------------------------------------------------
  // The dialog
  // ---------------------------------------------------------------------------

  datatype Form = Form(name: string, description: string, budget: string, color: string)

  /** `handleCreate`. */
  const NEW_FORM: Form := Form("", "", "", "")

  /** `handleEdit`; `show` is `Number.prototype.toString`. */
  function EditForm(d: DepartmentsRoute.Department, show: real -> string): Form {
    Form(d.name, d.description.GetOr(""),
         if d.budget.Some? then show(d.budget.value) else "",
         d.color.GetOr(""))
  }

  datatype Request = Request(verb: Verb, path: string, body: DepartmentsRoute.Body)

  /** `formData.budget ? parseFloat(formData.budget) : null`. `parse` is
      `parseFloat`, `None` standing for `NaN`, which `JSON.stringify`
      writes as `null`. */
  function BudgetField(budget: string, parse: string -> Option<real>): (f: Field<real>)
    ensures f.Given? <==> budget != "" && parse(budget).Some?
    ensures f.Given? ==> f.value == parse(budget).value
    ensures !f.Given? ==> f.Null?
  {
    if budget == "" then Null
    else match parse(budget)
      case Some(x) => Given(x)
      case None => Null
  }

  /** `handleSave`: nothing is sent without a name; editing PUTs to the
      department's path and creating POSTs to the collection. */
  function Save(f: Form, editing: Option<string>, parse: string -> Option<real>): (r: Option<Request>)
    ensures r.None? <==> f.name == ""
    ensures r.Some? ==> (r.value.verb == Put <==> editing.Some?)
    ensures r.Some? && editing.Some? ==> r.value.path == "/departments/" + editing.value
    ensures r.Some? && editing.None? ==> r.value.path == "/departments"
    ensures r.Some? ==> r.value.body.avatar.Undefined? && r.value.body.name == Given(f.name)
  {
    if f.name == "" then None
    else
      var body := DepartmentsRoute.Body(Given(f.name), NullIfEmpty(f.description),
                                        BudgetField(f.budget, parse), NullIfEmpty(f.color), Undefined);
      match editing
      case Some(id) => Some(Request(Put, "/departments/" + id, body))
      case None => Some(Request(Post, "/departments", body))
  }

  /** A department created from the dialog has the form's name; the empty
      description and colour are stored as nothing, and the budget is
      stored exactly when it parses to a non-zero number. */
  lemma CreatedFromForm(f: Form, parse: string -> Option<real>, db: DepartmentsRoute.Db, id: string)
    requires id !in db.departments
    requires Save(f, None, parse).Some?
    requires DepartmentsRoute.Create(db, Save(f, None, parse).value.body, id).reply.Ok?
    ensures var d := DepartmentsRoute.Create(db, Save(f, None, parse).value.body, id).reply.value;
            && d.name == f.name
            && d.description == (if f.description == "" then None else Some(f.description))
            && d.color == (if f.color == "" then None else Some(f.color))
            && (d.budget.Some? <==> f.budget != "" && parse(f.budget).Some? && parse(f.budget).value != 0.0)
            && (d.budget.Some? ==> d.budget.value == parse(f.budget).value)
  {
  }

  /** Saving an edit writes every optional field: an emptied description,
      budget or colour clears it, and the avatar is left alone. */
  lemma EditWritesAll(d: DepartmentsRoute.Department, f: Form, parse: string -> Option<real>)
    requires Save(f, Some(d.id), parse).Some?
    ensures var p := DepartmentsRoute.Patch(d, Save(f, Some(d.id), parse).value.body);
            && p.name == f.name
            && (f.description == "" ==> p.description.None?)
            && (f.budget == "" ==> p.budget.None?)
            && (f.color == "" ==> p.color.None?)
            && p.avatar == d.avatar
  {
  }

  /** When `parse` reads back what `show` writes, saving the edit form of a
      department unchanged leaves it as it was (the route never stores an
      empty description or colour, nor a zero budget). */
  lemma UnchangedEditKeepsDepartment(d: DepartmentsRoute.Department, show: real -> string,
                                     parse: string -> Option<real>)
    requires d.name != ""
    requires d.description != Some("") && d.color != Some("")
    requires d.budget.Some? ==> d.budget.value != 0.0 && show(d.budget.value) != ""
                                && parse(show(d.budget.value)) == d.budget
    ensures Save(EditForm(d, show), Some(d.id), parse).Some?
    ensures DepartmentsRoute.Patch(d, Save(EditForm(d, show), Some(d.id), parse).value.body) == d
  {
  }
}

=== FILE: departments_route.dfy ===
/** `/api/departments`: the name-ordered listing with member and file
    counts, the single-department view, creation, partial update and
    deletion, over an in-memory department table keyed by id. */
module DepartmentsRoute {
  import opened Wrappers
  import opened Text
  import opened Requests
  import opened Ordering

  datatype Department = Department(
    id: string,
    name: string,
    description: Option<string>,
    budget: Option<real>,
    color: Option<string>,
    avatar: Option<string>)

  /** A user as the department view selects it. */
  datatype Member = Member(id: string, name: string, email: string, role: string, departmentId: Option<string>)

  datatype Db = Db(departments: map<string, Department>)

  datatype Outcome = Outcome(db: Db, reply: Reply<Department>)

  /** Names are unique across the table (the schema's unique index). */
  predicate UniqueNames(ds: map<string, Department>) {
    forall a, b :: a in ds && b in ds && ds[a].name == ds[b].name ==> a == b
  }

  predicate NameTaken(ds: map<string, Department>, name: string, except: string) {
    exists id :: id in ds && id != except && ds[id].name == name
  }

  // ---------------------------------------------------------------------------
  // GET /api/departments and GET /api/departments/:id
  // ---------------------------------------------------------------------------

  /** The number of rows whose department reference is `id`. */
  function CountIn(refs: seq<Option<string>>, id: string): (n: nat)
    ensures n <= |refs|
  {
    if |refs| == 0 then 0
    else CountIn(refs[..|refs| - 1], id) + (if refs[|refs| - 1] == Some(id) then 1 else 0)
  }

  function MemberRefs(users: seq<Member>): (r: seq<Option<string>>)
    ensures |r| == |users|
    ensures forall i :: 0 <= i < |users| ==> r[i] == users[i].departmentId
  {
    seq(|users|, i requires 0 <= i < |users| => users[i].departmentId)
  }

  /** A department as the listing and the single view report it. The
      reported budget is `budget ? Number(budget) : null` on the stored
      Decimal, which is an object and so truthy even when it is 0: every
      stored budget is reported, and only a missing one is null. */
  datatype Summary = Summary(department: Department, budget: Option<real>, memberCount: nat, fileCount: nat)

  function DepartmentName(d: Department): string {
    d.name
  }

  /** The listing: every department once, ordered by name ascending, with
      the numbers of users and files that refer to it. `fileRefs` holds the
      department reference of each file. */
  function List(rows: seq<Department>, users: seq<Member>, fileRefs: seq<Option<string>>): (r: seq<Summary>)
    ensures |r| == |rows|
    ensures forall i :: 0 <= i < |r| - 1 ==> LexLe(r[i].department.name, r[i + 1].department.name)
    ensures multiset(seq(|r|, i requires 0 <= i < |r| => r[i].department)) == multiset(rows)
    ensures forall i :: 0 <= i < |r| ==>
              r[i].memberCount == CountIn(MemberRefs(users), r[i].department.id)
              && r[i].fileCount == CountIn(fileRefs, r[i].department.id)
              && r[i].budget == r[i].department.budget
  {
    var sorted := SortBy(rows, DepartmentName);
    assert |sorted| == |multiset(sorted)| == |rows|;
    var r := seq(|sorted|, i requires 0 <= i < |sorted| =>
               Summary(sorted[i], sorted[i].budget,
                       CountIn(MemberRefs(users), sorted[i].id), CountIn(fileRefs, sorted[i].id)));
    assert seq(|r|, i requires 0 <= i < |r| => r[i].department) == sorted;
    r
  }

  /** The members of one department, in table order. */
  function MembersOf(users: seq<Member>, id: string): (r: seq<Member>)
    ensures |r| == CountIn(MemberRefs(users), id)
    ensures forall m :: m in r ==> m in users && m.departmentId == Some(id)
  {
    if |users| == 0 then []
    else
      assert MemberRefs(users[..|users| - 1]) == MemberRefs(users)[..|users| - 1];
      MembersOf(users[..|users| - 1], id)
        + (if users[|users| - 1].departmentId == Some(id) then [users[|users| - 1]] else [])
  }

  datatype Detail = Detail(summary: Summary, users: seq<Member>)

  /** The single-department view: at most ten of its members. */
  function Get(db: Db, id: string, users: seq<Member>, fileRefs: seq<Option<string>>): (r: Reply<Detail>)
    ensures r.Ok? <==> id in db.departments
    ensures r.Fail? ==> r.status == NOT_FOUND
    ensures r.Ok? ==> |r.value.users| <= 10 && r.value.summary.department == db.departments[id]
    ensures r.Ok? ==> forall m :: m in r.value.users ==> m in users && m.departmentId == Some(id)
    ensures r.Ok? ==> r.value.summary.memberCount == CountIn(MemberRefs(users), id)
    ensures r.Ok? ==> r.value.summary.budget == db.departments[id].budget
    ensures r.Ok? && r.value.summary.memberCount <= 10 ==> |r.value.users| == r.value.summary.memberCount
  {
    if id !in db.departments then Fail(NOT_FOUND, "Department not found")
    else
      var d := db.departments[id];
      var ms := MembersOf(users, id);
      var shown := ms[..Min(10, |ms|)];
      assert forall m :: m in shown ==> m in ms;
      Ok(Detail(Summary(d, d.budget, CountIn(MemberRefs(users), id), CountIn(fileRefs, id)), shown))
  }

  // ---------------------------------------------------------------------------
  // POST, PUT and DELETE /api/departments
  // ---------------------------------------------------------------------------

  datatype Body = Body(
    name: Field<string>,
    description: Field<string>,
    budget: Field<real>,
    color: Field<string>,
    avatar: Field<string>)

  /** `budget ? parseFloat(budget) : null`. */
  function BudgetOf(f: Field<real>): (r: Option<real>)
    ensures r.Some? <==> f.Given? && f.value != 0.0
  {
    if f.Given? && f.value != 0.0 then Some(f.value) else None
  }

  function Create(db: Db, b: Body, id: string): (o: Outcome)
    requires id !in db.departments
    ensures o.reply.Fail? ==> o.db == db
    ensures o.reply == Fail(BAD_REQUEST, "Name is required") <==> !Truthy(b.name)
    ensures o.reply.Ok? ==> o.db.departments == db.departments[id := o.reply.value]
    ensures o.reply.Ok? ==> (o.reply.value.budget.None? <==> !(b.budget.Given? && b.budget.value != 0.0))
    ensures o.reply.Ok? ==> (o.reply.value.description.None? <==> !Truthy(b.description))
  {
    if !Truthy(b.name) then Outcome(db, Fail(BAD_REQUEST, "Name is required"))
    else if NameTaken(db.departments, b.name.value, id) then
      Outcome(db, Fail(BAD_REQUEST, "Department name already exists"))
    else
      var d := Department(id, b.name.value, OrNull(b.description), BudgetOf(b.budget), OrNull(b.color), OrNull(b.avatar));
      Outcome(Db(db.departments[id := d]), Ok(d))
  }

  /** The spread-built `data` object applied to the stored department. */
  function Patch(d: Department, b: Body): (r: Department)
    ensures r.id == d.id
    ensures !Truthy(b.name) ==> r.name == d.name
    ensures Truthy(b.name) ==> r.name == b.name.value
    ensures b.description.Undefined? ==> r.description == d.description
    ensures !b.description.Undefined? ==> r.description == OrNull(b.description)
    ensures b.budget.Undefined? ==> r.budget == d.budget
    ensures !b.budget.Undefined? ==> r.budget == BudgetOf(b.budget)
    ensures b.color.Undefined? ==> r.color == d.color
    ensures !b.color.Undefined? ==> r.color == OrNull(b.color)
    ensures b.avatar.Undefined? ==> r.avatar == d.avatar
    ensures !b.avatar.Undefined? ==> r.avatar == OrNull(b.avatar)
  {
    Department(d.id, OrElse(b.name, d.name), SetIfDefined(b.description, d.description),
               if b.budget.Undefined? then d.budget else BudgetOf(b.budget),
               SetIfDefined(b.color, d.color), SetIfDefined(b.avatar, d.avatar))
  }

  function Update(db: Db, id: string, b: Body): (o: Outcome)
    ensures id !in db.departments ==> o == Outcome(db, Fail(NOT_FOUND, "Department not found"))
    ensures o.reply.Fail? ==> o.db == db
    ensures o.reply.Ok? ==> id in db.departments && o.reply.value == Patch(db.departments[id], b)
                            && o.db.departments == db.departments[id := o.reply.value]
  {
    if id !in db.departments then Outcome(db, Fail(NOT_FOUND, "Department not found"))
    else
      var d := Patch(db.departments[id], b);
      if NameTaken(db.departments, d.name, id) then Outcome(db, Fail(BAD_REQUEST, "Department name already exists"))
      else Outcome(Db(db.departments[id := d]), Ok(d))
  }

  function Delete(db: Db, id: string): (o: Outcome)
    ensures o.reply.Fail? <==> id !in db.departments
    ensures o.reply.Fail? ==> o.reply.status == NOT_FOUND && o.db == db
    ensures o.reply.Ok? ==> o.db.departments.Keys == db.departments.Keys - {id}
    ensures forall k :: k in o.db.departments ==> k in db.departments && o.db.departments[k] == db.departments[k]
  {
    if id !in db.departments then Outcome(db, Fail(NOT_FOUND, "Department not found"))
    else Outcome(Db(map k | k in db.departments && k != id :: db.departments[k]), Ok(db.departments[id]))
  }

  /** Creation and update keep department names unique. */
  lemma WritesPreserveUniqueNames(db: Db, b: Body, id: string)
    requires UniqueNames(db.departments)
    ensures id !in db.departments ==> UniqueNames(Create(db, b, id).db.departments)
    ensures UniqueNames(Update(db, id, b).db.departments)
  {
  }

  /** A budget of 0 is stored as null, on creation and on update alike. */
  lemma ZeroBudgetIsNull(db: Db, b: Body, id: string)
    requires b.budget == Given(0.0)
    ensures id !in db.departments && Create(db, b, id).reply.Ok? ==> Create(db, b, id).reply.value.budget.None?
    ensures Update(db, id, b).reply.Ok? ==> Update(db, id, b).reply.value.budget.None?
  {
  }
}

=== FILE: env_config.dfy ===
/** How the text-to-SQL service finds its database address: the environment
    variable, or failing that the `DATABASE_URL=` line of its `.env` file,
    read by hand; and the rewrite of a SQLAlchemy-style scheme into the one
    the PostgreSQL driver accepts. */
module EnvConfig {
  import opened Wrappers
  import opened Text

  const BOM: char := '\U{FEFF}'
  const KEY: string := "DATABASE_URL="
  const DRIVER_SCHEME: string := "postgresql+psycopg://"
  const PLAIN_SCHEME: string := "postgresql://"

  // ---------------------------------------------------------------------------
  // str.splitlines()
  // ---------------------------------------------------------------------------

  /** The characters Python's `str.splitlines` breaks at. */
  predicate LineBreak(c: char) {
    c == '\n' || c == '\r' || c == '\U{000B}' || c == '\U{000C}' || c == '\U{001C}' || c == '\U{001D}'
    || c == '\U{001E}' || c == '\U{0085}' || c == '\U{2028}' || c == '\U{2029}'
  }

  /** Index of the first line break in `s`, or `|s|`. */
  function LineEnd(s: string): (k: nat)
    ensures k <= |s|
    ensures k < |s| ==> LineBreak(s[k])
    ensures forall i :: 0 <= i < k ==> !LineBreak(s[i])
  {
    if |s| == 0 || LineBreak(s[0]) then 0 else 1 + LineEnd(s[1..])
  }

  /** `str.splitlines()`: the lines without their breaks, `\r\n` counting as
      one break, and no empty line after a final break. */
  function SplitLines(s: string): (lines: seq<string>)
    ensures forall l :: l in lines ==> forall i :: 0 <= i < |l| ==> !LineBreak(l[i])
    decreases |s|
  {
    if |s| == 0 then []
    else
      var k := LineEnd(s);
      if k == |s| then [s]
      else
        var width := if s[k] == '\r' && k + 1 < |s| && s[k + 1] == '\n' then 2 else 1;
        [s[..k]] + SplitLines(s[k + width..])
  }

  /** Joining lines with `\n` and splitting again gives them back, as long
      as the last one is not empty. */
  lemma {:induction false} SplitLinesJoin(lines: seq<string>)
    requires forall l :: l in lines ==> forall i :: 0 <= i < |l| ==> !LineBreak(l[i])
    requires |lines| > 0 ==> lines[|lines| - 1] != ""
    ensures SplitLines(Join(lines, '\n')) == lines
  {
    if |lines| == 1 {
      assert LineEnd(lines[0]) == |lines[0]|;
    } else if |lines| > 1 {
      var first := lines[0];
      var rest := Join(lines[1..], '\n');
      JoinCons(first, lines[1..], '\n');
      var s := first + "\n" + rest;
      assert s == Join(lines, '\n');
      LineEndOf(first, rest);
      assert s[..|first|] == first;
      assert lines[|lines| - 1] == lines[1..][|lines[1..]| - 1];
      assert forall l :: l in lines[1..] ==> l in lines;
      NonEmptyJoin(lines[1..]);
      assert s[|first| + 1..] == rest;
      SplitLinesJoin(lines[1..]);
      assert lines == [first] + lines[1..];
    }
  }

  lemma LineEndOf(first: string, rest: string)
    requires forall i :: 0 <= i < |first| ==> !LineBreak(first[i])
    ensures LineEnd(first + "\n" + rest) == |first|
  {
    if |first| > 0 {
      assert (first + "\n" + rest)[1..] == first[1..] + "\n" + rest;
      LineEndOf(first[1..], rest);
    }
  }

  /** The join of lines whose last is not empty does not start with a line
      feed directly followed by nothing, and is itself not empty. */
  lemma NonEmptyJoin(lines: seq<string>)
    requires |lines| > 0 && lines[|lines| - 1] != ""
    ensures Join(lines, '\n') != ""
  {
    if |lines| > 1 {
      JoinCons(lines[0], lines[1..], '\n');
    }
  }

  // ---------------------------------------------------------------------------
  // The hand-written reader of get_db_connection
  // ---------------------------------------------------------------------------

  /** A line after `strip()` and the removal of one leading byte-order mark. */
  function Clean(line: string): string {
    DropBom(PyStrip(line))
  }

  function DropBom(l: string): string {
    if |l| > 0 && l[0] == BOM then l[1..] else l
  }

  /** One pair of matching quotes is removed; a lone quote character counts
      as both ends and leaves nothing. */
  function Unquote(v: string): (r: string)
    ensures |r| <= |v|
    ensures (|v| >= 2 && ((v[0] == '"' && v[|v| - 1] == '"') || (v[0] == '\'' && v[|v| - 1] == '\''))) ==> r == v[1..|v| - 1]
    ensures (|v| == 0 || (v[0] != '"' && v[0] != '\'')) ==> r == v
  {
    if |v| > 0 && ((v[0] == '"' && v[|v| - 1] == '"') || (v[0] == '\'' && v[|v| - 1] == '\'')) then
      if |v| >= 2 then v[1..|v| - 1] else ""
    else v
  }

  /** The loop over the lines: blank and `#` lines are skipped, the first
      `DATABASE_URL=` line ends the search, and its value is what follows the
      first `=`, stripped and unquoted. */
  function Scan(lines: seq<string>): Option<string> {
    if |lines| == 0 then None
    else if Skipped(lines[0]) then Scan(lines[1..])
    else if Keyed(lines[0]) then Some(ValueOf(Clean(lines[0])))
    else Scan(lines[1..])
  }

  /** Whether a line, once cleaned, is blank or a comment. */
  predicate Skipped(line: string) {
    var l := Clean(line);
    l == "" || StartsWith(l, "#")
  }

  /** Whether a line, once cleaned, carries the key. */
  predicate Keyed(line: string) {
    StartsWith(Clean(line), KEY)
  }

  /** A keyed line is neither blank nor a comment. */
  lemma KeyedNotSkipped(line: string)
    requires Keyed(line)
    ensures !Skipped(line)
  {
    var l := Clean(line);
    assert l[0] == 'D';
  }

  /** What follows the first `=` of a keyed line, stripped. */
  function RawValueOf(line: string): string
    requires StartsWith(line, KEY)
  {
    PyStrip(line[|KEY|..])
  }

  /** What follows the first `=` of a keyed line, stripped and unquoted. */
  function ValueOf(line: string): string
    requires StartsWith(line, KEY)
  {
    Unquote(RawValueOf(line))
  }

  /** The value comes from the first line that carries the key. */
  lemma {:induction false} ScanFirst(lines: seq<string>, k: nat)
    requires k < |lines| && Keyed(lines[k])
    requires forall i :: 0 <= i < k ==> !Keyed(lines[i])
    ensures Scan(lines) == Some(ValueOf(Clean(lines[k])))
  {
    if k == 0 {
      ScanStep(lines);
    } else {
      var rest := lines[1..];
      calc {
        Scan(lines);
        { ScanStep(lines); }
        Scan(rest);
        { UnkeyedTail(lines, k); ScanFirst(rest, k - 1); }
        Some(ValueOf(Clean(rest[k - 1])));
        { assert rest[k - 1] == lines[k]; }
        Some(ValueOf(Clean(lines[k])));
      }
    }
  }

  lemma UnkeyedTail(lines: seq<string>, k: nat)
    requires 0 < k <= |lines|
    requires forall i :: 0 <= i < k ==> !Keyed(lines[i])
    ensures forall i :: 0 <= i < k - 1 ==> !Keyed(lines[1..][i])
  {
    forall i | 0 <= i < k - 1
      ensures !Keyed(lines[1..][i])
    {
      var j := i + 1;
      assert !Keyed(lines[j]);
    }
  }

  /** One step of the loop: a keyed first line decides, any other is passed over. */
  lemma ScanStep(lines: seq<string>)
    requires |lines| > 0
    ensures Keyed(lines[0]) ==> Scan(lines) == Some(ValueOf(Clean(lines[0])))
    ensures !Keyed(lines[0]) ==> Scan(lines) == Scan(lines[1..])
  {
    if Keyed(lines[0]) {
      KeyedNotSkipped(lines[0]);
    }
  }

  /** Without a keyed line there is no value. */
  lemma {:induction false} ScanNone(lines: seq<string>)
    requires forall i :: 0 <= i < |lines| ==> !Keyed(lines[i])
    ensures Scan(lines) == None
  {
    if |lines| > 0 {
      ScanStep(lines);
      assert !Keyed(lines[0]);
      assert forall i :: 0 <= i < |lines| - 1 ==> lines[1..][i] == lines[i + 1];
      ScanNone(lines[1..]);
    }
  }

  /** The loop run once at start-up when the variable is missing: no line is
      skipped as a comment and the value keeps its quotes. */
  function StartupScan(lines: seq<string>): Option<string> {
    if |lines| == 0 then None
    else if Keyed(lines[0]) then Some(RawValueOf(Clean(lines[0])))
    else StartupScan(lines[1..])
  }

  /** Both loops stop at the same line; the later one only differs by
      removing the quotes. */
  lemma {:induction false} StartupScanUnquoted(lines: seq<string>)
    ensures StartupScan(lines).None? <==> Scan(lines).None?
    ensures StartupScan(lines).Some? ==> Scan(lines) == Some(Unquote(StartupScan(lines).value))
  {
    if |lines| > 0 {
      ScanStep(lines);
      if !Keyed(lines[0]) {
        StartupScanUnquoted(lines[1..]);
      }
    }
  }

  /** The file's value, if it has the line. */
  function FileValue(content: string): Option<string> {
    Scan(SplitLines(content))
  }

  /** A file written as one `DATABASE_URL="..."` line gives back the value
      between the quotes. */
  lemma QuotedLineRoundTrip(url: string)
    requires Bare(url) && url[0] != '"' && url[0] != '\'' && url[|url| - 1] != '"'
    requires forall i :: 0 <= i < |url| ==> !LineBreak(url[i])
    ensures FileValue(KEY + "\"" + url + "\"") == Some(url)
  {
    var quoted := "\"" + url + "\"";
    calc {
      FileValue(KEY + "\"" + url + "\"");
      { assert KEY + "\"" + url + "\"" == KEY + quoted; }
      FileValue(KEY + quoted);
      { SingleLine(quoted); }
      Some(Unquote(PyStrip(quoted)));
      { StripBare(quoted); }
      Some(Unquote(quoted));
      { assert quoted[1..|quoted| - 1] == url; }
      Some(url);
    }
  }

  /** A file written as one unquoted `DATABASE_URL=...` line gives back the
      value as written. */
  lemma BareLineRoundTrip(url: string)
    requires Bare(url) && url[0] != '"' && url[0] != '\''
    requires forall i :: 0 <= i < |url| ==> !LineBreak(url[i])
    ensures FileValue(KEY + url) == Some(url)
  {
    calc {
      FileValue(KEY + url);
      { SingleLine(url); }
      Some(Unquote(PyStrip(url)));
      { StripBare(url); }
      Some(url);
    }
  }

  /** A file of one key line whose value has no breaks and does not end in
      white space yields that value, stripped and unquoted. */
  lemma SingleLine(v: string)
    requires |v| > 0 && !PyWhitespace(v[|v| - 1])
    requires forall i :: 0 <= i < |v| ==> !LineBreak(v[i])
    ensures FileValue(KEY + v) == Some(Unquote(PyStrip(v)))
  {
    var line := KEY + v;
    assert line[..|KEY|] == KEY;
    assert line[|line| - 1] == v[|v| - 1];
    assert forall i :: 0 <= i < |line| ==> !LineBreak(line[i]) by {
      forall i | 0 <= i < |line|
        ensures !LineBreak(line[i])
      {
        if i >= |KEY| {
          assert line[i] == v[i - |KEY|];
        }
      }
    }
    OneLine(line);
    ScanFirst([line], 0);
    assert line[|KEY|..] == v;
  }

  /** Not empty and without white space at either end. */
  predicate Bare(s: string) {
    |s| > 0 && !PyWhitespace(s[0]) && !PyWhitespace(s[|s| - 1])
  }

  lemma StripBare(s: string)
    requires Bare(s)
    ensures PyStrip(s) == s
  {
    TrimStartOfTrimmed(s, Python);
    TrimEndOfTrimmed(s, Python);
  }

  /** A line of a key and a bare value is a file of one line, kept whole. */
  lemma OneLine(line: string)
    requires StartsWith(line, KEY) && Bare(line)
    requires forall i :: 0 <= i < |line| ==> !LineBreak(line[i])
    ensures SplitLines(line) == [line]
    ensures Clean(line) == line
  {
    assert LineEnd(line) == |line|;
    StripBare(line);
  }

  /** Comment lines never supply the value, even when they mention the key. */
  lemma CommentsIgnored(comment: string, rest: seq<string>)
    requires StartsWith(Clean(comment), "#")
    ensures Scan([comment] + rest) == Scan(rest)
  {
    assert ([comment] + rest)[1..] == rest;
  }

  // ---------------------------------------------------------------------------
  // The address handed to the driver
  // ---------------------------------------------------------------------------

  /** `url.replace("postgresql+psycopg://", "postgresql://", 1)` behind a
      `startswith` check: only a leading driver scheme is rewritten. */
  function Rewrite(url: string): (r: string)
    ensures StartsWith(url, DRIVER_SCHEME) ==> r == PLAIN_SCHEME + url[|DRIVER_SCHEME|..]
    ensures !StartsWith(url, DRIVER_SCHEME) ==> r == url
  {
    if StartsWith(url, DRIVER_SCHEME) then PLAIN_SCHEME + url[|DRIVER_SCHEME|..] else url
  }

  /** The rewrite happens once: its output no longer starts with the driver
      scheme, so rewriting again changes nothing. */
  lemma RewriteOnce(url: string)
    ensures !StartsWith(Rewrite(url), DRIVER_SCHEME)
            || (!StartsWith(url, DRIVER_SCHEME) && Rewrite(url) == url)
    ensures Rewrite(Rewrite(url)) == Rewrite(url)
  {
    if StartsWith(url, DRIVER_SCHEME) {
      var r := Rewrite(url);
      assert r[10] == ':' && DRIVER_SCHEME[10] == '+';
    }
  }

  /** A second driver scheme further in is left alone. */
  lemma RewriteLeavesInnerScheme(rest: string)
    ensures Rewrite(DRIVER_SCHEME + DRIVER_SCHEME + rest) == PLAIN_SCHEME + DRIVER_SCHEME + rest
  {
    var url := DRIVER_SCHEME + DRIVER_SCHEME + rest;
    assert url[..|DRIVER_SCHEME|] == DRIVER_SCHEME;
    assert url[|DRIVER_SCHEME|..] == DRIVER_SCHEME + rest;
  }

  /** `get_db_connection()` up to the driver call. `env` is the variable as
      the process sees it (empty when unset), `reloaded` the variable after
      the `.env` file is loaded again, and `file` the file's text when it
      exists. The outcome is the address given to the driver, or the error
      raised when none was found; an empty value counts as none. */
  function ConnectionUrl(env: string, reloaded: string, file: Option<string>): (r: Option<string>)
    ensures r.None? <==> env == "" && reloaded == "" && (file.None? || FileValue(file.value) in {None, Some("")})
    ensures env != "" ==> r == Some(Rewrite(env))
    ensures env == "" && reloaded != "" ==> r == Some(Rewrite(reloaded))
  {
    var found :=
      if env != "" then env
      else if reloaded != "" then reloaded
      else if file.Some? then (match FileValue(file.value) case Some(v) => v case None => "")
      else "";
    if found == "" then None else Some(Rewrite(found))
  }

  /** With nothing in the environment, the file's value is used, quotes
      removed and scheme rewritten. */
  lemma FileFallback(url: string)
    requires Bare(url) && url[0] != '"' && url[0] != '\'' && url[|url| - 1] != '"'
    requires forall i :: 0 <= i < |url| ==> !LineBreak(url[i])
    ensures ConnectionUrl("", "", Some(KEY + "\"" + url + "\"")) == Some(Rewrite(url))
  {
    QuotedLineRoundTrip(url);
  }
}

=== FILE: files_page.dfy ===
/** The files page: the icon and colour of a file card, the search box's
    filter over the loaded files, and the upload request, read against the
    `/api/files` route. */
module FilesPage {
  import opened Wrappers
  import opened Text
  import opened Requests
  import FilesRoute

  // ---------------------------------------------------------------------------
  // Icon and colour
  // ---------------------------------------------------------------------------

  /** The emoji `getFileIcon` picks: document, memo, chart, picture, clip. */
  datatype Icon = PdfIcon | WordIcon | SheetIcon | ImageIcon | OtherIcon

  /** `getFileIcon`, on the lower-cased type. */
  function FileIcon(fileType: string): Icon {
    var t := Lower(fileType);
    if t == "pdf" then PdfIcon
    else if t in ["doc", "docx"] then WordIcon
    else if t in ["xls", "xlsx"] then SheetIcon
    else if t in ["jpg", "jpeg", "png", "gif"] then ImageIcon
    else OtherIcon
  }

  const RED := "bg-red-100 text-red-600"
  const BLUE := "bg-blue-100 text-blue-600"
  const GREEN := "bg-green-100 text-green-600"
  const GREY := "bg-gray-100 text-gray-600"

  /** `getFileColor`: the same groups as the icon, except that images have
      no colour of their own. */
  function FileColour(fileType: string): string {
    var t := Lower(fileType);
    if t == "pdf" then RED
    else if t in ["doc", "docx"] then BLUE
    else if t in ["xls", "xlsx"] then GREEN
    else GREY
  }

  /** The colour each icon group is shown in. */
  function IconColour(i: Icon): string {
    match i
    case PdfIcon => RED
    case WordIcon => BLUE
    case SheetIcon => GREEN
    case ImageIcon => GREY
    case OtherIcon => GREY
  }

  /** The colour is a function of the icon, grey exactly for pictures and
      unknown types, and both ignore letter case. */
  lemma ColourFollowsIcon(fileType: string, other: string)
    ensures FileColour(fileType) == IconColour(FileIcon(fileType))
    ensures FileColour(fileType) == GREY <==> FileIcon(fileType) in {ImageIcon, OtherIcon}
    ensures Lower(fileType) == Lower(other) ==>
              FileIcon(fileType) == FileIcon(other) && FileColour(fileType) == FileColour(other)
  {
  }

  /** Every type the upload route derives from a `.pdf`, `.DOCX`, … name
      gets the matching icon, whatever the case of the extension. */
  lemma UploadedTypeIcon(base: string, ext: string)
    requires base != "" && '.' !in ext
    requires '/' !in base && '/' !in ext
    ensures FileIcon(FilesRoute.FileType(base + "." + ext)) == FileIcon(ext)
  {
    FilesRoute.FileTypeOfExtension(base, ext);
    IconOfLowered(FilesRoute.FileType(base + "." + ext), ext);
  }

  /** A lower-cased type gets the icon of the type it came from. */
  lemma IconOfLowered(t: string, ext: string)
    requires t == Lower(ext)
    ensures FileIcon(t) == FileIcon(ext)
  {
    LowerIdempotent(ext);
  }

  // ---------------------------------------------------------------------------
  // Search box
  // ---------------------------------------------------------------------------

  /** The `filteredFiles` predicate: no search keeps everything; otherwise
      the name, the file name or the description must contain it, ignoring
      case (`file.description?.…` is `undefined`, so false, without one). */
  predicate Visible(f: FilesRoute.FileRecord, search: string) {
    search == ""
    || ContainsInsensitive(f.name, search)
    || ContainsInsensitive(f.fileName, search)
    || (f.description.Some? && ContainsInsensitive(f.description.value, search))
  }

  /** `files.filter(...)`. */
  function Filtered(files: seq<FilesRoute.FileRecord>, search: string): (r: seq<FilesRoute.FileRecord>)
    ensures |r| <= |files|
    ensures search == "" ==> r == files
  {
    if |files| == 0 then []
    else
      var init := Filtered(files[..|files| - 1], search);
      var last := files[|files| - 1];
      assert files == files[..|files| - 1] + [last];
      if Visible(last, search) then init + [last] else init
  }

  /** The page's filter is the route's search filter: a file passes one
      exactly when it passes the other, in the same order. */
  lemma {:induction false} PageFilterIsRouteSearch(files: seq<FilesRoute.FileRecord>, search: string)
    ensures Filtered(files, search) == FilesRoute.Filter(files, FilesRoute.ListQuery(search, "", "", None, None))
  {
    if |files| > 0 {
      PageFilterIsRouteSearch(files[..|files| - 1], search);
    }
  }

  /** Filtering the rows the route already filtered by the same search
      removes nothing more. */
  lemma {:induction false} FilterTwice(files: seq<FilesRoute.FileRecord>, search: string)
    ensures Filtered(Filtered(files, search), search) == Filtered(files, search)
  {
    if |files| > 0 {
      var init := Filtered(files[..|files| - 1], search);
      var last := files[|files| - 1];
      FilterTwice(files[..|files| - 1], search);
      if Visible(last, search) {
        var r := init + [last];
        assert r[..|r| - 1] == init;
      }
    }
  }

  // ---------------------------------------------------------------------------
  // Upload
  // ---------------------------------------------------------------------------

  datatype UploadForm = UploadForm(name: string, description: string, departmentId: string, tags: string)

  const EMPTY_UPLOAD: UploadForm := UploadForm("", "", "", "")

  /** `handleFileSelect`: choosing a file puts its name in the name box. */
  function Select(f: UploadForm, fileName: string): (r: UploadForm)
    ensures r.name == fileName
    ensures r.(name := f.name) == f
  {
    f.(name := fileName)
  }

  /** `handleUpload`: nothing is sent without a chosen file; the name falls
      back to the file's, the description is always sent, and the
      department and tags only when filled in. */
  function UploadBody(f: UploadForm, selected: Option<string>): (r: Option<FilesRoute.Body>)
    ensures r.None? <==> selected.None?
    ensures r.Some? ==> r.value.description == Given(f.description)
    ensures r.Some? ==> (r.value.departmentId.Given? <==> f.departmentId != "")
    ensures r.Some? ==> (r.value.tags.Given? <==> f.tags != "")
    ensures r.Some? ==> r.value.name == Given(if f.name != "" then f.name else selected.value)
  {
    match selected
    case None => None
    case Some(fileName) =>
      Some(FilesRoute.Body(
        Given(if f.name != "" then f.name else fileName),
        Given(f.description),
        if f.departmentId != "" then Given(f.departmentId) else Undefined,
        if f.tags != "" then Given(FilesRoute.TagText(f.tags)) else Undefined,
        Undefined))
  }

  /** What the route records for an upload from the page: the typed name or
      else the file's, nothing for an empty description or department, and
      tags that join back to the typed text. */
  lemma UploadedFromForm(f: UploadForm, u: FilesRoute.Upload, db: FilesRoute.Db, id: string)
    requires id !in db.files
    requires FilesRoute.Create(db, Some(u), UploadBody(f, Some(u.originalName)).value, id).reply.Ok?
    ensures var r := FilesRoute.Create(db, Some(u), UploadBody(f, Some(u.originalName)).value, id).reply.value;
            && r.name == (if f.name != "" then f.name else u.originalName)
            && r.description == (if f.description == "" then None else Some(f.description))
            && r.departmentId == (if f.departmentId == "" then None else Some(f.departmentId))
            && (f.tags == "" ==> r.tags == [])
            && (f.tags != "" ==> Join(r.tags, ',') == f.tags)
            && r.uploadedBy.None?
  {
    if f.tags != "" {
      FilesRoute.TagsRoundTrip(f.tags);
    }
  }
}

=== FILE: files_route.dfy ===
/** `/api/files`: the filtered listing, the upload that derives the record
    from the uploaded file's name, and deletion, over an in-memory file table
    keyed by id. */
module FilesRoute {
  import opened Wrappers
  import opened Text
  import opened Requests

  /** `limits: { fileSize: 50 * 1024 * 1024 }`. */
  const MAX_UPLOAD_BYTES: nat := 50 * 1024 * 1024

  datatype FileRecord = FileRecord(
    id: string,
    name: string,
    fileName: string,
    fileType: string,
    fileSize: nat,
    filePath: string,
    url: string,
    description: Option<string>,
    departmentId: Option<string>,
    tags: seq<string>,
    uploadedBy: Option<string>)

  datatype Db = Db(files: map<string, FileRecord>, departments: set<string>)

  datatype Outcome = Outcome(db: Db, reply: Reply<FileRecord>)

  // ---------------------------------------------------------------------------
  // File type
  // ---------------------------------------------------------------------------

  /** Index of the last `.` in `s`, or -1. */
  function LastDot(s: string): (p: int)
    ensures -1 <= p < |s|
    ensures p >= 0 ==> s[p] == '.'
    ensures forall k :: p < k < |s| ==> s[k] != '.'
  {
    if |s| == 0 then -1
    else if s[|s| - 1] == '.' then |s| - 1
    else LastDot(s[..|s| - 1])
  }

  /** `path.basename(name)`: the text after the last `/`, the whole name when
      it holds none. */
  function BaseName(name: string): (b: string)
    ensures '/' !in b
    ensures |b| <= |name| && b == name[|name| - |b|..]
    ensures |b| < |name| ==> name[|name| - |b| - 1] == '/'
    ensures '/' !in name ==> b == name
  {
    if |name| == 0 || name[|name| - 1] == '/' then ""
    else
      var init := name[..|name| - 1];
      var b := BaseName(init);
      assert init[|init| - |b|..] + [name[|name| - 1]] == name[|name| - |b| - 1..];
      assert |b| < |init| ==> init[|init| - |b| - 1] == name[|name| - |b| - 2];
      b + [name[|name| - 1]]
  }

  /** The type read off a base name: the lower-cased text after its last dot,
      and empty when it has no dot or the only candidate dot starts it
      (`.env`, `..`). */
  function ExtensionType(b: string): (t: string)
    ensures '.' !in t
    ensures '/' !in b ==> '/' !in t
    ensures |t| <= |b|
  {
    var p := LastDot(b);
    if p < 1 then ""
    else
      var ext := b[p + 1..];
      assert forall k :: 0 <= k < |ext| ==> ext[k] == b[p + 1 + k];
      Lower(ext)
  }

  /** `path.extname(name).slice(1).toLowerCase()`: the type of the base name. */
  function FileType(name: string): (t: string)
    ensures '.' !in t && '/' !in t
    ensures |t| <= |name|
    ensures '/' !in name ==> t == ExtensionType(name)
  {
    ExtensionType(BaseName(name))
  }

  /** Only the part after the last `/` decides the type. */
  lemma {:induction false} BaseNameAfterSlash(dir: string, name: string)
    requires '/' !in name
    ensures BaseName(dir + "/" + name) == name
  {
    var s := dir + "/" + name;
    if |name| == 0 {
      assert s[|s| - 1] == '/';
    } else {
      var init := name[..|name| - 1];
      assert s[..|s| - 1] == dir + "/" + init;
      BaseNameAfterSlash(dir, init);
      assert init + [name[|name| - 1]] == name;
    }
  }

  lemma FileTypeIgnoresDirectory(dir: string, name: string)
    requires '/' !in name
    ensures FileType(dir + "/" + name) == FileType(name)
  {
    BaseNameAfterSlash(dir, name);
  }

  /** A name with a base and an extension yields the lower-cased extension. */
  lemma FileTypeOfExtension(base: string, ext: string)
    requires base != "" && '.' !in ext
    requires '/' !in base && '/' !in ext
    ensures FileType(base + "." + ext) == Lower(ext)
  {
    assert '/' !in base + "." + ext;
    ExtensionTypeOf(base, ext);
  }

  lemma ExtensionTypeOf(base: string, ext: string)
    requires base != "" && '.' !in ext
    ensures ExtensionType(base + "." + ext) == Lower(ext)
  {
    var s := base + "." + ext;
    assert s[|base|] == '.';
    assert forall k :: |base| < k < |s| ==> s[k] == ext[k - |base| - 1];
    assert LastDot(s) == |base| by {
      LastDotAfter(s, |base|);
    }
    assert s[|base| + 1..] == ext;
  }

  lemma {:induction false} LastDotAfter(s: string, p: int)
    requires 0 <= p < |s| && s[p] == '.'
    requires forall k :: p < k < |s| ==> s[k] != '.'
    ensures LastDot(s) == p
  {
    if p < |s| - 1 {
      LastDotAfter(s[..|s| - 1], p);
    }
  }

  /** Without a dot there is no type. */
  lemma NoDotNoType(name: string)
    requires '.' !in name
    ensures FileType(name) == ""
  {
  }

  // ---------------------------------------------------------------------------
  // GET /api/files
  // ---------------------------------------------------------------------------

  /** The query string; an empty string stands for an absent parameter. */
  datatype ListQuery = ListQuery(
    search: string,
    fileType: string,
    departmentId: string,
    page: Option<int>,
    limit: Option<int>)

  /** The `where` object: search over name, file name or description (a null
      description never matches), then the exact filters. */
  predicate Matches(f: FileRecord, q: ListQuery) {
    (q.search == "" || ContainsInsensitive(f.name, q.search) || ContainsInsensitive(f.fileName, q.search)
     || (f.description.Some? && ContainsInsensitive(f.description.value, q.search)))
    && (q.fileType == "" || f.fileType == q.fileType)
    && (q.departmentId == "" || f.departmentId == Some(q.departmentId))
  }

  function Filter(rows: seq<FileRecord>, q: ListQuery): (r: seq<FileRecord>)
    ensures |r| <= |rows|
    ensures forall x :: x in r ==> x in rows && Matches(x, q)
    ensures forall x :: x in rows && Matches(x, q) ==> x in r
  {
    Where(rows, x => Matches(x, q))
  }

  /** The response: one page of the matching files and the page count, or the
      500 of the catch when the page number is below 1. */
  function List(rows: seq<FileRecord>, q: ListQuery): (r: Reply<Page<FileRecord>>)
    requires LimitParam(q.limit) >= 1
    ensures r.Fail? <==> PageParam(q.page) < 1
    ensures r.Fail? ==> r == Fail(SERVER_ERROR, "Failed to fetch files")
    ensures r.Ok? ==> r.value.rows == PageOf(Filter(rows, q), PageParam(q.page), LimitParam(q.limit))
    ensures r.Ok? ==> r.value.pagination.total == |Filter(rows, q)|
    ensures r.Ok? ==>
              r.value.pagination == Pagination(PageParam(q.page), LimitParam(q.limit), |Filter(rows, q)|, TotalPages(|Filter(rows, q)|, LimitParam(q.limit)))
    ensures r.Ok? ==> forall x :: x in r.value.rows ==> x in rows && Matches(x, q)
  {
    Paginate(Filter(rows, q), q.page, q.limit, "Failed to fetch files")
  }

  // ---------------------------------------------------------------------------
  // POST /api/files
  // ---------------------------------------------------------------------------

  /** What the upload middleware hands over: the client's file name, the
      name it stored the bytes under, the stored path and the size. */
  datatype Upload = Upload(originalName: string, storedName: string, path: string, size: nat)

  /** The `tags` form field: repeated fields arrive as a list, a single one as text. */
  datatype Tags = TagList(items: seq<string>) | TagText(text: string)

  datatype Body = Body(
    name: Field<string>,
    description: Field<string>,
    departmentId: Field<string>,
    tags: Field<Tags>,
    uploadedBy: Field<string>)

  /** `tags ? (Array.isArray(tags) ? tags : tags.split(',')) : []`. */
  function TagsOf(f: Field<Tags>): (r: seq<string>)
    ensures f.Given? && f.value.TagList? ==> r == f.value.items
    ensures f.Given? && f.value.TagText? && f.value.text != "" ==> r == Split(f.value.text, ',')
    ensures !f.Given? || f.value == TagText("") ==> r == []
  {
    if !f.Given? then []
    else match f.value
      case TagList(items) => items
      case TagText(text) => if text == "" then [] else Split(text, ',')
  }

  /** Text tags are split on every comma and not trimmed: joining them back
      with commas gives the submitted text. */
  lemma TagsRoundTrip(text: string)
    requires text != ""
    ensures Join(TagsOf(Given(TagText(text))), ',') == text
  {
    JoinSplit(text, ',');
  }

  /** The handler. `file` is absent when the request carried no file; `id`
      is the identifier the database assigns. */
  function Create(db: Db, file: Option<Upload>, b: Body, id: string): (o: Outcome)
    requires id !in db.files
    ensures o.reply.Fail? ==> o.db == db
    ensures file.None? ==> o.reply == Fail(BAD_REQUEST, "No file uploaded")
    ensures file.Some? && file.value.size > MAX_UPLOAD_BYTES ==> o.reply.Fail?
    ensures o.reply.Ok? ==> o.db.files == db.files[id := o.reply.value] && o.db.departments == db.departments
  {
    if file.None? then Outcome(db, Fail(BAD_REQUEST, "No file uploaded"))
    else if file.value.size > MAX_UPLOAD_BYTES then Outcome(db, Fail(SERVER_ERROR, "File too large"))
    else
      var u := file.value;
      var rec := FileRecord(
        id, OrElse(b.name, u.originalName), u.originalName, FileType(u.originalName), u.size, u.path,
        "/uploads/" + u.storedName, OrNull(b.description), OrNull(b.departmentId), TagsOf(b.tags),
        OrNull(b.uploadedBy));
      if rec.departmentId.Some? && rec.departmentId.value !in db.departments then
        Outcome(db, Fail(SERVER_ERROR, "Failed to upload file"))
      else Outcome(db.(files := db.files[id := rec]), Ok(rec))
  }

  /** What an accepted upload records about the file. */
  lemma UploadedRecord(db: Db, u: Upload, b: Body, id: string)
    requires id !in db.files
    requires Create(db, Some(u), b, id).reply.Ok?
    ensures var r := Create(db, Some(u), b, id).reply.value;
            && r.fileName == u.originalName
            && r.fileType == FileType(u.originalName)
            && (Truthy(b.name) ==> r.name == b.name.value)
            && (!Truthy(b.name) ==> r.name == u.originalName)
            && r.url == "/uploads/" + u.storedName
            && StartsWith(r.url, "/uploads/")
            && r.fileSize == u.size <= MAX_UPLOAD_BYTES
            && (!b.tags.Given? ==> r.tags == [])
  {
  }

  // ---------------------------------------------------------------------------
  // DELETE /api/files/:id
  // ---------------------------------------------------------------------------

  function Delete(db: Db, id: string): (o: Outcome)
    ensures o.reply.Fail? <==> id !in db.files
    ensures o.reply.Fail? ==> o.reply == Fail(NOT_FOUND, "File not found") && o.db == db
    ensures o.reply.Ok? ==> o.db.files.Keys == db.files.Keys - {id}
    ensures forall k :: k in o.db.files ==> k in db.files && o.db.files[k] == db.files[k]
  {
    if id !in db.files then Outcome(db, Fail(NOT_FOUND, "File not found"))
    else Outcome(db.(files := map k | k in db.files && k != id :: db.files[k]), Ok(db.files[id]))
  }

  /** Deleting twice: the second request finds nothing. */
  lemma DeleteTwice(db: Db, id: string)
    requires id in db.files
    ensures Delete(Delete(db, id).db, id).reply == Fail(NOT_FOUND, "File not found")
  {
  }
}

=== FILE: grouping.dfy ===
/** Grouping by a string key the way a JavaScript `Map` (or a plain object
    with non-numeric keys) does it: entries are added in order, a key's group
    is created on first use and keeps its position, and the groups come out
    in insertion order. */
module Grouping {

  /** One grouped item: its key and the amount it adds. */
  datatype Entry = Entry(key: string, amount: real)

  datatype KeyTotal = KeyTotal(key: string, count: nat, total: real)

  // ---------------------------------------------------------------------------
  // Reference definitions
  // ---------------------------------------------------------------------------

  function CountOf(es: seq<Entry>, s: string): nat {
    if |es| == 0 then 0
    else CountOf(es[..|es| - 1], s) + (if es[|es| - 1].key == s then 1 else 0)
  }

  function TotalOf(es: seq<Entry>, s: string): real {
    if |es| == 0 then 0.0
    else TotalOf(es[..|es| - 1], s) + (if es[|es| - 1].key == s then es[|es| - 1].amount else 0.0)
  }

  /** Index of the first entry with key `s`, or `|es|` when there is none. */
  function FirstIndex(es: seq<Entry>, s: string): (f: nat)
    ensures f <= |es|
    ensures f < |es| ==> es[f].key == s
    ensures forall k :: 0 <= k < f ==> es[k].key != s
  {
    if |es| == 0 then 0
    else
      var init := es[..|es| - 1];
      var f := FirstIndex(init, s);
      if f < |init| then f
      else if es[|es| - 1].key == s then |init|
      else |es|
  }

  // ---------------------------------------------------------------------------
  // The grouping
  // ---------------------------------------------------------------------------

  /** Position of key `s` among the groups, or `|gs|`. */
  function Find(gs: seq<KeyTotal>, s: string): (i: nat)
    ensures i <= |gs|
    ensures i < |gs| ==> gs[i].key == s
    ensures i == |gs| ==> forall k :: 0 <= k < |gs| ==> gs[k].key != s
  {
    if |gs| == 0 then 0
    else if gs[0].key == s then 0
    else 1 + Find(gs[1..], s)
  }

  predicate DistinctKeys(gs: seq<KeyTotal>) {
    forall i, j :: 0 <= i < j < |gs| ==> gs[i].key != gs[j].key
  }

  /** `map.set(key, { count: current.count + 1, total: current.total + amount })`
      for each entry in turn, then the map's entries in insertion order. */
  function GroupByKey(es: seq<Entry>): (gs: seq<KeyTotal>)
    ensures |gs| <= |es|
  {
    if |es| == 0 then []
    else
      var init := es[..|es| - 1];
      var e := es[|es| - 1];
      var g := GroupByKey(init);
      var i := Find(g, e.key);
      if i < |g| then g[i := KeyTotal(e.key, g[i].count + 1, g[i].total + e.amount)]
      else g + [KeyTotal(e.key, 1, e.amount)]
  }

  /** A key has a group exactly when some entry carries it. */
  lemma {:induction false} GroupMembership(es: seq<Entry>, s: string)
    ensures Find(GroupByKey(es), s) < |GroupByKey(es)| <==> FirstIndex(es, s) < |es|
  {
    if |es| > 0 {
      var init := es[..|es| - 1];
      var e := es[|es| - 1];
      var g := GroupByKey(init);
      var gs := GroupByKey(es);
      GroupMembership(init, s);
      GroupMembership(init, e.key);
      var i := Find(g, e.key);
      if i < |g| {
        assert forall k :: 0 <= k < |g| ==> gs[k].key == g[k].key;
        FindSameKeys(g, gs, s);
      } else {
        FindAppend(g, gs[|g|], s);
      }
    }
  }

  /** Every group's key is carried by some entry. */
  lemma GroupKeyOccurs(es: seq<Entry>, k: int)
    requires 0 <= k < |GroupByKey(es)|
    ensures FirstIndex(es, GroupByKey(es)[k].key) < |es|
  {
    GroupMembership(es, GroupByKey(es)[k].key);
  }

  /** No key has two groups. */
  lemma {:induction false} GroupDistinct(es: seq<Entry>)
    ensures DistinctKeys(GroupByKey(es))
  {
    if |es| > 0 {
      var init := es[..|es| - 1];
      var e := es[|es| - 1];
      var g := GroupByKey(init);
      var gs := GroupByKey(es);
      GroupDistinct(init);
      var i := Find(g, e.key);
      if i < |g| {
        assert forall k :: 0 <= k < |g| ==> gs[k].key == g[k].key;
      }
    }
  }

  lemma {:induction false} AbsentNotCounted(es: seq<Entry>, s: string)
    requires FirstIndex(es, s) == |es|
    ensures CountOf(es, s) == 0 && TotalOf(es, s) == 0.0
  {
    if |es| > 0 {
      AbsentNotCounted(es[..|es| - 1], s);
    }
  }

  /** Each group holds the number of entries with its key and the sum of
      their amounts. */
  lemma {:induction false} GroupCounts(es: seq<Entry>, k: int)
    requires 0 <= k < |GroupByKey(es)|
    ensures GroupByKey(es)[k].count == CountOf(es, GroupByKey(es)[k].key)
    ensures GroupByKey(es)[k].total == TotalOf(es, GroupByKey(es)[k].key)
  {
    var init := es[..|es| - 1];
    var e := es[|es| - 1];
    var g := GroupByKey(init);
    var gs := GroupByKey(es);
    var i := Find(g, e.key);
    if k < |g| {
      GroupCounts(init, k);
    }
    if i < |g| {
      GroupDistinct(init);
    } else if k == |g| {
      GroupMembership(init, e.key);
      AbsentNotCounted(init, e.key);
    }
  }

  /** Groups come out in the order their keys first occur. */
  lemma {:induction false} GroupOrder(es: seq<Entry>, i: int, j: int)
    requires 0 <= i < j < |GroupByKey(es)|
    ensures FirstIndex(es, GroupByKey(es)[i].key) < FirstIndex(es, GroupByKey(es)[j].key)
  {
    var init := es[..|es| - 1];
    var e := es[|es| - 1];
    var g := GroupByKey(init);
    var gs := GroupByKey(es);
    var f := Find(g, e.key);
    if f < |g| {
      assert gs[i].key == g[i].key && gs[j].key == g[j].key;
      GroupOrder(init, i, j);
      GroupKeyOccurs(init, i);
      GroupKeyOccurs(init, j);
    } else if j < |g| {
      GroupOrder(init, i, j);
      GroupKeyOccurs(init, i);
      GroupKeyOccurs(init, j);
    } else {
      GroupKeyOccurs(init, i);
      GroupMembership(init, e.key);
    }
  }

  lemma {:induction false} FindSameKeys(a: seq<KeyTotal>, b: seq<KeyTotal>, s: string)
    requires |a| == |b|
    requires forall k :: 0 <= k < |a| ==> a[k].key == b[k].key
    ensures Find(a, s) == Find(b, s)
  {
    if |a| > 0 && a[0].key != s {
      FindSameKeys(a[1..], b[1..], s);
    }
  }

  lemma {:induction false} FindAppend(a: seq<KeyTotal>, x: KeyTotal, s: string)
    ensures Find(a + [x], s) == if Find(a, s) < |a| then Find(a, s) else if x.key == s then |a| else |a| + 1
  {
    if |a| > 0 && a[0].key != s {
      assert (a + [x])[1..] == a[1..] + [x];
      FindAppend(a[1..], x, s);
    }
  }

  function CountSum(gs: seq<KeyTotal>): nat {
    if |gs| == 0 then 0 else CountSum(gs[..|gs| - 1]) + gs[|gs| - 1].count
  }

  lemma {:induction false} CountSumUpdate(gs: seq<KeyTotal>, i: int, g: KeyTotal)
    requires 0 <= i < |gs|
    ensures CountSum(gs[i := g]) == CountSum(gs) - gs[i].count + g.count
  {
    if i < |gs| - 1 {
      CountSumUpdate(gs[..|gs| - 1], i, g);
      assert gs[i := g][..|gs| - 1] == gs[..|gs| - 1][i := g];
    } else {
      assert gs[i := g][..|gs| - 1] == gs[..|gs| - 1];
    }
  }

  /** Every entry is counted exactly once: the counts add up to the number
      of entries. */
  lemma {:induction false} CountsAddUp(es: seq<Entry>)
    ensures CountSum(GroupByKey(es)) == |es|
  {
    if |es| > 0 {
      var init := es[..|es| - 1];
      var e := es[|es| - 1];
      CountsAddUp(init);
      var g := GroupByKey(init);
      var i := Find(g, e.key);
      if i < |g| {
        CountSumUpdate(g, i, KeyTotal(e.key, g[i].count + 1, g[i].total + e.amount));
      } else {
        assert (g + [KeyTotal(e.key, 1, e.amount)])[..|g|] == g;
      }
    }
  }

  function AmountSum(es: seq<Entry>): real {
    if |es| == 0 then 0.0 else AmountSum(es[..|es| - 1]) + es[|es| - 1].amount
  }

  function TotalSum(gs: seq<KeyTotal>): real {
    if |gs| == 0 then 0.0 else TotalSum(gs[..|gs| - 1]) + gs[|gs| - 1].total
  }

  lemma {:induction false} TotalSumUpdate(gs: seq<KeyTotal>, i: int, g: KeyTotal)
    requires 0 <= i < |gs|
    ensures TotalSum(gs[i := g]) == TotalSum(gs) - gs[i].total + g.total
  {
    if i < |gs| - 1 {
      TotalSumUpdate(gs[..|gs| - 1], i, g);
      assert gs[i := g][..|gs| - 1] == gs[..|gs| - 1][i := g];
    } else {
      assert gs[i := g][..|gs| - 1] == gs[..|gs| - 1];
    }
  }

  /** Conservation: the group totals add up to the sum of all amounts. */
  lemma {:induction false} TotalsAddUp(es: seq<Entry>)
    ensures TotalSum(GroupByKey(es)) == AmountSum(es)
  {
    if |es| > 0 {
      var init := es[..|es| - 1];
      var e := es[|es| - 1];
      TotalsAddUp(init);
      var g := GroupByKey(init);
      var i := Find(g, e.key);
      if i < |g| {
        TotalSumUpdate(g, i, KeyTotal(e.key, g[i].count + 1, g[i].total + e.amount));
      } else {
        assert (g + [KeyTotal(e.key, 1, e.amount)])[..|g|] == g;
      }
    }
  }
}

=== FILE: invoice_page.dfy ===
/** The invoice page: the CSV file `handleExport` writes, the records
    `handleImport` reads back from such a file, and the request
    `handleCreateInvoice` builds from the form, with its 19% tax default. */
module InvoicePage {
  import opened Wrappers
  import opened Text

  // ---------------------------------------------------------------------------
  // Export
  // ---------------------------------------------------------------------------

  /** An invoice as the listing returns it; dates are ISO texts. */
  datatype Listed = Listed(
    invoiceNumber: string,
    vendor: string,
    customerName: Option<string>,
    issueDate: string,
    dueDate: Option<string>,
    status: string,
    total: real,
    currency: string)

  const HEADERS: seq<string> := ["Invoice Number", "Vendor", "Customer", "Issue Date", "Due Date", "Status", "Total", "Currency"]

  /** `s.split("T")[0]`: the date part of an ISO text. */
  function DatePart(s: string): (r: string)
    ensures 'T' !in r
  {
    var parts := Split(s, 'T');
    assert parts[0] in parts;
    parts[0]
  }

  /** The eight cells of an invoice's row. `show` renders the total as
      `Number.prototype.toString` does. */
  function Cells(inv: Listed, show: real -> string): (r: seq<string>)
    ensures |r| == |HEADERS|
  {
    [inv.invoiceNumber, inv.vendor, inv.customerName.GetOr(""), DatePart(inv.issueDate),
     match inv.dueDate case None => "" case Some(d) => DatePart(d),
     inv.status, show(inv.total), inv.currency]
  }

  function Quoted(cell: string): string {
    "\"" + cell + "\""
  }

  function QuoteAll(cells: seq<string>): (r: seq<string>)
    ensures |r| == |cells|
    ensures forall i :: 0 <= i < |cells| ==> r[i] == Quoted(cells[i])
  {
    if |cells| == 0 then [] else [Quoted(cells[0])] + QuoteAll(cells[1..])
  }

  /** A data row: every cell wrapped in quotes, with no escaping, joined by commas. */
  function RowText(cells: seq<string>): string {
    Join(QuoteAll(cells), ',')
  }

  function RowTexts(invs: seq<Listed>, show: real -> string): (r: seq<string>)
    ensures |r| == |invs|
    ensures forall i :: 0 <= i < |invs| ==> r[i] == RowText(Cells(invs[i], show))
  {
    if |invs| == 0 then [] else [RowText(Cells(invs[0], show))] + RowTexts(invs[1..], show)
  }

  /** The file: the unquoted header row, then one row per invoice, joined by
      line breaks with none after the last. */
  function Export(invs: seq<Listed>, show: real -> string): string {
    Document(HEADERS, invs, show)
  }

  function Document(headers: seq<string>, invs: seq<Listed>, show: real -> string): string {
    Join([Join(headers, ',')] + RowTexts(invs, show), '\n')
  }

  // ---------------------------------------------------------------------------
  // Import
  // ---------------------------------------------------------------------------

  /** `s.replace(/"/g, "")`. */
  function Unquoted(s: string): (r: string)
    ensures '"' !in r
    ensures '"' !in s ==> r == s
  {
    if |s| == 0 then ""
    else if s[0] == '"' then Unquoted(s[1..])
    else [s[0]] + Unquoted(s[1..])
  }

  /** `s.replace(/\s+/g, "")`. */
  function WithoutBlanks(s: string): (r: string)
    ensures forall i :: 0 <= i < |r| ==> !JsWhitespace(r[i])
  {
    if |s| == 0 then ""
    else if JsWhitespace(s[0]) then WithoutBlanks(s[1..])
    else [s[0]] + WithoutBlanks(s[1..])
  }

  /** `v.trim().replace(/"/g, "")`, applied to headers and values alike. */
  function CleanCell(s: string): string {
    Unquoted(JsTrim(s))
  }

  function CleanAll(parts: seq<string>): (r: seq<string>)
    ensures |r| == |parts|
    ensures forall i :: 0 <= i < |parts| ==> r[i] == CleanCell(parts[i])
  {
    if |parts| == 0 then [] else [CleanCell(parts[0])] + CleanAll(parts[1..])
  }

  /** `header.toLowerCase().replace(/\s+/g, "")`. */
  function KeyOf(header: string): string {
    WithoutBlanks(Lower(header))
  }

  /** `values[index]`, `undefined` past the end. */
  function At(values: seq<string>, i: nat): Option<string> {
    if i < |values| then Some(values[i]) else None
  }

  /** The object built by `headers.forEach`: each header's key gets the
      value at its position, a later header with the same key overwriting
      an earlier one. */
  function Record(headers: seq<string>, values: seq<string>): map<string, Option<string>> {
    if |headers| == 0 then map[]
    else
      var n := |headers| - 1;
      Record(headers[..n], values)[KeyOf(headers[n]) := At(values, n)]
  }

  /** One record per line: split on every comma, each value cleaned. */
  function Records(headers: seq<string>, lines: seq<string>): (r: seq<map<string, Option<string>>>)
    ensures |r| == |lines|
  {
    seq(|lines|, i requires 0 <= i < |lines| => Record(headers, CleanAll(Split(lines[i], ','))))
  }

  /** The imported records: the first line names the fields, every further
      line, an empty last one included, is a record. */
  function Import(text: string): (r: seq<map<string, Option<string>>>)
    ensures |r| == |Split(text, '\n')| - 1
  {
    var lines := Split(text, '\n');
    Records(CleanAll(Split(lines[0], ',')), lines[1..])
  }

  // ---------------------------------------------------------------------------
  // Export followed by import
  // ---------------------------------------------------------------------------

  /** A cell the file carries unchanged: no comma, quote or line break.
      White space at its ends survives, because the trim of an imported
      value stops at the quotes around it. */
  predicate Plain(cell: string) {
    ',' !in cell && '"' !in cell && '\n' !in cell
  }

  /** Importing an exported file gives one record per invoice, built from
      the header names and exactly that invoice's cells, as long as every
      cell is plain. */
  lemma ExportImport(invs: seq<Listed>, show: real -> string)
    requires forall i, j :: 0 <= i < |invs| && 0 <= j < |HEADERS| ==> Plain(Cells(invs[i], show)[j])
    ensures var rs := Import(Export(invs, show));
      && |rs| == |invs|
      && forall i :: 0 <= i < |invs| ==> rs[i] == Record(HEADERS, Cells(invs[i], show))
  {
    HeaderCells();
    DocumentImport(HEADERS, invs, show);
  }

  /** The same for any header row of bare names. */
  lemma DocumentImport(headers: seq<string>, invs: seq<Listed>, show: real -> string)
    requires Bare(headers)
    requires forall i, j :: 0 <= i < |invs| && 0 <= j < |HEADERS| ==> Plain(Cells(invs[i], show)[j])
    ensures var rs := Import(Document(headers, invs, show));
      && |rs| == |invs|
      && forall i :: 0 <= i < |invs| ==> rs[i] == Record(headers, Cells(invs[i], show))
  {
    var header := Join(headers, ',');
    var rows := RowTexts(invs, show);
    RowsReadBack(invs, show);
    BareRow(headers);
    calc {
      Import(Document(headers, invs, show));
      { ImportLines(header, rows); }
      Records(CleanAll(Split(header, ',')), rows);
      Records(headers, rows);
    }
    RecordsOfRows(headers, invs, show);
  }

  /** The record of each exported row holds that invoice's cells. */
  lemma RecordsOfRows(headers: seq<string>, invs: seq<Listed>, show: real -> string)
    requires forall i, j :: 0 <= i < |invs| && 0 <= j < |HEADERS| ==> Plain(Cells(invs[i], show)[j])
    ensures var rs := Records(headers, RowTexts(invs, show));
      forall i :: 0 <= i < |invs| ==> rs[i] == Record(headers, Cells(invs[i], show))
  {
    RowsReadBack(invs, show);
  }

  lemma RowsReadBack(invs: seq<Listed>, show: real -> string)
    requires forall i, j :: 0 <= i < |invs| && 0 <= j < |HEADERS| ==> Plain(Cells(invs[i], show)[j])
    ensures forall i :: 0 <= i < |invs| ==> '\n' !in RowTexts(invs, show)[i]
    ensures forall i :: 0 <= i < |invs| ==> CleanAll(Split(RowTexts(invs, show)[i], ',')) == Cells(invs[i], show)
  {
    forall i | 0 <= i < |invs|
      ensures '\n' !in RowTexts(invs, show)[i]
      ensures CleanAll(Split(RowTexts(invs, show)[i], ',')) == Cells(invs[i], show)
    {
      RowNoBreak(Cells(invs[i], show));
      RowReadBack(Cells(invs[i], show));
    }
  }

  /** A file of break-free lines is read as its first line's fields and its
      further lines' records. */
  lemma ImportLines(header: string, rows: seq<string>)
    requires '\n' !in header
    requires forall i :: 0 <= i < |rows| ==> '\n' !in rows[i]
    ensures Import(Join([header] + rows, '\n')) == Records(CleanAll(Split(header, ',')), rows)
  {
    var lines := [header] + rows;
    forall p | p in lines
      ensures '\n' !in p
    {
      var k :| 0 <= k < |lines| && lines[k] == p;
      if k > 0 {
        assert lines[k] == rows[k - 1];
      }
    }
    SplitJoin(lines, '\n');
    assert lines[1..] == rows;
  }

  /** The header names are bare. */
  lemma HeaderCells()
    ensures Bare(HEADERS)
  {
    assert forall j :: 0 <= j < |HEADERS| ==> Plain(HEADERS[j]);
    assert forall j :: 0 <= j < |HEADERS| ==>
      |HEADERS[j]| > 0 && !JsWhitespace(HEADERS[j][0]) && !JsWhitespace(HEADERS[j][|HEADERS[j]| - 1]);
  }

  /** Names a row can carry without quotes: plain, not empty, and without
      white space at either end. */
  predicate Bare(cells: seq<string>) {
    && |cells| > 0
    && (forall j :: 0 <= j < |cells| ==> Plain(cells[j]))
    && forall j :: 0 <= j < |cells| ==>
         |cells[j]| > 0 && !JsWhitespace(cells[j][0]) && !JsWhitespace(cells[j][|cells[j]| - 1])
  }

  /** A row of plain, trimmed, unquoted cells reads back as its cells. */
  lemma BareRow(cells: seq<string>)
    requires Bare(cells)
    ensures '\n' !in Join(cells, ',')
    ensures CleanAll(Split(Join(cells, ','), ',')) == cells
  {
    forall p | p in cells
      ensures ',' !in p && '\n' !in p
    {
      var j :| 0 <= j < |cells| && cells[j] == p;
      assert Plain(cells[j]);
    }
    JoinAvoids(cells, ',', '\n');
    SplitJoin(cells, ',');
    forall j | 0 <= j < |cells|
      ensures CleanCell(cells[j]) == cells[j]
    {
      TrimmedWord(cells[j]);
    }
  }

  /** Trimming leaves a text alone whose ends are not white space. */
  lemma TrimmedWord(s: string)
    requires |s| > 0 && !JsWhitespace(s[0]) && !JsWhitespace(s[|s| - 1])
    ensures JsTrim(s) == s
  {
    TrimStartOfTrimmed(s, JavaScript);
    TrimEndOfTrimmed(s, JavaScript);
  }

  lemma RowNoBreak(cells: seq<string>)
    requires forall j :: 0 <= j < |cells| ==> Plain(cells[j])
    ensures '\n' !in RowText(cells)
  {
    var quoted := QuoteAll(cells);
    forall p | p in quoted
      ensures '\n' !in p
    {
      var j :| 0 <= j < |quoted| && quoted[j] == p;
      assert '\n' !in cells[j];
    }
    JoinAvoids(quoted, ',', '\n');
  }

  /** A row of plain cells reads back as its cells. */
  lemma RowReadBack(cells: seq<string>)
    requires |cells| > 0
    requires forall j :: 0 <= j < |cells| ==> Plain(cells[j])
    ensures CleanAll(Split(RowText(cells), ',')) == cells
  {
    var quoted := QuoteAll(cells);
    assert forall p :: p in quoted ==> ',' !in p;
    SplitJoin(quoted, ',');
    forall j | 0 <= j < |cells|
      ensures CleanCell(quoted[j]) == cells[j]
    {
      QuotedCell(cells[j]);
    }
  }

  /** A quoted cell without quotes of its own reads back as the cell. */
  lemma QuotedCell(c: string)
    requires '"' !in c
    ensures CleanCell(Quoted(c)) == c
  {
    var q := Quoted(c);
    TrimmedWord(q);
    calc {
      Unquoted(q);
      { assert q[0] == '"' && q[1..] == c + "\""; }
      Unquoted(c + "\"");
      { UnquotedAppend(c, "\""); }
      c + Unquoted("\"");
      { assert Unquoted("\"") == ""; }
      c;
    }
  }

  lemma {:induction false} UnquotedAppend(a: string, b: string)
    ensures Unquoted(a + b) == Unquoted(a) + Unquoted(b)
  {
    if |a| > 0 {
      assert (a + b)[1..] == a[1..] + b;
      UnquotedAppend(a[1..], b);
    } else {
      assert a + b == b;
    }
  }

  /** With distinct keys, each header's field holds the value at its position. */
  lemma {:induction false} RecordValues(headers: seq<string>, values: seq<string>)
    requires |values| >= |headers|
    requires forall i, j :: 0 <= i < j < |headers| ==> KeyOf(headers[i]) != KeyOf(headers[j])
    ensures forall i :: 0 <= i < |headers| ==>
              KeyOf(headers[i]) in Record(headers, values) && Record(headers, values)[KeyOf(headers[i])] == Some(values[i])
  {
    if |headers| > 0 {
      var n := |headers| - 1;
      var front := headers[..n];
      RecordValues(front, values);
      forall i | 0 <= i < |headers|
        ensures KeyOf(headers[i]) in Record(headers, values) && Record(headers, values)[KeyOf(headers[i])] == Some(values[i])
      {
        if i < n {
          assert front[i] == headers[i];
        }
      }
    }
  }

  // ---------------------------------------------------------------------------
  // Creating an invoice
  // ---------------------------------------------------------------------------

  /** The form's text fields. */
  datatype Form = Form(
    invoiceNumber: string,
    vendorId: string,
    customerName: string,
    issueDate: string,
    dueDate: string,
    status: string,
    subtotal: string,
    tax: string,
    currency: string)

  /** The form as first shown and as reset after a creation; `today` is the
      date part of the current time. */
  function EmptyForm(today: string): (f: Form)
    ensures f.status == "pending" && f.currency == "EUR" && f.issueDate == today
    ensures f.invoiceNumber == "" && f.subtotal == "" && f.tax == ""
  {
    Form("", "", "", today, "", "pending", "", "", "EUR")
  }

  /** The JSON body sent; a number that is `NaN` is sent as `null`, here
      `None`. */
  datatype Payload = Payload(
    invoiceNumber: string,
    vendorId: string,
    customerName: string,
    issueDate: string,
    dueDate: Option<string>,
    status: string,
    subtotal: Option<real>,
    tax: Option<real>,
    total: Option<real>,
    currency: string)

  const TAX_RATE: real := 0.19

  /** `parseFloat(tax) || subtotal * 0.19`: a missing, unparsable or zero tax
      falls back to 19% of the subtotal. `None` stands for `NaN`. */
  function Tax(parsedTax: Option<real>, subtotal: Option<real>): Option<real> {
    if parsedTax.Some? && parsedTax.value != 0.0 then parsedTax
    else if subtotal.Some? then Some(subtotal.value * TAX_RATE)
    else None
  }

  /** `handleCreateInvoice` up to the request: nothing without a number, a
      vendor and a subtotal; otherwise the body with the derived tax and
      total. `parse` stands for `parseFloat`, with `None` for `NaN`. */
  function CreateRequest(f: Form, parse: string -> Option<real>): (r: Option<Payload>)
    ensures r.None? <==> f.invoiceNumber == "" || f.vendorId == "" || f.subtotal == ""
    ensures r.Some? ==>
              && r.value.invoiceNumber == f.invoiceNumber && r.value.vendorId == f.vendorId
              && r.value.subtotal == parse(f.subtotal)
              && (r.value.dueDate.None? <==> f.dueDate == "")
  {
    if f.invoiceNumber == "" || f.vendorId == "" || f.subtotal == "" then None
    else
      var subtotal := parse(f.subtotal);
      var tax := Tax(parse(f.tax), subtotal);
      var total := if subtotal.Some? && tax.Some? then Some(subtotal.value + tax.value) else None;
      Some(Payload(f.invoiceNumber, f.vendorId, f.customerName, f.issueDate,
                   if f.dueDate == "" then None else Some(f.dueDate),
                   f.status, subtotal, tax, total, f.currency))
  }

  /** The tax sent is the one typed when it parses to a non-zero number, and
      19% of the subtotal otherwise; the total is always subtotal plus tax,
      so a form without tax is sent at 119% of its subtotal. */
  lemma TaxRule(f: Form, parse: string -> Option<real>, subtotal: real)
    requires f.invoiceNumber != "" && f.vendorId != "" && f.subtotal != ""
    requires parse(f.subtotal) == Some(subtotal)
    ensures var p := CreateRequest(f, parse).value;
      && p.tax.Some? && p.total == Some(subtotal + p.tax.value)
      && (parse(f.tax).Some? && parse(f.tax).value != 0.0 ==> p.tax == parse(f.tax))
      && (parse(f.tax).None? || parse(f.tax) == Some(0.0) ==> p.total == Some(subtotal * 1.19))
  {
  }
}

=== FILE: invoice_trends.dfy ===
/** `GET /api/invoice-trends`: invoice counts and spend per calendar month
    for the twelve months ending with the current one. */
module InvoiceTrends {
  import opened Calendar
  import opened Wrappers
  import opened Ledger

  /** Months looked back for the query: 6 for a manager, 3 for a user and
      12 for everyone else. */
  function Lookback(role: string): (k: nat)
    ensures k == 6 <==> role == "manager"
    ensures k == 3 <==> role == "user"
    ensures k == 12 <==> role != "manager" && role != "user"
  {
    match RoleLookback(role)
    case Some(k) => k
    case None => 12
  }

  /** `startDate <= issueDate <= currentDate`. */
  predicate Fetched(inv: Invoice, role: string, now: Instant)
    requires ValidInstant(now)
  {
    AtOrAfter(inv.issueDate, MonthsAgo(now, Lookback(role))) && AtOrBefore(inv.issueDate, now)
  }

  /** The `YYYY-MM` key of the invoice's issue month. */
  function IssueKey(inv: Invoice): string
    requires WellDated(inv)
  {
    DateMonthKey(inv.issueDate.date)
  }

  /** The fetched invoices as (month key, total) pairs, in query order. */
  datatype Tagged = Tagged(key: string, amount: real)

  function Tag(invoices: seq<Invoice>, role: string, now: Instant): (es: seq<Tagged>)
    requires ValidInstant(now) && AllWellDated(invoices)
    ensures |es| <= |invoices|
  {
    if |invoices| == 0 then []
    else
      var init := invoices[..|invoices| - 1];
      var inv := invoices[|invoices| - 1];
      assert forall i :: 0 <= i < |init| ==> init[i] == invoices[i];
      Tag(init, role, now) + (if Fetched(inv, role, now) then [Tagged(IssueKey(inv), inv.total)] else [])
  }

  lemma {:induction false} TagNoMatch(invoices: seq<Invoice>, role: string, now: Instant, key: string)
    requires ValidInstant(now) && AllWellDated(invoices)
    requires forall k :: 0 <= k < |invoices| ==> !Fetched(invoices[k], role, now) || IssueKey(invoices[k]) != key
    ensures forall i :: 0 <= i < |Tag(invoices, role, now)| ==> Tag(invoices, role, now)[i].key != key
  {
    if |invoices| > 0 {
      var init := invoices[..|invoices| - 1];
      assert forall k :: 0 <= k < |init| ==> init[k] == invoices[k];
      TagNoMatch(init, role, now, key);
    }
  }

  // ---------------------------------------------------------------------------
  // Reference counts
  // ---------------------------------------------------------------------------

  /** Number of fetched invoices issued in the month with key `key`. */
  function CountIn(es: seq<Tagged>, key: string): nat {
    if |es| == 0 then 0
    else CountIn(es[..|es| - 1], key) + (if es[|es| - 1].key == key then 1 else 0)
  }

  /** Sum of the totals of those invoices. */
  function TotalIn(es: seq<Tagged>, key: string): real {
    if |es| == 0 then 0.0
    else TotalIn(es[..|es| - 1], key) + (if es[|es| - 1].key == key then es[|es| - 1].amount else 0.0)
  }

  /** Number of fetched invoices issued in any of the months `keys`. */
  function CountInSet(es: seq<Tagged>, keys: set<string>): nat {
    if |es| == 0 then 0
    else CountInSet(es[..|es| - 1], keys) + (if es[|es| - 1].key in keys then 1 else 0)
  }

  // ---------------------------------------------------------------------------
  // Grouping
  // ---------------------------------------------------------------------------

  datatype MonthStat = MonthStat(count: nat, total: real)

  /** `monthlyData`: the `forEach` that adds each fetched invoice to the
      entry of its issue month, creating the entry on first use. */
  function Group(es: seq<Tagged>): map<string, MonthStat> {
    if |es| == 0 then map[]
    else
      var m := Group(es[..|es| - 1]);
      var e := es[|es| - 1];
      var cur := if e.key in m then m[e.key] else MonthStat(0, 0.0);
      m[e.key := MonthStat(cur.count + 1, cur.total + e.amount)]
  }

  /** The grouped map holds exactly the months that have fetched invoices,
      each with their number and the sum of their totals. */
  lemma {:induction false} GroupMatchesCounts(es: seq<Tagged>, key: string)
    ensures key in Group(es) <==> CountIn(es, key) > 0
    ensures key in Group(es) ==> Group(es)[key] == MonthStat(CountIn(es, key), TotalIn(es, key))
    ensures key !in Group(es) ==> TotalIn(es, key) == 0.0
  {
    if |es| > 0 {
      GroupMatchesCounts(es[..|es| - 1], key);
    }
  }

  // ---------------------------------------------------------------------------
  // The twelve reported months
  // ---------------------------------------------------------------------------

  /** `toLocaleDateString('en-US', { month: 'short' })`. */
  function MonthLabel(m: int): string
    requires 1 <= m <= 12
  {
    ["Jan", "Feb", "Mar", "Apr", "May", "Jun", "Jul", "Aug", "Sep", "Oct", "Nov", "Dec"][m - 1]
  }

  datatype TrendPoint = TrendPoint(month: string, invoiceCount: nat, totalSpend: real)

  /** The point reported for one month: `monthlyData[monthKey]?.count || 0`
      and the same for the total. */
  function Point(es: seq<Tagged>, d: Date): (p: TrendPoint)
    requires ValidDate(d)
    ensures p.month == MonthLabel(d.month)
    ensures p.invoiceCount == CountIn(es, DateMonthKey(d))
    ensures p.totalSpend == TotalIn(es, DateMonthKey(d))
  {
    var m := Group(es);
    var key := DateMonthKey(d);
    GroupMatchesCounts(es, key);
    if key in m then TrendPoint(MonthLabel(d.month), m[key].count, m[key].total)
    else TrendPoint(MonthLabel(d.month), 0, 0.0)
  }

  /** One point per given month. */
  function Report(es: seq<Tagged>, months: seq<Date>): (r: seq<TrendPoint>)
    requires forall j {:trigger months[j]} :: 0 <= j < |months| ==> ValidDate(months[j])
    ensures |r| == |months|
    ensures forall j :: 0 <= j < |months| ==> r[j] == Point(es, months[j])
  {
    seq(|months|, j requires 0 <= j < |months| => Point(es, months[j]))
  }

  /** The loop `for (i = 11; i >= 0; i--)` as written: `setMonth(getMonth() - i)`
      on today's date, which rolls over when the target month is shorter. */
  function AsWrittenMonths(today: Date): (ds: seq<Date>)
    requires ValidDate(today)
    ensures |ds| == 12
    ensures forall j :: 0 <= j < 12 ==> ValidDate(ds[j])
  {
    seq(12, j requires 0 <= j < 12 => ShiftMonths(today, -(11 - j)))
  }

  /** The first day of the month `11 - j` months before today's. */
  function CalendarMonth(today: Date, j: int): (d: Date)
    ensures ValidDate(d) && d.day == 1
    ensures MonthIndex(d) == MonthIndex(today) - 11 + j
  {
    MakeDate(MonthIndex(today) - 11 + j, 1)
  }

  /** The twelve calendar months ending with the current one, oldest first. */
  function CalendarMonths(today: Date): (ds: seq<Date>)
    ensures |ds| == 12
    ensures forall j :: 0 <= j < 12 ==> ds[j] == CalendarMonth(today, j)
  {
    seq(12, j requires 0 <= j < 12 => CalendarMonth(today, j))
  }

  function TrendsAsWritten(invoices: seq<Invoice>, role: string, now: Instant): (r: seq<TrendPoint>)
    requires ValidInstant(now) && AllWellDated(invoices)
    ensures |r| == 12
  {
    Report(Tag(invoices, role, now), AsWrittenMonths(now.date))
  }

  /** The response, one point per calendar month. */
  function Trends(invoices: seq<Invoice>, role: string, now: Instant): (r: seq<TrendPoint>)
    requires ValidInstant(now) && AllWellDated(invoices)
    ensures |r| == 12
    ensures r[11].month == MonthLabel(now.date.month)
    ensures forall j :: 0 <= j < 12 ==>
              r[j].month == MonthLabel(CalendarMonth(now.date, j).month)
    ensures forall j :: 0 <= j < 12 ==>
              r[j].invoiceCount == CountIn(Tag(invoices, role, now), DateMonthKey(CalendarMonth(now.date, j)))
    ensures forall j :: 0 <= j < 12 ==>
              r[j].totalSpend == TotalIn(Tag(invoices, role, now), DateMonthKey(CalendarMonth(now.date, j)))
  {
    var ds := CalendarMonths(now.date);
    assert ds[11] == Date(now.date.year, now.date.month, 1);
    Report(Tag(invoices, role, now), ds)
  }

  /** On days 1 to 28 no month of the loop rolls over, so the handler as
      written and the corrected one give the same response. */
  lemma TrendsAsWrittenAgreesEarlyInMonth(invoices: seq<Invoice>, role: string, now: Instant)
    requires ValidInstant(now) && AllWellDated(invoices)
    requires now.date.day <= 28
    ensures TrendsAsWritten(invoices, role, now) == Trends(invoices, role, now)
  {
    var es := Tag(invoices, role, now);
    var a, c := AsWrittenMonths(now.date), CalendarMonths(now.date);
    forall j | 0 <= j < 12
      ensures Point(es, a[j]) == Point(es, c[j])
    {
      ShiftMonthsEarlyDay(now.date, -(11 - j));
      assert a[j].year == c[j].year && a[j].month == c[j].month;
    }
  }

  // ---------------------------------------------------------------------------
  // Properties
  // ---------------------------------------------------------------------------

  lemma CalendarKeysDistinct(today: Date, i: int, j: int)
    requires 0 <= i < j < 12
    ensures DateMonthKey(CalendarMonth(today, i)) != DateMonthKey(CalendarMonth(today, j))
  {
    var a, b := CalendarMonth(today, i), CalendarMonth(today, j);
    if DateMonthKey(a) == DateMonthKey(b) {
      MonthKeyInjective(a.year, a.month, b.year, b.month);
      assert false;
    }
  }

  function CountSum(r: seq<TrendPoint>): nat {
    if |r| == 0 then 0 else CountSum(r[..|r| - 1]) + r[|r| - 1].invoiceCount
  }

  function KeyCountSum(es: seq<Tagged>, keys: seq<string>): nat {
    if |keys| == 0 then 0
    else KeyCountSum(es, keys[..|keys| - 1]) + CountIn(es, keys[|keys| - 1])
  }

  lemma {:induction false} CountInSetAdd(es: seq<Tagged>, keys: set<string>, key: string)
    requires key !in keys
    ensures CountInSet(es, keys + {key}) == CountInSet(es, keys) + CountIn(es, key)
  {
    if |es| > 0 {
      CountInSetAdd(es[..|es| - 1], keys, key);
    }
  }

  lemma {:induction false} CountInSetBound(es: seq<Tagged>, keys: set<string>)
    ensures CountInSet(es, keys) <= |es|
  {
    if |es| > 0 {
      CountInSetBound(es[..|es| - 1], keys);
    }
  }

  lemma {:induction false} EmptySetCount(es: seq<Tagged>)
    ensures CountInSet(es, {}) == 0
  {
    if |es| > 0 {
      EmptySetCount(es[..|es| - 1]);
    }
  }

  lemma {:induction false} DistinctKeysCount(es: seq<Tagged>, keys: seq<string>)
    requires forall i, j :: 0 <= i < j < |keys| ==> keys[i] != keys[j]
    ensures KeyCountSum(es, keys) == CountInSet(es, set k | k in keys)
  {
    if |keys| == 0 {
      assert (set k | k in keys) == {};
      EmptySetCount(es);
    } else {
      var init := keys[..|keys| - 1];
      var last := keys[|keys| - 1];
      DistinctKeysCount(es, init);
      assert (set k | k in keys) == (set k | k in init) + {last};
      CountInSetAdd(es, (set k | k in init), last);
    }
  }

  function MonthKeys(months: seq<Date>): (keys: seq<string>)
    requires forall j {:trigger months[j]} :: 0 <= j < |months| ==> ValidDate(months[j])
    ensures |keys| == |months|
    ensures forall j :: 0 <= j < |months| ==> keys[j] == DateMonthKey(months[j])
  {
    seq(|months|, j requires 0 <= j < |months| => DateMonthKey(months[j]))
  }

  lemma {:induction false} ReportCountSum(es: seq<Tagged>, months: seq<Date>)
    requires forall j {:trigger months[j]} :: 0 <= j < |months| ==> ValidDate(months[j])
    ensures CountSum(Report(es, months)) == KeyCountSum(es, MonthKeys(months))
  {
    if |months| > 0 {
      var init := months[..|months| - 1];
      ReportCountSum(es, init);
      var r := Report(es, months);
      assert r[..|r| - 1] == Report(es, init);
      assert MonthKeys(months)[..|months| - 1] == MonthKeys(init);
    }
  }

  /** Because the twelve months are distinct, no invoice is reported twice:
      the reported counts add up to at most the number of fetched invoices,
      which is at most the number of invoices. */
  lemma TrendCountsBounded(invoices: seq<Invoice>, role: string, now: Instant)
    requires ValidInstant(now) && AllWellDated(invoices)
    ensures CountSum(Trends(invoices, role, now)) <= |Tag(invoices, role, now)| <= |invoices|
  {
    var es := Tag(invoices, role, now);
    var ds := CalendarMonths(now.date);
    var keys := MonthKeys(ds);
    ReportCountSum(es, ds);
    forall i, j | 0 <= i < j < 12
      ensures keys[i] != keys[j]
    {
      CalendarKeysDistinct(now.date, i, j);
    }
    DistinctKeysCount(es, keys);
    CountInSetBound(es, (set k | k in keys));
  }

  /** A month in which no fetched invoice was issued reports 0 invoices and
      0 spend. */
  lemma EmptyMonthReportsZero(invoices: seq<Invoice>, role: string, now: Instant, j: int)
    requires ValidInstant(now) && AllWellDated(invoices)
    requires 0 <= j < 12
    requires forall k :: 0 <= k < |invoices| ==>
               !Fetched(invoices[k], role, now) || IssueKey(invoices[k]) != DateMonthKey(CalendarMonth(now.date, j))
    ensures Trends(invoices, role, now)[j].invoiceCount == 0
    ensures Trends(invoices, role, now)[j].totalSpend == 0.0
  {
    var key := DateMonthKey(CalendarMonth(now.date, j));
    var es := Tag(invoices, role, now);
    TagNoMatch(invoices, role, now, key);
    NoKeyNoCount(es, key);
  }

  lemma {:induction false} NoKeyNoCount(es: seq<Tagged>, key: string)
    requires forall i :: 0 <= i < |es| ==> es[i].key != key
    ensures CountIn(es, key) == 0 && TotalIn(es, key) == 0.0
  {
    if |es| > 0 {
      NoKeyNoCount(es[..|es| - 1], key);
    }
  }

  // ---------------------------------------------------------------------------
  // The month rollover in the loop as written
  // ---------------------------------------------------------------------------

  /** The month of the loop's point `j` seen on 31 March 2025: April to
      December 2024 roll into the next month after a 30-day month, January
      stays, the 31 February of `j = 10` becomes 3 March. */
  lemma {:induction false} MarchStep(j: int)
    requires 0 <= j < 12
    ensures ShiftMonths(Date(2025, 3, 31), -(11 - j)).month != 2
  {
    var i := 2025 * 12 + 2 - (11 - j);
    assert MonthIndex(Date(2025, 3, 31)) - (11 - j) == i;
    if j < 9 {
      assert YearOfIndex(i) == 2024 && MonthOfIndex(i) == 4 + j;
      assert MonthOfIndex(i + 1) == (if j == 8 then 1 else 5 + j);
    } else if j == 9 {
      assert YearOfIndex(i) == 2025 && MonthOfIndex(i) == 1;
      assert DaysInMonth(2025, 1) == 31;
    } else if j == 10 {
      assert YearOfIndex(i + 1) == 2025 && MonthOfIndex(i + 1) == 3;
    } else {
      assert YearOfIndex(i) == 2025 && MonthOfIndex(i) == 3;
    }
  }

  /** On 31 March the loop's `i = 1` step asks for 31 February, which becomes
      3 March: no month of the loop is February. */
  lemma AsWrittenSkipsFebruary()
    ensures AsWrittenMonths(Date(2025, 3, 31))[10] == Date(2025, 3, 3)
    ensures AsWrittenMonths(Date(2025, 3, 31))[11] == Date(2025, 3, 31)
    ensures forall j :: 0 <= j < 12 ==> AsWrittenMonths(Date(2025, 3, 31))[j].month != 2
  {
    var today := Date(2025, 3, 31);
    var ds := AsWrittenMonths(today);
    forall j | 0 <= j < 12
      ensures ds[j].month != 2
    {
      assert ds[j] == ShiftMonths(today, -(11 - j));
      MarchStep(j);
    }
    assert ds[10] == MakeDate(2025 * 12 + 1, 31);
    assert DaysInMonth(2025, 2) == 28;
  }

  /** Seen on 31 March 2025, the loop as written reports March in two points,
      both labelled `Mar`, each counting every March invoice: a single March
      invoice is counted twice. */
  lemma AsWrittenCountsMarchTwice(invoices: seq<Invoice>, role: string, ms: int)
    requires 0 <= ms < DAY_MS && AllWellDated(invoices)
    ensures var now := Instant(Date(2025, 3, 31), ms);
            var r := TrendsAsWritten(invoices, role, now);
            var march := CountIn(Tag(invoices, role, now), MonthKey(2025, 3));
            r[10].month == "Mar" && r[11].month == "Mar"
            && r[10].invoiceCount == march && r[11].invoiceCount == march
  {
    AsWrittenSkipsFebruary();
  }
}

=== FILE: invoices_route.dfy ===
/** `/api/invoices`: the paginated, filtered listing, the single-invoice
    lookup and the creation of an invoice with its one line item, over an
    in-memory store keyed by invoice id. */
module InvoicesRoute {
  import opened Wrappers
  import opened Text
  import opened Calendar
  import opened Ledger
  import opened Requests
  import opened Ordering

  /** The tables the route touches. */
  datatype Db = Db(invoices: map<string, Invoice>, vendors: map<string, Vendor>)

  /** Invoice numbers are unique across the table (the schema's unique index). */
  predicate UniqueNumbers(invoices: map<string, Invoice>) {
    forall a, b :: a in invoices && b in invoices && invoices[a].invoiceNumber == invoices[b].invoiceNumber ==> a == b
  }

  predicate NumberTaken(invoices: map<string, Invoice>, number: string) {
    exists id :: id in invoices && invoices[id].invoiceNumber == number
  }

  // ---------------------------------------------------------------------------
  // GET /api/invoices
  // ---------------------------------------------------------------------------

  /** The query string; an empty string stands for an absent parameter. */
  datatype ListQuery = ListQuery(
    page: Option<int>,
    limit: Option<int>,
    search: string,
    status: string,
    vendorId: string,
    role: string)

  /** An invoice together with its vendor's name, as the `include` fetches it. */
  datatype Row = Row(invoice: Invoice, vendorName: string)

  /** The `where` object: the role window, the search over invoice number,
      customer name and vendor name, and the exact status and vendor. */
  predicate Matches(row: Row, q: ListQuery, now: Instant)
    requires ValidInstant(now)
  {
    var inv := row.invoice;
    InRoleWindow(q.role, now, inv.issueDate)
    && (q.search == ""
        || ContainsInsensitive(inv.invoiceNumber, q.search)
        || (inv.customerName.Some? && ContainsInsensitive(inv.customerName.value, q.search))
        || ContainsInsensitive(row.vendorName, q.search))
    && (q.status == "" || inv.status == q.status)
    && (q.vendorId == "" || inv.vendorId == q.vendorId)
  }

  /** The matching rows, in the requested order. */
  function Filter(rows: seq<Row>, q: ListQuery, now: Instant): (r: seq<Row>)
    requires ValidInstant(now)
    ensures |r| <= |rows|
    ensures forall x :: x in r ==> x in rows && Matches(x, q, now)
    ensures forall x :: x in rows && Matches(x, q, now) ==> x in r
  {
    Where(rows, x => Matches(x, q, now))
  }

  /** The response: one page of the matching rows and the page count, or the
      500 of the catch when the page number is below 1. */
  function List(rows: seq<Row>, q: ListQuery, now: Instant): (r: Reply<Page<Row>>)
    requires ValidInstant(now)
    requires LimitParam(q.limit) >= 1
    ensures r.Fail? <==> PageParam(q.page) < 1
    ensures r.Fail? ==> r == Fail(SERVER_ERROR, "Failed to fetch invoices")
    ensures r.Ok? ==> r.value.rows == PageOf(Filter(rows, q, now), PageParam(q.page), LimitParam(q.limit))
    ensures r.Ok? ==> r.value.pagination.total == |Filter(rows, q, now)|
    ensures r.Ok? ==>
              r.value.pagination == Pagination(PageParam(q.page), LimitParam(q.limit), |Filter(rows, q, now)|, TotalPages(|Filter(rows, q, now)|, LimitParam(q.limit)))
    ensures r.Ok? ==> forall x :: x in r.value.rows ==> x in rows && Matches(x, q, now)
  {
    Paginate(Filter(rows, q, now), q.page, q.limit, "Failed to fetch invoices")
  }

  /** Asking for pages 1 to the reported `totalPages` in turn lists every
      matching invoice exactly once, in the requested order. */
  lemma ListPagesCoverMatches(rows: seq<Row>, q: ListQuery, now: Instant)
    requires ValidInstant(now)
    requires LimitParam(q.limit) >= 1
    ensures List(rows, q.(page := None), now).Ok?
    ensures var n := List(rows, q.(page := None), now).value.pagination.totalPages;
            Requested(Filter(rows, q, now), q.limit, "Failed to fetch invoices", n) == Filter(rows, q, now)
  {
    var first := q.(page := None);
    forall x | x in rows
      ensures Matches(x, first, now) == Matches(x, q, now)
    {
    }
    WhereAgree(rows, x => Matches(x, first, now), x => Matches(x, q, now));
    var m := Filter(rows, q, now);
    assert List(rows, first, now) == Paginate(m, None, q.limit, "Failed to fetch invoices");
    PaginateCoversAll(m, q.limit, "Failed to fetch invoices");
  }

  /** Without parameters the route returns the first 50 rows of every role. */
  lemma DefaultListing(rows: seq<Row>, now: Instant)
    requires ValidInstant(now)
    ensures var r := List(rows, ListQuery(None, None, "", "", "", ""), now);
            r.Ok? && r.value.pagination.page == 1 && r.value.pagination.limit == 50
            && r.value.rows == rows[..Min(50, |rows|)]
  {
    var q := ListQuery(None, None, "", "", "", "");
    forall x | x in rows
      ensures Matches(x, q, now)
    {
      UnrestrictedRoleSeesEverything("", now, x.invoice.issueDate);
    }
    WhereKeepsAll(rows, x => Matches(x, q, now));
  }

  // ---------------------------------------------------------------------------
  // GET /api/invoices/:id
  // ---------------------------------------------------------------------------

  /** Payments listed with the latest `paymentDate` first. */
  predicate LatestFirst(ps: seq<Payment>) {
    forall i :: 0 <= i < |ps| - 1 ==> Stamp(ps[i].paymentDate) >= Stamp(ps[i + 1].paymentDate)
  }

  /** `include: { payments: { orderBy: { paymentDate: 'desc' } } }`. */
  function LatestPaymentsFirst(ps: seq<Payment>): (r: seq<Payment>)
    ensures multiset(r) == multiset(ps)
    ensures LatestFirst(r)
  {
    var key := (p: Payment) => -Stamp(p.paymentDate);
    var sorted := SortByNum(ps, key);
    assert forall i :: 0 <= i < |sorted| - 1 ==> key(sorted[i]) <= key(sorted[i + 1]);
    sorted
  }

  /** The stored invoice with its payments, latest first; every other field,
      the line items included, as stored. */
  function Get(db: Db, id: string): (r: Reply<Invoice>)
    ensures r.Ok? <==> id in db.invoices
    ensures r.Ok? ==> r.value == db.invoices[id].(payments := r.value.payments)
    ensures r.Ok? ==> multiset(r.value.payments) == multiset(db.invoices[id].payments)
    ensures r.Ok? ==> LatestFirst(r.value.payments)
    ensures r.Fail? ==> r == Fail(NOT_FOUND, "Invoice not found")
  {
    if id in db.invoices then
      var inv := db.invoices[id];
      Ok(inv.(payments := LatestPaymentsFirst(inv.payments)))
    else Fail(NOT_FOUND, "Invoice not found")
  }

  /** Payments already stored latest first come back as they are stored. */
  lemma {:induction false} LatestFirstKept(ps: seq<Payment>)
    requires LatestFirst(ps)
    ensures LatestPaymentsFirst(ps) == ps
  {
    var key := (p: Payment) => -Stamp(p.paymentDate);
    assert SortedByNum(ps, key) by {
      forall i | 0 <= i < |ps| - 1
        ensures key(ps[i]) <= key(ps[i + 1])
      {
      }
    }
    SortByNumKeepsSorted(ps, key);
  }

  // ---------------------------------------------------------------------------
  // POST /api/invoices
  // ---------------------------------------------------------------------------

  /** The request body. Numbers and dates are absent or given. */
  datatype CreateBody = CreateBody(
    invoiceNumber: Field<string>,
    vendorId: Field<string>,
    customerName: Field<string>,
    issueDate: Option<Instant>,
    dueDate: Option<Instant>,
    status: Option<string>,
    subtotal: Option<real>,
    tax: Option<real>,
    total: Option<real>,
    currency: Option<string>)

  /** The store after the request and the response. */
  datatype Outcome = Outcome(db: Db, reply: Reply<Invoice>)

  /** `total || (subtotal + (tax || 0))`: a missing or zero total is recomputed. */
  function StoredTotal(subtotal: real, tax: Option<real>, total: Option<real>): real {
    if total.Some? && total.value != 0.0 then total.value else subtotal + tax.GetOr(0.0)
  }

  /** The invoice the route creates, with its single line item. */
  function NewInvoice(id: string, b: CreateBody, issued: Instant, now: Instant): (inv: Invoice)
    requires Truthy(b.invoiceNumber) && Truthy(b.vendorId) && b.subtotal.Some?
  {
    var subtotal := b.subtotal.value;
    Invoice(
      id, b.invoiceNumber.value, b.vendorId.value, OrNull(b.customerName), issued, b.dueDate,
      b.status.GetOr("pending"), subtotal, b.tax.GetOr(0.0), StoredTotal(subtotal, b.tax, b.total),
      b.currency.GetOr("EUR"), now,
      [LineItem("Invoice Item", 1.0, subtotal, None, subtotal)], [])
  }

  /** The handler. `id` is the identifier the database assigns and `now` the
      creation time. A duplicate invoice number is reported before an unknown
      vendor; an unparsable issue date fails in the database. */
  function Create(db: Db, b: CreateBody, id: string, now: Instant): (o: Outcome)
    requires id !in db.invoices
  {
    if !Truthy(b.invoiceNumber) || !Truthy(b.vendorId) || b.subtotal.None? then
      Outcome(db, Fail(BAD_REQUEST, "Missing required fields: invoiceNumber, vendorId, subtotal"))
    else if NumberTaken(db.invoices, b.invoiceNumber.value) then
      Outcome(db, Fail(BAD_REQUEST, "Invoice number already exists"))
    else if b.vendorId.value !in db.vendors || b.issueDate.None? then
      Outcome(db, Fail(SERVER_ERROR, "Failed to create invoice"))
    else
      var inv := NewInvoice(id, b, b.issueDate.value, now);
      Outcome(db.(invoices := db.invoices[id := inv]), Ok(inv))
  }

  /** Validation: exactly a falsy number or vendor, or an absent subtotal, is
      rejected as missing; a subtotal of 0 passes. */
  lemma CreateValidation(db: Db, b: CreateBody, id: string, now: Instant)
    requires id !in db.invoices
    ensures Create(db, b, id, now).reply == Fail(BAD_REQUEST, "Missing required fields: invoiceNumber, vendorId, subtotal")
            <==> !Truthy(b.invoiceNumber) || !Truthy(b.vendorId) || b.subtotal.None?
  {
  }

  /** Every failure leaves the store as it was. */
  lemma FailureChangesNothing(db: Db, b: CreateBody, id: string, now: Instant)
    requires id !in db.invoices
    ensures Create(db, b, id, now).reply.Fail? ==> Create(db, b, id, now).db == db
  {
  }

  /** A created invoice carries the defaults and the derived total, is stored
      under its id, and nothing else in the store changes. */
  lemma CreatedInvoice(db: Db, b: CreateBody, id: string, now: Instant)
    requires id !in db.invoices
    requires Create(db, b, id, now).reply.Ok?
    ensures var inv := Create(db, b, id, now).reply.value;
            var after := Create(db, b, id, now).db;
            && after.invoices == db.invoices[id := inv]
            && after.vendors == db.vendors
            && inv.invoiceNumber == b.invoiceNumber.value && inv.vendorId in db.vendors
            && (b.status.None? ==> inv.status == "pending")
            && (b.tax.None? ==> inv.tax == 0.0)
            && (b.currency.None? ==> inv.currency == "EUR")
            && (b.total.None? || b.total == Some(0.0) ==> inv.total == inv.subtotal + inv.tax)
            && (b.total.Some? && b.total.value != 0.0 ==> inv.total == b.total.value)
            && |inv.lineItems| == 1 && inv.lineItems[0].quantity == 1.0
            && inv.lineItems[0].unitPrice == inv.subtotal && inv.lineItems[0].total == inv.subtotal
  {
  }

  /** A number already in use is refused with 400 whatever the other fields are. */
  lemma DuplicateNumberRefused(db: Db, b: CreateBody, id: string, now: Instant)
    requires id !in db.invoices
    requires Truthy(b.invoiceNumber) && Truthy(b.vendorId) && b.subtotal.Some?
    requires NumberTaken(db.invoices, b.invoiceNumber.value)
    ensures Create(db, b, id, now) == Outcome(db, Fail(BAD_REQUEST, "Invoice number already exists"))
  {
  }

  /** Creation keeps invoice numbers unique. */
  lemma CreatePreservesUniqueNumbers(db: Db, b: CreateBody, id: string, now: Instant)
    requires id !in db.invoices
    requires UniqueNumbers(db.invoices)
    ensures UniqueNumbers(Create(db, b, id, now).db.invoices)
  {
  }
}

=== FILE: invoices_table.dfy ===
/** The invoices table: which column it is sorted by and in which direction,
    the query it sends for the listing, and how a status is shown. */
module InvoicesTable {
  import opened Wrappers
  import opened Text

  datatype SortField = Vendor | InvoiceNumber | IssueDate | Total | Status
  datatype SortOrder = Asc | Desc

  /** The sort state. */
  datatype View = View(field: SortField, order: SortOrder)

  /** The table opens sorted by issue date, newest first. */
  const INITIAL: View := View(IssueDate, Desc)

  function Flip(o: SortOrder): SortOrder {
    match o
    case Asc => Desc
    case Desc => Asc
  }

  /** `handleSort`: the current column reverses its direction; another column
      becomes current, ascending. */
  function HandleSort(v: View, f: SortField): (r: View)
    ensures r.field == f
    ensures v.field == f ==> r.order != v.order
    ensures v.field != f ==> r.order == Asc
  {
    if v.field == f then v.(order := Flip(v.order)) else View(f, Asc)
  }

  /** Two clicks on the same column give back the state before them, and
      after any click on a new column a second click sorts it descending. */
  lemma SortTwice(v: View, f: SortField)
    ensures v.field == f ==> HandleSort(HandleSort(v, f), f) == v
    ensures v.field != f ==> HandleSort(HandleSort(v, f), f) == View(f, Desc)
  {
  }

  datatype Icon = Neutral | Up | Down

  /** `getSortIcon`: columns that are not current show the neutral arrows. */
  function SortIcon(v: View, f: SortField): (r: Icon)
    ensures r == Neutral <==> v.field != f
    ensures r == Up <==> v.field == f && v.order == Asc
  {
    if v.field != f then Neutral else if v.order == Asc then Up else Down
  }

  // ---------------------------------------------------------------------------
  // The listing query
  // ---------------------------------------------------------------------------

  datatype Role = Admin | Manager | User | All

  function FieldName(f: SortField): string {
    match f
    case Vendor => "vendor"
    case InvoiceNumber => "invoiceNumber"
    case IssueDate => "issueDate"
    case Total => "total"
    case Status => "status"
  }

  function OrderName(o: SortOrder): string {
    match o
    case Asc => "asc"
    case Desc => "desc"
  }

  function RoleName(r: Role): string {
    match r
    case Admin => "admin"
    case Manager => "manager"
    case User => "user"
    case All => "all"
  }

  /** The parameters in the order they are appended: `search` when the box is
      not empty, always `sortBy` and `sortOrder`, and `role` unless it is
      `all`. */
  function Params(search: string, v: View, role: Role): seq<(string, string)> {
    (if search != "" then [("search", search)] else [])
    + [("sortBy", FieldName(v.field)), ("sortOrder", OrderName(v.order))]
    + (if role != All then [("role", RoleName(role))] else [])
  }

  /** `params.get(key)`: the first value under a key. */
  function Get(params: seq<(string, string)>, key: string): (r: Option<string>)
    ensures r.None? <==> forall i :: 0 <= i < |params| ==> params[i].0 != key
  {
    if |params| == 0 then None
    else if params[0].0 == key then Some(params[0].1)
    else
      var r := Get(params[1..], key);
      assert forall i :: 0 < i < |params| ==> params[i] == params[1..][i - 1];
      r
  }

  function ParseField(s: string): Option<SortField> {
    if s == "vendor" then Some(Vendor)
    else if s == "invoiceNumber" then Some(InvoiceNumber)
    else if s == "issueDate" then Some(IssueDate)
    else if s == "total" then Some(Total)
    else if s == "status" then Some(Status)
    else None
  }

  function ParseOrder(s: string): Option<SortOrder> {
    if s == "asc" then Some(Asc) else if s == "desc" then Some(Desc) else None
  }

  /** The listing request carries the sort state, under `sortBy` and
      `sortOrder`, whatever the filters. */
  lemma SortReadBack(search: string, v: View, role: Role)
    ensures var ps := Params(search, v, role);
      && Get(ps, "sortBy").Some? && ParseField(Get(ps, "sortBy").value) == Some(v.field)
      && Get(ps, "sortOrder").Some? && ParseOrder(Get(ps, "sortOrder").value) == Some(v.order)
  {
    var s, sorts, r := Split3(search, v, role);
    GetAppend(s + sorts, r, "sortBy");
    GetAppend(s, sorts, "sortBy");
    GetAppend(s + sorts, r, "sortOrder");
    GetAppend(s, sorts, "sortOrder");
  }

  /** The search is sent exactly when the box is not empty, and the role
      exactly when it is not `all`. */
  lemma FiltersReadBack(search: string, v: View, role: Role)
    ensures var ps := Params(search, v, role);
      && (Get(ps, "search").Some? <==> search != "")
      && (search != "" ==> Get(ps, "search") == Some(search))
      && (Get(ps, "role").Some? <==> role != All)
      && (role != All ==> Get(ps, "role") == Some(RoleName(role)))
  {
    var s, sorts, r := Split3(search, v, role);
    GetAppend(s + sorts, r, "search");
    GetAppend(s, sorts, "search");
    GetAppend(s + sorts, r, "role");
    GetAppend(s, sorts, "role");
  }

  /** The three groups `Params` is built from. */
  lemma Split3(search: string, v: View, role: Role)
    returns (s: seq<(string, string)>, sorts: seq<(string, string)>, r: seq<(string, string)>)
    ensures Params(search, v, role) == s + sorts + r
    ensures s == (if search != "" then [("search", search)] else [])
    ensures sorts == [("sortBy", FieldName(v.field)), ("sortOrder", OrderName(v.order))]
    ensures r == (if role != All then [("role", RoleName(role))] else [])
  {
    s := if search != "" then [("search", search)] else [];
    sorts := [("sortBy", FieldName(v.field)), ("sortOrder", OrderName(v.order))];
    r := if role != All then [("role", RoleName(role))] else [];
  }

  /** A key missing from the front is looked up in the back. */
  lemma {:induction false} GetAppend(a: seq<(string, string)>, b: seq<(string, string)>, key: string)
    ensures Get(a, key).Some? ==> Get(a + b, key) == Get(a, key)
    ensures Get(a, key).None? ==> Get(a + b, key) == Get(b, key)
  {
    if |a| == 0 {
      assert a + b == b;
    } else {
      assert (a + b)[1..] == a[1..] + b;
      GetAppend(a[1..], b, key);
    }
  }

  // ---------------------------------------------------------------------------
  // Status display
  // ---------------------------------------------------------------------------

  datatype Colour = Green | Yellow | Red | Grey

  /** `getStatusColor`: `switch (status.toLowerCase())`. */
  function StatusColour(status: string): Colour {
    var s := Lower(status);
    if s == "paid" then Green
    else if s == "pending" then Yellow
    else if s == "overdue" then Red
    else Grey
  }

  /** The colour ignores letter case, and is grey exactly for the statuses
      other than paid, pending and overdue. */
  lemma ColourIgnoresCase(a: string, b: string)
    requires Lower(a) == Lower(b)
    ensures StatusColour(a) == StatusColour(b)
  {
  }

  lemma GreyForOthers(status: string)
    ensures StatusColour(status) == Grey <==> Lower(status) !in {"paid", "pending", "overdue"}
  {
  }

  /** The badge text: first character upper-cased, the rest as stored. */
  function StatusLabel(status: string): string {
    Capitalize(status)
  }

  /** The label keeps the status's length and all but its first character,
      and differs from it only in letter case. */
  lemma LabelOnlyRecases(status: string)
    ensures |StatusLabel(status)| == |status|
    ensures |status| > 0 ==> StatusLabel(status)[1..] == status[1..]
    ensures Lower(StatusLabel(status)) == Lower(status)
  {
    var l := StatusLabel(status);
    if |status| > 0 {
      assert LowerChar(UpperChar(status[0])) == LowerChar(status[0]);
      assert forall i :: 1 <= i < |status| ==> l[i] == status[i];
    }
  }
}

=== FILE: json.dfy ===
/** JSON values and their text: the two serialisers the system uses
    (JavaScript's `JSON.stringify(v)` in the API and Python's `json.dumps(v)`
    with default settings in the text-to-SQL service), JavaScript's
    `JSON.parse`, and the round trip between them. */
module Json {
  import opened Wrappers
  import opened Text

  datatype Value =
    | JNull
    | JBool(b: bool)
    | JNum(n: real)
    | JStr(s: string)
    | JArr(items: seq<Value>)
    | JObj(members: seq<Member>)

  datatype Member = Member(key: string, value: Value)

  /** JavaScript truthiness of a parsed value. */
  predicate Truthy(v: Value) {
    match v
    case JNull => false
    case JBool(b) => b
    case JNum(n) => n != 0.0
    case JStr(s) => s != ""
    case _ => true
  }

  /** JavaScript property access `v[key]` on a parsed value: the member's
      value when `v` is an object that has the key, otherwise `undefined`. */
  function Field(v: Value, key: string): (r: Option<Value>)
    ensures r.Some? <==> v.JObj? && exists i :: 0 <= i < |v.members| && v.members[i].key == key
  {
    if v.JObj? then MemberValue(v.members, key) else None
  }

  function MemberValue(ms: seq<Member>, key: string): (r: Option<Value>)
    ensures r.Some? <==> exists i :: 0 <= i < |ms| && ms[i].key == key
    ensures r.Some? ==> Member(key, r.value) in ms
  {
    if |ms| == 0 then None
    else if ms[0].key == key then Some(ms[0].value)
    else
      var r := MemberValue(ms[1..], key);
      assert forall i :: 0 < i < |ms| ==> ms[i] == ms[1..][i - 1];
      r
  }

  /** The value under a key is that of its first member. */
  lemma {:induction false} MemberValueAt(ms: seq<Member>, i: nat, key: string)
    requires i < |ms| && ms[i].key == key
    requires forall j :: 0 <= j < i ==> ms[j].key != key
    ensures MemberValue(ms, key) == Some(ms[i].value)
  {
    if i > 0 {
      MemberValueAt(ms[1..], i - 1, key);
    }
  }

  // ---------------------------------------------------------------------------
  // Well-formed values
  // ---------------------------------------------------------------------------

  /** Both serialisers print integers below 10^21 as plain digits. */
  const DIGITS_LIMIT: real := 1000000000000000000000.0

  predicate PlainInteger(n: real) {
    n.Floor as real == n && -DIGITS_LIMIT < n < DIGITS_LIMIT
  }

  predicate DistinctKeys(ms: seq<Member>) {
    forall i, j :: 0 <= i < j < |ms| ==> ms[i].key != ms[j].key
  }

  /** A value a serialiser can print exactly and a parse can give back: its
      numbers are plain integers and no object repeats a key. */
  predicate WellFormed(v: Value) {
    match v
    case JNum(n) => PlainInteger(n)
    case JArr(items) => forall i :: 0 <= i < |items| ==> WellFormed(items[i])
    case JObj(ms) => DistinctKeys(ms) && forall i :: 0 <= i < |ms| ==> WellFormed(ms[i].value)
    case _ => true
  }

  // ---------------------------------------------------------------------------
  // Serialisation
  // ---------------------------------------------------------------------------

  /** `ascii`: characters outside printable ASCII are written as `\uXXXX`
      escapes (Python's `ensure_ascii`). `spaced`: `", "` and `": "` between
      items (Python's default separators). */
  datatype Style = Style(ascii: bool, spaced: bool)

  /** `JSON.stringify(v)`. */
  const JS: Style := Style(false, false)
  /** `json.dumps(v)`. */
  const PY: Style := Style(true, true)

  function HexDigit(d: nat): char
    requires d < 16
  {
    if d < 10 then DigitChar(d) else ('a' as int + d - 10) as char
  }

  /** Four lower-case hexadecimal digits. */
  function Hex4(n: nat): string
    requires n < 0x10000
  {
    [HexDigit(n / 16 / 16 / 16), HexDigit(n / 16 / 16 % 16), HexDigit(n / 16 % 16), HexDigit(n % 16)]
  }

  /** The code units of a character written as `\u` escapes: one, or a
      surrogate pair above the basic plane. */
  function UnicodeEscape(c: char): string {
    var n := c as int;
    if n < 0x10000 then "\\u" + Hex4(n)
    else
      var u := n - 0x10000;
      "\\u" + Hex4(0xD800 + u / 0x400) + "\\u" + Hex4(0xDC00 + u % 0x400)
  }

  /** A character left as it is inside a string literal. */
  predicate Verbatim(c: char, ascii: bool) {
    c != '"' && c != '\\' && c as int >= 0x20 && !(ascii && c as int >= 0x7F)
  }

  function EscapeChar(c: char, ascii: bool): (r: string)
    ensures Verbatim(c, ascii) <==> r == [c]
    ensures !Verbatim(c, ascii) ==> |r| >= 2 && r[0] == '\\'
  {
    if c == '"' then "\\\""
    else if c == '\\' then "\\\\"
    else if c == '\n' then "\\n"
    else if c == '\r' then "\\r"
    else if c == '\t' then "\\t"
    else if c as int == 8 then "\\b"
    else if c as int == 12 then "\\f"
    else if c as int < 0x20 || (ascii && c as int >= 0x7F) then UnicodeEscape(c)
    else [c]
  }

  function Escape(s: string, ascii: bool): string {
    if |s| == 0 then "" else EscapeChar(s[0], ascii) + Escape(s[1..], ascii)
  }

  function Quote(s: string, ascii: bool): string {
    "\"" + Escape(s, ascii) + "\""
  }

  function Comma(st: Style): string {
    if st.spaced then ", " else ","
  }

  function Colon(st: Style): string {
    if st.spaced then ": " else ":"
  }

  function Serialise(v: Value, st: Style): string
    requires WellFormed(v)
    decreases v, 1
  {
    match v
    case JNull => "null"
    case JBool(b) => if b then "true" else "false"
    case JNum(n) => IntToString(n.Floor)
    case JStr(s) => Quote(s, st.ascii)
    case JArr(items) => "[" + SerialiseItems(items, st) + "]"
    case JObj(ms) => "{" + SerialiseMembers(ms, st) + "}"
  }

  function SerialiseItems(items: seq<Value>, st: Style): string
    requires forall i :: 0 <= i < |items| ==> WellFormed(items[i])
    decreases items, 0
  {
    if |items| == 0 then ""
    else if |items| == 1 then Serialise(items[0], st)
    else Serialise(items[0], st) + Comma(st) + SerialiseItems(items[1..], st)
  }

  function SerialiseMember(m: Member, st: Style): string
    requires WellFormed(m.value)
    decreases m, 0
  {
    Quote(m.key, st.ascii) + Colon(st) + Serialise(m.value, st)
  }

  function SerialiseMembers(ms: seq<Member>, st: Style): string
    requires forall i :: 0 <= i < |ms| ==> WellFormed(ms[i].value)
    decreases ms, 0
  {
    if |ms| == 0 then ""
    else if |ms| == 1 then SerialiseMember(ms[0], st)
    else SerialiseMember(ms[0], st) + Comma(st) + SerialiseMembers(ms[1..], st)
  }

  /** `JSON.stringify(v)`. */
  function Stringify(v: Value): string
    requires WellFormed(v)
  {
    Serialise(v, JS)
  }

  /** `json.dumps(v)`. */
  function Dumps(v: Value): string
    requires WellFormed(v)
  {
    Serialise(v, PY)
  }

  // ---------------------------------------------------------------------------
  // Parsing
  // ---------------------------------------------------------------------------

  predicate IsWs(c: char) {
    c == ' ' || c == '\t' || c == '\n' || c == '\r'
  }

  function SkipWs(s: string): (r: string)
    ensures |r| <= |s|
    ensures |r| == 0 || !IsWs(r[0])
  {
    if |s| > 0 && IsWs(s[0]) then SkipWs(s[1..]) else s
  }

  predicate IsHex(c: char) {
    '0' <= c <= '9' || 'a' <= c <= 'f' || 'A' <= c <= 'F'
  }

  function HexValue(c: char): (d: nat)
    requires IsHex(c)
    ensures d < 16
  {
    if '0' <= c <= '9' then c as int - '0' as int
    else if 'a' <= c <= 'f' then c as int - 'a' as int + 10
    else c as int - 'A' as int + 10
  }

  predicate IsHex4(s: string) {
    |s| == 4 && IsHex(s[0]) && IsHex(s[1]) && IsHex(s[2]) && IsHex(s[3])
  }

  function Hex4Value(s: string): (n: nat)
    requires IsHex4(s)
    ensures n < 0x10000
  {
    ((HexValue(s[0]) * 16 + HexValue(s[1])) * 16 + HexValue(s[2])) * 16 + HexValue(s[3])
  }

  predicate HighSurrogate(n: int) {
    0xD800 <= n < 0xDC00
  }

  predicate LowSurrogate(n: int) {
    0xDC00 <= n < 0xE000
  }

  /** The character an escape stands for; `s` follows the backslash. */
  function Unescape(s: string): (r: Option<(char, string)>)
    ensures r.Some? ==> |r.value.1| < |s|
  {
    if |s| == 0 then None
    else if s[0] == '"' || s[0] == '\\' || s[0] == '/' then Some((s[0], s[1..]))
    else if s[0] == 'b' then Some((8 as char, s[1..]))
    else if s[0] == 'f' then Some((12 as char, s[1..]))
    else if s[0] == 'n' then Some(('\n', s[1..]))
    else if s[0] == 'r' then Some(('\r', s[1..]))
    else if s[0] == 't' then Some(('\t', s[1..]))
    else if s[0] == 'u' && |s| >= 5 && IsHex4(s[1..5]) then
      var hi := Hex4Value(s[1..5]);
      if HighSurrogate(hi) then
        if |s| >= 11 && s[5] == '\\' && s[6] == 'u' && IsHex4(s[7..11]) && LowSurrogate(Hex4Value(s[7..11])) then
          var lo := Hex4Value(s[7..11]);
          Some(((0x10000 + (hi - 0xD800) * 0x400 + (lo - 0xDC00)) as char, s[11..]))
        else None
      else if LowSurrogate(hi) then None
      else Some((hi as char, s[5..]))
    else None
  }

  /** The rest of a string literal after its opening quote: its characters
      and the text after the closing quote. */
  function ParseString(s: string): (r: Option<(string, string)>)
    ensures r.Some? ==> |r.value.0| + |r.value.1| < |s|
  {
    if |s| == 0 then None
    else if s[0] == '"' then Some(("", s[1..]))
    else if s[0] == '\\' then
      match Unescape(s[1..])
      case None => None
      case Some((c, after)) =>
        match ParseString(after)
        case None => None
        case Some((t, rest)) => Some(([c] + t, rest))
    else if s[0] as int < 0x20 then None
    else
      match ParseString(s[1..])
      case None => None
      case Some((t, rest)) => Some(([s[0]] + t, rest))
  }

  /** The longest run of digits at the start of `s`. */
  function Digits(s: string): (d: string)
    ensures |d| <= |s| && d == s[..|d|]
    ensures forall i :: 0 <= i < |d| ==> IsDigit(d[i])
    ensures |d| == |s| || !IsDigit(s[|d|])
  {
    if |s| == 0 || !IsDigit(s[0]) then ""
    else [s[0]] + Digits(s[1..])
  }

  predicate AllDigits(s: string) {
    forall i :: 0 <= i < |s| ==> IsDigit(s[i])
  }

  /** The number `[-]int[.frac][e[-]exp]` denotes. */
  function NumberValue(neg: bool, whole: string, frac: string, expNeg: bool, exp: string): real
    requires AllDigits(whole) && AllDigits(frac) && AllDigits(exp)
  {
    var mantissa := (DigitsValue(whole) * Pow10(|frac|) + DigitsValue(frac)) as real / Pow10(|frac|) as real;
    var scale := Pow10(DigitsValue(exp)) as real;
    var magnitude := if expNeg then mantissa / scale else mantissa * scale;
    if neg then -magnitude else magnitude
  }

  /** A number literal at the start of `s`: an optional minus, `0` or digits
      without a leading zero, an optional fraction and an optional exponent. */
  function ParseNumber(s: string): (r: Option<(Value, string)>)
    ensures r.Some? ==> |r.value.1| < |s| && r.value.0.JNum?
  {
    if |s| > 0 && s[0] == '-' then ParseUnsigned(true, s[1..]) else ParseUnsigned(false, s)
  }

  /** The integer part: `0` alone, or digits not starting with `0`. */
  function IntegerPart(a: string): (d: string)
    ensures |d| <= |a| && d == a[..|d|] && AllDigits(d)
    ensures |a| > 0 && IsDigit(a[0]) ==> |d| > 0
  {
    if |a| > 0 && a[0] == '0' then "0" else Digits(a)
  }

  function ParseUnsigned(neg: bool, a: string): (r: Option<(Value, string)>)
    ensures r.Some? ==> |r.value.1| < |a| && r.value.0.JNum?
  {
    if |a| == 0 || !IsDigit(a[0]) then None
    else
      var whole := IntegerPart(a);
      match ParseFraction(a[|whole|..])
      case None => None
      case Some((frac, c)) =>
        match ParseExponent(c)
        case None => None
        case Some((expNeg, exp, rest)) => Some((JNum(NumberValue(neg, whole, frac, expNeg, exp)), rest))
  }

  /** An optional `.` followed by at least one digit. */
  function ParseFraction(b: string): (r: Option<(string, string)>)
    ensures r.Some? ==> AllDigits(r.value.0) && |r.value.1| <= |b|
  {
    if |b| > 0 && b[0] == '.' then
      var frac := Digits(b[1..]);
      if frac == "" then None else Some((frac, b[1 + |frac|..]))
    else Some(("", b))
  }

  /** An optional `e` or `E`, an optional sign, and at least one digit. */
  function ParseExponent(c: string): (r: Option<(bool, string, string)>)
    ensures r.Some? ==> AllDigits(r.value.1) && |r.value.2| <= |c|
  {
    if |c| > 0 && (c[0] == 'e' || c[0] == 'E') then
      var signed := |c| > 1 && (c[1] == '+' || c[1] == '-');
      var d := if signed then c[2..] else c[1..];
      var exp := Digits(d);
      if exp == "" then None else Some((signed && c[1] == '-', exp, d[|exp|..]))
    else Some((false, "", c))
  }

  /** One of the words `null`, `true`, `false`. */
  function Literal(t: string, word: string, v: Value): (r: Option<(Value, string)>)
    requires |word| > 0
    ensures r.Some? ==> |r.value.1| < |t|
  {
    if StartsWith(t, word) then Some((v, t[|word|..])) else None
  }

  /** `obj[key] = value` while parsing: a repeated key keeps its first
      position and takes the later value. */
  function Put(ms: seq<Member>, key: string, v: Value): (r: seq<Member>)
    ensures (exists i :: 0 <= i < |ms| && ms[i].key == key) ==> |r| == |ms|
    ensures (forall i :: 0 <= i < |ms| ==> ms[i].key != key) ==> r == ms + [Member(key, v)]
  {
    if |ms| == 0 then [Member(key, v)]
    else if ms[0].key == key then [Member(key, v)] + ms[1..]
    else
      var tail := Put(ms[1..], key, v);
      assert forall i :: 0 < i < |ms| ==> ms[i] == ms[1..][i - 1];
      [ms[0]] + tail
  }

  /** A value at the start of `s`, after optional whitespace, and the text
      after it. */
  function ParseValue(s: string): (r: Option<(Value, string)>)
    ensures r.Some? ==> |r.value.1| < |s|
    decreases |s|, 1
  {
    ParseToken(SkipWs(s))
  }

  /** A value starting at the first character of `t`, chosen by that character. */
  function ParseToken(t: string): (r: Option<(Value, string)>)
    ensures r.Some? ==> |r.value.1| < |t|
    decreases |t|, 0
  {
    if |t| == 0 then None
    else if t[0] == '"' then
      match ParseString(t[1..])
      case None => None
      case Some((str, rest)) => Some((JStr(str), rest))
    else if t[0] == '[' then ParseArray(t[1..])
    else if t[0] == '{' then ParseObject(t[1..])
    else if t[0] == 'n' then Literal(t, "null", JNull)
    else if t[0] == 't' then Literal(t, "true", JBool(true))
    else if t[0] == 'f' then Literal(t, "false", JBool(false))
    else ParseNumber(t)
  }

  /** The rest of an array after its `[`. */
  function ParseArray(s: string): (r: Option<(Value, string)>)
    ensures r.Some? ==> |r.value.1| < |s| && r.value.0.JArr?
    decreases |s|, 3
  {
    var t := SkipWs(s);
    if |t| > 0 && t[0] == ']' then Some((JArr([]), t[1..]))
    else ParseItems(s, [])
  }

  /** Array items from `s` on, after the items `acc` already read. */
  function ParseItems(s: string, acc: seq<Value>): (r: Option<(Value, string)>)
    ensures r.Some? ==> |r.value.1| < |s| && r.value.0.JArr?
    decreases |s|, 2
  {
    match ParseValue(s)
    case None => None
    case Some((v, after)) =>
      var t := SkipWs(after);
      if |t| > 0 && t[0] == ',' then ParseItems(t[1..], acc + [v])
      else if |t| > 0 && t[0] == ']' then Some((JArr(acc + [v]), t[1..]))
      else None
  }

  /** The rest of an object after its `{`. */
  function ParseObject(s: string): (r: Option<(Value, string)>)
    ensures r.Some? ==> |r.value.1| < |s| && r.value.0.JObj?
    decreases |s|, 3
  {
    var t := SkipWs(s);
    if |t| > 0 && t[0] == '}' then Some((JObj([]), t[1..]))
    else ParseMembers(s, [])
  }

  /** Object members from `s` on, after the members `acc` already read. */
  function ParseMembers(s: string, acc: seq<Member>): (r: Option<(Value, string)>)
    ensures r.Some? ==> |r.value.1| < |s| && r.value.0.JObj?
    decreases |s|, 2
  {
    var t := SkipWs(s);
    if |t| == 0 || t[0] != '"' then None
    else
      match ParseString(t[1..])
      case None => None
      case Some((key, afterKey)) =>
        var t2 := SkipWs(afterKey);
        if |t2| == 0 || t2[0] != ':' then None
        else
          match ParseValue(t2[1..])
          case None => None
          case Some((v, after)) =>
            var t3 := SkipWs(after);
            if |t3| > 0 && t3[0] == ',' then ParseMembers(t3[1..], Put(acc, key, v))
            else if |t3| > 0 && t3[0] == '}' then Some((JObj(Put(acc, key, v)), t3[1..]))
            else None
  }

  /** `JSON.parse(s)`: one value, surrounded by nothing but whitespace. */
  function Parse(s: string): (r: Option<Value>)
    ensures r.Some? ==> ParseValue(s).Some? && SkipWs(ParseValue(s).value.1) == "" && r.value == ParseValue(s).value.0
  {
    match ParseValue(s)
    case None => None
    case Some((v, rest)) => if SkipWs(rest) == "" then Some(v) else None
  }

  // ---------------------------------------------------------------------------
  // Round trip
  // ---------------------------------------------------------------------------

  /** Parsing the text of a well-formed value, in either style, gives the value back. */
  lemma ParseSerialise(v: Value, st: Style)
    requires WellFormed(v)
    ensures Parse(Serialise(v, st)) == Some(v)
  {
    ValueRoundTrip(v, st, "");
    assert Serialise(v, st) + "" == Serialise(v, st);
  }

  lemma StringifyRoundTrip(v: Value)
    requires WellFormed(v)
    ensures Parse(Stringify(v)) == Some(v)
  {
    ParseSerialise(v, JS);
  }

  lemma DumpsRoundTrip(v: Value)
    requires WellFormed(v)
    ensures Parse(Dumps(v)) == Some(v)
  {
    ParseSerialise(v, PY);
  }

  /** What may follow a value inside serialised text. */
  predicate Delimited(rest: string) {
    |rest| == 0 || rest[0] == ',' || rest[0] == ']' || rest[0] == '}'
  }

  /** Characters a serialised value can start with. */
  predicate Opening(c: char) {
    c == 'n' || c == 't' || c == 'f' || c == '-' || IsDigit(c) || c == '"' || c == '[' || c == '{'
  }

  lemma LeadingSpace(s: string)
    ensures ParseValue(" " + s) == ParseValue(s)
  {
    assert (" " + s)[1..] == s;
  }

  lemma MembersSkipSpace(s: string, acc: seq<Member>)
    ensures ParseMembers(" " + s, acc) == ParseMembers(s, acc)
  {
    assert (" " + s)[1..] == s;
  }

  /** What follows a separator: the next value, after the optional space. */
  lemma AfterComma(st: Style, more: string)
    ensures ParseValue((Comma(st) + more)[1..]) == ParseValue(more)
  {
    if st.spaced {
      assert (Comma(st) + more)[1..] == " " + more;
      LeadingSpace(more);
    } else {
      assert (Comma(st) + more)[1..] == more;
    }
  }

  /** Text that starts with a value's first character is parsed by that character. */
  lemma TokenAt(t: string)
    requires |t| > 0 && !IsWs(t[0])
    ensures ParseValue(t) == ParseToken(t)
  {
  }

  lemma {:induction false} ValueRoundTrip(v: Value, st: Style, rest: string)
    requires WellFormed(v) && Delimited(rest)
    ensures ParseValue(Serialise(v, st) + rest) == Some((v, rest))
    decreases v, 2
  {
    FirstChar(v, st);
    TokenAt(Serialise(v, st) + rest);
    match v
    case JNull => WordRoundTrip(v, st, rest);
    case JBool(_) => WordRoundTrip(v, st, rest);
    case JNum(n) => NumberRoundTrip(n, st, rest);
    case JStr(str) => QuotedRoundTrip(str, st, rest);
    case JArr(items) => ArrayRoundTrip(items, st, rest);
    case JObj(ms) => ObjectRoundTrip(ms, st, rest);
  }

  lemma WordRoundTrip(v: Value, st: Style, rest: string)
    requires v.JNull? || v.JBool?
    ensures ParseToken(Serialise(v, st) + rest) == Some((v, rest))
  {
    var s := Serialise(v, st) + rest;
    if v.JNull? {
      assert s[..4] == "null" && s[4..] == rest;
    } else if v.b {
      assert s[..4] == "true" && s[4..] == rest;
    } else {
      assert s[..5] == "false" && s[5..] == rest;
    }
  }

  lemma QuotedRoundTrip(str: string, st: Style, rest: string)
    ensures ParseToken(Serialise(JStr(str), st) + rest) == Some((JStr(str), rest))
  {
    var s := Serialise(JStr(str), st) + rest;
    assert s[1..] == Escape(str, st.ascii) + "\"" + rest;
    StringRoundTrip(str, st.ascii, rest);
  }

  lemma ArrayRoundTrip(items: seq<Value>, st: Style, rest: string)
    requires WellFormed(JArr(items)) && Delimited(rest)
    ensures ParseToken(Serialise(JArr(items), st) + rest) == Some((JArr(items), rest))
    decreases JArr(items), 1
  {
    calc {
      ParseToken(Serialise(JArr(items), st) + rest);
      { ArrayOpens(items, st, rest); }
      ParseArray(SerialiseItems(items, st) + "]" + rest);
      { ArrayInner(items, st, rest); }
      Some((JArr(items), rest));
    }
  }

  lemma ArrayOpens(items: seq<Value>, st: Style, rest: string)
    requires WellFormed(JArr(items))
    ensures ParseToken(Serialise(JArr(items), st) + rest) == ParseArray(SerialiseItems(items, st) + "]" + rest)
  {
    var s := Serialise(JArr(items), st) + rest;
    assert s[0] == '[' && s[1..] == SerialiseItems(items, st) + "]" + rest;
  }

  lemma ArrayInner(items: seq<Value>, st: Style, rest: string)
    requires WellFormed(JArr(items)) && Delimited(rest)
    ensures ParseArray(SerialiseItems(items, st) + "]" + rest) == Some((JArr(items), rest))
    decreases JArr(items), 0
  {
    var inner := SerialiseItems(items, st) + "]" + rest;
    if |items| == 0 {
      assert inner == "]" + rest;
    } else {
      ItemsFirstChar(items, st);
      assert SkipWs(inner) == inner;
      ItemsRoundTrip(items, st, [], rest);
      assert [] + items == items;
    }
  }

  lemma ObjectRoundTrip(ms: seq<Member>, st: Style, rest: string)
    requires WellFormed(JObj(ms)) && Delimited(rest)
    ensures ParseToken(Serialise(JObj(ms), st) + rest) == Some((JObj(ms), rest))
    decreases JObj(ms), 1
  {
    calc {
      ParseToken(Serialise(JObj(ms), st) + rest);
      { ObjectOpens(ms, st, rest); }
      ParseObject(SerialiseMembers(ms, st) + "}" + rest);
      { ObjectInner(ms, st, rest); }
      Some((JObj(ms), rest));
    }
  }

  lemma ObjectOpens(ms: seq<Member>, st: Style, rest: string)
    requires WellFormed(JObj(ms))
    ensures ParseToken(Serialise(JObj(ms), st) + rest) == ParseObject(SerialiseMembers(ms, st) + "}" + rest)
  {
    var s := Serialise(JObj(ms), st) + rest;
    assert s[0] == '{' && s[1..] == SerialiseMembers(ms, st) + "}" + rest;
    TokenObject(s);
  }

  lemma ObjectInner(ms: seq<Member>, st: Style, rest: string)
    requires WellFormed(JObj(ms)) && Delimited(rest)
    ensures ParseObject(SerialiseMembers(ms, st) + "}" + rest) == Some((JObj(ms), rest))
    decreases JObj(ms), 0
  {
    var inner := SerialiseMembers(ms, st) + "}" + rest;
    if |ms| == 0 {
      assert inner == "}" + rest;
    } else {
      MembersFirstChar(ms, st);
      ObjectStart(inner);
      assert [] + ms == ms;
      MembersRoundTrip(ms, st, [], rest);
    }
  }

  lemma TokenObject(t: string)
    requires |t| > 0 && t[0] == '{'
    ensures ParseToken(t) == ParseObject(t[1..])
  {
    assert t[0] != '"' && t[0] != '[';
  }

  lemma ObjectStart(s: string)
    requires |s| > 0 && s[0] == '"'
    ensures ParseObject(s) == ParseMembers(s, [])
  {
    assert SkipWs(s) == s;
  }

  lemma FirstChar(v: Value, st: Style)
    requires WellFormed(v)
    ensures |Serialise(v, st)| > 0 && Opening(Serialise(v, st)[0])
  {
    if v.JNum? {
      var k := v.n.Floor;
      if k >= 0 {
        assert IsDigit(NatToString(k)[0]);
      }
    }
  }

  lemma ItemsFirstChar(items: seq<Value>, st: Style)
    requires |items| > 0 && forall i :: 0 <= i < |items| ==> WellFormed(items[i])
    ensures |SerialiseItems(items, st)| > 0 && Opening(SerialiseItems(items, st)[0])
  {
    FirstChar(items[0], st);
  }

  lemma MembersFirstChar(ms: seq<Member>, st: Style)
    requires |ms| > 0 && forall i :: 0 <= i < |ms| ==> WellFormed(ms[i].value)
    ensures |SerialiseMembers(ms, st)| > 0 && SerialiseMembers(ms, st)[0] == '"'
  {
  }

  /** One array item and the separator or bracket after it. */
  lemma ItemStep(x: Value, st: Style, acc: seq<Value>, after: string)
    requires WellFormed(x)
    decreases x, 3
    requires |after| > 0 && (after[0] == ',' || after[0] == ']')
    ensures ParseItems(Serialise(x, st) + after, acc)
            == if after[0] == ',' then ParseItems(after[1..], acc + [x]) else Some((JArr(acc + [x]), after[1..]))
  {
    ValueRoundTrip(x, st, after);
    assert SkipWs(after) == after;
  }

  lemma {:induction false} ItemsRoundTrip(items: seq<Value>, st: Style, acc: seq<Value>, rest: string)
    requires |items| > 0 && forall i :: 0 <= i < |items| ==> WellFormed(items[i])
    requires Delimited(rest)
    ensures ParseItems(SerialiseItems(items, st) + "]" + rest, acc) == Some((JArr(acc + items), rest))
    decreases items, 1
  {
    var x := items[0];
    if |items| == 1 {
      ItemsLast(x, st, acc, rest);
      assert items == [x];
    } else {
      var tail := items[1..];
      assert [x] + tail == items;
      calc {
        ParseItems(SerialiseItems(items, st) + "]" + rest, acc);
        { ItemsNext(x, tail, st, acc, rest); }
        ParseItems(SerialiseItems(tail, st) + "]" + rest, acc + [x]);
        { ItemsRoundTrip(tail, st, acc + [x], rest); }
        Some((JArr(acc + [x] + tail), rest));
        { assert acc + [x] + tail == acc + items; }
        Some((JArr(acc + items), rest));
      }
    }
  }

  lemma ItemsLast(x: Value, st: Style, acc: seq<Value>, rest: string)
    requires WellFormed(x) && Delimited(rest)
    ensures ParseItems(SerialiseItems([x], st) + "]" + rest, acc) == Some((JArr(acc + [x]), rest))
    decreases x, 4
  {
    assert SerialiseItems([x], st) + "]" + rest == Serialise(x, st) + ("]" + rest);
    ItemStep(x, st, acc, "]" + rest);
    assert ("]" + rest)[1..] == rest;
  }

  lemma ItemsNext(x: Value, tail: seq<Value>, st: Style, acc: seq<Value>, rest: string)
    requires WellFormed(x) && |tail| > 0 && forall i :: 0 <= i < |tail| ==> WellFormed(tail[i])
    ensures forall i :: 0 <= i < |[x] + tail| ==> WellFormed(([x] + tail)[i])
    ensures ParseItems(SerialiseItems([x] + tail, st) + "]" + rest, acc)
            == ParseItems(SerialiseItems(tail, st) + "]" + rest, acc + [x])
    decreases x, 4
  {
    var more := SerialiseItems(tail, st) + "]" + rest;
    assert ([x] + tail)[0] == x && ([x] + tail)[1..] == tail;
    assert SerialiseItems([x] + tail, st) + "]" + rest == Serialise(x, st) + (Comma(st) + more);
    ItemStep(x, st, acc, Comma(st) + more);
    ItemsSkipComma(st, more, acc + [x]);
  }

  lemma ItemsSkipComma(st: Style, more: string, acc: seq<Value>)
    ensures ParseItems((Comma(st) + more)[1..], acc) == ParseItems(more, acc)
  {
    AfterComma(st, more);
  }

  /** How `ParseMembers` reads one member: key, colon, value, then a comma or the closing brace. */
  lemma MemberUnfold(s: string, acc: seq<Member>, key: string, afterKey: string, v: Value, after: string)
    requires |s| > 0 && s[0] == '"' && ParseString(s[1..]) == Some((key, afterKey))
    requires |afterKey| > 0 && afterKey[0] == ':' && ParseValue(afterKey[1..]) == Some((v, after))
    requires |after| > 0 && (after[0] == ',' || after[0] == '}')
    ensures ParseMembers(s, acc)
            == if after[0] == ',' then ParseMembers(after[1..], Put(acc, key, v))
               else Some((JObj(Put(acc, key, v)), after[1..]))
  {
    assert SkipWs(s) == s;
    assert SkipWs(afterKey) == afterKey;
    assert SkipWs(after) == after;
  }

  /** One object member and the separator or brace after it. */
  lemma MemberStep(m: Member, st: Style, acc: seq<Member>, after: string)
    requires WellFormed(m.value)
    requires |after| > 0 && (after[0] == ',' || after[0] == '}')
    ensures ParseMembers(SerialiseMember(m, st) + after, acc)
            == if after[0] == ',' then ParseMembers(after[1..], Put(acc, m.key, m.value))
               else Some((JObj(Put(acc, m.key, m.value)), after[1..]))
    decreases m, 3
  {
    var afterKey := Colon(st) + (Serialise(m.value, st) + after);
    var s := SerialiseMember(m, st) + after;
    MemberKey(m, st, after);
    QuotedKey(m.key, st.ascii, afterKey);
    MemberValueText(m, st, after);
    MemberUnfold(s, acc, m.key, afterKey, m.value, after);
  }

  /** A serialised member is its quoted key followed by the rest. */
  lemma MemberKey(m: Member, st: Style, after: string)
    requires WellFormed(m.value)
    ensures SerialiseMember(m, st) + after == Quote(m.key, st.ascii) + (Colon(st) + (Serialise(m.value, st) + after))
  {
    var q, c, v := Quote(m.key, st.ascii), Colon(st), Serialise(m.value, st);
    assert SerialiseMember(m, st) == q + c + v;
    assert q + c + v + after == q + (c + (v + after));
  }

  /** A quoted string reads back from just after its opening quote. */
  lemma QuotedKey(key: string, ascii: bool, afterKey: string)
    ensures var s := Quote(key, ascii) + afterKey;
            |s| > 0 && s[0] == '"' && ParseString(s[1..]) == Some((key, afterKey))
  {
    var s := Quote(key, ascii) + afterKey;
    assert s == "\"" + (Escape(key, ascii) + "\"" + afterKey);
    assert s[1..] == Escape(key, ascii) + "\"" + afterKey;
    StringRoundTrip(key, ascii, afterKey);
  }

  /** After the colon (and its space), the member's value reads back. */
  lemma MemberValueText(m: Member, st: Style, after: string)
    requires WellFormed(m.value)
    requires |after| > 0 && (after[0] == ',' || after[0] == '}')
    ensures var afterKey := Colon(st) + (Serialise(m.value, st) + after);
            |afterKey| > 0 && afterKey[0] == ':' && ParseValue(afterKey[1..]) == Some((m.value, after))
    decreases m, 2
  {
    var afterColon := Serialise(m.value, st) + after;
    var afterKey := Colon(st) + afterColon;
    ValueRoundTrip(m.value, st, after);
    if st.spaced {
      assert afterKey[1..] == " " + afterColon;
      LeadingSpace(afterColon);
    } else {
      assert afterKey[1..] == afterColon;
    }
  }

  lemma NewKey(acc: seq<Member>, ms: seq<Member>)
    requires |ms| > 0 && DistinctKeys(acc + ms)
    ensures Put(acc, ms[0].key, ms[0].value) == acc + [ms[0]]
    ensures DistinctKeys(acc + [ms[0]] + ms[1..])
  {
    forall i | 0 <= i < |acc|
      ensures acc[i].key != ms[0].key
    {
      assert (acc + ms)[i] == acc[i] && (acc + ms)[|acc|] == ms[0];
    }
    assert acc + [ms[0]] + ms[1..] == acc + ms;
  }

  lemma {:induction false} MembersRoundTrip(ms: seq<Member>, st: Style, acc: seq<Member>, rest: string)
    requires |ms| > 0 && forall i :: 0 <= i < |ms| ==> WellFormed(ms[i].value)
    requires DistinctKeys(acc + ms)
    requires Delimited(rest)
    ensures ParseMembers(SerialiseMembers(ms, st) + "}" + rest, acc) == Some((JObj(acc + ms), rest))
    decreases ms, 1
  {
    var m := ms[0];
    NewKey(acc, ms);
    if |ms| == 1 {
      MembersLast(m, st, acc, rest);
      assert ms == [m];
    } else {
      var tail := ms[1..];
      var acc' := acc + [m];
      assert ms == [m] + tail;
      calc {
        ParseMembers(SerialiseMembers(ms, st) + "}" + rest, acc);
        { MembersNext(m, tail, st, acc, rest); }
        ParseMembers(SerialiseMembers(tail, st) + "}" + rest, acc');
        { MembersRoundTrip(tail, st, acc', rest); }
        Some((JObj(acc' + tail), rest));
        { assert acc' + tail == acc + ms; }
        Some((JObj(acc + ms), rest));
      }
    }
  }

  lemma MembersLast(m: Member, st: Style, acc: seq<Member>, rest: string)
    requires WellFormed(m.value) && Delimited(rest)
    requires Put(acc, m.key, m.value) == acc + [m]
    ensures ParseMembers(SerialiseMembers([m], st) + "}" + rest, acc) == Some((JObj(acc + [m]), rest))
    decreases m, 4
  {
    assert SerialiseMembers([m], st) + "}" + rest == SerialiseMember(m, st) + ("}" + rest);
    MemberStep(m, st, acc, "}" + rest);
    assert ("}" + rest)[1..] == rest;
  }

  lemma MembersNext(m: Member, tail: seq<Member>, st: Style, acc: seq<Member>, rest: string)
    requires WellFormed(m.value) && |tail| > 0 && forall i :: 0 <= i < |tail| ==> WellFormed(tail[i].value)
    requires Put(acc, m.key, m.value) == acc + [m]
    ensures forall i :: 0 <= i < |[m] + tail| ==> WellFormed(([m] + tail)[i].value)
    ensures ParseMembers(SerialiseMembers([m] + tail, st) + "}" + rest, acc)
            == ParseMembers(SerialiseMembers(tail, st) + "}" + rest, acc + [m])
    decreases m, 4
  {
    var more := SerialiseMembers(tail, st) + "}" + rest;
    MembersText(m, tail, st, more, rest);
    calc {
      ParseMembers(SerialiseMembers([m] + tail, st) + "}" + rest, acc);
      ParseMembers(SerialiseMember(m, st) + (Comma(st) + more), acc);
      { MemberStep(m, st, acc, Comma(st) + more); }
      ParseMembers((Comma(st) + more)[1..], acc + [m]);
      { MembersSkipComma(st, more, acc + [m]); }
      ParseMembers(more, acc + [m]);
    }
  }

  /** The text of two or more members: the first, a comma, the rest. */
  lemma MembersText(m: Member, tail: seq<Member>, st: Style, more: string, rest: string)
    requires WellFormed(m.value) && |tail| > 0 && forall i :: 0 <= i < |tail| ==> WellFormed(tail[i].value)
    requires more == SerialiseMembers(tail, st) + "}" + rest
    ensures forall i :: 0 <= i < |[m] + tail| ==> WellFormed(([m] + tail)[i].value)
    ensures SerialiseMembers([m] + tail, st) + "}" + rest == SerialiseMember(m, st) + (Comma(st) + more)
  {
    assert ([m] + tail)[0] == m && ([m] + tail)[1..] == tail;
  }

  lemma MembersSkipComma(st: Style, more: string, acc: seq<Member>)
    ensures ParseMembers((Comma(st) + more)[1..], acc) == ParseMembers(more, acc)
  {
    if st.spaced {
      assert (Comma(st) + more)[1..] == " " + more;
      MembersSkipSpace(more, acc);
    } else {
      assert (Comma(st) + more)[1..] == more;
    }
  }

  lemma NumberRoundTrip(n: real, st: Style, rest: string)
    requires PlainInteger(n) && Delimited(rest)
    ensures ParseToken(Serialise(JNum(n), st) + rest) == Some((JNum(n), rest))
  {
    IntegerRoundTrip(n.Floor, rest);
  }

  lemma IntegerRoundTrip(k: int, rest: string)
    requires Delimited(rest)
    ensures ParseToken(IntToString(k) + rest) == Some((JNum(k as real), rest))
  {
    if k < 0 {
      NegativeRoundTrip(-k, rest);
    } else {
      NaturalRoundTrip(k, rest);
    }
  }

  lemma NegativeRoundTrip(m: nat, rest: string)
    requires m > 0 && Delimited(rest)
    ensures ParseToken("-" + NatToString(m) + rest) == Some((JNum(-(m as real)), rest))
  {
    var a := NatToString(m) + rest;
    var s := "-" + NatToString(m) + rest;
    assert s == "-" + a && s[1..] == a;
    UnsignedLiteral(true, m, rest);
    TokenNumber(s);
  }

  lemma NaturalRoundTrip(m: nat, rest: string)
    requires Delimited(rest)
    ensures ParseToken(NatToString(m) + rest) == Some((JNum(m as real), rest))
  {
    var s := NatToString(m) + rest;
    assert IsDigit(s[0]);
    UnsignedLiteral(false, m, rest);
    TokenNumber(s);
  }

  lemma TokenNumber(t: string)
    requires |t| > 0 && (t[0] == '-' || IsDigit(t[0]))
    ensures ParseToken(t) == ParseNumber(t)
    ensures t[0] == '-' ==> ParseNumber(t) == ParseUnsigned(true, t[1..])
    ensures t[0] != '-' ==> ParseNumber(t) == ParseUnsigned(false, t)
  {
    assert t[0] != '"' && t[0] != '[' && t[0] != '{' && t[0] != 'n' && t[0] != 't' && t[0] != 'f';
  }

  lemma UnsignedLiteral(neg: bool, m: nat, rest: string)
    requires Delimited(rest)
    ensures ParseUnsigned(neg, NatToString(m) + rest) == Some((JNum(if neg then -(m as real) else m as real), rest))
  {
    var digits := NatToString(m);
    var a := digits + rest;
    assert IsDigit(digits[0]);
    WholeOfLiteral(digits, rest);
    assert a[|digits|..] == rest;
    assert ParseFraction(rest) == Some(("", rest));
    assert ParseExponent(rest) == Some((false, "", rest));
    NatToStringValue(m);
    IntegerValue(neg, digits);
  }

  lemma WholeOfLiteral(digits: string, rest: string)
    requires |digits| > 0 && AllDigits(digits) && (|digits| == 1 || digits[0] != '0')
    requires Delimited(rest)
    ensures IntegerPart(digits + rest) == digits
  {
    DigitsOfPrefix(digits, rest);
    if digits[0] == '0' {
      assert digits == "0";
    }
  }

  lemma IntegerValue(neg: bool, digits: string)
    requires AllDigits(digits)
    ensures NumberValue(neg, digits, "", false, "")
            == if neg then -(DigitsValue(digits) as real) else DigitsValue(digits) as real
  {
    assert Pow10(0) == 1;
    assert DigitsValue("") == 0;
  }

  lemma {:induction false} DigitsOfPrefix(d: string, rest: string)
    requires AllDigits(d)
    requires |rest| == 0 || !IsDigit(rest[0])
    ensures Digits(d + rest) == d
  {
    if |d| > 0 {
      assert (d + rest)[1..] == d[1..] + rest;
      DigitsOfPrefix(d[1..], rest);
      assert [d[0]] + d[1..] == d;
    } else {
      assert d + rest == rest;
    }
  }

  lemma {:induction false} StringRoundTrip(s: string, ascii: bool, rest: string)
    ensures ParseString(Escape(s, ascii) + "\"" + rest) == Some((s, rest))
  {
    if |s| == 0 {
      assert Escape(s, ascii) + "\"" + rest == "\"" + rest;
      assert ("\"" + rest)[1..] == rest;
    } else {
      var tail := Escape(s[1..], ascii) + "\"" + rest;
      calc {
        ParseString(Escape(s, ascii) + "\"" + rest);
        { assert Escape(s, ascii) + "\"" + rest == EscapeChar(s[0], ascii) + tail; }
        ParseString(EscapeChar(s[0], ascii) + tail);
        { StringRoundTrip(s[1..], ascii, rest); CharRoundTrip(s[0], ascii, tail); }
        Some(([s[0]] + s[1..], rest));
        { assert [s[0]] + s[1..] == s; }
        Some((s, rest));
      }
    }
  }

  /** One escaped character, followed by text whose parse is known. */
  lemma CharRoundTrip(c: char, ascii: bool, tail: string)
    requires ParseString(tail).Some?
    ensures ParseString(EscapeChar(c, ascii) + tail)
            == Some(([c] + ParseString(tail).value.0, ParseString(tail).value.1))
  {
    var e := EscapeChar(c, ascii);
    var s := e + tail;
    if Verbatim(c, ascii) {
      assert s[0] == c && s[1..] == tail;
    } else {
      assert s[0] == '\\';
      assert s[1..] == e[1..] + tail;
      UnescapeRoundTrip(c, ascii, tail);
    }
  }

  lemma UnescapeRoundTrip(c: char, ascii: bool, tail: string)
    requires !Verbatim(c, ascii)
    ensures Unescape(EscapeChar(c, ascii)[1..] + tail) == Some((c, tail))
  {
    var e := EscapeChar(c, ascii);
    var s := e[1..] + tail;
    if c == '"' || c == '\\' || c == '\n' || c == '\r' || c == '\t' || c as int == 8 || c as int == 12 {
      assert |e| == 2 && s[1..] == tail;
    } else {
      var n := c as int;
      assert e == UnicodeEscape(c);
      if n < 0x10000 {
        Hex4RoundTrip(n);
        assert s[1..5] == Hex4(n) && s[5..] == tail;
      } else {
        SurrogatePair(c, tail);
      }
    }
  }

  lemma SurrogatePair(c: char, tail: string)
    requires c as int >= 0x10000
    ensures Unescape(UnicodeEscape(c)[1..] + tail) == Some((c, tail))
  {
    var n := c as int;
    var u := n - 0x10000;
    var hi, lo := 0xD800 + u / 0x400, 0xDC00 + u % 0x400;
    SurrogateHalves(n);
    assert UnicodeEscape(c)[1..] + tail == "u" + Hex4(hi) + "\\u" + Hex4(lo) + tail;
    UnescapePair(hi, lo, tail);
  }

  /** The two halves of a character above the basic plane. */
  lemma SurrogateHalves(n: int)
    requires 0x10000 <= n < 0x110000
    ensures var u := n - 0x10000;
            && HighSurrogate(0xD800 + u / 0x400) && LowSurrogate(0xDC00 + u % 0x400)
            && 0x10000 + (u / 0x400) * 0x400 + u % 0x400 == n
  {
  }

  /** An escaped surrogate pair reads back as the character it encodes. */
  lemma UnescapePair(hi: int, lo: int, tail: string)
    requires HighSurrogate(hi) && LowSurrogate(lo)
    requires 0x10000 + (hi - 0xD800) * 0x400 + (lo - 0xDC00) < 0x110000
    ensures Unescape("u" + Hex4(hi) + "\\u" + Hex4(lo) + tail)
            == Some(((0x10000 + (hi - 0xD800) * 0x400 + (lo - 0xDC00)) as char, tail))
  {
    var s := "u" + Hex4(hi) + "\\u" + Hex4(lo) + tail;
    Hex4RoundTrip(hi);
    Hex4RoundTrip(lo);
    assert s[1..5] == Hex4(hi);
    assert s[5] == '\\' && s[6] == 'u' && s[7..11] == Hex4(lo) && s[11..] == tail;
  }

  lemma HexDigitValue(d: nat)
    requires d < 16
    ensures IsHex(HexDigit(d)) && HexValue(HexDigit(d)) == d
  {
  }

  lemma Hex4RoundTrip(n: nat)
    requires n < 0x10000
    ensures IsHex4(Hex4(n)) && Hex4Value(Hex4(n)) == n
  {
    var q1 := n / 16;
    var q2 := q1 / 16;
    var q3 := q2 / 16;
    HexDigitValue(q3);
    HexDigitValue(q2 % 16);
    HexDigitValue(q1 % 16);
    HexDigitValue(n % 16);
    assert q2 == q3 * 16 + q2 % 16;
    assert q1 == q2 * 16 + q1 % 16;
    assert n == q1 * 16 + n % 16;
  }

  // ---------------------------------------------------------------------------
  // Examples
  // ---------------------------------------------------------------------------

  /** The two serialisers differ in spacing and in non-ASCII text:
      `JSON.stringify` keeps `é` and writes no spaces ... */
  lemma StringifyExample()
    ensures Stringify(JArr([JNum(1.0), JStr("é")])) == "[1,\"é\"]"
  {
    assert Serialise(JStr("é"), JS) == "\"é\"";
  }

  /** ... while `json.dumps` escapes it and puts a space after the comma. */
  lemma DumpsExample()
    ensures Dumps(JArr([JNum(1.0), JStr("é")])) == "[1, \"\\u00e9\"]"
  {
    assert Hex4(0xE9) == "00e9";
    assert Serialise(JStr("é"), PY) == "\"\\u00e9\"";
  }

  // ---------------------------------------------------------------------------
  // Properties of the text
  // ---------------------------------------------------------------------------

  /** A string read back from a text is shorter than the text: its quotes
      at least are gone, so no text parses to itself as a string. */
  lemma ParsedStringShorter(s: string)
    requires Parse(s).Some? && Parse(s).value.JStr?
    ensures |Parse(s).value.s| < |s|
  {
    var t := SkipWs(s);
    assert ParseValue(s) == ParseToken(t);
    assert |t| > 0 && t[0] == '"';
  }

  /** No serialised text holds a line break: line breaks inside strings are
      written as escapes, and nothing else in the output is a control character. */
  lemma {:induction false} SerialiseOneLine(v: Value, st: Style)
    requires WellFormed(v)
    ensures '\n' !in Serialise(v, st)
    decreases v, 1
  {
    match v
    case JNull =>
    case JBool(_) =>
    case JNum(n) =>
      var d := NatToString(if n.Floor < 0 then -n.Floor else n.Floor);
      assert forall i :: 0 <= i < |d| ==> d[i] != '\n';
    case JStr(s) => EscapeOneLine(s, st.ascii);
    case JArr(items) => ItemsOneLine(items, st);
    case JObj(ms) => MembersOneLine(ms, st);
  }

  lemma {:induction false} ItemsOneLine(items: seq<Value>, st: Style)
    requires forall i :: 0 <= i < |items| ==> WellFormed(items[i])
    ensures '\n' !in SerialiseItems(items, st)
    decreases items, 0
  {
    if |items| > 0 {
      SerialiseOneLine(items[0], st);
      if |items| > 1 {
        ItemsOneLine(items[1..], st);
      }
    }
  }

  lemma {:induction false} MembersOneLine(ms: seq<Member>, st: Style)
    requires forall i :: 0 <= i < |ms| ==> WellFormed(ms[i].value)
    ensures '\n' !in SerialiseMembers(ms, st)
    decreases ms, 0
  {
    if |ms| > 0 {
      EscapeOneLine(ms[0].key, st.ascii);
      SerialiseOneLine(ms[0].value, st);
      if |ms| > 1 {
        MembersOneLine(ms[1..], st);
      }
    }
  }

  lemma {:induction false} EscapeOneLine(s: string, ascii: bool)
    ensures '\n' !in Escape(s, ascii)
  {
    if |s| > 0 {
      EscapeOneLine(s[1..], ascii);
      var c := s[0];
      if !Verbatim(c, ascii) && c != '"' && c != '\\' && c != '\n' && c != '\r' && c != '\t'
         && c as int != 8 && c as int != 12 {
        var n := c as int;
        if n < 0x10000 {
          Hex4OneLine(n);
        } else {
          var u := n - 0x10000;
          Hex4OneLine(0xD800 + u / 0x400);
          Hex4OneLine(0xDC00 + u % 0x400);
        }
      }
    }
  }

  lemma Hex4OneLine(n: nat)
    requires n < 0x10000
    ensures '\n' !in Hex4(n)
  {
  }
}

=== FILE: ledger.dfy ===
/** The accounting records of the schema (vendor, invoice, line item,
    payment) and the sums every analytics route folds over them. */
module Ledger {
  import opened Wrappers
  import opened Calendar

  datatype Vendor = Vendor(
    id: string,
    name: string,
    email: Option<string>,
    phone: Option<string>,
    address: Option<string>)

  datatype LineItem = LineItem(
    description: string,
    quantity: real,
    unitPrice: real,
    category: Option<string>,
    total: real)

  datatype Payment = Payment(
    amount: real,
    paymentDate: Instant,
    paymentMethod: Option<string>)

  datatype Invoice = Invoice(
    id: string,
    invoiceNumber: string,
    vendorId: string,
    customerName: Option<string>,
    issueDate: Instant,
    dueDate: Option<Instant>,
    status: string,
    subtotal: real,
    tax: real,
    total: real,
    currency: string,
    createdAt: Instant,
    lineItems: seq<LineItem>,
    payments: seq<Payment>)

  /** Every date the database holds for the invoice is a real calendar date. */
  predicate WellDated(inv: Invoice) {
    ValidInstant(inv.issueDate) && ValidInstant(inv.createdAt)
    && (inv.dueDate.Some? ==> ValidInstant(inv.dueDate.value))
  }

  predicate AllWellDated(invoices: seq<Invoice>) {
    forall i :: 0 <= i < |invoices| ==> WellDated(invoices[i])
  }

  /** `xs.reduce((sum, x) => sum + x, 0)`, accumulated left to right. */
  function Sum(xs: seq<real>): real {
    if |xs| == 0 then 0.0 else Sum(xs[..|xs| - 1]) + xs[|xs| - 1]
  }

  lemma {:induction false} SumAppend(a: seq<real>, b: seq<real>)
    ensures Sum(a + b) == Sum(a) + Sum(b)
  {
    if |b| > 0 {
      var c := a + b;
      assert c[..|c| - 1] == a + b[..|b| - 1];
      SumAppend(a, b[..|b| - 1]);
    } else {
      assert a + b == a;
    }
  }

  lemma SumPrefixStep(xs: seq<real>, i: int)
    requires 0 <= i < |xs|
    ensures Sum(xs[..i + 1]) == Sum(xs[..i]) + xs[i]
  {
    assert xs[..i + 1][..i] == xs[..i];
  }

  lemma {:induction false} SumNonNegative(xs: seq<real>)
    requires forall i :: 0 <= i < |xs| ==> xs[i] >= 0.0
    ensures Sum(xs) >= 0.0
  {
    if |xs| > 0 {
      SumNonNegative(xs[..|xs| - 1]);
    }
  }

  /** With no negative entries, a zero sum means every entry is zero. */
  lemma {:induction false} SumZeroMeansAllZero(xs: seq<real>)
    requires forall i :: 0 <= i < |xs| ==> xs[i] >= 0.0
    requires Sum(xs) == 0.0
    ensures forall i :: 0 <= i < |xs| ==> xs[i] == 0.0
  {
    if |xs| > 0 {
      SumNonNegative(xs[..|xs| - 1]);
      SumZeroMeansAllZero(xs[..|xs| - 1]);
      assert forall i :: 0 <= i < |xs| - 1 ==> xs[i] == xs[..|xs| - 1][i];
    }
  }

  /** With no negative entries, longer prefixes never sum to less. */
  lemma {:induction false} PrefixSumMonotone(xs: seq<real>, i: int, j: int)
    requires forall k :: 0 <= k < |xs| ==> xs[k] >= 0.0
    requires 0 <= i <= j <= |xs|
    ensures Sum(xs[..i]) <= Sum(xs[..j])
    decreases j - i
  {
    if i < j {
      SumPrefixStep(xs, j - 1);
      PrefixSumMonotone(xs, i, j - 1);
    }
  }

  /** The `total` column of a list of invoices. */
  function Totals(invoices: seq<Invoice>): (r: seq<real>)
    ensures |r| == |invoices|
    ensures forall i :: 0 <= i < |invoices| ==> r[i] == invoices[i].total
  {
    seq(|invoices|, i requires 0 <= i < |invoices| => invoices[i].total)
  }

  lemma TotalsPrefix(invoices: seq<Invoice>, i: int)
    requires 0 <= i <= |invoices|
    ensures Totals(invoices[..i]) == Totals(invoices)[..i]
  {
  }

  // ---------------------------------------------------------------------------
  // JavaScript division
  // ---------------------------------------------------------------------------

  /** A JavaScript number as far as the percentage arithmetic can produce one. */
  datatype JsNumber = Finite(value: real) | NaN | PosInf | NegInf

  /** `a / b`: the quotient, or NaN for `0 / 0` and a signed infinity otherwise. */
  function Divide(a: real, b: real): (q: JsNumber)
    ensures b != 0.0 ==> q == Finite(a / b)
    ensures b == 0.0 ==> (q == NaN <==> a == 0.0)
    ensures b == 0.0 && a > 0.0 ==> q == PosInf
    ensures b == 0.0 && a < 0.0 ==> q == NegInf
  {
    if b != 0.0 then Finite(a / b)
    else if a == 0.0 then NaN
    else if a > 0.0 then PosInf
    else NegInf
  }

  /** `x * 100`: infinities and NaN are unchanged. */
  function Times100(x: JsNumber): JsNumber {
    match x
    case Finite(v) => Finite(v * 100.0)
    case _ => x
  }
}

=== FILE: ordering.dfy ===
/** `orderBy: { <column>: 'asc' }`, as a stable insertion sort: on a text
    column by the code-point order of the column, on a number or time column
    by its value. */
module Ordering {
  import opened Text

  predicate SortedBy<T>(xs: seq<T>, key: T -> string) {
    forall i :: 0 <= i < |xs| - 1 ==> LexLe(key(xs[i]), key(xs[i + 1]))
  }

  function InsertBy<T>(x: T, xs: seq<T>, key: T -> string): (r: seq<T>)
    requires SortedBy(xs, key)
    ensures SortedBy(r, key)
    ensures multiset(r) == multiset(xs) + multiset{x}
    ensures |r| > 0 && (r[0] == x || (|xs| > 0 && r[0] == xs[0]))
  {
    if |xs| == 0 || LexLe(key(x), key(xs[0])) then [x] + xs
    else
      LexLeTotal(key(x), key(xs[0]));
      assert xs == [xs[0]] + xs[1..];
      [xs[0]] + InsertBy(x, xs[1..], key)
  }

  /** The rows ordered by `key`, ascending: a permutation of the input. */
  function SortBy<T>(xs: seq<T>, key: T -> string): (r: seq<T>)
    ensures SortedBy(r, key)
    ensures multiset(r) == multiset(xs)
  {
    if |xs| == 0 then []
    else
      assert xs == [xs[0]] + xs[1..];
      InsertBy(xs[0], SortBy(xs[1..], key), key)
  }

  predicate SortedByNum<T>(xs: seq<T>, key: T -> int) {
    forall i :: 0 <= i < |xs| - 1 ==> key(xs[i]) <= key(xs[i + 1])
  }

  function InsertByNum<T>(x: T, xs: seq<T>, key: T -> int): (r: seq<T>)
    requires SortedByNum(xs, key)
    ensures SortedByNum(r, key)
    ensures multiset(r) == multiset(xs) + multiset{x}
    ensures |r| > 0 && (r[0] == x || (|xs| > 0 && r[0] == xs[0]))
  {
    if |xs| == 0 || key(x) <= key(xs[0]) then [x] + xs
    else
      assert xs == [xs[0]] + xs[1..];
      [xs[0]] + InsertByNum(x, xs[1..], key)
  }

  /** The rows ordered by a numeric `key`, ascending: a permutation of the input. */
  function SortByNum<T>(xs: seq<T>, key: T -> int): (r: seq<T>)
    ensures SortedByNum(r, key)
    ensures multiset(r) == multiset(xs)
  {
    if |xs| == 0 then []
    else
      assert xs == [xs[0]] + xs[1..];
      InsertByNum(xs[0], SortByNum(xs[1..], key), key)
  }

  /** Sorted neighbours make the whole sequence sorted. */
  lemma {:induction false} SortedByNumPairs<T>(xs: seq<T>, key: T -> int, i: int, j: int)
    requires SortedByNum(xs, key) && 0 <= i <= j < |xs|
    ensures key(xs[i]) <= key(xs[j])
    decreases j - i
  {
    if i < j {
      SortedByNumPairs(xs, key, i + 1, j);
    }
  }

  /** A list already in order comes back unchanged: an element goes in front
      of the first one whose key is not smaller. */
  lemma {:induction false} SortByNumKeepsSorted<T>(xs: seq<T>, key: T -> int)
    requires SortedByNum(xs, key)
    ensures SortByNum(xs, key) == xs
  {
    if |xs| > 0 {
      assert SortedByNum(xs[1..], key) by {
        forall i | 0 <= i < |xs[1..]| - 1
          ensures key(xs[1..][i]) <= key(xs[1..][i + 1])
        {
          assert xs[1..][i] == xs[i + 1] && xs[1..][i + 1] == xs[i + 2];
        }
      }
      SortByNumKeepsSorted(xs[1..], key);
      assert xs == [xs[0]] + xs[1..];
    }
  }
}

=== FILE: payment_status.dfy ===
/** Invoices grouped by payment status, as `GET /api/payment-status` computes
    it on the server and the payment-status chart recomputes it in the
    browser: a `Map` keyed by status, filled in query order, whose entries
    come out in first-insertion order. */
module PaymentStatus {
  import opened Wrappers
  import opened Text
  import opened Ledger
  import opened Grouping

  /** `status || 'pending'`: an empty status counts as pending. */
  function DefaultStatus(status: string): (s: string)
    ensures s != ""
    ensures status != "" ==> s == status
  {
    if status == "" then "pending" else status
  }

  // ---------------------------------------------------------------------------
  // The server route
  // ---------------------------------------------------------------------------

  /** One element of the response. */
  datatype StatusCount = StatusCount(status: string, count: nat, total: real)

  /** `status.charAt(0).toUpperCase() + status.slice(1)` on every group. */
  function Labelled(gs: seq<KeyTotal>): (r: seq<StatusCount>)
    ensures |r| == |gs|
    ensures forall i :: 0 <= i < |gs| ==>
              r[i] == StatusCount(Capitalize(gs[i].key), gs[i].count, gs[i].total)
  {
    seq(|gs|, i requires 0 <= i < |gs| => StatusCount(Capitalize(gs[i].key), gs[i].count, gs[i].total))
  }

  function InvoiceEntries(invoices: seq<Invoice>): (es: seq<Entry>)
    ensures |es| == |invoices|
    ensures forall i :: 0 <= i < |invoices| ==> es[i] == Entry(DefaultStatus(invoices[i].status), invoices[i].total)
  {
    seq(|invoices|, i requires 0 <= i < |invoices| => Entry(DefaultStatus(invoices[i].status), invoices[i].total))
  }

  /** The `GET /api/payment-status` response. */
  function Report(invoices: seq<Invoice>): (r: seq<StatusCount>)
    ensures |r| <= |invoices|
  {
    Labelled(GroupByKey(InvoiceEntries(invoices)))
  }

  function ReportedCount(r: seq<StatusCount>): nat {
    if |r| == 0 then 0 else ReportedCount(r[..|r| - 1]) + r[|r| - 1].count
  }

  /** The response's counts add up to the number of invoices. */
  lemma ReportCountsInvoices(invoices: seq<Invoice>)
    ensures ReportedCount(Report(invoices)) == |invoices|
  {
    var gs := GroupByKey(InvoiceEntries(invoices));
    CountsAddUp(InvoiceEntries(invoices));
    LabelledKeepsCounts(gs);
  }

  lemma {:induction false} LabelledKeepsCounts(gs: seq<KeyTotal>)
    ensures ReportedCount(Labelled(gs)) == CountSum(gs)
  {
    if |gs| > 0 {
      LabelledKeepsCounts(gs[..|gs| - 1]);
      assert Labelled(gs)[..|gs| - 1] == Labelled(gs[..|gs| - 1]);
    }
  }

  /** An invoice with an empty status is grouped with the pending ones. */
  lemma EmptyStatusIsPending(invoices: seq<Invoice>, k: int)
    requires 0 <= k < |invoices| && invoices[k].status == ""
    ensures Find(GroupByKey(InvoiceEntries(invoices)), "pending") < |GroupByKey(InvoiceEntries(invoices))|
  {
    var es := InvoiceEntries(invoices);
    assert es[k].key == "pending";
    assert FirstIndex(es, "pending") <= k;
    GroupMembership(es, "pending");
  }

  // ---------------------------------------------------------------------------
  // The chart
  // ---------------------------------------------------------------------------

  /** An invoice as the chart receives it in JSON: fields may be missing. */
  datatype ChartInvoice = ChartInvoice(status: Option<string>, total: Option<real>)

  /** `inv.status || 'pending'` and `inv.total || 0`. */
  function ChartEntry(inv: ChartInvoice): (e: Entry)
    ensures inv.status.None? ==> e.key == "pending"
    ensures inv.status.Some? && inv.status.value != "" ==> e.key == inv.status.value
    ensures e.amount == if inv.total.Some? then inv.total.value else 0.0
  {
    Entry(DefaultStatus(inv.status.GetOr("")), inv.total.GetOr(0.0))
  }

  const CHART_COLORS: seq<string> := ["#10b981", "#f59e0b", "#ef4444"]

  /** The chart's rows: label, count, total and the `COLORS[index % 3]` fill. */
  datatype ChartRow = ChartRow(status: string, count: nat, total: real, color: string)

  function ChartEntries(invoices: seq<ChartInvoice>): (es: seq<Entry>)
    ensures |es| == |invoices|
    ensures forall i :: 0 <= i < |invoices| ==> es[i] == ChartEntry(invoices[i])
  {
    seq(|invoices|, i requires 0 <= i < |invoices| => ChartEntry(invoices[i]))
  }

  function ChartRows(invoices: seq<ChartInvoice>): (r: seq<ChartRow>)
    ensures |r| == |GroupByKey(ChartEntries(invoices))| <= |invoices|
    ensures forall i :: 0 <= i < |r| ==> r[i].color == CHART_COLORS[i % 3]
    ensures forall i :: 0 <= i < |r| ==>
              var g := GroupByKey(ChartEntries(invoices))[i];
              r[i].status == Capitalize(g.key) && r[i].count == g.count && r[i].total == g.total
  {
    var gs := GroupByKey(ChartEntries(invoices));
    seq(|gs|, i requires 0 <= i < |gs| => ChartRow(Capitalize(gs[i].key), gs[i].count, gs[i].total, CHART_COLORS[i % 3]))
  }

  function ChartCount(r: seq<ChartRow>): nat {
    if |r| == 0 then 0 else ChartCount(r[..|r| - 1]) + r[|r| - 1].count
  }

  /** Rows carrying the groups' counts, position by position, count as
      many invoices as the groups. */
  lemma {:induction false} ChartCountIsCountSum(r: seq<ChartRow>, gs: seq<KeyTotal>)
    requires |r| == |gs|
    requires forall i :: 0 <= i < |r| ==> r[i].count == gs[i].count
    ensures ChartCount(r) == CountSum(gs)
  {
    if |r| > 0 {
      ChartCountIsCountSum(r[..|r| - 1], gs[..|gs| - 1]);
    }
  }

  /** The pie's counts add up to the number of invoices received. */
  lemma ChartCountsInvoices(invoices: seq<ChartInvoice>)
    ensures ChartCount(ChartRows(invoices)) == |invoices|
  {
    var r := ChartRows(invoices);
    var gs := GroupByKey(ChartEntries(invoices));
    ChartCountIsCountSum(r, gs);
    CountsAddUp(ChartEntries(invoices));
  }
}

=== FILE: requests.dfy ===
/** What the CRUD routes share: JSON body fields with JavaScript truthiness,
    the `x || null` and `x || default` normalisations, the spread-based
    partial updates, and the `page`/`limit` pagination arithmetic. */
module Requests {
  import opened Wrappers

  // ---------------------------------------------------------------------------
  // Body fields
  // ---------------------------------------------------------------------------

  /** A field of a JSON request body: absent (`undefined`), `null`, or a value. */
  datatype Field<+T> = Undefined | Null | Given(value: T)

  /** JavaScript truthiness of a string field: present and non-empty. */
  predicate Truthy(f: Field<string>) {
    f.Given? && f.value != ""
  }

  /** `f || null`. */
  function OrNull(f: Field<string>): (r: Option<string>)
    ensures r.Some? <==> Truthy(f)
    ensures r.Some? ==> r.value == f.value
  {
    if Truthy(f) then Some(f.value) else None
  }

  /** `f || fallback`, and also `...(f && { column: f })` on an update,
      where the fallback is the column's current value. */
  function OrElse(f: Field<string>, fallback: string): (r: string)
    ensures Truthy(f) ==> r == f.value
    ensures !Truthy(f) ==> r == fallback
  {
    if Truthy(f) then f.value else fallback
  }

  /** `...(f !== undefined && { column: f || null })`: an optional column
      changes whenever the field is present, a falsy value clearing it. */
  function SetIfDefined(f: Field<string>, current: Option<string>): (r: Option<string>)
    ensures f.Undefined? ==> r == current
    ensures !f.Undefined? ==> r == OrNull(f)
  {
    if f.Undefined? then current else OrNull(f)
  }

  /** The pages send `formValue || null`: an empty input becomes `null`. */
  function NullIfEmpty(s: string): (f: Field<string>)
    ensures f.Null? <==> s == ""
    ensures OrNull(f) == (if s == "" then None else Some(s))
  {
    if s == "" then Null else Given(s)
  }

  /** The verbs the pages' save handlers choose between. */
  datatype Verb = Post | Put

  // ---------------------------------------------------------------------------
  // Filtering
  // ---------------------------------------------------------------------------

  /** `findMany({ where })`: the rows the `where` object keeps, in table order. */
  function Where<T>(rows: seq<T>, keep: T -> bool): (r: seq<T>)
    ensures |r| <= |rows|
    ensures forall x :: x in r ==> x in rows && keep(x)
    ensures forall x :: x in rows && keep(x) ==> x in r
  {
    if |rows| == 0 then []
    else
      var init := Where(rows[..|rows| - 1], keep);
      var last := rows[|rows| - 1];
      assert forall x :: x in rows ==> x in rows[..|rows| - 1] || x == last;
      if keep(last) then init + [last] else init
  }

  /** A `where` object every row satisfies keeps the table as it is. */
  lemma {:induction false} WhereKeepsAll<T>(rows: seq<T>, keep: T -> bool)
    requires forall x :: x in rows ==> keep(x)
    ensures Where(rows, keep) == rows
  {
    if |rows| > 0 {
      assert forall x :: x in rows[..|rows| - 1] ==> x in rows;
      WhereKeepsAll(rows[..|rows| - 1], keep);
      assert rows[..|rows| - 1] + [rows[|rows| - 1]] == rows;
    }
  }

  /** Two filters that agree on every row keep the same rows in the same order. */
  lemma {:induction false} WhereAgree<T>(rows: seq<T>, a: T -> bool, b: T -> bool)
    requires forall x :: x in rows ==> a(x) == b(x)
    ensures Where(rows, a) == Where(rows, b)
  {
    if |rows| > 0 {
      assert forall x :: x in rows[..|rows| - 1] ==> x in rows;
      WhereAgree(rows[..|rows| - 1], a, b);
    }
  }

  // ---------------------------------------------------------------------------
  // Pagination
  // ---------------------------------------------------------------------------

  const DEFAULT_PAGE: int := 1
  const DEFAULT_LIMIT: int := 50

  /** `page = '1'` and `limit = '50'` when the query omits them. */
  function PageParam(q: Option<int>): int {
    q.GetOr(DEFAULT_PAGE)
  }

  function LimitParam(q: Option<int>): int {
    q.GetOr(DEFAULT_LIMIT)
  }

  /** `(pageNum - 1) * limitNum`. */
  function Skip(page: int, limit: int): int {
    (page - 1) * limit
  }

  /** `Math.ceil(total / limitNum)`. */
  function TotalPages(total: nat, limit: int): (n: nat)
    requires limit > 0
    ensures n * limit >= total
    ensures n > 0 ==> (n - 1) * limit < total
  {
    (total + limit - 1) / limit
  }

  function Min(a: int, b: int): int {
    if a <= b then a else b
  }

  /** `findMany({ skip, take })` over the rows in the requested order. */
  function PageOf<T>(rows: seq<T>, page: int, limit: int): (r: seq<T>)
    requires page >= 1 && limit >= 1
    ensures |r| <= limit
    ensures forall k :: 0 <= k < |r| ==> Skip(page, limit) + k < |rows| && r[k] == rows[Skip(page, limit) + k]
    ensures Skip(page, limit) + limit <= |rows| ==> |r| == limit
    ensures Skip(page, limit) >= |rows| ==> r == []
  {
    var lo := Min(Skip(page, limit), |rows|);
    var hi := Min(Skip(page, limit) + limit, |rows|);
    rows[lo..hi]
  }

  /** Pages `1..p` read one after the other. */
  function Pages<T>(rows: seq<T>, limit: int, p: nat): seq<T>
    requires limit >= 1
  {
    if p == 0 then [] else Pages(rows, limit, p - 1) + PageOf(rows, p, limit)
  }

  lemma {:induction false} PagesPrefix<T>(rows: seq<T>, limit: int, p: nat)
    requires limit >= 1
    ensures Pages(rows, limit, p) == rows[..Min(p * limit, |rows|)]
  {
    if p > 0 {
      PagesPrefix(rows, limit, p - 1);
      assert Skip(p, limit) == (p - 1) * limit;
      var lo := Min((p - 1) * limit, |rows|);
      var hi := Min(p * limit, |rows|);
      assert PageOf(rows, p, limit) == rows[lo..hi];
      assert rows[..lo] + rows[lo..hi] == rows[..hi];
    }
  }

  /** Reading every page from 1 to `totalPages` yields every row exactly once, in order. */
  lemma PagesCoverAll<T>(rows: seq<T>, limit: int)
    requires limit >= 1
    ensures Pages(rows, limit, TotalPages(|rows|, limit)) == rows
  {
    var n := TotalPages(|rows|, limit);
    PagesPrefix(rows, limit, n);
    assert rows[..|rows|] == rows;
  }

  /** Row `k` is on page `k / limit + 1`, which is one of the reported pages. */
  lemma PageOfRow(n: nat, limit: int, k: int)
    requires limit >= 1 && 0 <= k < n
    ensures var p := k / limit + 1;
            1 <= p <= TotalPages(n, limit) && Skip(p, limit) <= k < Skip(p, limit) + limit
  {
    var p := k / limit + 1;
    var t := TotalPages(n, limit);
    assert Skip(p, limit) == (k / limit) * limit;
    assert (k / limit) * limit <= k < (k / limit) * limit + limit;
  }

  /** The `pagination` object of a listing. */
  datatype Pagination = Pagination(page: int, limit: int, total: nat, totalPages: nat)

  /** One page of a listing and its `pagination` object. */
  datatype Page<+T> = Page(rows: seq<T>, pagination: Pagination)

  /** `findMany({ where, skip, take })` together with `count({ where })`, over
      the rows the `where` object keeps, in the requested order. A page below
      1 makes the skip negative, which the database client refuses; the
      route's catch then answers 500 with `failure`. */
  function Paginate<T>(matching: seq<T>, page: Option<int>, limit: Option<int>, failure: string): (r: Reply<Page<T>>)
    requires LimitParam(limit) >= 1
    ensures r.Fail? <==> PageParam(page) < 1
    ensures r.Fail? ==> r == Fail(SERVER_ERROR, failure)
    ensures r.Ok? ==> r.value.rows == PageOf(matching, PageParam(page), LimitParam(limit))
    ensures r.Ok? ==> r.value.pagination.page == PageParam(page) && r.value.pagination.limit == LimitParam(limit)
    ensures r.Ok? ==> r.value.pagination.total == |matching|
    ensures r.Ok? ==> r.value.pagination.totalPages * LimitParam(limit) >= |matching|
    ensures r.Ok? ==> r.value.pagination.totalPages == TotalPages(|matching|, LimitParam(limit))
    ensures r.Ok? ==> forall x :: x in r.value.rows ==> x in matching
  {
    var p, n := PageParam(page), LimitParam(limit);
    if Skip(p, n) < 0 then Fail(SERVER_ERROR, failure)
    else
      var shown := PageOf(matching, p, n);
      assert forall x :: x in shown ==> x in matching;
      Ok(Page(shown, Pagination(p, n, |matching|, TotalPages(|matching|, n))))
  }

  /** Pages `1..p` as a listing returns them, one request per page. */
  function Requested<T>(matching: seq<T>, limit: Option<int>, failure: string, p: nat): seq<T>
    requires LimitParam(limit) >= 1
  {
    if p == 0 then []
    else
      var r := Paginate(matching, Some(p), limit, failure);
      Requested(matching, limit, failure, p - 1) + (if r.Ok? then r.value.rows else [])
  }

  /** Requesting pages 1 to the reported `totalPages` one after the other
      returns every matching row exactly once, in order. */
  lemma PaginateCoversAll<T>(matching: seq<T>, limit: Option<int>, failure: string)
    requires LimitParam(limit) >= 1
    ensures Paginate(matching, None, limit, failure).Ok?
    ensures Requested(matching, limit, failure, Paginate(matching, None, limit, failure).value.pagination.totalPages) == matching
  {
    var n := TotalPages(|matching|, LimitParam(limit));
    RequestedPages(matching, limit, failure, n);
    PagesCoverAll(matching, LimitParam(limit));
  }

  lemma {:induction false} RequestedPages<T>(matching: seq<T>, limit: Option<int>, failure: string, p: nat)
    requires LimitParam(limit) >= 1
    ensures Requested(matching, limit, failure, p) == Pages(matching, LimitParam(limit), p)
  {
    if p > 0 {
      RequestedPages(matching, limit, failure, p - 1);
      var r := Paginate(matching, Some(p), limit, failure);
      assert PageParam(Some(p)) == p;
      assert r.Ok? && r.value.rows == PageOf(matching, p, LimitParam(limit));
    }
  }
}

=== FILE: seed.dfy ===
/** The database seed: it reads the invoice file, tops it up with generated
    sample invoices when the file holds fewer than ten, and writes every
    invoice whose number is new, creating vendors by name on the way. The
    file, the database and the random draws are parameters. */
module Seed {
  import opened Wrappers
  import opened Text
  import opened Calendar

  /** `if (invoices.length < 10)`. */
  const SAMPLE_THRESHOLD: nat := 10
  /** `for (let i = 0; i < 50; i++)`. */
  const SAMPLE_COUNT: nat := 50
  const NUMBER_PREFIX: string := "INV-2025-"
  /** `subtotal * 0.19`. */
  const TAX_RATE: real := 0.19
  /** `dueDate.setDate(dueDate.getDate() + 30)`. */
  const PAYMENT_TERM_DAYS: int := 30

  const VENDOR_NAMES: seq<string> :=
    ["AcmeCorp", "Test Solutions", "PrimeVendors", "DeltaServices", "OmegaLtd", "Global Supply"]
  const VENDOR_EMAILS: seq<string> :=
    ["contact@acmecorp.com", "info@testsolutions.com", "hello@primevendors.com",
     "contact@deltaservices.com", "info@omegaltd.com", "sales@globalsupply.com"]
  const CATEGORIES: seq<string> := ["Operations", "Marketing", "Facilities", "IT", "HR", "Sales"]
  const STATUSES: seq<string> := ["pending", "paid", "overdue"]

  datatype VendorData = VendorData(name: string, email: Option<string>)

  datatype Item = Item(description: string, quantity: real, unitPrice: real, category: Option<string>, total: real)

  /** A payment; `paidOn` is a day number. */
  datatype Pay = Pay(amount: real, paidOn: int)

  /** One invoice of the file; dates are day numbers, and an empty status or
      currency stands for an absent one. */
  datatype InvoiceData = InvoiceData(
    invoiceNumber: string,
    vendor: VendorData,
    customerName: Option<string>,
    issueDay: int,
    dueDay: Option<int>,
    status: string,
    subtotal: real,
    tax: real,
    total: real,
    currency: string,
    lineItems: seq<Item>,
    payments: seq<Pay>)

  /** The vendors keyed by their unique name, the invoices by their unique number. */
  datatype Db = Db(vendors: map<string, VendorData>, invoices: map<string, InvoiceData>)

  // ---------------------------------------------------------------------------
  // Invoice numbers
  // ---------------------------------------------------------------------------

  /** `String(invoiceCounter).padStart(3, '0')`. */
  function CounterText(c: nat): string {
    PadStart(NatToString(c), 3, '0')
  }

  /** `INV-2025-` and the counter, padded to at least three digits. */
  function InvoiceNumber(c: nat): string {
    NUMBER_PREFIX + CounterText(c)
  }

  /** The counter can be read back from the number: the digits after the
      prefix have its value. */
  lemma NumberCounter(c: nat)
    ensures StartsWith(InvoiceNumber(c), NUMBER_PREFIX)
    ensures |InvoiceNumber(c)| >= |NUMBER_PREFIX| + 3
    ensures var t := InvoiceNumber(c)[|NUMBER_PREFIX|..];
            (forall i :: 0 <= i < |t| ==> IsDigit(t[i])) && DigitsValue(t) == c
  {
    var d := NatToString(c);
    assert InvoiceNumber(c)[|NUMBER_PREFIX|..] == CounterText(c);
    NatToStringValue(c);
    if |d| < 3 {
      assert CounterText(c) == Zeros(3 - |d|) + d;
      LeadingZerosValue(3 - |d|, d);
    } else {
      assert CounterText(c) == d;
    }
  }

  /** Different counters give different numbers. */
  lemma NumberInjective(a: nat, b: nat)
    requires InvoiceNumber(a) == InvoiceNumber(b)
    ensures a == b
  {
    NumberCounter(a);
    NumberCounter(b);
  }

  /** A number no longer than `bound` characters comes from a counter below `10^bound`. */
  lemma NumberBound(c: nat, bound: nat)
    requires |InvoiceNumber(c)| < bound
    ensures c < Pow10(bound)
  {
    assert |CounterText(c)| >= |NatToString(c)|;
    NatToStringBound(c, bound);
  }

  /** Some length exceeds the length of every string of a finite set. */
  lemma LengthBound(ss: set<string>) returns (b: nat)
    ensures forall s :: s in ss ==> |s| < b
    decreases |ss|
  {
    if ss == {} {
      b := 0;
    } else {
      var s :| s in ss;
      var rest := LengthBound(ss - {s});
      b := if |s| < rest then rest else |s| + 1;
    }
  }

  // ---------------------------------------------------------------------------
  // Sample invoices
  // ---------------------------------------------------------------------------

  /** The `Math.random()` draws of one sample invoice, already scaled to the
      ranges the code floors them into. */
  datatype Draw = Draw(
    day: nat,
    vendor: nat,
    category: nat,
    status: nat,
    subtotal: nat,
    quantity: nat,
    divisor: nat,
    paidDaysBefore: nat)

  predicate ValidDraw(d: Draw) {
    d.day < 28 && d.vendor < |VENDOR_NAMES| && d.category < |CATEGORIES| && d.status < |STATUSES|
    && d.subtotal < 10000 && d.quantity < 5 && d.divisor < 5 && d.paidDaysBefore <= 7
  }

  /** Sample invoice `i` under `number`: issued on a random day (1 to 28) of
      month `i / 5` of the eleven months ending two months before `now`'s
      month, due 30 days later, taxed at 19%, with one line item, and paid
      in full shortly before its due date when its status is `paid`. */
  function Sample(i: nat, number: string, now: Date, d: Draw): (r: InvoiceData)
    requires ValidDraw(d)
  {
    var issue := MakeDate(MonthIndex(now) - (11 - i / 5), d.day + 1);
    var issueDay := EpochDay(issue);
    var dueDay := issueDay + PAYMENT_TERM_DAYS;
    var subtotal := (d.subtotal + 500) as real;
    var tax := subtotal * TAX_RATE;
    var total := subtotal + tax;
    var status := STATUSES[d.status];
    var category := CATEGORIES[d.category];
    InvoiceData(
      number, VendorData(VENDOR_NAMES[d.vendor], Some(VENDOR_EMAILS[d.vendor])), Some("Customer " + NatToString(i + 1)),
      issueDay, Some(dueDay), status, subtotal, tax, total, "EUR",
      [Item(category + " Services", (d.quantity + 1) as real, subtotal / (d.divisor + 1) as real, Some(category), subtotal)],
      if status == "paid" then [Pay(total, dueDay - d.paidDaysBefore)] else [])
  }

  /** What every sample invoice looks like. */
  lemma SampleShape(i: nat, number: string, now: Date, d: Draw)
    requires ValidDraw(d) && i < SAMPLE_COUNT
    ensures var r := Sample(i, number, now, d);
            var issue := MakeDate(MonthIndex(now) - (11 - i / 5), d.day + 1);
            && 0 <= i / 5 <= 9
            && MonthIndex(now) - 11 <= MonthIndex(issue) <= MonthIndex(now) - 2
            && 1 <= issue.day <= 28
            && r.issueDay == EpochDay(issue)
            && r.dueDay == Some(r.issueDay + PAYMENT_TERM_DAYS)
            && r.status in STATUSES && r.vendor.name in VENDOR_NAMES
            && r.subtotal >= 500.0 && r.total == r.subtotal + r.tax && r.tax == r.subtotal * TAX_RATE
            && |r.lineItems| == 1 && r.lineItems[0].total == r.subtotal
            && (r.status == "paid" <==> |r.payments| == 1)
            && (r.status == "paid" ==>
                  r.payments[0].amount == r.total && r.dueDay.value - 7 <= r.payments[0].paidOn <= r.dueDay.value)
            && (r.status != "paid" ==> r.payments == [])
  {
  }

  /** The inner `while (existingNumbers.has(invoiceNumber))`: the first
      counter from `start` on whose number is free. It stops because numbers
      grow longer than every taken one. */
  method NextFree(start: nat, seen: set<string>, ghost bound: nat) returns (c: nat)
    requires forall s :: s in seen ==> |s| < bound
    ensures c >= start && InvoiceNumber(c) !in seen
    ensures forall x: nat :: start <= x < c ==> InvoiceNumber(x) in seen
  {
    c := start;
    while InvoiceNumber(c) in seen
      invariant c >= start
      invariant forall x: nat :: start <= x < c ==> InvoiceNumber(x) in seen
      decreases Pow10(bound) - c
    {
      NumberBound(c, bound);
      c := c + 1;
    }
  }

  /** The numbers made from the counters used so far. */
  function Made(counters: seq<nat>): set<string> {
    set c | c in counters :: InvoiceNumber(c)
  }

  /** The counters `generateSampleInvoices(startIndex)` makes its fifty
      numbers from: from `startIndex + 1` on, skipping every counter whose
      number is already in use, the existing ones and those just made. */
  method Counters(startIndex: nat, existing: set<string>) returns (counters: seq<nat>)
    ensures |counters| == SAMPLE_COUNT
    ensures counters[0] >= startIndex + 1
    ensures forall i :: 0 <= i < SAMPLE_COUNT - 1 ==> counters[i] < counters[i + 1]
    ensures forall i :: 0 <= i < SAMPLE_COUNT ==> InvoiceNumber(counters[i]) !in existing
    ensures forall c: nat :: startIndex + 1 <= c <= counters[SAMPLE_COUNT - 1] && InvoiceNumber(c) !in existing ==> c in counters
  {
    var seen := existing;
    ghost var bound: nat := LengthBound(existing);
    var counter: nat := startIndex + 1;
    counters := [];
    while |counters| < SAMPLE_COUNT
      invariant |counters| <= SAMPLE_COUNT
      invariant forall s :: s in seen ==> |s| < bound
      invariant seen == existing + Made(counters)
      invariant Progress(startIndex, existing, counters, counter)
    {
      var next := NextFree(counter, seen, bound);
      Advance(startIndex, existing, counters, counter, next);
      var number := InvoiceNumber(next);
      SeenGrows(existing, counters, next, seen, bound);
      seen := seen + {number};
      bound := if |number| < bound then bound else |number| + 1;
      counters := counters + [next];
      counter := next + 1;
    }
    Finished(startIndex, existing, counters, counter);
  }

  lemma Finished(startIndex: nat, existing: set<string>, counters: seq<nat>, counter: nat)
    requires |counters| == SAMPLE_COUNT && Progress(startIndex, existing, counters, counter)
    ensures counters[0] >= startIndex + 1
    ensures forall i :: 0 <= i < SAMPLE_COUNT - 1 ==> counters[i] < counters[i + 1]
    ensures forall i :: 0 <= i < SAMPLE_COUNT ==> InvoiceNumber(counters[i]) !in existing
    ensures forall c: nat :: startIndex + 1 <= c <= counters[SAMPLE_COUNT - 1] && InvoiceNumber(c) !in existing ==> c in counters
  {
  }

  /** What holds of the counters chosen so far, with `counter` the next one
      to try: they start after `startIndex`, increase, have free numbers, and
      every free counter below `counter` was chosen. */
  ghost predicate Progress(startIndex: nat, existing: set<string>, counters: seq<nat>, counter: nat) {
    && (|counters| == 0 ==> counter == startIndex + 1)
    && (|counters| > 0 ==> counters[0] >= startIndex + 1 && counter == counters[|counters| - 1] + 1)
    && (forall j :: 0 <= j < |counters| - 1 ==> counters[j] < counters[j + 1])
    && (forall j :: 0 <= j < |counters| ==> InvoiceNumber(counters[j]) !in existing)
    && (forall c: nat :: startIndex + 1 <= c < counter && InvoiceNumber(c) !in existing ==> c in counters)
  }

  /** Choosing the first free counter from `counter` on keeps `Progress`. */
  lemma Advance(startIndex: nat, existing: set<string>, counters: seq<nat>, counter: nat, next: nat)
    requires Progress(startIndex, existing, counters, counter)
    requires next >= counter && InvoiceNumber(next) !in existing + Made(counters)
    requires forall x: nat :: counter <= x < next ==> InvoiceNumber(x) in existing + Made(counters)
    ensures Progress(startIndex, existing, counters + [next], next + 1)
    ensures Made(counters + [next]) == Made(counters) + {InvoiceNumber(next)}
  {
    SkippedWereMade(counters, existing, counter, next);
    AppendIncreasing(counters, next);
    AppendFree(counters, existing, next);
    AppendCovers(startIndex, existing, counters, counter, next);
    MadeAppend(counters, next);
  }

  lemma AppendFree(counters: seq<nat>, existing: set<string>, next: nat)
    requires forall j :: 0 <= j < |counters| ==> InvoiceNumber(counters[j]) !in existing
    requires InvoiceNumber(next) !in existing
    ensures var s := counters + [next];
            forall j :: 0 <= j < |s| ==> InvoiceNumber(s[j]) !in existing
  {
  }

  lemma AppendCovers(startIndex: nat, existing: set<string>, counters: seq<nat>, counter: nat, next: nat)
    requires forall c: nat :: startIndex + 1 <= c < counter && InvoiceNumber(c) !in existing ==> c in counters
    requires forall x: nat :: counter <= x < next && InvoiceNumber(x) !in existing ==> x in counters
    ensures forall c: nat :: startIndex + 1 <= c < next + 1 && InvoiceNumber(c) !in existing ==> c in counters + [next]
  {
    assert forall c :: c in counters ==> c in counters + [next];
  }

  /** The numbers seen after one more counter: still the existing and the
      made ones, and still shorter than the grown bound. */
  lemma SeenGrows(existing: set<string>, counters: seq<nat>, next: nat, seen: set<string>, bound: nat)
    requires seen == existing + Made(counters)
    requires forall s :: s in seen ==> |s| < bound
    ensures var number := InvoiceNumber(next);
      && seen + {number} == existing + Made(counters + [next])
      && forall s :: s in seen + {number} ==> |s| < (if |number| < bound then bound else |number| + 1)
  {
    MadeAppend(counters, next);
  }

  lemma MadeAppend(counters: seq<nat>, next: nat)
    ensures Made(counters + [next]) == Made(counters) + {InvoiceNumber(next)}
  {
    var s := counters + [next];
    assert forall c :: c in counters ==> c in s;
    assert forall c :: c in s ==> c in counters || c == next;
  }

  /** Appending a counter above the last keeps the counters increasing. */
  lemma AppendIncreasing(counters: seq<nat>, next: nat)
    requires forall j :: 0 <= j < |counters| - 1 ==> counters[j] < counters[j + 1]
    requires |counters| > 0 ==> counters[|counters| - 1] < next
    ensures var s := counters + [next];
            forall j :: 0 <= j < |s| - 1 ==> s[j] < s[j + 1]
  {
  }

  /** `generateSampleInvoices(startIndex)`: the fifty samples, under the
      numbers of the counters; the numbers are pairwise distinct and none
      was in use before. */
  method Generate(startIndex: nat, existing: set<string>, now: Date, draws: seq<Draw>)
    returns (samples: seq<InvoiceData>, counters: seq<nat>)
    requires |draws| == SAMPLE_COUNT
    requires forall i :: 0 <= i < |draws| ==> ValidDraw(draws[i])
    ensures |samples| == SAMPLE_COUNT && |counters| == SAMPLE_COUNT
    ensures forall i :: 0 <= i < SAMPLE_COUNT ==> samples[i] == Sample(i, InvoiceNumber(counters[i]), now, draws[i])
    ensures counters[0] >= startIndex + 1
    ensures forall i :: 0 <= i < SAMPLE_COUNT - 1 ==> counters[i] < counters[i + 1]
    ensures forall i :: 0 <= i < SAMPLE_COUNT ==> samples[i].invoiceNumber !in existing
    ensures forall i, j :: 0 <= i < j < SAMPLE_COUNT ==> samples[i].invoiceNumber != samples[j].invoiceNumber
  {
    counters := Counters(startIndex, existing);
    samples := seq(SAMPLE_COUNT, i requires 0 <= i < SAMPLE_COUNT => Sample(i, InvoiceNumber(counters[i]), now, draws[i]));
    forall i, j | 0 <= i < j < SAMPLE_COUNT
      ensures samples[i].invoiceNumber != samples[j].invoiceNumber
    {
      CountersIncrease(counters, i + 1, j);
      if InvoiceNumber(counters[i]) == InvoiceNumber(counters[j]) {
        NumberInjective(counters[i], counters[j]);
      }
    }
  }

  /** A skipped counter whose number is not one of the existing ones made a
      number earlier, so it is one of the counters used. */
  lemma SkippedWereMade(counters: seq<nat>, existing: set<string>, from: nat, to: nat)
    requires forall x: nat :: from <= x < to ==> InvoiceNumber(x) in existing + Made(counters)
    ensures forall x: nat :: from <= x < to && InvoiceNumber(x) !in existing ==> x in counters
  {
    forall x: nat | from <= x < to && InvoiceNumber(x) !in existing
      ensures x in counters
    {
      var c :| c in counters && InvoiceNumber(c) == InvoiceNumber(x);
      NumberInjective(c, x);
    }
  }

  lemma {:induction false} CountersIncrease(counters: seq<nat>, j: int, k: int)
    requires forall i :: 0 <= i < |counters| - 1 ==> counters[i] < counters[i + 1]
    requires 0 <= j <= k < |counters|
    ensures counters[j] <= counters[k]
    decreases k - j
  {
    if j < k {
      CountersIncrease(counters, j + 1, k);
    }
  }

  // ---------------------------------------------------------------------------
  // Writing the invoices
  // ---------------------------------------------------------------------------

  /** The row `prisma.invoice.create` writes: `status || 'pending'`,
      `currency || 'EUR'`. */
  function Stored(d: InvoiceData): (r: InvoiceData)
    ensures r.status != "" && r.currency != ""
    ensures d.status != "" ==> r.status == d.status
    ensures d.currency != "" ==> r.currency == d.currency
  {
    d.(status := if d.status == "" then "pending" else d.status,
       currency := if d.currency == "" then "EUR" else d.currency)
  }

  /** One pass of the loop: the vendor is created when its name is new, even
      when the invoice is then skipped because its number exists. */
  function Step(db: Db, d: InvoiceData): Db {
    var vendors := if d.vendor.name in db.vendors then db.vendors else db.vendors[d.vendor.name := d.vendor];
    if d.invoiceNumber in db.invoices then Db(vendors, db.invoices)
    else Db(vendors, db.invoices[d.invoiceNumber := Stored(d)])
  }

  /** The loop over the file's invoices, in order. */
  function Process(db: Db, ds: seq<InvoiceData>): Db {
    if |ds| == 0 then db else Step(Process(db, ds[..|ds| - 1]), ds[|ds| - 1])
  }

  function Numbers(ds: seq<InvoiceData>): set<string> {
    set d | d in ds :: d.invoiceNumber
  }

  function VendorNames(ds: seq<InvoiceData>): set<string> {
    set d | d in ds :: d.vendor.name
  }

  /** After the loop the database holds every number and vendor name of the
      file, nothing else was added, and what was there is untouched. */
  lemma ProcessAdds(db: Db, ds: seq<InvoiceData>)
    ensures Process(db, ds).invoices.Keys == db.invoices.Keys + Numbers(ds)
    ensures Process(db, ds).vendors.Keys == db.vendors.Keys + VendorNames(ds)
    ensures forall k :: k in db.invoices ==> Process(db, ds).invoices[k] == db.invoices[k]
    ensures forall k :: k in db.vendors ==> Process(db, ds).vendors[k] == db.vendors[k]
  {
    ProcessAddsInvoices(db, ds);
    ProcessAddsVendors(db, ds);
  }

  lemma {:induction false} ProcessAddsInvoices(db: Db, ds: seq<InvoiceData>)
    ensures Process(db, ds).invoices.Keys == db.invoices.Keys + Numbers(ds)
    ensures forall k :: k in db.invoices ==> Process(db, ds).invoices[k] == db.invoices[k]
  {
    if |ds| > 0 {
      var front := ds[..|ds| - 1];
      ProcessAddsInvoices(db, front);
      assert forall d :: d in ds <==> d in front || d == ds[|ds| - 1];
      assert Numbers(ds) == Numbers(front) + {ds[|ds| - 1].invoiceNumber};
    }
  }

  lemma {:induction false} ProcessAddsVendors(db: Db, ds: seq<InvoiceData>)
    ensures Process(db, ds).vendors.Keys == db.vendors.Keys + VendorNames(ds)
    ensures forall k :: k in db.vendors ==> Process(db, ds).vendors[k] == db.vendors[k]
  {
    if |ds| > 0 {
      var front := ds[..|ds| - 1];
      ProcessAddsVendors(db, front);
      assert forall d :: d in ds <==> d in front || d == ds[|ds| - 1];
      assert VendorNames(ds) == VendorNames(front) + {ds[|ds| - 1].vendor.name};
    }
  }

  /** A new number is stored with the first invoice of the file that carries it. */
  lemma {:induction false} FirstInvoiceWins(db: Db, ds: seq<InvoiceData>, k: int)
    requires 0 <= k < |ds| && ds[k].invoiceNumber !in db.invoices
    requires forall j :: 0 <= j < k ==> ds[j].invoiceNumber != ds[k].invoiceNumber
    ensures ds[k].invoiceNumber in Process(db, ds).invoices
    ensures Process(db, ds).invoices[ds[k].invoiceNumber] == Stored(ds[k])
  {
    var front := ds[..|ds| - 1];
    ProcessAdds(db, front);
    if k < |ds| - 1 {
      FirstInvoiceWins(db, front, k);
      assert ds[k] in front;
    } else {
      assert forall d :: d in front ==> d.invoiceNumber != ds[k].invoiceNumber by {
        forall d | d in front ensures d.invoiceNumber != ds[k].invoiceNumber {
          var j :| 0 <= j < |front| && front[j] == d;
        }
      }
    }
  }

  /** With every number and vendor already present the loop writes nothing. */
  lemma {:induction false} ProcessNothingNew(db: Db, ds: seq<InvoiceData>)
    requires Numbers(ds) <= db.invoices.Keys && VendorNames(ds) <= db.vendors.Keys
    ensures Process(db, ds) == db
  {
    if |ds| > 0 {
      var front := ds[..|ds| - 1];
      assert forall d :: d in front ==> d in ds;
      ProcessNothingNew(db, front);
      assert ds[|ds| - 1] in ds;
    }
  }

  /** Running the loop twice over the same invoices writes nothing the second time. */
  lemma ProcessIdempotent(db: Db, ds: seq<InvoiceData>)
    ensures Process(Process(db, ds), ds) == Process(db, ds)
  {
    ProcessAdds(db, ds);
    ProcessNothingNew(Process(db, ds), ds);
  }

  // ---------------------------------------------------------------------------
  // main()
  // ---------------------------------------------------------------------------

  /** `createSampleData()` when the file is missing: one vendor and one
      invoice, each created unconditionally, so a second run fails on the
      unique name or number. */
  function SampleData(db: Db): (r: Option<Db>)
    ensures r.Some? <==> "Phunix GmbH" !in db.vendors && "INV-2025-001" !in db.invoices
  {
    var vendor := VendorData("Phunix GmbH", Some("contact@phunix.de"));
    var invoice := InvoiceData(
      "INV-2025-001", vendor, Some("Sample Customer"), EpochDay(Date(2025, 1, 15)), Some(EpochDay(Date(2025, 2, 15))),
      "pending", 1000.0, 190.0, 1190.0, "EUR", [Item("Sample Item 1", 1.0, 1000.0, Some("Operations"), 1000.0)], []);
    if vendor.name in db.vendors || invoice.invoiceNumber in db.invoices then None
    else Some(Db(db.vendors[vendor.name := vendor], db.invoices[invoice.invoiceNumber := invoice]))
  }

  /** The seed. `file` is absent when the data file is missing; `samples`
      are the generated invoices appended to it, if any. */
  method Run(db: Db, file: Option<seq<InvoiceData>>, now: Date, draws: seq<Draw>)
    returns (r: Option<Db>, samples: seq<InvoiceData>)
    requires |draws| == SAMPLE_COUNT
    requires forall i :: 0 <= i < |draws| ==> ValidDraw(draws[i])
    ensures file.None? ==> r == SampleData(db) && samples == []
    ensures file.Some? ==> r == Some(Process(db, file.value + samples))
    ensures file.Some? && |file.value| >= SAMPLE_THRESHOLD ==> samples == []
    ensures file.Some? && |file.value| < SAMPLE_THRESHOLD ==> |samples| == SAMPLE_COUNT
    ensures forall i :: 0 <= i < |samples| ==> samples[i].invoiceNumber !in db.invoices
    ensures forall i, j :: 0 <= i < j < |samples| ==> samples[i].invoiceNumber != samples[j].invoiceNumber
  {
    samples := [];
    if file.None? {
      r := SampleData(db);
    } else {
      if |file.value| < SAMPLE_THRESHOLD {
        var counters;
        samples, counters := Generate(|file.value|, db.invoices.Keys, now, draws);
      }
      r := Some(Process(db, file.value + samples));
    }
  }
}

=== FILE: settings_page.dfy ===
/** The settings page: the form's categories of fields, filled from the
    `/api/settings` listing, edited one field at a time, and saved one
    setting per field. */
module SettingsPage {
  import opened Wrappers
  import opened Text
  import opened Requests
  import Json
  import SettingsRoute

  /** One category of the form: field name to value. */
  type Section = map<string, Json.Value>

  /** The form: category to its fields. */
  type Form = map<string, Section>

  /** The form before anything is loaded. `lastBackup` is the page's clock
      reading and `apiBase` its configured base URL. */
  function Defaults(lastBackup: string, apiBase: string): Form {
    map[
      "general" := map["appName" := Json.JStr("Flowbit Analytics"), "timezone" := Json.JStr("UTC"),
                       "language" := Json.JStr("English")],
      "notifications" := map["email" := Json.JBool(true), "push" := Json.JBool(true),
                             "invoiceAlerts" := Json.JBool(true)],
      "security" := map["password" := Json.JStr(""), "twoFactorEnabled" := Json.JBool(false)],
      "database" := map["connectionStatus" := Json.JStr("connected"), "lastBackup" := Json.JStr(lastBackup)],
      "api" := map["apiBase" := Json.JStr(apiBase), "vannaUrl" := Json.JStr("http://localhost:8000")]
    ]
  }

  // ---------------------------------------------------------------------------
  // Loading
  // ---------------------------------------------------------------------------

  /** How a loaded setting's key becomes a field name: the page as written
      uses the stored key itself; the reading that matches what it saves
      drops the `category.` prefix. */
  datatype Reading = AsWritten | PrefixStripped

  function FieldOf(reading: Reading, category: string, key: string): string {
    match reading
    case AsWritten => key
    case PrefixStripped =>
      var prefix := category + ".";
      if StartsWith(key, prefix) then key[|prefix|..] else key
  }

  /** Where a loaded row goes: its category, its field, its value. */
  datatype Slot = Slot(category: string, field: string, value: Json.Value)

  function Slots(reading: Reading, rows: seq<SettingsRoute.View>): (r: seq<Slot>)
    ensures |r| == |rows|
    ensures forall i :: 0 <= i < |rows| ==>
              r[i] == Slot(rows[i].category, FieldOf(reading, rows[i].category, rows[i].key), rows[i].value)
  {
    seq(|rows|, i requires 0 <= i < |rows| =>
      Slot(rows[i].category, FieldOf(reading, rows[i].category, rows[i].key), rows[i].value))
  }

  /** The value of the last slot for `category` and `field`: the reference
      the grouping is checked against. */
  function LastValue(slots: seq<Slot>, category: string, field: string): (r: Option<Json.Value>)
    ensures r.Some? <==> exists i :: 0 <= i < |slots| && slots[i].category == category && slots[i].field == field
    ensures r.Some? ==> exists i :: 0 <= i < |slots| && slots[i].category == category && slots[i].field == field
                                    && slots[i].value == r.value
    decreases |slots|
  {
    if |slots| == 0 then None
    else
      var init := slots[..|slots| - 1];
      var last := slots[|slots| - 1];
      if last.category == category && last.field == field then Some(last.value)
      else
        var r := LastValue(init, category, field);
        assert forall i :: 0 <= i < |init| ==> init[i] == slots[i];
        assert forall i :: 0 <= i < |slots| && slots[i] != last ==> i < |init|;
        r
  }

  /** The `forEach` that builds `settingsMap`: a category object is created
      on its first row, and a later row for the same field overwrites. */
  function GroupSlots(slots: seq<Slot>): Form
    decreases |slots|
  {
    if |slots| == 0 then map[]
    else
      var g := GroupSlots(slots[..|slots| - 1]);
      var last := slots[|slots| - 1];
      var section := if last.category in g then g[last.category] else map[];
      g[last.category := section[last.field := last.value]]
  }

  function Group(reading: Reading, rows: seq<SettingsRoute.View>): Form {
    GroupSlots(Slots(reading, rows))
  }

  /** The grouping holds a category exactly when some slot is in it. */
  lemma {:induction false} GroupCategories(slots: seq<Slot>, category: string)
    ensures category in GroupSlots(slots) <==> exists i :: 0 <= i < |slots| && slots[i].category == category
  {
    if |slots| > 0 {
      var init := slots[..|slots| - 1];
      GroupCategories(init, category);
      assert forall i :: 0 <= i < |init| ==> init[i] == slots[i];
      assert forall i :: 0 <= i < |slots| && slots[i].category == category ==>
               i < |init| || slots[|slots| - 1].category == category;
    }
  }

  /** The grouping holds a field exactly when some slot is filed under it,
      with the last such slot's value. */
  lemma {:induction false} GroupFields(slots: seq<Slot>, category: string, field: string)
    ensures var g := GroupSlots(slots);
            && (category in g && field in g[category] <==> LastValue(slots, category, field).Some?)
            && (category in g && field in g[category] ==> g[category][field] == LastValue(slots, category, field).value)
  {
    if |slots| > 0 {
      GroupFields(slots[..|slots| - 1], category, field);
    }
  }

  /** `fetchSettings`: a non-empty listing is grouped and spread over the
      form, so a loaded category replaces that category's object whole. */
  function Load(reading: Reading, prev: Form, rows: seq<SettingsRoute.View>): (r: Form)
    ensures r.Keys == prev.Keys + (if |rows| > 0 then Group(reading, rows).Keys else {})
  {
    if |rows| > 0 then prev + Group(reading, rows) else prev
  }

  /** The merge is shallow: a category with loaded rows holds exactly the
      loaded fields, any default the rows do not mention being dropped, and
      every other category keeps its fields. */
  lemma LoadShallow(reading: Reading, prev: Form, rows: seq<SettingsRoute.View>, category: string)
    ensures var g := Group(reading, rows);
            && (category in g ==> Load(reading, prev, rows)[category] == g[category])
            && (category !in g && category in prev ==> Load(reading, prev, rows)[category] == prev[category])
  {
    if |rows| == 0 {
      assert Group(reading, rows) == map[];
    }
  }

  // ---------------------------------------------------------------------------
  // Health check
  // ---------------------------------------------------------------------------

  /** The health request: an OK reply, a reply that is not OK, or a failed
      request. */
  datatype Health = Healthy | Unhealthy | Unreachable

  /** The database category after the health check: connected on an OK
      reply, disconnected when the request fails, untouched otherwise. */
  function WithHealth(form: Form, h: Health): (r: Form)
    ensures h == Unhealthy ==> r == form
    ensures h != Unhealthy ==> "database" in r && "connectionStatus" in r["database"]
    ensures h == Healthy ==> r["database"]["connectionStatus"] == Json.JStr("connected")
    ensures h == Unreachable ==> r["database"]["connectionStatus"] == Json.JStr("disconnected")
    ensures forall c :: c in form && c != "database" ==> c in r && r[c] == form[c]
  {
    match h
    case Healthy => SetField(form, "database", "connectionStatus", Json.JStr("connected"))
    case Unreachable => SetField(form, "database", "connectionStatus", Json.JStr("disconnected"))
    case Unhealthy => form
  }

  // ---------------------------------------------------------------------------
  // Editing
  // ---------------------------------------------------------------------------

  /** `{ ...prev, [category]: { ...prev[category], [field]: value } }`. */
  function SetField(form: Form, category: string, field: string, value: Json.Value): Form {
    var section := if category in form then form[category] else map[];
    form[category := section[field := value]]
  }

  /** A change touches one field of one category: that field reads the new
      value, every other field and category is as before. */
  lemma ChangeOneField(form: Form, category: string, field: string, value: Json.Value, c: string, f: string)
    ensures var r := SetField(form, category, field, value);
            && r.Keys == form.Keys + {category}
            && r[category][field] == value
            && (c != category && c in form ==> r[c] == form[c])
            && (category in form && f != field ==> (f in r[category] <==> f in form[category]))
            && (category in form && f != field && f in form[category] ==> r[category][f] == form[category][f])
  {
  }

  /** The four change handlers, each bound to its category. */
  function GeneralChange(form: Form, field: string, value: string): Form {
    SetField(form, "general", field, Json.JStr(value))
  }

  function NotificationChange(form: Form, field: string, value: bool): Form {
    SetField(form, "notifications", field, Json.JBool(value))
  }

  /** The security handler takes a string or a boolean. */
  function SecurityChange(form: Form, field: string, value: Json.Value): Form
    requires value.JStr? || value.JBool?
  {
    SetField(form, "security", field, value)
  }

  function ApiChange(form: Form, field: string, value: string): Form {
    SetField(form, "api", field, Json.JStr(value))
  }

  // ---------------------------------------------------------------------------
  // Saving
  // ---------------------------------------------------------------------------

  /** `${category}.${key}`. */
  function CompositeKey(category: string, field: string): (k: string)
    ensures StartsWith(k, category + ".")
    ensures k[|category| + 1..] == field
  {
    category + "." + field
  }

  /** `handleSave`: one POST per field of the category, keyed by the
      composite key, with the value and the category. A category the form
      does not have makes `Object.entries` throw, and nothing is sent. The
      requests go to distinct keys, so the order they are sent in does not
      change what is stored. */
  function SaveRequests(form: Form, category: string): (r: Option<map<string, SettingsRoute.PostBody>>)
    ensures r.None? <==> category !in form
    ensures r.Some? ==> forall f :: f in form[category] ==> CompositeKey(category, f) in r.value
    ensures r.Some? ==> forall k :: k in r.value ==> exists f :: f in form[category] && k == CompositeKey(category, f)
  {
    if category !in form then None
    else
      var section := form[category];
      assert forall f, g :: CompositeKey(category, f) == CompositeKey(category, g) ==> f == g by {
        forall f, g | CompositeKey(category, f) == CompositeKey(category, g) ensures f == g {
          assert f == CompositeKey(category, f)[|category| + 1..];
        }
      }
      Some(map f | f in section :: CompositeKey(category, f) :=
             SettingsRoute.PostBody(Given(CompositeKey(category, f)), Some(section[f]), Given(category),
                                    Undefined, Undefined))
  }

  /** Each request the page sends is stored under the composite key, in
      the category, and reads back as the field's value unless that value
      is a string that is itself JSON text. */
  lemma SavedField(form: Form, category: string, field: string, db: SettingsRoute.Db, id: string, now: int)
    requires category in form && field in form[category]
    requires Json.WellFormed(form[category][field])
    ensures SaveRequests(form, category).Some?
    ensures var b := SaveRequests(form, category).value[CompositeKey(category, field)];
            var o := SettingsRoute.Save(db, b, id, now);
            && o.reply.Ok?
            && o.reply.value.key == CompositeKey(category, field)
            && o.reply.value.category == category
            && (!form[category][field].JStr? ==> o.reply.value.value == form[category][field])
            && (form[category][field].JStr? && Json.Parse(form[category][field].s).None? ==>
                  o.reply.value.value == form[category][field])
  {
    var v := form[category][field];
    var b := SaveRequests(form, category).value[CompositeKey(category, field)];
    assert b == SettingsRoute.PostBody(Given(CompositeKey(category, field)), Some(v), Given(category),
                                       Undefined, Undefined);
    SettingsRoute.SavedSetting(db, b, id, now);
    if v.JStr? {
      SettingsRoute.StringRoundTrip(v.s);
    }
  }

  // ---------------------------------------------------------------------------
  // Saving, then loading
  // ---------------------------------------------------------------------------

  /** `rows` is a listing of what saving `section` under `category` stored:
      every row is one of its fields under the composite key, with the
      field's value, and every field has a row. */
  predicate ListingOf(rows: seq<SettingsRoute.View>, category: string, section: Section) {
    && (forall i :: 0 <= i < |rows| ==>
          rows[i].category == category
          && exists f :: f in section && rows[i].key == CompositeKey(category, f) && rows[i].value == section[f])
    && (forall f :: f in section ==> exists i :: 0 <= i < |rows| && rows[i].key == CompositeKey(category, f))
  }

  /** Row `j` of a listing of a saved section: the field `h` it was saved
      from, and the slot it is loaded into. */
  lemma RowField(reading: Reading, rows: seq<SettingsRoute.View>, category: string, section: Section, j: int)
    returns (h: string)
    requires ListingOf(rows, category, section)
    requires 0 <= j < |rows|
    ensures h in section
    ensures rows[j].key == CompositeKey(category, h)
    ensures Slots(reading, rows)[j] == Slot(category, if reading == AsWritten then CompositeKey(category, h) else h,
                                            section[h])
  {
    h :| h in section && rows[j].key == CompositeKey(category, h) && rows[j].value == section[h];
    var prefix := category + ".";
    assert rows[j].key[..|prefix|] == prefix;
  }

  /** As written, reloading what was saved files every value under its
      composite key: the category then holds `general.appName` and no
      longer `appName`, so the field the page shows is missing. */
  lemma ReloadMissesFields(prev: Form, rows: seq<SettingsRoute.View>, category: string, section: Section, f: string)
    requires ListingOf(rows, category, section)
    requires f in section && '.' !in f
    ensures category in Load(AsWritten, prev, rows)
    ensures f !in Load(AsWritten, prev, rows)[category]
    ensures CompositeKey(category, f) in Load(AsWritten, prev, rows)[category]
    ensures Load(AsWritten, prev, rows)[category][CompositeKey(category, f)] == section[f]
  {
    var slots := Slots(AsWritten, rows);
    var i :| 0 <= i < |rows| && rows[i].key == CompositeKey(category, f);
    var hi := RowField(AsWritten, rows, category, section, i);
    GroupCategories(slots, category);
    LoadShallow(AsWritten, prev, rows, category);
    forall j | 0 <= j < |slots| ensures slots[j].field != f {
      var h := RowField(AsWritten, rows, category, section, j);
      assert slots[j].field[|category|] == '.';
    }
    GroupFields(slots, category, f);
    GroupFields(slots, category, CompositeKey(category, f));
    var v := LastValue(slots, category, CompositeKey(category, f)).value;
    var j :| 0 <= j < |slots| && slots[j].category == category && slots[j].field == CompositeKey(category, f)
             && slots[j].value == v;
    var h := RowField(AsWritten, rows, category, section, j);
    assert h == CompositeKey(category, h)[|category| + 1..];
  }

  /** The concrete case: saving the general section with the application
      name and reloading leaves no `appName` in it. */
  lemma AppNameLost(prev: Form, name: Json.Value)
    ensures var row := SettingsRoute.View("1", "general.appName", name, "general", None, 0, None);
            "appName" !in Load(AsWritten, prev, [row])["general"]
  {
    var row := SettingsRoute.View("1", "general.appName", name, "general", None, 0, None);
    assert Slots(AsWritten, [row]) == [Slot("general", "general.appName", name)];
    assert GroupSlots([Slot("general", "general.appName", name)]) == map["general" := map["general.appName" := name]];
    assert "appName" != "general.appName";
  }

  /** `slots` load exactly `section` into `category`: each holds one of its
      fields with that field's value, and every field has a slot. */
  predicate SlotsOf(slots: seq<Slot>, category: string, section: Section) {
    && (forall j :: 0 <= j < |slots| ==>
          slots[j].category == category && slots[j].field in section && slots[j].value == section[slots[j].field])
    && (forall f :: f in section ==> exists j :: 0 <= j < |slots| && slots[j].field == f)
  }

  /** With the prefix dropped, a listing of a saved section loads that section. */
  lemma ListingSlots(rows: seq<SettingsRoute.View>, category: string, section: Section)
    requires ListingOf(rows, category, section)
    ensures SlotsOf(Slots(PrefixStripped, rows), category, section)
  {
    var slots := Slots(PrefixStripped, rows);
    forall j | 0 <= j < |slots|
      ensures slots[j].category == category && slots[j].field in section && slots[j].value == section[slots[j].field]
    {
      var h := RowField(PrefixStripped, rows, category, section, j);
    }
    forall f | f in section ensures exists j :: 0 <= j < |slots| && slots[j].field == f {
      var i :| 0 <= i < |rows| && rows[i].key == CompositeKey(category, f);
      var h := RowField(PrefixStripped, rows, category, section, i);
      assert h == CompositeKey(category, h)[|category| + 1..];
      assert slots[i].field == f;
    }
  }

  /** One field of a section loaded from its slots: present exactly when
      it is in the section, with the section's value. */
  lemma SectionField(slots: seq<Slot>, category: string, section: Section, f: string)
    requires SlotsOf(slots, category, section)
    ensures var g := GroupSlots(slots);
            && (category in g && f in g[category] <==> f in section)
            && (f in section ==> category in g && g[category][f] == section[f])
  {
    GroupFields(slots, category, f);
    if f in section {
      var j :| 0 <= j < |slots| && slots[j].field == f;
      assert slots[j].category == category;
    }
  }

  /** Slots that load exactly a non-empty section group into it. */
  lemma GroupRestores(slots: seq<Slot>, category: string, section: Section)
    requires SlotsOf(slots, category, section)
    requires |section| > 0
    ensures category in GroupSlots(slots)
    ensures GroupSlots(slots)[category] == section
  {
    var g := GroupSlots(slots);
    var f0 :| f0 in section;
    SectionField(slots, category, section, f0);
    forall f ensures f in g[category] <==> f in section {
      SectionField(slots, category, section, f);
    }
    forall f | f in section ensures g[category][f] == section[f] {
      SectionField(slots, category, section, f);
    }
  }

  /** With the prefix dropped on loading, reloading what was saved gives
      back the saved category exactly. */
  lemma ReloadRestores(prev: Form, rows: seq<SettingsRoute.View>, category: string, section: Section)
    requires ListingOf(rows, category, section)
    requires |section| > 0
    ensures category in Load(PrefixStripped, prev, rows)
    ensures Load(PrefixStripped, prev, rows)[category] == section
  {
    ListingSlots(rows, category, section);
    GroupRestores(Slots(PrefixStripped, rows), category, section);
    LoadShallow(PrefixStripped, prev, rows, category);
  }
}

=== FILE: settings_route.dfy ===
/** `/api/settings`: a key-value store whose values arrive as JSON and are
    kept as text, with the category listing, the lookup by key, the upsert,
    the update and the deletion, over an in-memory table keyed by `key`. */
module SettingsRoute {
  import opened Wrappers
  import opened Text
  import opened Requests
  import opened Ordering
  import Json

  /** A stored row; `value` is the text the column holds and `updatedAt`
      the time of the last write. */
  datatype Setting = Setting(
    id: string,
    key: string,
    value: string,
    category: string,
    description: Option<string>,
    updatedAt: int,
    updatedBy: Option<string>)

  /** The table, keyed by the unique `key` column. */
  datatype Db = Db(settings: map<string, Setting>)

  /** Every row is filed under its own key. */
  predicate Keyed(db: Db) {
    forall k :: k in db.settings ==> db.settings[k].key == k
  }

  /** A setting as every route replies with it: the value read back from its text. */
  datatype View = View(
    id: string,
    key: string,
    value: Json.Value,
    category: string,
    description: Option<string>,
    updatedAt: int,
    updatedBy: Option<string>)

  datatype Outcome<T> = Outcome(db: Db, reply: Reply<T>)

  // ---------------------------------------------------------------------------
  // Values as text
  // ---------------------------------------------------------------------------

  /** `tryParseJSON`: the parsed value, or the text itself when it is not JSON. */
  function TryParse(text: string): Json.Value {
    match Json.Parse(text)
    case Some(v) => v
    case None => Json.JStr(text)
  }

  /** `typeof value === 'string' ? value : JSON.stringify(value)`. */
  function StoredText(v: Json.Value): string
    requires Json.WellFormed(v)
  {
    if v.JStr? then v.s else Json.Stringify(v)
  }

  function ViewOf(s: Setting): View {
    View(s.id, s.key, TryParse(s.value), s.category, s.description, s.updatedAt, s.updatedBy)
  }

  /** A value that is not a string is stored as its JSON text and read back
      unchanged. */
  lemma NonStringRoundTrip(v: Json.Value)
    requires Json.WellFormed(v) && !v.JStr?
    ensures TryParse(StoredText(v)) == v
  {
    Json.StringifyRoundTrip(v);
  }

  /** A string is stored verbatim, so it is read back unchanged exactly when
      it is not itself JSON text; otherwise the reader gets the parsed value. */
  lemma StringRoundTrip(s: string)
    ensures TryParse(StoredText(Json.JStr(s))) == Json.JStr(s) <==> Json.Parse(s).None?
    ensures Json.Parse(s).Some? ==> TryParse(StoredText(Json.JStr(s))) == Json.Parse(s).value
  {
    if Json.Parse(s).Some? && Json.Parse(s).value.JStr? {
      Json.ParsedStringShorter(s);
    }
  }

  /** The string `"true"` saved as a setting comes back as the boolean. */
  lemma StringLooksLikeJson()
    ensures TryParse(StoredText(Json.JStr("true"))) == Json.JBool(true)
  {
    assert Json.SkipWs("true") == "true";
    assert Json.ParseToken("true") == Some((Json.JBool(true), ""));
  }

  // ---------------------------------------------------------------------------
  // GET /api/settings
  // ---------------------------------------------------------------------------

  /** `where.category = category` when the query names a non-empty category. */
  predicate InCategory(s: Setting, category: string) {
    category == "" || s.category == category
  }

  function Filter(rows: seq<Setting>, category: string): (r: seq<Setting>)
    ensures |r| <= |rows|
    ensures forall x :: x in r ==> x in rows && InCategory(x, category)
    ensures forall x :: x in rows && InCategory(x, category) ==> x in r
  {
    Where(rows, x => InCategory(x, category))
  }

  function CategoryOf(s: Setting): string {
    s.category
  }

  /** The rows the listing shows: those of the category (every row for an
      empty one), ordered by category ascending. */
  function Listed(rows: seq<Setting>, category: string): (r: seq<Setting>)
    ensures SortedBy(r, CategoryOf)
    ensures multiset(r) == multiset(Filter(rows, category))
    ensures forall x :: x in r <==> x in rows && InCategory(x, category)
  {
    var kept := Filter(rows, category);
    var sorted := SortBy(kept, CategoryOf);
    assert forall x :: x in sorted <==> x in multiset(sorted);
    assert forall x :: x in kept <==> x in multiset(kept);
    sorted
  }

  /** The response: the listed rows, each value read back from its text. */
  function List(rows: seq<Setting>, category: string): (r: seq<View>)
    ensures |r| == |Listed(rows, category)|
    ensures forall i :: 0 <= i < |r| ==> r[i] == ViewOf(Listed(rows, category)[i])
  {
    var listed := Listed(rows, category);
    seq(|listed|, i requires 0 <= i < |listed| => ViewOf(listed[i]))
  }

  // ---------------------------------------------------------------------------
  // GET and DELETE /api/settings/:key
  // ---------------------------------------------------------------------------

  function Get(db: Db, key: string): (r: Reply<View>)
    ensures r.Ok? <==> key in db.settings
    ensures r.Ok? ==> r.value == ViewOf(db.settings[key])
    ensures r.Fail? ==> r == Fail(NOT_FOUND, "Setting not found")
  {
    if key in db.settings then Ok(ViewOf(db.settings[key])) else Fail(NOT_FOUND, "Setting not found")
  }

  /** The deletion; a missing key is the database's `P2025` error. */
  function Delete(db: Db, key: string): (o: Outcome<string>)
    ensures o.reply.Ok? <==> key in db.settings
    ensures o.reply.Fail? ==> o.reply == Fail(NOT_FOUND, "Setting not found") && o.db == db
    ensures o.db.settings.Keys == db.settings.Keys - {key}
    ensures forall k :: k in o.db.settings ==> o.db.settings[k] == db.settings[k]
  {
    if key !in db.settings then Outcome(db, Fail(NOT_FOUND, "Setting not found"))
    else Outcome(Db(map k | k in db.settings && k != key :: db.settings[k]), Ok("Setting deleted successfully"))
  }

  // ---------------------------------------------------------------------------
  // POST /api/settings
  // ---------------------------------------------------------------------------

  /** The request body. `value` is absent (`undefined`) or a JSON value. */
  datatype PostBody = PostBody(
    key: Field<string>,
    value: Option<Json.Value>,
    category: Field<string>,
    description: Field<string>,
    updatedBy: Field<string>)

  /** The body's value, if any, is one the serialiser prints exactly. */
  predicate Printable(value: Option<Json.Value>) {
    value.None? || Json.WellFormed(value.value)
  }

  /** The text the row's value column receives; an absent value leaves it
      unset, keeping the current text on update. */
  function NewText(value: Option<Json.Value>, current: string): string
    requires Printable(value)
  {
    if value.Some? then StoredText(value.value) else current
  }

  /** The upsert. The destructuring default makes an absent category
      `general`; a null one, an absent value on creation, are refused by the
      database. `id` is the identifier it assigns on creation. */
  function Save(db: Db, b: PostBody, id: string, now: int): (o: Outcome<View>)
    requires Printable(b.value)
    ensures o.reply.Fail? ==> o.db == db
    ensures o.reply == Fail(BAD_REQUEST, "Key is required") <==> !Truthy(b.key)
    ensures o.reply.Ok? ==> o.db.settings.Keys == db.settings.Keys + {b.key.value}
    ensures o.reply.Ok? ==> o.reply.value == ViewOf(o.db.settings[b.key.value])
    ensures forall k :: k in db.settings && !(Truthy(b.key) && k == b.key.value) ==> o.db.settings[k] == db.settings[k]
  {
    if !Truthy(b.key) then Outcome(db, Fail(BAD_REQUEST, "Key is required"))
    else
      var key := b.key.value;
      var category := if b.category.Undefined? then Given("general") else b.category;
      if category.Null? then Outcome(db, Fail(SERVER_ERROR, "Failed to save setting"))
      else if key in db.settings then
        var s := Setting(db.settings[key].id, key, NewText(b.value, db.settings[key].value), category.value,
                         OrNull(b.description), now, OrNull(b.updatedBy));
        Outcome(Db(db.settings[key := s]), Ok(ViewOf(s)))
      else if b.value.None? then Outcome(db, Fail(SERVER_ERROR, "Failed to save setting"))
      else
        var s := Setting(id, key, StoredText(b.value.value), category.value, OrNull(b.description), now,
                         OrNull(b.updatedBy));
        Outcome(Db(db.settings[key := s]), Ok(ViewOf(s)))
  }

  /** What a saved setting holds: the given value read back as the round
      trip allows, the category or `general`, and the optional columns set
      from the body on every save, a falsy one clearing them. */
  lemma SavedSetting(db: Db, b: PostBody, id: string, now: int)
    requires Printable(b.value)
    requires Save(db, b, id, now).reply.Ok?
    ensures var v := Save(db, b, id, now).reply.value;
            && v.key == b.key.value
            && v.updatedAt == now
            && (b.category.Undefined? ==> v.category == "general")
            && (b.category.Given? ==> v.category == b.category.value)
            && v.description == OrNull(b.description)
            && v.updatedBy == OrNull(b.updatedBy)
            && (b.value.Some? && !b.value.value.JStr? ==> v.value == b.value.value)
            && (b.value.None? ==> b.key.value in db.settings && v.value == TryParse(db.settings[b.key.value].value))
            && (b.key.value in db.settings ==> v.id == db.settings[b.key.value].id)
            && (b.key.value !in db.settings ==> v.id == id)
  {
    if b.value.Some? && !b.value.value.JStr? {
      NonStringRoundTrip(b.value.value);
    }
  }

  /** Saving twice at the same moment is the same as saving once: the second
      request finds the row the first one wrote and writes it again. */
  lemma SaveIdempotent(db: Db, b: PostBody, id: string, id2: string, now: int)
    requires Printable(b.value)
    ensures Save(Save(db, b, id, now).db, b, id2, now) == Save(db, b, id, now)
  {
    var first := Save(db, b, id, now);
    if first.reply.Ok? {
      var key := b.key.value;
      assert key in first.db.settings;
      assert first.db.settings[key := first.db.settings[key]] == first.db.settings;
    }
  }

  /** Saving keeps every row under its own key. */
  lemma SaveKeepsKeys(db: Db, b: PostBody, id: string, now: int)
    requires Printable(b.value) && Keyed(db)
    ensures Keyed(Save(db, b, id, now).db)
  {
  }

  // ---------------------------------------------------------------------------
  // PUT /api/settings/:key
  // ---------------------------------------------------------------------------

  datatype PutBody = PutBody(
    value: Option<Json.Value>,
    category: Field<string>,
    description: Field<string>,
    updatedBy: Field<string>)

  /** The `data` object applied to the stored row: the value when given, the
      category and author only when truthy, the description whenever present. */
  function Patch(s: Setting, b: PutBody, now: int): (r: Setting)
    requires Printable(b.value)
  {
    Setting(s.id, s.key, NewText(b.value, s.value), OrElse(b.category, s.category),
            SetIfDefined(b.description, s.description), now,
            if Truthy(b.updatedBy) then Some(b.updatedBy.value) else s.updatedBy)
  }

  /** The update; a missing key is the database's `P2025` error and nothing is created. */
  function Update(db: Db, key: string, b: PutBody, now: int): (o: Outcome<View>)
    requires Printable(b.value)
    ensures key !in db.settings ==> o == Outcome(db, Fail(NOT_FOUND, "Setting not found"))
    ensures key in db.settings ==> o.reply.Ok? && o.db.settings.Keys == db.settings.Keys
    ensures o.reply.Ok? ==> o.reply.value == ViewOf(o.db.settings[key])
    ensures forall k :: k in db.settings && k != key ==> o.db.settings[k] == db.settings[k]
  {
    if key !in db.settings then Outcome(db, Fail(NOT_FOUND, "Setting not found"))
    else
      var s := Patch(db.settings[key], b, now);
      Outcome(Db(db.settings[key := s]), Ok(ViewOf(s)))
  }

  /** What an update changes: exactly the fields the body carries, under the
      truthiness each spread tests, and the write time. */
  lemma UpdatedSetting(db: Db, key: string, b: PutBody, now: int)
    requires Printable(b.value) && key in db.settings
    ensures var prev := db.settings[key];
            var v := Update(db, key, b, now).reply.value;
            && v.id == prev.id && v.key == prev.key && v.updatedAt == now
            && (b.value.Some? && !b.value.value.JStr? ==> v.value == b.value.value)
            && (b.value.None? ==> v.value == TryParse(prev.value))
            && (Truthy(b.category) ==> v.category == b.category.value)
            && (!Truthy(b.category) ==> v.category == prev.category)
            && (b.description.Undefined? ==> v.description == prev.description)
            && (!b.description.Undefined? ==> v.description == OrNull(b.description))
            && (!Truthy(b.updatedBy) ==> v.updatedBy == prev.updatedBy)
            && (Truthy(b.updatedBy) ==> v.updatedBy == Some(b.updatedBy.value))
  {
    if b.value.Some? && !b.value.value.JStr? {
      NonStringRoundTrip(b.value.value);
    }
  }

  /** An empty body only refreshes the write time. */
  lemma EmptyUpdateTouchesTime(db: Db, key: string, now: int)
    requires key in db.settings
    ensures Update(db, key, PutBody(None, Undefined, Undefined, Undefined), now).db.settings[key]
            == db.settings[key].(updatedAt := now)
  {
  }

  /** An update leaves no trace once the row is deleted: it touched no other row. */
  lemma UpdateThenDelete(db: Db, key: string, b: PutBody, now: int)
    requires Printable(b.value) && key in db.settings
    ensures Delete(Update(db, key, b, now).db, key).db.settings == Delete(db, key).db.settings
  {
  }
}

=== FILE: sql_cleanup.dfy ===
/** What the text-to-SQL service does to the model's answer before running
    it: a markdown fence and its language tag are removed, surrounding white
    space and trailing backticks are dropped, and only a statement that
    starts with `SELECT` (in any case) is let through. */
module SqlCleanup {
  import opened Wrappers
  import opened Text

  const FENCE: string := "```"
  const SQL_TAG: string := "sql"
  const POSTGRES_TAG: string := "postgresql"

  /** How many characters the `postgresql` branch cuts off as written: nine,
      one short of the tag. */
  const POSTGRES_CUT_AS_WRITTEN: nat := 9

  // ---------------------------------------------------------------------------
  // Finding the fence
  // ---------------------------------------------------------------------------

  /** The first index at or after `from` where `pat` starts. */
  function FindFrom(s: string, pat: string, from: nat): (r: Option<nat>)
    requires from <= |s|
    ensures r.Some? ==> from <= r.value <= |s| && StartsWith(s[r.value..], pat)
    ensures forall i :: from <= i <= |s| && (r.None? || i < r.value) ==> !StartsWith(s[i..], pat)
    decreases |s| - from
  {
    if StartsWith(s[from..], pat) then Some(from)
    else if from == |s| then None
    else FindFrom(s, pat, from + 1)
  }

  function Find(s: string, pat: string): (r: Option<nat>)
    ensures r.Some? <==> Contains(s, pat)
    ensures r.Some? ==> r.value <= |s| && StartsWith(s[r.value..], pat)
    ensures r.Some? ==> forall i :: 0 <= i < r.value ==> !StartsWith(s[i..], pat)
  {
    FindFrom(s, pat, 0)
  }

  /** `s.split("```")[1]` for a text that starts with a fence: what lies
      between the opening fence and the next one, or up to the end. */
  function FenceBody(s: string): string
    requires StartsWith(s, FENCE)
  {
    var rest := s[|FENCE|..];
    match Find(rest, FENCE)
    case Some(k) => rest[..k]
    case None => rest
  }

  // ---------------------------------------------------------------------------
  // Clean-up
  // ---------------------------------------------------------------------------

  /** How much of the body the language tag branch cuts: three characters
      after `sql`, `cut` after `postgresql`, nothing otherwise. */
  function TagCut(body: string, cut: nat): (n: nat)
    requires cut <= |POSTGRES_TAG|
    ensures n <= |body|
  {
    if StartsWith(body, SQL_TAG) then |SQL_TAG|
    else if StartsWith(body, POSTGRES_TAG) then cut
    else 0
  }

  /** The language tag branch: a cut remainder is stripped. */
  function Untag(body: string, cut: nat): string
    requires cut <= |POSTGRES_TAG|
  {
    var n := TagCut(body, cut);
    if n > 0 then PyStrip(body[n..]) else body
  }

  /** The fence branch, applied to the stripped answer. */
  function Unfence(q: string, cut: nat): string
    requires cut <= |POSTGRES_TAG|
  {
    if StartsWith(q, FENCE) then PyStrip(Untag(FenceBody(q), cut)) else q
  }

  /** `.strip().rstrip('`').strip()`. */
  function Finish(u: string): (r: string)
    ensures |r| == 0 || (!PyWhitespace(r[0]) && !PyWhitespace(r[|r| - 1]))
  {
    PyStrip(RStripChar(PyStrip(u), '`'))
  }

  /** The whole clean-up, with the number of characters the `postgresql`
      branch removes as a parameter. An answer without a fence is only
      stripped (of white space, then trailing backticks, then white space). */
  function CleanWith(raw: string, cut: nat): (r: string)
    requires cut <= |POSTGRES_TAG|
    ensures |r| == 0 || (!PyWhitespace(r[0]) && !PyWhitespace(r[|r| - 1]))
    ensures !StartsWith(PyStrip(raw), FENCE) ==> r == Finish(PyStrip(raw))
  {
    Finish(Unfence(PyStrip(raw), cut))
  }

  /** An answer opening with a fence whose body starts with `postgresql`. */
  predicate PostgresFenced(raw: string) {
    var q := PyStrip(raw);
    StartsWith(q, FENCE) && StartsWith(FenceBody(q), POSTGRES_TAG)
  }

  /** The clean-up as the service writes it, cutting nine characters of the
      ten-character `postgresql` tag: every other answer is cleaned as the
      whole-tag clean-up cleans it. */
  function CleanAsWritten(raw: string): (r: string)
    ensures !PostgresFenced(raw) ==> r == Clean(raw)
  {
    CutsAgreeOffPostgres(raw);
    CleanWith(raw, POSTGRES_CUT_AS_WRITTEN)
  }

  /** The cut only matters after a `postgresql` tag. */
  lemma CutsAgreeOffPostgres(raw: string)
    ensures !PostgresFenced(raw) ==> CleanWith(raw, POSTGRES_CUT_AS_WRITTEN) == CleanWith(raw, |POSTGRES_TAG|)
  {
    var q := PyStrip(raw);
    if StartsWith(q, FENCE) && !PostgresFenced(raw) {
      var body := FenceBody(q);
      assert TagCut(body, POSTGRES_CUT_AS_WRITTEN) == TagCut(body, |POSTGRES_TAG|);
      assert Untag(body, POSTGRES_CUT_AS_WRITTEN) == Untag(body, |POSTGRES_TAG|);
    }
  }

  /** The clean-up with the whole tag removed. */
  function Clean(raw: string): (r: string)
    ensures |r| == 0 || (!PyWhitespace(r[0]) && !PyWhitespace(r[|r| - 1]))
  {
    CleanWith(raw, |POSTGRES_TAG|)
  }

  // ---------------------------------------------------------------------------
  // The SELECT gate
  // ---------------------------------------------------------------------------

  /** `sql_query.upper().startswith("SELECT")`. */
  predicate Accepts(q: string) {
    StartsWith(Upper(q), "SELECT")
  }

  /** The gate: the query itself, or a 400 whose detail carries the query. */
  function Gate(q: string): (r: Reply<string>)
    ensures r.Ok? <==> Accepts(q)
    ensures r.Ok? ==> r.value == q
    ensures r.Fail? ==> (r.status == BAD_REQUEST && EndsWith(r.error, q)
                         && StartsWith(r.error, "Generated query is not a SELECT statement: "))
  {
    if Accepts(q) then Ok(q)
    else Fail(BAD_REQUEST, "Generated query is not a SELECT statement: " + q)
  }

  /** The gate compares case-insensitively: a query passes exactly when its
      first six characters spell `select` in any mix of cases. */
  lemma GateIgnoresCase(q: string)
    ensures Accepts(q) <==> |q| >= 6 && Lower(q[..6]) == "select"
  {
    if |q| >= 6 {
      var u := Upper(q)[..6];
      var l := Lower(q[..6]);
      if Accepts(q) {
        assert forall i :: 0 <= i < 6 ==> l[i] == "select"[i] by {
          forall i | 0 <= i < 6 ensures l[i] == "select"[i] {
            assert u[i] == "SELECT"[i];
          }
        }
      }
      if l == "select" {
        assert forall i :: 0 <= i < 6 ==> u[i] == "SELECT"[i] by {
          forall i | 0 <= i < 6 ensures u[i] == "SELECT"[i] {
            assert l[i] == "select"[i];
          }
        }
      }
    }
  }

  // ---------------------------------------------------------------------------
  // Round trip through a fenced answer
  // ---------------------------------------------------------------------------

  /** A query as the service would want to run it: not empty, no white
      space at either end, no trailing backtick and no fence inside. */
  predicate Tidy(s: string) {
    Bare(s) && s[|s| - 1] != '`' && !Contains(s, FENCE)
  }

  /** Not empty, and no white space at either end. */
  predicate Bare(s: string) {
    |s| > 0 && !PyWhitespace(s[0]) && !PyWhitespace(s[|s| - 1])
  }

  /** The answer shapes the model gives: a fenced block with no tag, with
      the `sql` tag or with the `postgresql` tag, or the bare query. */
  function Fenced(tag: string, s: string): string {
    FENCE + tag + "\n" + s + "\n" + FENCE
  }

  /** With the whole tag removed, every fenced shape gives the query back. */
  lemma CleanFenced(tag: string, s: string)
    requires tag == "" || tag == SQL_TAG || tag == POSTGRES_TAG
    requires Tidy(s)
    ensures Clean(Fenced(tag, s)) == s
    ensures Clean(s) == s
  {
    var f := Fenced(tag, s);
    FencedBody(tag, s);
    assert Unfence(f, |POSTGRES_TAG|) == s by {
      UntagFenced(tag, s);
      StripTidy(s);
    }
    FinishTidy(s);
    StripTidy(s);
    NotFenced(s);
    assert Unfence(s, |POSTGRES_TAG|) == s;
  }

  /** Whatever the tag, removing all of it and stripping leaves the query. */
  lemma UntagFenced(tag: string, s: string)
    requires tag == "" || tag == SQL_TAG || tag == POSTGRES_TAG
    requires Bare(s)
    ensures Untag(tag + "\n" + s + "\n", |POSTGRES_TAG|) == (if tag == "" then "\n" + s + "\n" else s)
    ensures PyStrip("\n" + s + "\n") == s
  {
    var body := tag + "\n" + s + "\n";
    StripPadded(s);
    TagCutFenced(tag, s);
    if tag != "" {
      assert body[|tag|..] == "\n" + s + "\n";
    }
  }

  /** The whole tag is cut from the line it opens. */
  lemma TagCutFenced(tag: string, s: string)
    requires tag == "" || tag == SQL_TAG || tag == POSTGRES_TAG
    ensures TagCut(tag + "\n" + s + "\n", |POSTGRES_TAG|) == |tag|
  {
    var body := tag + "\n" + s + "\n";
    if tag == "" {
      assert body[0] == '\n';
    } else {
      assert body[..|tag|] == tag;
      if tag == POSTGRES_TAG {
        assert body[0] == 'p';
      }
    }
  }

  /** Finishing leaves a tidy query as it is. */
  lemma FinishTidy(s: string)
    requires Tidy(s)
    ensures Finish(s) == s
  {
    StripTidy(s);
    NotFenced(s);
  }

  /** As written, the `postgresql` shape leaves the tag's last letter in
      front of the query, and the gate then turns the query away. */
  lemma CleanAsWrittenPostgres(s: string)
    requires Tidy(s)
    ensures CleanAsWritten(Fenced(POSTGRES_TAG, s)) == "l\n" + s
    ensures !Accepts(CleanAsWritten(Fenced(POSTGRES_TAG, s)))
  {
    var f := Fenced(POSTGRES_TAG, s);
    var kept := "l\n" + s;
    calc {
      CleanAsWritten(f);
      Finish(Unfence(PyStrip(f), POSTGRES_CUT_AS_WRITTEN));
      { UnfenceAsWritten(s); }
      Finish(kept);
      { FinishKept(s); }
      kept;
    }
    FinishKept(s);
  }

  /** The kept text survives the finishing strip, and its first letter is
      not the `S` of `SELECT`. */
  lemma FinishKept(s: string)
    requires Tidy(s)
    ensures Finish("l\n" + s) == "l\n" + s
    ensures !Accepts("l\n" + s)
  {
    var kept := "l\n" + s;
    StripLeadingL(s);
    assert RStripChar(kept, '`') == kept;
    assert Upper(kept)[0] == 'L';
  }

  lemma UnfenceAsWritten(s: string)
    requires Tidy(s)
    ensures PyStrip(Fenced(POSTGRES_TAG, s)) == Fenced(POSTGRES_TAG, s)
    ensures Unfence(Fenced(POSTGRES_TAG, s), POSTGRES_CUT_AS_WRITTEN) == "l\n" + s
  {
    UntagAsWritten(s);
    StripLeadingL(s);
    FencedBody(POSTGRES_TAG, s);
  }

  /** The tag branch as written keeps the tag's last letter. */
  lemma UntagAsWritten(s: string)
    requires Bare(s)
    ensures Untag(POSTGRES_TAG + "\n" + s + "\n", POSTGRES_CUT_AS_WRITTEN) == "l\n" + s
  {
    var body := POSTGRES_TAG + "\n" + s + "\n";
    var kept := "l\n" + s;
    assert TagCut(body, POSTGRES_CUT_AS_WRITTEN) == POSTGRES_CUT_AS_WRITTEN by {
      assert body[0] == 'p';
      assert body[..|POSTGRES_TAG|] == POSTGRES_TAG;
    }
    assert body[POSTGRES_CUT_AS_WRITTEN..] == kept + "\n";
    StripLeadingL(s);
  }

  lemma DropPrefix(a: string, b: string, k: nat)
    requires k <= |a|
    ensures (a + b)[k..] == a[k..] + b
  {
  }

  /** The text the as-written branch keeps is already stripped. */
  lemma StripLeadingL(s: string)
    requires Bare(s)
    ensures PyStrip("l\n" + s + "\n") == "l\n" + s
    ensures PyStrip("l\n" + s) == "l\n" + s
  {
    var kept := "l\n" + s;
    assert kept + "\n" == "l\n" + s + "\n";
    TrimStartOfTrimmed(kept + "\n", Python);
    TrimStartOfTrimmed(kept, Python);
    TrimEndOfTrimmed(kept, Python);
    assert (kept + "\n")[..|kept + "\n"| - 1] == kept;
  }

  /** The gate then judges the query itself. */
  lemma CleanFencedGate(tag: string, s: string)
    requires tag == "" || tag == SQL_TAG || tag == POSTGRES_TAG
    requires Tidy(s)
    ensures Accepts(Clean(Fenced(tag, s))) <==> Accepts(s)
  {
    CleanFenced(tag, s);
  }

  lemma StripTidy(s: string)
    requires Tidy(s)
    ensures PyStrip(s) == s
  {
    TrimStartOfTrimmed(s, Python);
    TrimEndOfTrimmed(s, Python);
  }

  /** One line break on each side is stripped away. */
  lemma StripPadded(s: string)
    requires Bare(s)
    ensures PyStrip("\n" + s + "\n") == s
  {
    var t := "\n" + s + "\n";
    assert t[1..] == s + "\n";
    TrimStartOfTrimmed(s + "\n", Python);
    assert (s + "\n")[..|s + "\n"| - 1] == s;
    TrimEndOfTrimmed(s, Python);
  }

  /** A tidy query is not itself fenced, and stripping backticks leaves it. */
  lemma NotFenced(s: string)
    requires Tidy(s)
    ensures !StartsWith(s, FENCE)
    ensures RStripChar(s, '`') == s
  {
    assert s[0..] == s;
  }

  /** The fence body of a fenced answer is the tag line and the query. */
  lemma FencedBody(tag: string, s: string)
    requires tag == "" || tag == SQL_TAG || tag == POSTGRES_TAG
    requires Tidy(s)
    ensures PyStrip(Fenced(tag, s)) == Fenced(tag, s)
    ensures StartsWith(Fenced(tag, s), FENCE)
    ensures FenceBody(Fenced(tag, s)) == tag + "\n" + s + "\n"
  {
    var f := Fenced(tag, s);
    var body := tag + "\n" + s + "\n";
    assert f == FENCE + (body + FENCE);
    assert f[|FENCE|..] == body + FENCE;
    TrimStartOfTrimmed(f, Python);
    TrimEndOfTrimmed(f, Python);
    NoFenceInBody(tag, s);
    FirstFenceAtEnd(body);
  }

  /** The body holds no fence: a fence would need three backticks in a row,
      and the tag and line breaks hold none. */
  lemma NoFenceInBody(tag: string, s: string)
    requires tag == "" || tag == SQL_TAG || tag == POSTGRES_TAG
    requires Tidy(s)
    ensures var body := tag + "\n" + s + "\n";
            forall i :: 0 <= i <= |body| ==> !StartsWith(body[i..], FENCE)
  {
    var body := tag + "\n" + s + "\n";
    forall i | 0 <= i <= |body|
      ensures !StartsWith(body[i..], FENCE)
    {
      NoFenceAt(tag, s, i);
    }
  }

  lemma NoFenceAt(tag: string, s: string, i: nat)
    requires tag == "" || tag == SQL_TAG || tag == POSTGRES_TAG
    requires Tidy(s)
    requires i <= |tag + "\n" + s + "\n"|
    ensures !StartsWith((tag + "\n" + s + "\n")[i..], FENCE)
  {
    var body := tag + "\n" + s + "\n";
    var nl1, nl2 := |tag|, |tag| + 1 + |s|;
    if i + 3 > |body| {
    } else if i <= nl1 < i + 3 {
      assert body[nl1] == '\n';
      assert body[i..][nl1 - i] == '\n';
    } else if i <= nl2 < i + 3 {
      assert body[nl2] == '\n';
      assert body[i..][nl2 - i] == '\n';
    } else if i + 3 <= nl1 {
      assert body[i..][0] == tag[i];
    } else {
      var j := i - nl1 - 1;
      assert body[i..][..3] == s[j..][..3];
      assert !StartsWith(s[j..], FENCE);
    }
  }

  /** Appending a fence to a text without one, whose last character is not
      a backtick, puts the first fence at the join. */
  lemma FirstFenceAtEnd(body: string)
    requires forall i :: 0 <= i <= |body| ==> !StartsWith(body[i..], FENCE)
    requires |body| > 0 && body[|body| - 1] != '`'
    ensures Find(body + FENCE, FENCE) == Some(|body|)
  {
    var t := body + FENCE;
    assert t[|body|..] == FENCE;
    forall i | 0 <= i < |body|
      ensures !StartsWith(t[i..], FENCE)
    {
      if i + 3 <= |body| {
        assert t[i..][..3] == body[i..][..3];
      } else {
        assert t[i..][|body| - 1 - i] == body[|body| - 1];
      }
    }
    var r := Find(t, FENCE);
    assert r.Some?;
    assert r.value >= |body|;
    assert t[|body|..] == FENCE;
  }
}

=== FILE: sse_stream.dfy ===
/** The text-to-SQL service's two chat endpoints: `/api/chat/stream`, which
    reports its progress as server-sent events, one `data:` line per event
    followed by a blank line (section 9.2 of the WHATWG HTML Living Standard),
    and `/api/chat`, which answers once. The database, the language model and
    the exceptions they raise are the parameters of a `Run`. */
module SseStream {
  import opened Wrappers
  import opened Text
  import Json
  import SqlCleanup

  const NO_KEY_MESSAGE: string := "Groq API key not configured"
  const NO_KEY_DETAIL: string := "Groq API key not configured. Please set GROQ_API_KEY in .env file. Get your key from https://console.groq.com"
  const CONNECTING: string := "Connecting to database..."
  const READING_SCHEMA: string := "Reading database schema..."
  const GENERATING_SQL: string := "Generating SQL query..."
  const EXECUTING: string := "Executing SQL query..."
  const EXPLAINING: string := "Generating explanation..."
  const EXECUTION_ERROR: string := "SQL execution error: "
  const PROCESSING_ERROR: string := "Error processing query: "
  const GENERATED_SQL: string := ". Generated SQL: "
  const DATA_FIELD: string := "data: "

  /** A result row: `dict(row)` of a `RealDictCursor` row. */
  type Row = seq<Json.Member>

  datatype Event =
    | Status(message: string)
    | SqlChunk(chunk: string)
    | Sql(sql: string)
    | Results(rows: seq<Row>)
    | Explanation(explanation: string)
    | Done
    | Error(message: string, query: Option<string>)

  /** Where a request breaks off with an exception. */
  datatype Stage =
    | Connect    // get_db_connection, including a missing address
    | Schema     // reading information_schema
    | Generate   // the completion that writes the query
    | Execute    // running the query and fetching its rows
    | Explain    // the completion that explains the query
    | Close      // closing the cursor and the connection at the end

  datatype Failure = Failure(stage: Stage, message: string)

  /** What a request meets outside the service. `deltas` are the pieces of the
      query completion as they arrive (those before the exception when it is
      the completion that fails), `rows` the query's rows, `explanation` the
      second completion's text, and `failure` the first exception raised. */
  datatype Run = Run(
    hasClient: bool,
    deltas: seq<string>,
    rows: seq<Row>,
    explanation: string,
    failure: Option<Failure>)

  predicate FailsAt(run: Run, stage: Stage) {
    run.failure.Some? && run.failure.value.stage == stage
  }

  /** `''.join(pieces)`. */
  function Concat(pieces: seq<string>): string {
    if |pieces| == 0 then "" else pieces[0] + Concat(pieces[1..])
  }

  /** The query as the gate sees it: the completion cleaned as the service
      writes it, cutting nine characters of a `postgresql` tag like the
      non-streaming endpoint. Any other answer gives the whole-tag query. */
  function Query(run: Run): (q: string)
    ensures !SqlCleanup.PostgresFenced(Concat(run.deltas)) ==> q == CorrectedQuery(run)
  {
    SqlCleanup.CleanAsWritten(Concat(run.deltas))
  }

  /** The query with the whole `postgresql` tag removed. */
  function CorrectedQuery(run: Run): string {
    SqlCleanup.Clean(Concat(run.deltas))
  }

  function RowCountMessage(n: nat): string {
    "Query returned " + NatToString(n) + " rows"
  }

  /** The count in the message is the number it was written from. */
  lemma RowCountMessageInjective(a: nat, b: nat)
    requires RowCountMessage(a) == RowCountMessage(b)
    ensures a == b
  {
    var p := "Query returned ";
    assert NatToString(a) + " rows" == RowCountMessage(a)[|p|..];
    assert NatToString(b) + " rows" == RowCountMessage(b)[|p|..];
    var n := |NatToString(a) + " rows"|;
    assert NatToString(a) == (NatToString(a) + " rows")[..n - 5];
    assert NatToString(b) == (NatToString(b) + " rows")[..n - 5];
    NatToStringInjective(a, b);
  }

  // ---------------------------------------------------------------------------
  // The streaming endpoint
  // ---------------------------------------------------------------------------

  /** One `sql_chunk` event per piece that is not empty. */
  function ChunkEvents(deltas: seq<string>): (es: seq<Event>)
    ensures forall i :: 0 <= i < |es| ==> es[i].SqlChunk? && es[i].chunk != ""
  {
    if |deltas| == 0 then []
    else (if deltas[0] == "" then [] else [SqlChunk(deltas[0])]) + ChunkEvents(deltas[1..])
  }

  /** The error of the outer handler: the exception's text and no query. */
  function Outer(run: Run): Event
    requires run.failure.Some?
  {
    Error(run.failure.value.message, None)
  }

  /** The error of the inner handler: the exception's text behind a fixed
      prefix, with the query. */
  function Inner(run: Run, q: string): Event
    requires run.failure.Some?
  {
    Error(EXECUTION_ERROR + run.failure.value.message, Some(q))
  }

  /** The events of `generate_stream`, or the single error sent when the
      service has no model client. Every `sql` event carries the query the
      as-written clean-up produced; `EventsEnd` states for every query when
      the stream ends in `done`. */
  function Events(run: Run): (es: seq<Event>)
    ensures EndsAs(es, Succeeded(run, Query(run)))
    ensures forall e :: e in es && e.Sql? ==> e.sql == Query(run)
  {
    var q := Query(run);
    EventsEnd(run, q);
    SqlEventIsQuery(run, q);
    Stream(run, q)
  }

  /** A non-empty stream that ends in `done` when `ok` and in an error
      otherwise. */
  predicate EndsAs(es: seq<Event>, ok: bool) {
    && |es| >= 1
    && (es[|es| - 1].Done? <==> ok)
    && (es[|es| - 1].Error? <==> !ok)
  }

  /** The events, given the query the clean-up makes of the completion. The
      lemmas below hold for every `q`, so in particular for `Query(run)`. */
  function Stream(run: Run, q: string): seq<Event> {
    if !run.hasClient then [Error(NO_KEY_MESSAGE, None)]
    else if FailsAt(run, Connect) then [Status(CONNECTING), Outer(run)]
    else if FailsAt(run, Schema) then [Status(CONNECTING), Status(READING_SCHEMA), Outer(run)]
    else
      Drafted(run) + After(run, q)
  }

  /** What follows the last chunk: the outer error when the completion fails,
      otherwise the query and what becomes of it. */
  function After(run: Run, q: string): seq<Event> {
    if FailsAt(run, Generate) then [Outer(run)] else Checked(run, q)
  }

  /** From the final query on: the gate, the execution, the explanation. */
  function Checked(run: Run, q: string): seq<Event> {
    match SqlCleanup.Gate(q)
    case Fail(_, detail) => [Sql(q), Error(detail, None)]
    case Ok(_) => [Sql(q), Status(EXECUTING)] + Executed(run, q)
  }

  /** After the query has run: the row count and the explanation, each
      unless its step raises. */
  function Executed(run: Run, q: string): seq<Event> {
    if FailsAt(run, Execute) then [Inner(run, q)]
    else Counted(run) + Explained(run, q)
  }

  /** After the row count: the explanation, unless writing it raises. */
  function Explained(run: Run, q: string): seq<Event> {
    if FailsAt(run, Explain) then [Inner(run, q)] else Finished(run) + Closing(run)
  }

  /** The row count and the announcement of the explanation. */
  function Counted(run: Run): seq<Event> {
    [Status(RowCountMessage(|run.rows|)), Status(EXPLAINING)]
  }

  /** The rows, the explanation and the end of the stream. */
  function Finished(run: Run): seq<Event> {
    [Results(run.rows), Explanation(PyStrip(run.explanation)), Done]
  }

  /** The outer error when closing the connection raises. */
  function Closing(run: Run): seq<Event> {
    if FailsAt(run, Close) then [Outer(run)] else []
  }

  /** A request succeeds when there is a client, nothing raises, and the
      query passes the gate. */
  predicate Succeeded(run: Run, q: string) {
    run.hasClient && run.failure.None? && SqlCleanup.Accepts(q)
  }

  /** The events up to the last chunk of the completion: status reports and
      chunks only. */
  function Drafted(run: Run): (es: seq<Event>)
    ensures |es| >= 3
    ensures forall i :: 0 <= i < |es| ==> (es[i].Status? && es[i] != Status(EXECUTING)) || es[i].SqlChunk?
  {
    [Status(CONNECTING), Status(READING_SCHEMA), Status(GENERATING_SQL)] + ChunkEvents(run.deltas)
  }

  /** What follows the chunks, case by case. */
  lemma AfterCases(run: Run, q: string)
    ensures FailsAt(run, Generate) ==> After(run, q) == [Outer(run)]
    ensures !FailsAt(run, Generate) && !SqlCleanup.Accepts(q) ==>
              After(run, q) == [Sql(q), Error(SqlCleanup.Gate(q).error, None)]
    ensures !FailsAt(run, Generate) && SqlCleanup.Accepts(q) ==>
              After(run, q) == [Sql(q), Status(EXECUTING)] + Executed(run, q)
  {
  }

  /** When nothing raises, the query's rows and explanation follow. */
  lemma ExecutedSucceeds(run: Run, q: string)
    requires run.failure.None?
    ensures Executed(run, q) == [Status(RowCountMessage(|run.rows|)), Status(EXPLAINING), Results(run.rows),
                                 Explanation(PyStrip(run.explanation)), Done]
  {
    assert Explained(run, q) == Finished(run) + [];
  }

  /** The explanation part ends in `done` when nothing raised, and otherwise
      in its only error. */
  lemma ExplainedEnd(run: Run, q: string)
    requires !FailsAt(run, Connect) && !FailsAt(run, Schema) && !FailsAt(run, Generate) && !FailsAt(run, Execute)
    ensures var x := Explained(run, q);
      && |x| >= 1
      && (x[|x| - 1].Done? <==> run.failure.None?)
      && (x[|x| - 1].Error? <==> run.failure.Some?)
      && ErrorOnlyLast(x)
  {
    var x := Explained(run, q);
    if FailsAt(run, Explain) {
      assert x == [Inner(run, q)];
    } else if FailsAt(run, Close) {
      assert x == Finished(run) + [Outer(run)];
      FinishedNoError(run);
      ErrorOnlyLastAppend(Finished(run), [Outer(run)]);
    } else {
      assert x == Finished(run);
      assert x[|x| - 1] == Done;
      assert run.failure.None?;
    }
  }

  /** The same for everything after the `Executing` status. */
  lemma ExecutedEnd(run: Run, q: string)
    requires !FailsAt(run, Connect) && !FailsAt(run, Schema) && !FailsAt(run, Generate)
    ensures var x := Executed(run, q);
      && |x| >= 1
      && (x[|x| - 1].Done? <==> run.failure.None?)
      && (x[|x| - 1].Error? <==> run.failure.Some?)
      && ErrorOnlyLast(x)
  {
    if !FailsAt(run, Execute) {
      ExplainedEnd(run, q);
      CountedNoError(run);
      ErrorOnlyLastAppend(Counted(run), Explained(run, q));
    }
  }

  lemma CountedNoError(run: Run)
    ensures NoError(Counted(run))
  {
  }

  lemma FinishedNoError(run: Run)
    ensures NoError(Finished(run))
  {
  }

  /** `done` comes after the `Executing` status unless running or explaining
      the query raises. */
  lemma ExecutedDone(run: Run, q: string)
    requires !FailsAt(run, Connect) && !FailsAt(run, Schema) && !FailsAt(run, Generate)
    ensures Done in Executed(run, q) <==> run.failure.None? || FailsAt(run, Close)
  {
    if !FailsAt(run, Execute) {
      assert Done !in Counted(run);
      if !FailsAt(run, Explain) {
        assert Done in Finished(run);
      }
    }
  }

  /** A `results` event after the `Executing` status carries the query's
      rows, and the row count came before it. */
  lemma ExecutedResults(run: Run, q: string, rows: seq<Row>)
    requires Results(rows) in Executed(run, q)
    ensures rows == run.rows
    ensures Status(RowCountMessage(|rows|)) in Executed(run, q)
  {
    assert !FailsAt(run, Execute);
    assert Results(rows) !in Counted(run);
    assert !FailsAt(run, Explain);
    assert Results(rows) !in Closing(run);
    assert Results(rows) in Finished(run);
  }

  /** Neither chunks nor `sql` events. */
  predicate Quiet(es: seq<Event>) {
    forall i :: 0 <= i < |es| ==> !es[i].SqlChunk? && !es[i].Sql?
  }

  lemma ExecutedQuiet(run: Run, q: string)
    ensures Quiet(Executed(run, q))
  {
    if !FailsAt(run, Execute) {
      CountedQuiet(run);
      ExplainedQuiet(run, q);
      QuietAppend(Counted(run), Explained(run, q));
    }
  }

  lemma CountedQuiet(run: Run)
    ensures Quiet(Counted(run))
  {
  }

  lemma ExplainedQuiet(run: Run, q: string)
    ensures Quiet(Explained(run, q))
  {
    if !FailsAt(run, Explain) {
      FinishedQuiet(run);
      ClosingQuiet(run);
      QuietAppend(Finished(run), Closing(run));
    }
  }

  lemma FinishedQuiet(run: Run)
    ensures Quiet(Finished(run))
  {
  }

  lemma ClosingQuiet(run: Run)
    ensures Quiet(Closing(run))
  {
  }

  lemma QuietAppend(a: seq<Event>, b: seq<Event>)
    requires Quiet(a) && Quiet(b)
    ensures Quiet(a + b)
  {
    forall i | 0 <= i < |a + b|
      ensures !(a + b)[i].SqlChunk? && !(a + b)[i].Sql?
    {
      if i >= |a| {
        assert (a + b)[i] == b[i - |a|];
      }
    }
  }

  /** No event but the last is an error. */
  predicate ErrorOnlyLast(es: seq<Event>) {
    forall i :: 0 <= i < |es| - 1 ==> !es[i].Error?
  }

  /** No event is an error. */
  predicate NoError(es: seq<Event>) {
    forall i :: 0 <= i < |es| ==> !es[i].Error?
  }

  lemma ErrorOnlyLastAppend(d: seq<Event>, t: seq<Event>)
    requires NoError(d)
    requires |t| >= 1 && ErrorOnlyLast(t)
    ensures ErrorOnlyLast(d + t)
    ensures (d + t)[|d + t| - 1] == t[|t| - 1]
  {
    forall i | 0 <= i < |d + t| - 1
      ensures !(d + t)[i].Error?
    {
      if i >= |d| {
        assert (d + t)[i] == t[i - |d|];
      }
    }
  }

  lemma AfterEnd(run: Run, q: string)
    requires run.hasClient && !FailsAt(run, Connect) && !FailsAt(run, Schema)
    ensures var t := After(run, q);
      && |t| >= 1
      && (t[|t| - 1].Done? <==> Succeeded(run, q))
      && (t[|t| - 1].Error? <==> !Succeeded(run, q))
      && ErrorOnlyLast(t)
  {
    AfterCases(run, q);
    if !FailsAt(run, Generate) && SqlCleanup.Accepts(q) {
      ExecutedEnd(run, q);
      ErrorOnlyLastAppend([Sql(q), Status(EXECUTING)], Executed(run, q));
    }
  }

  /** After the chunks there are no chunks, and any `sql` event carries `q`. */
  lemma AfterKinds(run: Run, q: string)
    requires !FailsAt(run, Connect) && !FailsAt(run, Schema)
    ensures forall i :: 0 <= i < |After(run, q)| ==> !After(run, q)[i].SqlChunk?
    ensures SqlCarries(After(run, q), q)
  {
    var t := After(run, q);
    AfterCases(run, q);
    if !FailsAt(run, Generate) && SqlCleanup.Accepts(q) {
      var x := Executed(run, q);
      ExecutedQuiet(run, q);
      forall i | 0 <= i < |t|
        ensures !t[i].SqlChunk? && (t[i].Sql? ==> t[i].sql == q)
      {
        if i >= 2 {
          assert t[i] == x[i - 2];
        }
      }
    }
  }

  /** Either the stream ends in `done` and the request succeeded, or it ends
      in its only `error`. */
  lemma EventsEnd(run: Run, q: string)
    ensures var es := Stream(run, q);
      && |es| >= 1
      && (es[|es| - 1].Done? <==> Succeeded(run, q))
      && (es[|es| - 1].Error? <==> !Succeeded(run, q))
      && ErrorOnlyLast(es)
  {
    if run.hasClient && !FailsAt(run, Connect) && !FailsAt(run, Schema) {
      AfterEnd(run, q);
      ErrorOnlyLastAppend(Drafted(run), After(run, q));
    }
  }

  /** `done` is sent exactly when nothing raised before it and the query was
      accepted; only a failure to close comes after it. */
  lemma DoneMeansAccepted(run: Run, q: string)
    ensures Done in Stream(run, q) <==>
            run.hasClient && SqlCleanup.Accepts(q) && (run.failure.None? || FailsAt(run, Close))
  {
    if run.hasClient && !FailsAt(run, Connect) && !FailsAt(run, Schema) {
      var d := Drafted(run);
      AfterCases(run, q);
      assert Done !in d;
      if !FailsAt(run, Generate) && SqlCleanup.Accepts(q) {
        ExecutedDone(run, q);
      }
    }
  }

  /** Nothing is executed before the query has been sent and accepted: the
      `Executing` status follows the `sql` event of an accepted query. */
  lemma ExecutesOnlySelect(run: Run, q: string)
    requires Status(EXECUTING) in Stream(run, q)
    ensures SqlCleanup.Accepts(q)
    ensures exists i, j :: 0 <= i < j < |Stream(run, q)| && Stream(run, q)[i] == Sql(q) && Stream(run, q)[j] == Status(EXECUTING)
  {
    var es := Stream(run, q);
    assert run.hasClient && !FailsAt(run, Connect) && !FailsAt(run, Schema);
    var d := Drafted(run);
    AfterCases(run, q);
    assert Status(EXECUTING) !in d;
    assert !FailsAt(run, Generate) && SqlCleanup.Accepts(q);
    assert es[|d|] == Sql(q);
    assert es[|d| + 1] == Status(EXECUTING);
  }

  /** Every `sql` event among `es` carries `q`. */
  predicate SqlCarries(es: seq<Event>, q: string) {
    forall i :: 0 <= i < |es| && es[i].Sql? ==> es[i].sql == q
  }

  lemma SqlCarriesAppend(a: seq<Event>, b: seq<Event>, q: string)
    requires SqlCarries(a, q) && SqlCarries(b, q)
    ensures SqlCarries(a + b, q)
  {
    forall i | 0 <= i < |a + b| && (a + b)[i].Sql?
      ensures (a + b)[i].sql == q
    {
      if i >= |a| {
        assert (a + b)[i] == b[i - |a|];
      }
    }
  }

  /** Every `sql` event carries the cleaned query. */
  lemma SqlEventIsQuery(run: Run, q: string)
    ensures forall e :: e in Stream(run, q) && e.Sql? ==> e.sql == q
  {
    var es := Stream(run, q);
    if run.hasClient && !FailsAt(run, Connect) && !FailsAt(run, Schema) {
      AfterKinds(run, q);
      assert SqlCarries(Drafted(run), q);
      SqlCarriesAppend(Drafted(run), After(run, q), q);
    }
    assert SqlCarries(es, q);
    forall e | e in es && e.Sql?
      ensures e.sql == q
    {
      var i :| 0 <= i < |es| && es[i] == e;
    }
  }

  /** The `results` event carries the rows the status line counted. */
  lemma ResultsCounted(run: Run, q: string, rows: seq<Row>)
    requires Results(rows) in Stream(run, q)
    ensures rows == run.rows
    ensures Status(RowCountMessage(|rows|)) in Stream(run, q)
  {
    assert run.hasClient && !FailsAt(run, Connect) && !FailsAt(run, Schema);
    var d := Drafted(run);
    AfterCases(run, q);
    assert Results(rows) !in d;
    assert Results(rows) in Executed(run, q);
    ExecutedResults(run, q, rows);
  }

  // ---------------------------------------------------------------------------
  // The chunks spell the completion
  // ---------------------------------------------------------------------------

  /** The concatenated payloads of the `sql_chunk` events. */
  function ChunkText(es: seq<Event>): string {
    if |es| == 0 then ""
    else (if es[0].SqlChunk? then es[0].chunk else "") + ChunkText(es[1..])
  }

  lemma {:induction false} ChunkTextAppend(a: seq<Event>, b: seq<Event>)
    ensures ChunkText(a + b) == ChunkText(a) + ChunkText(b)
  {
    if |a| > 0 {
      assert (a + b)[1..] == a[1..] + b;
      ChunkTextAppend(a[1..], b);
    } else {
      assert a + b == b;
    }
  }

  lemma {:induction false} ChunkTextOfChunks(deltas: seq<string>)
    ensures ChunkText(ChunkEvents(deltas)) == Concat(deltas)
  {
    if |deltas| > 0 {
      var head: seq<Event> := if deltas[0] == "" then [] else [SqlChunk(deltas[0])];
      ChunkTextAppend(head, ChunkEvents(deltas[1..]));
      ChunkTextOfChunks(deltas[1..]);
    }
  }

  lemma NoChunks(es: seq<Event>)
    requires forall i :: 0 <= i < |es| ==> !es[i].SqlChunk?
    ensures ChunkText(es) == ""
  {
  }

  /** Once the model is called, the `sql_chunk` payloads put together are the
      completion exactly as it arrived, before any stripping; before that
      there are none. */
  lemma ChunksSpellCompletion(run: Run, q: string)
    ensures run.hasClient && !FailsAt(run, Connect) && !FailsAt(run, Schema)
            ==> ChunkText(Stream(run, q)) == Concat(run.deltas)
    ensures !(run.hasClient && !FailsAt(run, Connect) && !FailsAt(run, Schema))
            ==> ChunkText(Stream(run, q)) == ""
  {
    var es := Stream(run, q);
    if run.hasClient && !FailsAt(run, Connect) && !FailsAt(run, Schema) {
      var opening := [Status(CONNECTING), Status(READING_SCHEMA), Status(GENERATING_SQL)];
      var chunks := ChunkEvents(run.deltas);
      var tail := After(run, q);
      calc {
        ChunkText(es);
        { assert es == (opening + chunks) + tail; }
        ChunkText((opening + chunks) + tail);
        { ChunkTextAppend(opening + chunks, tail); }
        ChunkText(opening + chunks) + ChunkText(tail);
        { AfterKinds(run, q); NoChunks(tail); }
        ChunkText(opening + chunks) + "";
        { ChunkTextAppend(opening, chunks); NoChunks(opening); }
        "" + ChunkText(chunks) + "";
        { ChunkTextOfChunks(run.deltas); }
        Concat(run.deltas);
      }
    } else {
      NoChunks(es);
    }
  }

  // ---------------------------------------------------------------------------
  // The wire format
  // ---------------------------------------------------------------------------

  function RowValue(r: Row): Json.Value {
    Json.JObj(r)
  }

  function RowValues(rows: seq<Row>): (vs: seq<Json.Value>)
    ensures |vs| == |rows|
    ensures forall i :: 0 <= i < |rows| ==> vs[i] == RowValue(rows[i])
  {
    if |rows| == 0 then [] else [RowValue(rows[0])] + RowValues(rows[1..])
  }

  function Str(key: string, s: string): Json.Member {
    Json.Member(key, Json.JStr(s))
  }

  /** The dictionary passed to `json.dumps`, keys in the order written. */
  function ToJson(e: Event): Json.Value {
    match e
    case Status(m) => Json.JObj([Str("type", "status"), Str("message", m)])
    case SqlChunk(c) => Json.JObj([Str("type", "sql_chunk"), Str("chunk", c)])
    case Sql(q) => Json.JObj([Str("type", "sql"), Str("sql", q)])
    case Results(rows) => Json.JObj([Str("type", "results"), Json.Member("results", Json.JArr(RowValues(rows)))])
    case Explanation(x) => Json.JObj([Str("type", "explanation"), Str("explanation", x)])
    case Done => Json.JObj([Str("type", "done")])
    case Error(m, None) => Json.JObj([Str("type", "error"), Str("message", m)])
    case Error(m, Some(q)) => Json.JObj([Str("type", "error"), Str("message", m), Str("sql", q)])
  }

  /** The text under `key` at position `i` of a dictionary, if that is where
      it is. */
  function TextAt(ms: seq<Json.Member>, i: nat, key: string): Option<string> {
    if i < |ms| && ms[i].key == key && ms[i].value.JStr? then Some(ms[i].value.s) else None
  }

  /** Reads an event back from its dictionary. */
  function FromJson(v: Json.Value): Option<Event> {
    if !v.JObj? then None
    else
      var ms := v.members;
      match TextAt(ms, 0, "type")
      case None => None
      case Some(t) =>
        if t == "done" && |ms| == 1 then Some(Done)
        else if t == "results" && |ms| == 2 && ms[1].key == "results" && ms[1].value.JArr?
                && forall i :: 0 <= i < |ms[1].value.items| ==> ms[1].value.items[i].JObj? then
          Some(Results(RowsOf(ms[1].value.items)))
        else if t == "error" && |ms| == 3 && TextAt(ms, 1, "message").Some? && TextAt(ms, 2, "sql").Some? then
          Some(Error(TextAt(ms, 1, "message").value, TextAt(ms, 2, "sql")))
        else if |ms| != 2 then None
        else if t == "status" && TextAt(ms, 1, "message").Some? then Some(Status(TextAt(ms, 1, "message").value))
        else if t == "sql_chunk" && TextAt(ms, 1, "chunk").Some? then Some(SqlChunk(TextAt(ms, 1, "chunk").value))
        else if t == "sql" && TextAt(ms, 1, "sql").Some? then Some(Sql(TextAt(ms, 1, "sql").value))
        else if t == "explanation" && TextAt(ms, 1, "explanation").Some? then Some(Explanation(TextAt(ms, 1, "explanation").value))
        else if t == "error" && TextAt(ms, 1, "message").Some? then Some(Error(TextAt(ms, 1, "message").value, None))
        else None
  }

  function RowsOf(vs: seq<Json.Value>): seq<Row>
    requires forall i :: 0 <= i < |vs| ==> vs[i].JObj?
  {
    if |vs| == 0 then [] else [vs[0].members] + RowsOf(vs[1..])
  }

  lemma {:induction false} RowsOfValues(rows: seq<Row>)
    ensures RowsOf(RowValues(rows)) == rows
  {
    if |rows| > 0 {
      RowsOfValues(rows[1..]);
      assert RowValues(rows)[1..] == RowValues(rows[1..]);
    }
  }

  /** Every event is read back from its dictionary. */
  lemma FromToJson(e: Event)
    ensures FromJson(ToJson(e)) == Some(e)
  {
    if e.Results? {
      RowsOfValues(e.rows);
    }
  }

  /** Events whose rows are plain JSON objects the serialiser prints exactly. */
  predicate Printable(e: Event) {
    e.Results? ==> forall i :: 0 <= i < |e.rows| ==> Json.WellFormed(RowValue(e.rows[i]))
  }

  lemma ToJsonWellFormed(e: Event)
    requires Printable(e)
    ensures Json.WellFormed(ToJson(e))
  {
    if e.Results? {
      var vs := RowValues(e.rows);
      assert forall i :: 0 <= i < |vs| ==> Json.WellFormed(vs[i]);
    }
  }

  /** The `data:` line of an event, without its line feed. */
  function DataLine(e: Event): string
    requires Printable(e)
  {
    ToJsonWellFormed(e);
    DATA_FIELD + Json.Dumps(ToJson(e))
  }

  /** The data lines of a sequence of events. */
  function DataLines(es: seq<Event>): (ls: seq<string>)
    requires forall i :: 0 <= i < |es| ==> Printable(es[i])
    ensures |ls| == |es|
    ensures forall i :: 0 <= i < |es| ==> ls[i] == DataLine(es[i])
  {
    seq(|es|, i requires 0 <= i < |es| => DataLine(es[i]))
  }

  /** Each line as `f"data: {json.dumps(...)}\n\n"` writes it, one after
      the other. */
  function Frames(lines: seq<string>): string {
    if |lines| == 0 then "" else lines[0] + "\n\n" + Frames(lines[1..])
  }

  /** The body of the response. */
  function Body(es: seq<Event>): string
    requires forall i :: 0 <= i < |es| ==> Printable(es[i])
  {
    Frames(DataLines(es))
  }

  /** Each line followed by an empty one. */
  function Spaced(lines: seq<string>): seq<string> {
    if |lines| == 0 then [] else [lines[0], ""] + Spaced(lines[1..])
  }

  /** Split at line feeds, the data line of every event comes out followed by
      an empty line, and the body ends with a line feed. */
  function BodyLines(es: seq<Event>): seq<string>
    requires forall i :: 0 <= i < |es| ==> Printable(es[i])
  {
    Spaced(DataLines(es))
  }

  lemma BodyLinesCons(es: seq<Event>)
    requires |es| > 0 && forall i :: 0 <= i < |es| ==> Printable(es[i])
    ensures BodyLines(es) == [DataLine(es[0]), ""] + BodyLines(es[1..])
  {
    assert DataLines(es)[1..] == DataLines(es[1..]);
  }

  lemma DataLineOneLine(e: Event)
    requires Printable(e)
    ensures '\n' !in DataLine(e)
  {
    ToJsonWellFormed(e);
    Json.SerialiseOneLine(ToJson(e), Json.PY);
  }

  /** The body splits at its line feeds into the data lines, each followed by
      the empty line that ends its event, and a final empty piece. */
  lemma BodySplit(es: seq<Event>)
    requires forall i :: 0 <= i < |es| ==> Printable(es[i])
    ensures Split(Body(es), '\n') == BodyLines(es) + [""]
  {
    var ls := DataLines(es);
    forall i | 0 <= i < |ls|
      ensures '\n' !in ls[i]
    {
      DataLineOneLine(es[i]);
    }
    FramesSplit(ls);
  }

  lemma {:induction false} FramesSplit(lines: seq<string>)
    requires forall i :: 0 <= i < |lines| ==> '\n' !in lines[i]
    ensures Split(Frames(lines), '\n') == Spaced(lines) + [""]
  {
    if |lines| > 0 {
      FrameSplit(lines[0], Frames(lines[1..]));
      FramesSplit(lines[1..]);
    }
  }

  /** A line without line feeds, then a blank line, then the rest. */
  lemma FrameSplit(line: string, rest: string)
    requires '\n' !in line
    ensures Split(line + "\n\n" + rest, '\n') == [line, ""] + Split(rest, '\n')
  {
    var gap := "" + ['\n'] + rest;
    calc {
      Split(line + "\n\n" + rest, '\n');
      { assert line + "\n\n" + rest == line + ['\n'] + gap; }
      Split(line + ['\n'] + gap, '\n');
      { SplitConcat(line, gap, '\n'); }
      [line] + Split(gap, '\n');
      { SplitConcat("", rest, '\n'); }
      [line] + ([""] + Split(rest, '\n'));
    }
  }

  /** Each data line gives back its event: the JSON after the six-character
      field prefix parses, and reads back as the event sent. */
  lemma DataLineRoundTrip(e: Event)
    requires Printable(e)
    ensures StartsWith(DataLine(e), DATA_FIELD)
    ensures Json.Parse(DataLine(e)[|DATA_FIELD|..]) == Some(ToJson(e))
    ensures FromJson(ToJson(e)) == Some(e)
  {
    ToJsonWellFormed(e);
    var line := DataLine(e);
    assert line[..|DATA_FIELD|] == DATA_FIELD;
    assert line[|DATA_FIELD|..] == Json.Dumps(ToJson(e));
    Json.DumpsRoundTrip(ToJson(e));
    FromToJson(e);
  }

  // ---------------------------------------------------------------------------
  // The answering endpoint
  // ---------------------------------------------------------------------------

  /** `ChatResponse(sql, results, explanation)`. */
  datatype Answer = Answer(sql: string, results: seq<Row>, explanation: string)

  /** `chat_with_data`: the same steps without progress reports. A missing
      client is a 503; the gate and the inner handler answer 400; anything
      else raised is a 500. */
  function Respond(run: Run): (r: Reply<Answer>)
    ensures r.Ok? <==> Succeeded(run, Query(run))
    ensures !run.hasClient ==> r == Fail(SERVICE_UNAVAILABLE, NO_KEY_DETAIL)
    ensures r.Ok? ==> r.value.sql == Query(run) && r.value.results == run.rows
  {
    var q := Query(run);
    EndpointsAgree(run, q);
    Answering(run, q)
  }

  /** As written, a query in a `postgresql` fence reaches the gate with the
      tag's last letter in front: both endpoints refuse it, the stream
      after sending the mangled query, whatever the query was. */
  lemma PostgresFenceRefused(run: Run, s: string)
    requires run.hasClient && run.failure.None?
    requires SqlCleanup.Tidy(s) && run.deltas == [SqlCleanup.Fenced(SqlCleanup.POSTGRES_TAG, s)]
    ensures Query(run) == "l\n" + s
    ensures Sql("l\n" + s) in Events(run) && Done !in Events(run)
    ensures Respond(run).Fail? && Respond(run).status == BAD_REQUEST
  {
    assert Concat(run.deltas) == SqlCleanup.Fenced(SqlCleanup.POSTGRES_TAG, s);
    SqlCleanup.CleanAsWrittenPostgres(s);
    var q := Query(run);
    Refused(run, q);
    assert Events(run) == Stream(run, q);
    assert Respond(run) == Answering(run, q);
  }

  /** A query the gate refuses is still sent as a `sql` event, the stream
      does not reach `done`, and the plain endpoint answers 400. */
  lemma Refused(run: Run, q: string)
    requires run.hasClient && run.failure.None? && !SqlCleanup.Accepts(q)
    ensures Sql(q) in Stream(run, q) && Done !in Stream(run, q)
    ensures Answering(run, q).Fail? && Answering(run, q).status == BAD_REQUEST
  {
    DoneMeansAccepted(run, q);
    AfterCases(run, q);
    assert Stream(run, q) == Drafted(run) + After(run, q);
    assert Stream(run, q)[|Drafted(run)|] == Sql(q);
  }

  /** With the whole tag removed, the same answer gives the query back, and
      the request succeeds exactly when the query is a SELECT. */
  lemma CorrectedFenceAnswered(run: Run, s: string)
    requires run.hasClient && run.failure.None?
    requires SqlCleanup.Tidy(s) && run.deltas == [SqlCleanup.Fenced(SqlCleanup.POSTGRES_TAG, s)]
    ensures CorrectedQuery(run) == s
    ensures Done in Stream(run, s) <==> SqlCleanup.Accepts(s)
    ensures Answering(run, s).Ok? <==> SqlCleanup.Accepts(s)
  {
    assert Concat(run.deltas) == SqlCleanup.Fenced(SqlCleanup.POSTGRES_TAG, s);
    SqlCleanup.CleanFenced(SqlCleanup.POSTGRES_TAG, s);
    DoneMeansAccepted(run, s);
    EndpointsAgree(run, s);
  }

  /** The answer, given the query the clean-up makes of the completion. */
  function Answering(run: Run, q: string): (r: Reply<Answer>)
    ensures r.Ok? ==> r.value.sql == q && r.value.results == run.rows
  {
    if !run.hasClient then Fail(SERVICE_UNAVAILABLE, NO_KEY_DETAIL)
    else if FailsAt(run, Connect) || FailsAt(run, Schema) || FailsAt(run, Generate) then
      Fail(SERVER_ERROR, PROCESSING_ERROR + run.failure.value.message)
    else
      match SqlCleanup.Gate(q)
      case Fail(status, detail) => Fail(status, detail)
      case Ok(_) =>
        if FailsAt(run, Execute) || FailsAt(run, Explain) then
          Fail(BAD_REQUEST, EXECUTION_ERROR + run.failure.value.message + GENERATED_SQL + q)
        else if FailsAt(run, Close) then Fail(SERVER_ERROR, PROCESSING_ERROR + run.failure.value.message)
        else Ok(Answer(q, run.rows, PyStrip(run.explanation)))
  }

  /** The two endpoints agree: the answer exists exactly when the stream ends
      in `done`, and carries the streamed query, rows and explanation; a 400
      carries the stream's error text, extended by the query when the inner
      handler raised. */
  lemma EndpointsAgree(run: Run, q: string)
    ensures Answering(run, q).Ok? <==> Succeeded(run, q)
    ensures Answering(run, q).Ok? ==>
              var a := Answering(run, q).value;
              Sql(a.sql) in Stream(run, q) && Results(a.results) in Stream(run, q)
              && Explanation(a.explanation) in Stream(run, q)
    ensures Answering(run, q).Fail? && Answering(run, q).status == BAD_REQUEST ==>
              var last := Stream(run, q)[|Stream(run, q)| - 1];
              last.Error?
              && (last.query.None? ==> Answering(run, q).error == last.message)
              && (last.query.Some? ==> Answering(run, q).error == last.message + GENERATED_SQL + last.query.value)
  {
    var es := Stream(run, q);
    if run.hasClient && !FailsAt(run, Connect) && !FailsAt(run, Schema) && !FailsAt(run, Generate) {
      var drafted := [Status(CONNECTING), Status(READING_SCHEMA), Status(GENERATING_SQL)] + ChunkEvents(run.deltas);
      assert es == drafted + Checked(run, q);
    }
  }
}

=== FILE: stats.dfy ===
/** `GET /api/stats`: the dashboard's headline figures for the role's window
    and the previous calendar month, with guarded percent changes. The
    aggregates the database computes (`_sum`, `_avg`, `count`) are folded here
    over the invoice list. */
module Stats {
  import opened Wrappers
  import opened Calendar
  import opened Ledger

  // ---------------------------------------------------------------------------
  // Date ranges
  // ---------------------------------------------------------------------------

  function Midnight(d: Date): Instant {
    Instant(d, 0)
  }

  /** The lower bound of the role's window: six or three months back for a
      manager or a user, and 1 January of the current year otherwise. */
  function WindowStart(role: string, now: Instant): (t: Instant)
    requires ValidInstant(now)
    ensures ValidInstant(t)
    ensures role == "manager" ==> t == MonthsAgo(now, 6)
    ensures role == "user" ==> t == MonthsAgo(now, 3)
    ensures role != "manager" && role != "user" ==> t == Midnight(Date(now.date.year, 1, 1))
  {
    match RoleLookback(role)
    case Some(k) => MonthsAgo(now, k)
    case None => Midnight(Date(now.date.year, 1, 1))
  }

  /** A calendar month's range as the route builds it: from day 1 at midnight
      to the last day at midnight (`new Date(y, m + 1, 0)`). */
  datatype Range = Range(start: Instant, end: Instant)

  function MonthRange(i: int): (r: Range)
    ensures ValidInstant(r.start) && ValidInstant(r.end)
    ensures r.start.date == Date(YearOfIndex(i), MonthOfIndex(i), 1) && r.start.ms == 0
    ensures r.end.date == Date(YearOfIndex(i), MonthOfIndex(i), DaysInMonth(YearOfIndex(i), MonthOfIndex(i))) && r.end.ms == 0
  {
    var y, m := YearOfIndex(i), MonthOfIndex(i);
    Range(Midnight(Date(y, m, 1)), Midnight(Date(y, m, DaysInMonth(y, m))))
  }

  /** As written: `lastMonth.setMonth(lastMonth.getMonth() - 1)` on today's
      date, whose month then names the range. */
  function LastMonthAsWritten(now: Instant): Range
    requires ValidInstant(now)
  {
    MonthRange(MonthIndex(ShiftMonths(now.date, -1)))
  }

  /** The previous calendar month: the month index just before today's. */
  function LastMonth(now: Instant): (r: Range)
    requires ValidInstant(now)
    ensures MonthIndex(r.start.date) == MonthIndex(now.date) - 1
    ensures now.date.month == 1 ==> r.start.date == Date(now.date.year - 1, 12, 1)
    ensures now.date.month > 1 ==> r.start.date == Date(now.date.year, now.date.month - 1, 1)
  {
    MonthRange(MonthIndex(now.date) - 1)
  }

  /** `new Date(y, m, 1)` for today's month. */
  function StartOfCurrentMonth(now: Instant): (t: Instant)
    requires ValidInstant(now)
    ensures ValidInstant(t) && t.date.day == 1 && MonthIndex(t.date) == MonthIndex(now.date)
  {
    MonthRange(MonthIndex(now.date)).start
  }

  predicate InRange(t: Instant, r: Range) {
    AtOrAfter(t, r.start) && AtOrBefore(t, r.end)
  }

  /** The previous month's range lies entirely before the current month. */
  lemma LastMonthBeforeCurrent(now: Instant, t: Instant)
    requires ValidInstant(now) && ValidInstant(t)
    requires InRange(t, LastMonth(now))
    ensures Stamp(t) < Stamp(StartOfCurrentMonth(now))
  {
  }

  /** On a day the previous month does not have, the as-written range is the
      current month, and the corrected range is the month before it. */
  lemma AsWrittenLastMonthIsCurrentMonth()
    ensures var now := Instant(Date(2025, 3, 31), 0);
            LastMonthAsWritten(now) == MonthRange(MonthIndex(now.date))
            && LastMonthAsWritten(now).start.date == Date(2025, 3, 1)
            && LastMonth(now).start.date == Date(2025, 2, 1)
  {
    var now := Instant(Date(2025, 3, 31), 0);
    assert ShiftMonths(now.date, -1) == Date(2025, 3, 3);
  }

  /** Before the 29th both computations agree. */
  lemma AsWrittenAgreesEarlyInMonth(now: Instant)
    requires ValidInstant(now) && now.date.day <= 28
    ensures LastMonthAsWritten(now) == LastMonth(now)
  {
    ShiftMonthsEarlyDay(now.date, -1);
  }

  // ---------------------------------------------------------------------------
  // Aggregates
  // ---------------------------------------------------------------------------

  /** The number of invoices whose issue date lies in `[lo, hi]` (no upper
      bound when `hi` is absent). */
  function IssuedCount(invoices: seq<Invoice>, lo: Instant, hi: Option<Instant>): (n: nat)
    ensures n <= |invoices|
  {
    if |invoices| == 0 then 0
    else
      var inv := invoices[|invoices| - 1];
      IssuedCount(invoices[..|invoices| - 1], lo, hi) + (if IssuedIn(inv, lo, hi) then 1 else 0)
  }

  predicate IssuedIn(inv: Invoice, lo: Instant, hi: Option<Instant>) {
    AtOrAfter(inv.issueDate, lo) && (hi.None? || AtOrBefore(inv.issueDate, hi.value))
  }

  function IssuedSum(invoices: seq<Invoice>, lo: Instant, hi: Option<Instant>): real {
    if |invoices| == 0 then 0.0
    else
      var inv := invoices[|invoices| - 1];
      IssuedSum(invoices[..|invoices| - 1], lo, hi) + (if IssuedIn(inv, lo, hi) then inv.total else 0.0)
  }

  /** `aggregate({ _sum: { total } })`: null when no row matches. */
  function SumAggregate(invoices: seq<Invoice>, lo: Instant, hi: Option<Instant>): (s: Option<real>)
    ensures s.None? <==> IssuedCount(invoices, lo, hi) == 0
    ensures s.Some? ==> s.value == IssuedSum(invoices, lo, hi)
  {
    if IssuedCount(invoices, lo, hi) == 0 then None else Some(IssuedSum(invoices, lo, hi))
  }

  /** `aggregate({ _avg: { total } })`: null when no row matches. */
  function AvgAggregate(invoices: seq<Invoice>, lo: Instant, hi: Option<Instant>): (a: Option<real>)
    ensures a.None? <==> IssuedCount(invoices, lo, hi) == 0
    ensures a.Some? ==> a.value * IssuedCount(invoices, lo, hi) as real == IssuedSum(invoices, lo, hi)
  {
    var n := IssuedCount(invoices, lo, hi);
    if n == 0 then None else Some(IssuedSum(invoices, lo, hi) / n as real)
  }

  /** The number of invoices created in `[lo, hi]`. */
  function CreatedCount(invoices: seq<Invoice>, lo: Instant, hi: Option<Instant>): (n: nat)
    ensures n <= |invoices|
  {
    if |invoices| == 0 then 0
    else
      var inv := invoices[|invoices| - 1];
      CreatedCount(invoices[..|invoices| - 1], lo, hi)
        + (if AtOrAfter(inv.createdAt, lo) && (hi.None? || AtOrBefore(inv.createdAt, hi.value)) then 1 else 0)
  }

  // ---------------------------------------------------------------------------
  // Percent changes
  // ---------------------------------------------------------------------------

  /** `last ? ((current - last) / last) * 100 : 0` on a Prisma aggregate.
      A null aggregate gives 0; a Decimal is an object, truthy even when it
      is 0, so a zero previous figure is divided by and gives NaN or a
      signed infinity. */
  function PercentChange(current: real, last: Option<real>): (c: JsNumber)
    ensures last.None? ==> c == Finite(0.0)
    ensures last.Some? && last.value != 0.0 ==>
              c.Finite? && c.value * last.value == (current - last.value) * 100.0
    ensures last == Some(0.0) ==> (c == NaN <==> current == 0.0)
    ensures last == Some(0.0) && current > 0.0 ==> c == PosInf
    ensures last == Some(0.0) && current < 0.0 ==> c == NegInf
  {
    match last
    case None => Finite(0.0)
    case Some(l) => Times100(Divide(current - l, l))
  }

  /** `lastMonth > 0 ? ((total - lastMonth) / lastMonth) * 100 : 0` on two
      plain counts, where the guard does exclude 0. */
  function CountChange(total: nat, lastMonth: nat): (c: real)
    ensures lastMonth == 0 ==> c == 0.0
    ensures lastMonth > 0 ==> c * lastMonth as real == (total as real - lastMonth as real) * 100.0
  {
    if lastMonth > 0 then (total as real - lastMonth as real) / lastMonth as real * 100.0 else 0.0
  }

  /** The sign of a change against a positive figure follows the comparison
      of the two values. */
  lemma PercentChangeSign(current: real, last: real)
    requires last > 0.0
    ensures PercentChange(current, Some(last)).Finite?
    ensures PercentChange(current, Some(last)).value > 0.0 <==> current > last
    ensures PercentChange(current, Some(last)).value == 0.0 <==> current == last
  {
    var c := PercentChange(current, Some(last)).value;
    PositiveFactor(c, last, (current - last) * 100.0);
  }

  /** Multiplying by a positive factor keeps the sign. */
  lemma PositiveFactor(c: real, k: real, p: real)
    requires k > 0.0 && c * k == p
    ensures c > 0.0 <==> p > 0.0
    ensures c == 0.0 <==> p == 0.0
  {
    if c > 0.0 {
      assert c * k > 0.0;
    } else if c < 0.0 {
      assert (-c) * k > 0.0;
    }
  }

  /** The response object. `res.json` writes the two Decimal-based changes
      as `null` when they are NaN or infinite. */
  datatype Summary = Summary(
    totalSpendYTD: real,
    totalSpendChange: JsNumber,
    totalInvoices: nat,
    totalInvoicesChange: real,
    documentsThisMonth: nat,
    documentsChange: int,
    averageInvoiceValue: real,
    averageInvoiceValueChange: JsNumber)

  /** The handler, over the previous-month range `last`: the window's
      spend, count and average, each compared with the same figure over
      `last`, and this month's uploads against those of `last`. */
  function SummaryOver(invoices: seq<Invoice>, role: string, now: Instant, last: Range): (s: Summary)
    requires ValidInstant(now)
    ensures s.totalInvoices == IssuedCount(invoices, WindowStart(role, now), None)
    ensures s.totalSpendYTD == IssuedSum(invoices, WindowStart(role, now), None)
    ensures s.totalInvoices > 0 ==> s.averageInvoiceValue == s.totalSpendYTD / s.totalInvoices as real
    ensures s.totalInvoices == 0 ==> s.averageInvoiceValue == 0.0
    ensures s.documentsThisMonth == CreatedCount(invoices, StartOfCurrentMonth(now), None)
    ensures s.documentsChange == CreatedCount(invoices, last.start, Some(last.end)) - s.documentsThisMonth
  {
    var lo := WindowStart(role, now);
    var spend := SumAggregate(invoices, lo, None);
    var spendLast := SumAggregate(invoices, last.start, Some(last.end));
    var count := IssuedCount(invoices, lo, None);
    var countLast := IssuedCount(invoices, last.start, Some(last.end));
    var docs := CreatedCount(invoices, StartOfCurrentMonth(now), None);
    var docsLast := CreatedCount(invoices, last.start, Some(last.end));
    var avg := AvgAggregate(invoices, lo, None);
    var avgLast := AvgAggregate(invoices, last.start, Some(last.end));
    NoneIssuedSumsToZero(invoices, lo, None);
    Summary(
      spend.GetOr(0.0),
      PercentChange(spend.GetOr(0.0), spendLast),
      count,
      CountChange(count, countLast),
      docs,
      docsLast - docs,
      avg.GetOr(0.0),
      PercentChange(avg.GetOr(0.0), avgLast))
  }

  /** `c` is the change from `last` to `current` in percent of `last`. */
  predicate Relative(c: real, current: real, last: real) {
    c * last == (current - last) * 100.0
  }

  /** What a change against a non-null previous figure `last` means: the
      relative change in percent when `last` is not 0, and otherwise NaN
      for an unchanged 0 and an infinity of the current figure's sign. */
  predicate ChangeAgainst(c: JsNumber, current: real, last: real) {
    && (last != 0.0 ==> c.Finite? && Relative(c.value, current, last))
    && (last == 0.0 ==> !c.Finite? && (c == NaN <==> current == 0.0) && (c == PosInf <==> current > 0.0))
  }

  /** The spend change compares the window's spend with the spend over
      `last`: 0 when nothing was issued in `last`, otherwise the relative
      change or, against a zero Decimal sum, NaN or an infinity. */
  lemma SpendChangeAgainstLast(invoices: seq<Invoice>, role: string, now: Instant, last: Range)
    requires ValidInstant(now)
    ensures var s, n := SummaryOver(invoices, role, now, last), IssuedCount(invoices, last.start, Some(last.end));
            && (n == 0 ==> s.totalSpendChange == Finite(0.0))
            && (n > 0 ==> ChangeAgainst(s.totalSpendChange, s.totalSpendYTD, IssuedSum(invoices, last.start, Some(last.end))))
  {
    var s := SummaryOver(invoices, role, now, last);
    var prev := SumAggregate(invoices, last.start, Some(last.end));
    assert s.totalSpendChange == PercentChange(s.totalSpendYTD, prev);
    ChangeMeans(s.totalSpendYTD, prev);
  }

  /** The invoice-count change: 0 when nothing was issued in `last`,
      otherwise the relative change of the count in percent. */
  lemma CountChangeAgainstLast(invoices: seq<Invoice>, role: string, now: Instant, last: Range)
    requires ValidInstant(now)
    ensures var s, n := SummaryOver(invoices, role, now, last), IssuedCount(invoices, last.start, Some(last.end));
            && (n == 0 ==> s.totalInvoicesChange == 0.0)
            && (n > 0 ==> Relative(s.totalInvoicesChange, s.totalInvoices as real, n as real))
  {
    var s := SummaryOver(invoices, role, now, last);
    var n := IssuedCount(invoices, last.start, Some(last.end));
    var t := IssuedCount(invoices, WindowStart(role, now), None);
    assert s.totalInvoicesChange == CountChange(t, n);
    assert s.totalInvoices == t;
    CountChangeMeans(t, n);
  }

  /** The average change compares the window's average with the average
      over `last`, which is that range's sum over its count: 0 when nothing
      was issued in `last`, otherwise the relative change or, against a
      zero Decimal average, NaN or an infinity. */
  lemma AverageChangeAgainstLast(invoices: seq<Invoice>, role: string, now: Instant, last: Range)
    requires ValidInstant(now)
    ensures var s, n := SummaryOver(invoices, role, now, last), IssuedCount(invoices, last.start, Some(last.end));
            && (n == 0 ==> s.averageInvoiceValueChange == Finite(0.0))
            && (n > 0 ==> ChangeAgainst(s.averageInvoiceValueChange, s.averageInvoiceValue,
                                        IssuedSum(invoices, last.start, Some(last.end)) / n as real))
  {
    var s := SummaryOver(invoices, role, now, last);
    var prev := AvgAggregate(invoices, last.start, Some(last.end));
    assert s.averageInvoiceValueChange == PercentChange(s.averageInvoiceValue, prev);
    ChangeMeans(s.averageInvoiceValue, prev);
  }

  lemma CountChangeMeans(total: nat, lastMonth: nat)
    ensures lastMonth > 0 ==> Relative(CountChange(total, lastMonth), total as real, lastMonth as real)
  {
  }

  lemma ChangeMeans(current: real, last: Option<real>)
    ensures last.Some? ==> ChangeAgainst(PercentChange(current, last), current, last.value)
  {
  }

  /** The handler as written, with the previous month from `setMonth`; from
      the 1st to the 28th it answers what the corrected handler answers. */
  function SummaryAsWritten(invoices: seq<Invoice>, role: string, now: Instant): (s: Summary)
    requires ValidInstant(now)
    ensures now.date.day <= 28 ==> s == ComputeSummary(invoices, role, now)
  {
    if now.date.day <= 28 then AsWrittenAgreesEarlyInMonth(now); SummaryOver(invoices, role, now, LastMonthAsWritten(now))
    else SummaryOver(invoices, role, now, LastMonthAsWritten(now))
  }

  /** The handler with the previous month computed from the month index.
      The two months it compares are apart, so no upload is counted both
      as this month's and as last month's. */
  function ComputeSummary(invoices: seq<Invoice>, role: string, now: Instant): (s: Summary)
    requires ValidInstant(now)
    ensures s.documentsThisMonth + CreatedCount(invoices, LastMonth(now).start, Some(LastMonth(now).end)) <= |invoices|
    ensures s.documentsChange == CreatedCount(invoices, LastMonth(now).start, Some(LastMonth(now).end)) - s.documentsThisMonth
    ensures s.documentsChange >= -(|invoices| as int)
  {
    var last := LastMonth(now);
    LastMonthBeforeCurrent(now, last.end);
    CreatedApart(invoices, last.start, last.end, StartOfCurrentMonth(now));
    SummaryOver(invoices, role, now, last)
  }

  /** Creation times up to `hi` and from a later `from` on are disjoint
      ranges: together they count each invoice at most once. */
  lemma {:induction false} CreatedApart(invoices: seq<Invoice>, lo: Instant, hi: Instant, from: Instant)
    requires Stamp(hi) < Stamp(from)
    ensures CreatedCount(invoices, lo, Some(hi)) + CreatedCount(invoices, from, None) <= |invoices|
  {
    if |invoices| > 0 {
      CreatedApart(invoices[..|invoices| - 1], lo, hi, from);
    }
  }

  /** On 31 March 2025 the handler as written compares March with itself:
      an invoice uploaded on 10 March is this month's and "last month's",
      so the change is 0, where the corrected handler, comparing with an
      empty February, reports -1. */
  lemma AsWrittenCountsUploadTwice()
    ensures var now := Instant(Date(2025, 3, 31), 0);
            var inv := Invoice("i", "INV-1", "v", None, Instant(Date(2025, 3, 10), 0), None, "paid",
                               0.0, 0.0, 0.0, "EUR", Instant(Date(2025, 3, 10), 0), [], []);
            && SummaryAsWritten([inv], "admin", now).documentsThisMonth == 1
            && SummaryAsWritten([inv], "admin", now).documentsChange == 0
            && ComputeSummary([inv], "admin", now).documentsChange == -1
  {
    AsWrittenLastMonthIsCurrentMonth();
  }

  /** With no invoice in the window, every figure is 0: null aggregates are
      reported as 0 and no change divides by zero. */
  lemma {:induction false} EmptyWindowReportsZero(invoices: seq<Invoice>, role: string, now: Instant)
    requires ValidInstant(now)
    requires IssuedCount(invoices, WindowStart(role, now), None) == 0
    requires IssuedCount(invoices, LastMonth(now).start, Some(LastMonth(now).end)) == 0
    ensures var s := ComputeSummary(invoices, role, now);
            s.totalSpendYTD == 0.0 && s.totalSpendChange == Finite(0.0) && s.totalInvoices == 0
            && s.totalInvoicesChange == 0.0 && s.averageInvoiceValue == 0.0 && s.averageInvoiceValueChange == Finite(0.0)
  {
  }

  /** No invoice in range, nothing summed. */
  lemma {:induction false} NoneIssuedSumsToZero(invoices: seq<Invoice>, lo: Instant, hi: Option<Instant>)
    ensures IssuedCount(invoices, lo, hi) == 0 ==> IssuedSum(invoices, lo, hi) == 0.0
  {
    if |invoices| > 0 {
      NoneIssuedSumsToZero(invoices[..|invoices| - 1], lo, hi);
    }
  }

  /** The unrestricted window starts on 1 January, so it holds every invoice
      issued this year, and the restricted windows start within the last
      six months. */
  lemma WindowBounds(role: string, now: Instant)
    requires ValidInstant(now)
    ensures role != "manager" && role != "user" ==> WindowStart(role, now).date == Date(now.date.year, 1, 1)
    ensures role == "manager" || role == "user" ==>
              MonthIndex(now.date) - 6 <= MonthIndex(WindowStart(role, now).date) <= MonthIndex(now.date)
  {
  }
}

=== FILE: text.dfy ===
/** String operations the dashboard relies on: ASCII case mapping, the
    whitespace trimming of Python's `str.strip` and JavaScript's `trim`,
    single-character split and join, substring search and decimal rendering. */
module Text {

  // ---------------------------------------------------------------------------
  // Case mapping (ASCII letters only)
  // ---------------------------------------------------------------------------

  function UpperChar(c: char): char {
    if 'a' <= c <= 'z' then (c as int - 32) as char else c
  }

  function LowerChar(c: char): char {
    if 'A' <= c <= 'Z' then (c as int + 32) as char else c
  }

  function Upper(s: string): (r: string)
    ensures |r| == |s|
    ensures forall i :: 0 <= i < |s| ==> r[i] == UpperChar(s[i])
  {
    if |s| == 0 then "" else [UpperChar(s[0])] + Upper(s[1..])
  }

  function Lower(s: string): (r: string)
    ensures |r| == |s|
    ensures forall i :: 0 <= i < |s| ==> r[i] == LowerChar(s[i])
  {
    if |s| == 0 then "" else [LowerChar(s[0])] + Lower(s[1..])
  }

  /** `s.charAt(0).toUpperCase() + s.slice(1)`: the label shown for a status. */
  function Capitalize(s: string): (r: string)
    ensures |r| == |s|
    ensures 0 < |s| ==> r[0] == UpperChar(s[0]) && r[1..] == s[1..]
  {
    if |s| == 0 then "" else [UpperChar(s[0])] + s[1..]
  }

  lemma LowerIdempotent(s: string)
    ensures Lower(Lower(s)) == Lower(s)
  {
  }

  // ---------------------------------------------------------------------------
  // Prefixes and substrings
  // ---------------------------------------------------------------------------

  predicate StartsWith(s: string, prefix: string) {
    |prefix| <= |s| && s[..|prefix|] == prefix
  }

  predicate EndsWith(s: string, suffix: string) {
    |suffix| <= |s| && s[|s| - |suffix|..] == suffix
  }

  /** JavaScript `includes` / SQL `contains`: `sub` occurs somewhere in `s`. */
  predicate Contains(s: string, sub: string) {
    exists i :: 0 <= i <= |s| && StartsWith(s[i..], sub)
  }

  /** Prisma's `contains` with `mode: 'insensitive'`, and `toLowerCase().includes`. */
  predicate ContainsInsensitive(s: string, sub: string) {
    Contains(Lower(s), Lower(sub))
  }

  lemma EmptyIsContained(s: string)
    ensures Contains(s, "")
  {
    assert StartsWith(s[0..], "");
  }

  // ---------------------------------------------------------------------------
  // Whitespace trimming
  // ---------------------------------------------------------------------------

  /** The characters Python's `str.isspace` accepts, which `str.strip()` removes. */
  predicate PyWhitespace(c: char) {
    c == ' ' || ('\t' <= c <= '\r') || ('\U{001C}' <= c <= '\U{001F}') || c == '\U{0085}'
    || c == '\U{00A0}' || c == '\U{1680}' || ('\U{2000}' <= c <= '\U{200A}')
    || c == '\U{2028}' || c == '\U{2029}' || c == '\U{202F}' || c == '\U{205F}' || c == '\U{3000}'
  }

  /** The white space and line terminators JavaScript's `String.prototype.trim` removes. */
  predicate JsWhitespace(c: char) {
    c == ' ' || ('\t' <= c <= '\r') || c == '\U{00A0}' || c == '\U{1680}'
    || ('\U{2000}' <= c <= '\U{200A}') || c == '\U{2028}' || c == '\U{2029}'
    || c == '\U{202F}' || c == '\U{205F}' || c == '\U{3000}' || c == '\U{FEFF}'
  }

  /** Which language's notion of white space a trim uses. */
  datatype Blanks = Python | JavaScript

  predicate IsBlank(kind: Blanks, c: char) {
    match kind
    case Python => PyWhitespace(c)
    case JavaScript => JsWhitespace(c)
  }

  /** Removes the longest prefix of blank characters. */
  function TrimStart(s: string, kind: Blanks): (r: string)
    ensures |r| <= |s| && r == s[|s| - |r|..]
    ensures forall i :: 0 <= i < |s| - |r| ==> IsBlank(kind, s[i])
    ensures |r| == 0 || !IsBlank(kind, r[0])
  {
    if |s| > 0 && IsBlank(kind, s[0]) then TrimStart(s[1..], kind) else s
  }

  /** Removes the longest suffix of blank characters. */
  function TrimEnd(s: string, kind: Blanks): (r: string)
    ensures |r| <= |s| && r == s[..|r|]
    ensures forall i :: |r| <= i < |s| ==> IsBlank(kind, s[i])
    ensures |r| == 0 || !IsBlank(kind, r[|r| - 1])
  {
    if |s| > 0 && IsBlank(kind, s[|s| - 1]) then TrimEnd(s[..|s| - 1], kind) else s
  }

  /** Both ends trimmed: the result is a slice of the input, every removed
      character is blank and neither end of the result is. */
  function Trim(s: string, kind: Blanks): (r: string)
    ensures |r| <= |s|
    ensures var k := |s| - |TrimStart(s, kind)|; k + |r| <= |s| && r == s[k..k + |r|]
    ensures |r| == 0 || (!IsBlank(kind, r[0]) && !IsBlank(kind, r[|r| - 1]))
  {
    var l := TrimStart(s, kind);
    var r := TrimEnd(l, kind);
    assert |r| == 0 || r[0] == l[0];
    r
  }

  /** Python `str.strip()` with no argument. */
  function PyStrip(s: string): string {
    Trim(s, Python)
  }

  /** JavaScript `String.prototype.trim()`. */
  function JsTrim(s: string): string {
    Trim(s, JavaScript)
  }

  lemma TrimStartOfTrimmed(s: string, kind: Blanks)
    requires |s| == 0 || !IsBlank(kind, s[0])
    ensures TrimStart(s, kind) == s
  {
  }

  lemma TrimEndOfTrimmed(s: string, kind: Blanks)
    requires |s| == 0 || !IsBlank(kind, s[|s| - 1])
    ensures TrimEnd(s, kind) == s
  {
  }

  /** Trimming twice is the same as trimming once. */
  lemma TrimIdempotent(s: string, kind: Blanks)
    ensures Trim(Trim(s, kind), kind) == Trim(s, kind)
  {
    var r := Trim(s, kind);
    TrimStartOfTrimmed(r, kind);
    TrimEndOfTrimmed(r, kind);
  }

  /** Python `s.rstrip(c)` for a single character `c`. */
  function RStripChar(s: string, c: char): (r: string)
    ensures |r| <= |s| && r == s[..|r|]
    ensures forall i :: |r| <= i < |s| ==> s[i] == c
    ensures |r| == 0 || r[|r| - 1] != c
  {
    if |s| > 0 && s[|s| - 1] == c then RStripChar(s[..|s| - 1], c) else s
  }

  // ---------------------------------------------------------------------------
  // Split and join on one character
  // ---------------------------------------------------------------------------

  /** JavaScript `s.split(sep)` for a one-character separator: always at least
      one piece, the empty string giving `[""]`. */
  function Split(s: string, sep: char): (parts: seq<string>)
    ensures |parts| >= 1
    ensures forall p :: p in parts ==> sep !in p
  {
    if |s| == 0 then [""]
    else
      var rest := Split(s[1..], sep);
      if s[0] == sep then [""] + rest
      else [[s[0]] + rest[0]] + rest[1..]
  }

  /** JavaScript `parts.join(sep)`. */
  function Join(parts: seq<string>, sep: char): string {
    if |parts| == 0 then ""
    else if |parts| == 1 then parts[0]
    else parts[0] + [sep] + Join(parts[1..], sep)
  }

  lemma JoinCons(p: string, parts: seq<string>, sep: char)
    requires |parts| >= 1
    ensures Join([p] + parts, sep) == p + [sep] + Join(parts, sep)
  {
    assert ([p] + parts)[1..] == parts;
  }

  lemma {:induction false} JoinAppend(a: seq<string>, b: seq<string>, sep: char)
    requires |a| >= 1 && |b| >= 1
    ensures Join(a + b, sep) == Join(a, sep) + [sep] + Join(b, sep)
  {
    if |a| == 1 {
      assert a + b == [a[0]] + b;
      JoinCons(a[0], b, sep);
    } else {
      var t := a[1..];
      assert a + b == [a[0]] + (t + b);
      assert a == [a[0]] + t;
      JoinCons(a[0], t + b, sep);
      JoinAppend(t, b, sep);
      JoinCons(a[0], t, sep);
      calc {
        Join(a + b, sep);
        a[0] + [sep] + Join(t + b, sep);
        a[0] + [sep] + (Join(t, sep) + [sep] + Join(b, sep));
        (a[0] + [sep] + Join(t, sep)) + [sep] + Join(b, sep);
        Join(a, sep) + [sep] + Join(b, sep);
      }
    }
  }

  /** Joining the pieces of a split gives back the original text. */
  lemma {:induction false} JoinSplit(s: string, sep: char)
    ensures Join(Split(s, sep), sep) == s
  {
    if |s| > 0 {
      var rest := Split(s[1..], sep);
      JoinSplit(s[1..], sep);
      if s[0] == sep {
        JoinCons("", rest, sep);
      } else if |rest| == 1 {
        assert [s[0]] + s[1..] == s;
        assert Split(s, sep) == [[s[0]] + rest[0]];
      } else {
        var parts := Split(s, sep);
        assert parts == [[s[0]] + rest[0]] + rest[1..];
        JoinCons([s[0]] + rest[0], rest[1..], sep);
        JoinCons(rest[0], rest[1..], sep);
        assert rest == [rest[0]] + rest[1..];
      }
    }
  }

  lemma SplitNoSep(s: string, sep: char)
    requires sep !in s
    ensures Split(s, sep) == [s]
  {
    if |s| > 0 {
      SplitNoSep(s[1..], sep);
      assert [s[0]] + s[1..] == s;
    }
  }

  lemma {:induction false} SplitConcat(p: string, s: string, sep: char)
    requires sep !in p
    ensures Split(p + [sep] + s, sep) == [p] + Split(s, sep)
  {
    if |p| == 0 {
      assert p + [sep] + s == [sep] + s;
      assert ([sep] + s)[1..] == s;
    } else {
      var t := p + [sep] + s;
      assert t[0] == p[0] && t[0] != sep;
      assert t[1..] == p[1..] + [sep] + s;
      SplitConcat(p[1..], s, sep);
      assert [p[0]] + p[1..] == p;
    }
  }

  /** Splitting a join of separator-free pieces gives back the pieces. */
  lemma {:induction false} SplitJoin(parts: seq<string>, sep: char)
    requires |parts| >= 1
    requires forall p :: p in parts ==> sep !in p
    ensures Split(Join(parts, sep), sep) == parts
  {
    if |parts| == 1 {
      SplitNoSep(parts[0], sep);
    } else {
      JoinCons(parts[0], parts[1..], sep);
      assert parts == [parts[0]] + parts[1..];
      assert parts[0] in parts;
      SplitConcat(parts[0], Join(parts[1..], sep), sep);
      SplitJoin(parts[1..], sep);
    }
  }

  /** A character that is neither the separator nor in any piece is not in
      their join. */
  lemma {:induction false} JoinAvoids(parts: seq<string>, sep: char, c: char)
    requires c != sep
    requires forall p :: p in parts ==> c !in p
    ensures c !in Join(parts, sep)
  {
    if |parts| > 1 {
      assert parts[0] in parts;
      assert forall p :: p in parts[1..] ==> p in parts;
      JoinAvoids(parts[1..], sep, c);
    }
  }

  // ---------------------------------------------------------------------------
  // Decimal rendering
  // ---------------------------------------------------------------------------

  function DigitChar(d: nat): char
    requires d < 10
  {
    ('0' as int + d) as char
  }

  predicate IsDigit(c: char) {
    '0' <= c <= '9'
  }

  /** `String(n)` for a natural number. */
  function NatToString(n: nat): (r: string)
    ensures |r| >= 1
    ensures forall i :: 0 <= i < |r| ==> IsDigit(r[i])
    ensures |r| > 1 ==> r[0] != '0'
  {
    if n < 10 then [DigitChar(n)] else NatToString(n / 10) + [DigitChar(n % 10)]
  }

  /** The value of a string of decimal digits. */
  function DigitsValue(s: string): nat
    requires forall i :: 0 <= i < |s| ==> IsDigit(s[i])
  {
    if |s| == 0 then 0
    else
      assert IsDigit(s[|s| - 1]);
      DigitsValue(s[..|s| - 1]) * 10 + (s[|s| - 1] as int - '0' as int)
  }

  lemma {:induction false} NatToStringValue(n: nat)
    ensures DigitsValue(NatToString(n)) == n
  {
    if n >= 10 {
      var r := NatToString(n);
      NatToStringValue(n / 10);
      assert r[..|r| - 1] == NatToString(n / 10);
    }
  }

  /** Different numbers render differently. */
  lemma NatToStringInjective(a: nat, b: nat)
    requires NatToString(a) == NatToString(b)
    ensures a == b
  {
    NatToStringValue(a);
    NatToStringValue(b);
  }

  function Pow10(e: nat): (p: nat)
    ensures p >= 1
  {
    if e == 0 then 1 else 10 * Pow10(e - 1)
  }

  /** A number written with at most `k` digits is below `10^k`. */
  lemma {:induction false} NatToStringBound(n: nat, k: nat)
    requires |NatToString(n)| <= k
    ensures n < Pow10(k)
  {
    if n >= 10 {
      NatToStringBound(n / 10, k - 1);
    }
  }

  function Zeros(k: nat): (z: string)
    ensures |z| == k && forall i :: 0 <= i < k ==> z[i] == '0'
  {
    seq(k, _ => '0')
  }

  /** Zeros in front of a digit string do not change its value. */
  lemma {:induction false} LeadingZerosValue(k: nat, s: string)
    requires forall i :: 0 <= i < |s| ==> IsDigit(s[i])
    ensures forall i :: 0 <= i < k + |s| ==> IsDigit((Zeros(k) + s)[i])
    ensures DigitsValue(Zeros(k) + s) == DigitsValue(s)
  {
    var z := Zeros(k);
    if |s| == 0 {
      assert z + s == z;
      ZerosValue(k);
    } else {
      var init := s[..|s| - 1];
      LeadingZerosValue(k, init);
      assert (z + s)[..|z + s| - 1] == z + init;
    }
  }

  lemma {:induction false} ZerosValue(k: nat)
    ensures DigitsValue(Zeros(k)) == 0
  {
    if k > 0 {
      ZerosValue(k - 1);
      assert Zeros(k)[..k - 1] == Zeros(k - 1);
    }
  }

  /** `String(n).padStart(width, '0')`. */
  function PadStart(s: string, width: nat, c: char): (r: string)
    ensures |r| == if |s| >= width then |s| else width
    ensures EndsWith(r, s)
    ensures forall i :: 0 <= i < |r| - |s| ==> r[i] == c
  {
    if |s| >= width then s else seq(width - |s|, _ => c) + s
  }

  /** `String(n)` for any integer. */
  function IntToString(n: int): string {
    if n < 0 then "-" + NatToString(-n) else NatToString(n)
  }

  lemma IntToStringInjective(a: int, b: int)
    requires IntToString(a) == IntToString(b)
    ensures a == b
  {
    var sa, sb := IntToString(a), IntToString(b);
    assert sa[0] == sb[0];
    if a < 0 && b < 0 {
      assert NatToString(-a) == sa[1..];
      NatToStringInjective(-a, -b);
    } else if a >= 0 && b >= 0 {
      NatToStringInjective(a, b);
    }
  }

  // ---------------------------------------------------------------------------
  // Ordering
  // ---------------------------------------------------------------------------

  /** Lexicographic order on code points: `orderBy: { name: 'asc' }`. */
  predicate LexLe(a: string, b: string) {
    if |a| == 0 then true
    else if |b| == 0 then false
    else if a[0] != b[0] then a[0] < b[0]
    else LexLe(a[1..], b[1..])
  }

  lemma {:induction false} LexLeTotal(a: string, b: string)
    ensures LexLe(a, b) || LexLe(b, a)
  {
    if |a| > 0 && |b| > 0 && a[0] == b[0] {
      LexLeTotal(a[1..], b[1..]);
    }
  }
}

=== FILE: users_page.dfy ===
/** The users page: the avatar initials and the request the user dialog
    sends, read against the `/api/users` route that receives it. */
module UsersPage {
  import opened Wrappers
  import opened Text
  import opened Calendar
  import opened Requests
  import UsersRoute

  // ---------------------------------------------------------------------------
  // Initials
  // ---------------------------------------------------------------------------

  /** `.map((n) => n[0]).join("")`: the first character of every part; an
      empty part gives `undefined`, which `join` writes as nothing. */
  function Firsts(parts: seq<string>): string
    decreases |parts|
  {
    if |parts| == 0 then ""
    else (if parts[0] == "" then "" else [parts[0][0]]) + Firsts(parts[1..])
  }

  /** `getInitials`: the first letters of the space-separated words,
      upper-cased, at most two. */
  function Initials(name: string): (r: string)
    ensures |r| <= 2
  {
    var all := Upper(Firsts(Split(name, ' ')));
    all[..Min(2, |all|)]
  }

  /** The characters of `s` that begin a word: not a space, and first or
      after a space. `afterSpace` says whether the character before `s`
      was a space (or there was none). */
  function WordStarts(s: string, afterSpace: bool): (r: string)
    ensures |r| <= |s|
    ensures ' ' !in r
  {
    if |s| == 0 then ""
    else (if s[0] != ' ' && afterSpace then [s[0]] else "") + WordStarts(s[1..], s[0] == ' ')
  }

  /** Splitting on spaces and taking first characters finds exactly the
      word starts; the second half covers a string that continues a word. */
  lemma {:induction false} FirstsAreWordStarts(s: string)
    ensures Firsts(Split(s, ' ')) == WordStarts(s, true)
    ensures Firsts(Split(s, ' ')[1..]) == WordStarts(s, false)
  {
    if |s| > 0 {
      var rest := Split(s[1..], ' ');
      FirstsAreWordStarts(s[1..]);
      if s[0] == ' ' {
        assert Split(s, ' ') == [""] + rest;
        assert Split(s, ' ')[1..] == rest;
      } else {
        var parts := Split(s, ' ');
        assert parts == [[s[0]] + rest[0]] + rest[1..];
        assert parts[1..] == rest[1..];
        assert Firsts(parts) == [s[0]] + Firsts(rest[1..]);
      }
    }
  }

  /** The initials are the first two word starts, upper-cased: a name of
      one word gives one letter, and spaces never appear. */
  lemma InitialsOfWords(name: string)
    ensures var w := Upper(WordStarts(name, true));
            Initials(name) == w[..Min(2, |w|)]
    ensures ' ' !in Initials(name)
  {
    FirstsAreWordStarts(name);
    var w := Upper(WordStarts(name, true));
    assert forall i :: 0 <= i < |w| ==> w[i] == UpperChar(WordStarts(name, true)[i]);
  }

  // ---------------------------------------------------------------------------
  // The dialog
  // ---------------------------------------------------------------------------

  datatype Form = Form(name: string, email: string, role: string, status: string,
                       departmentId: string, phone: string)

  /** `handleCreate`: an empty form for a regular, active user. */
  const NEW_FORM: Form := Form("", "", "user", "active", "", "")

  /** `handleEdit`: the form filled from a stored user. */
  function EditForm(u: UsersRoute.User): Form {
    Form(u.name, u.email, u.role, u.status, u.departmentId.GetOr(""), u.phone.GetOr(""))
  }

  datatype Request = Request(verb: Verb, path: string, body: UsersRoute.Body)

  /** `handleSave`: nothing is sent without a name and an email; editing
      PUTs to the user's path and creating POSTs to the collection. The
      avatar is never sent; empty department and phone go as `null`. */
  function Save(f: Form, editing: Option<string>): (r: Option<Request>)
    ensures r.None? <==> f.name == "" || f.email == ""
    ensures r.Some? ==> (r.value.verb == Put <==> editing.Some?)
    ensures r.Some? && editing.Some? ==> r.value.path == "/users/" + editing.value
    ensures r.Some? && editing.None? ==> r.value.path == "/users"
    ensures r.Some? ==> r.value.body.avatar.Undefined?
  {
    if f.name == "" || f.email == "" then None
    else
      var body := UsersRoute.Body(Given(f.name), Given(f.email), Given(f.role), Given(f.status),
                                  NullIfEmpty(f.departmentId), Undefined, NullIfEmpty(f.phone));
      match editing
      case Some(id) => Some(Request(Put, "/users/" + id, body))
      case None => Some(Request(Post, "/users", body))
  }

  /** A user created from the dialog holds what the form said, the empty
      department and phone stored as nothing; opening it again for editing
      shows the same form. */
  lemma CreatedFromForm(f: Form, db: UsersRoute.Db, id: string, now: Instant)
    requires id !in db.users
    requires Save(f, None).Some?
    requires UsersRoute.Create(db, Save(f, None).value.body, id, now).reply.Ok?
    ensures var u := UsersRoute.Create(db, Save(f, None).value.body, id, now).reply.value;
            && u.name == f.name && u.email == f.email
            && (u.departmentId.None? <==> f.departmentId == "")
            && (u.phone.None? <==> f.phone == "")
            && u.avatar.None?
            && (f.role != "" && f.status != "" ==> EditForm(u) == f)
  {
  }

  /** The new-user form asks for what the route would default to anyway. */
  lemma NewFormDefaults(id: string, b: UsersRoute.Body, now: Instant)
    requires Truthy(b.name) && Truthy(b.email) && !Truthy(b.role) && !Truthy(b.status)
    ensures UsersRoute.NewUser(id, b, now).role == NEW_FORM.role
    ensures UsersRoute.NewUser(id, b, now).status == NEW_FORM.status
  {
  }

  /** Saving the edit form of a user without changing anything leaves the
      stored user as it was (the route never stores an empty department or
      phone, since it writes `|| null`). */
  lemma UnchangedEditKeepsUser(u: UsersRoute.User)
    requires u.name != "" && u.email != ""
    requires u.departmentId != Some("") && u.phone != Some("")
    ensures Save(EditForm(u), Some(u.id)).Some?
    ensures UsersRoute.Patch(u, Save(EditForm(u), Some(u.id)).value.body) == u
  {
  }

  /** Emptying the department or phone in the dialog clears it on the
      stored user, while a non-empty value replaces it. */
  lemma EditClears(u: UsersRoute.User, f: Form)
    requires Save(f, Some(u.id)).Some?
    ensures var p := UsersRoute.Patch(u, Save(f, Some(u.id)).value.body);
            && p.departmentId == (if f.departmentId == "" then None else Some(f.departmentId))
            && p.phone == (if f.phone == "" then None else Some(f.phone))
            && p.avatar == u.avatar
            && p.name == f.name && p.email == f.email
  {
  }
}

=== FILE: users_route.dfy ===
/** `/api/users`: the filtered listing, creation with defaults, partial
    update and deletion, over an in-memory user table keyed by id. */
module UsersRoute {
  import opened Wrappers
  import opened Text
  import opened Calendar
  import opened Requests

  datatype User = User(
    id: string,
    name: string,
    email: string,
    role: string,
    status: string,
    departmentId: Option<string>,
    avatar: Option<string>,
    phone: Option<string>,
    createdAt: Instant)

  /** The user table and the ids of the existing departments. */
  datatype Db = Db(users: map<string, User>, departments: set<string>)

  datatype Outcome = Outcome(db: Db, reply: Reply<User>)

  /** Emails are unique across the table (the schema's unique index). */
  predicate UniqueEmails(users: map<string, User>) {
    forall a, b :: a in users && b in users && users[a].email == users[b].email ==> a == b
  }

  /** Some user other than `except` has this email. */
  predicate EmailTaken(users: map<string, User>, email: string, except: string) {
    exists id :: id in users && id != except && users[id].email == email
  }

  /** The department reference is null or names an existing department. */
  predicate DepartmentExists(db: Db, d: Option<string>) {
    d.None? || d.value in db.departments
  }

  // ---------------------------------------------------------------------------
  // GET /api/users
  // ---------------------------------------------------------------------------

  /** The query string; an empty string stands for an absent parameter. */
  datatype ListQuery = ListQuery(
    search: string,
    role: string,
    status: string,
    departmentId: string,
    page: Option<int>,
    limit: Option<int>)

  /** The `where` object: search over name or email, then the exact filters. */
  predicate Matches(u: User, q: ListQuery) {
    (q.search == "" || ContainsInsensitive(u.name, q.search) || ContainsInsensitive(u.email, q.search))
    && (q.role == "" || u.role == q.role)
    && (q.status == "" || u.status == q.status)
    && (q.departmentId == "" || u.departmentId == Some(q.departmentId))
  }

  function Filter(rows: seq<User>, q: ListQuery): (r: seq<User>)
    ensures |r| <= |rows|
    ensures forall x :: x in r ==> x in rows && Matches(x, q)
    ensures forall x :: x in rows && Matches(x, q) ==> x in r
  {
    Where(rows, x => Matches(x, q))
  }

  /** The response: one page of the matching users and the page count, or the
      500 of the catch when the page number is below 1. */
  function List(rows: seq<User>, q: ListQuery): (r: Reply<Page<User>>)
    requires LimitParam(q.limit) >= 1
    ensures r.Fail? <==> PageParam(q.page) < 1
    ensures r.Fail? ==> r == Fail(SERVER_ERROR, "Failed to fetch users")
    ensures r.Ok? ==> r.value.rows == PageOf(Filter(rows, q), PageParam(q.page), LimitParam(q.limit))
    ensures r.Ok? ==> r.value.pagination.total == |Filter(rows, q)|
    ensures r.Ok? ==>
              r.value.pagination == Pagination(PageParam(q.page), LimitParam(q.limit), |Filter(rows, q)|, TotalPages(|Filter(rows, q)|, LimitParam(q.limit)))
    ensures r.Ok? ==> forall x :: x in r.value.rows ==> x in rows && Matches(x, q)
  {
    Paginate(Filter(rows, q), q.page, q.limit, "Failed to fetch users")
  }

  /** A search matches a user exactly when it matches the name or the email,
      whatever the letter case of the search. */
  lemma SearchIgnoresCase(u: User, search: string)
    requires search != ""
    ensures Matches(u, ListQuery(search, "", "", "", None, None))
            == Matches(u, ListQuery(Lower(search), "", "", "", None, None))
  {
    LowerIdempotent(search);
  }

  // ---------------------------------------------------------------------------
  // GET /api/users/:id and DELETE /api/users/:id
  // ---------------------------------------------------------------------------

  function Get(db: Db, id: string): (r: Reply<User>)
    ensures r.Ok? <==> id in db.users
    ensures r.Ok? ==> r.value == db.users[id]
    ensures r.Fail? ==> r.status == NOT_FOUND
  {
    if id in db.users then Ok(db.users[id]) else Fail(NOT_FOUND, "User not found")
  }

  function Delete(db: Db, id: string): (o: Outcome)
    ensures o.reply.Fail? <==> id !in db.users
    ensures o.reply.Fail? ==> o.reply.status == NOT_FOUND && o.db == db
    ensures o.reply.Ok? ==> o.db.users.Keys == db.users.Keys - {id}
    ensures forall k :: k in o.db.users ==> k in db.users && o.db.users[k] == db.users[k]
    ensures o.db.departments == db.departments
  {
    if id !in db.users then Outcome(db, Fail(NOT_FOUND, "User not found"))
    else Outcome(db.(users := map k | k in db.users && k != id :: db.users[k]), Ok(db.users[id]))
  }

  // ---------------------------------------------------------------------------
  // POST /api/users
  // ---------------------------------------------------------------------------

  datatype Body = Body(
    name: Field<string>,
    email: Field<string>,
    role: Field<string>,
    status: Field<string>,
    departmentId: Field<string>,
    avatar: Field<string>,
    phone: Field<string>)

  /** `role || 'user'`, `status || 'active'`, and `|| null` for the optional
      columns. */
  function NewUser(id: string, b: Body, now: Instant): (u: User)
    requires Truthy(b.name) && Truthy(b.email)
  {
    User(id, b.name.value, b.email.value, OrElse(b.role, "user"), OrElse(b.status, "active"),
         OrNull(b.departmentId), OrNull(b.avatar), OrNull(b.phone), now)
  }

  /** The handler; `id` is the identifier the database assigns. */
  function Create(db: Db, b: Body, id: string, now: Instant): (o: Outcome)
    requires id !in db.users
    ensures o.reply.Fail? ==> o.db == db
    ensures o.reply.Ok? ==> o.db == db.(users := db.users[id := o.reply.value])
    ensures o.reply == Fail(BAD_REQUEST, "Name and email are required") <==> !Truthy(b.name) || !Truthy(b.email)
    ensures o.reply.Ok? ==> o.reply.value.role != "" && o.reply.value.status != ""
  {
    if !Truthy(b.name) || !Truthy(b.email) then Outcome(db, Fail(BAD_REQUEST, "Name and email are required"))
    else if EmailTaken(db.users, b.email.value, id) then Outcome(db, Fail(BAD_REQUEST, "Email already exists"))
    else
      var u := NewUser(id, b, now);
      if !DepartmentExists(db, u.departmentId) then Outcome(db, Fail(SERVER_ERROR, "Failed to create user"))
      else Outcome(db.(users := db.users[id := u]), Ok(u))
  }

  /** The defaults of a created user. */
  lemma CreateDefaults(db: Db, b: Body, id: string, now: Instant)
    requires id !in db.users
    requires Create(db, b, id, now).reply.Ok?
    ensures var u := Create(db, b, id, now).reply.value;
            && (!Truthy(b.role) ==> u.role == "user")
            && (!Truthy(b.status) ==> u.status == "active")
            && (!Truthy(b.departmentId) ==> u.departmentId.None?)
            && (!Truthy(b.avatar) ==> u.avatar.None?)
            && (!Truthy(b.phone) ==> u.phone.None?)
            && u.name == b.name.value && u.email == b.email.value
  {
  }

  // ---------------------------------------------------------------------------
  // PUT /api/users/:id
  // ---------------------------------------------------------------------------

  /** A present optional field sets the column to its value when it is a
      non-empty string, and clears it when it is `null` or empty. */
  predicate Replaced(column: Option<string>, f: Field<string>) {
    (column.Some? <==> Truthy(f)) && (Truthy(f) ==> column.value == f.value)
  }

  /** The spread-built `data` object applied to the stored user. */
  function Patch(u: User, b: Body): (r: User)
    ensures r.id == u.id && r.createdAt == u.createdAt
    ensures Truthy(b.name) ==> r.name == b.name.value
    ensures !Truthy(b.name) ==> r.name == u.name
    ensures Truthy(b.email) ==> r.email == b.email.value
    ensures !Truthy(b.email) ==> r.email == u.email
    ensures Truthy(b.role) ==> r.role == b.role.value
    ensures !Truthy(b.role) ==> r.role == u.role
    ensures Truthy(b.status) ==> r.status == b.status.value
    ensures !Truthy(b.status) ==> r.status == u.status
    ensures b.departmentId.Undefined? ==> r.departmentId == u.departmentId
    ensures !b.departmentId.Undefined? ==> Replaced(r.departmentId, b.departmentId)
    ensures b.avatar.Undefined? ==> r.avatar == u.avatar
    ensures !b.avatar.Undefined? ==> Replaced(r.avatar, b.avatar)
    ensures b.phone.Undefined? ==> r.phone == u.phone
    ensures !b.phone.Undefined? ==> Replaced(r.phone, b.phone)
  {
    User(u.id, OrElse(b.name, u.name), OrElse(b.email, u.email), OrElse(b.role, u.role),
         OrElse(b.status, u.status), SetIfDefined(b.departmentId, u.departmentId),
         SetIfDefined(b.avatar, u.avatar), SetIfDefined(b.phone, u.phone), u.createdAt)
  }

  /** An empty body changes nothing. */
  lemma EmptyPatchIsIdentity(u: User)
    ensures Patch(u, Body(Undefined, Undefined, Undefined, Undefined, Undefined, Undefined, Undefined)) == u
  {
  }

  /** Applying the same body twice is the same as applying it once. */
  lemma PatchIdempotent(u: User, b: Body)
    ensures Patch(Patch(u, b), b) == Patch(u, b)
  {
  }

  function Update(db: Db, id: string, b: Body): (o: Outcome)
    ensures id !in db.users ==> o == Outcome(db, Fail(NOT_FOUND, "User not found"))
    ensures o.reply.Fail? ==> o.db == db
    ensures o.reply.Ok? ==> id in db.users && o.reply.value == Patch(db.users[id], b)
                            && o.db == db.(users := db.users[id := o.reply.value])
  {
    if id !in db.users then Outcome(db, Fail(NOT_FOUND, "User not found"))
    else
      var u := Patch(db.users[id], b);
      if EmailTaken(db.users, u.email, id) then Outcome(db, Fail(BAD_REQUEST, "Email already exists"))
      else if !DepartmentExists(db, u.departmentId) then Outcome(db, Fail(SERVER_ERROR, "Failed to update user"))
      else Outcome(db.(users := db.users[id := u]), Ok(u))
  }

  /** Creation and update keep emails unique. */
  lemma CreatePreservesUniqueEmails(db: Db, b: Body, id: string, now: Instant)
    requires id !in db.users && UniqueEmails(db.users)
    ensures UniqueEmails(Create(db, b, id, now).db.users)
  {
  }

  lemma UpdatePreservesUniqueEmails(db: Db, id: string, b: Body)
    requires UniqueEmails(db.users)
    ensures UniqueEmails(Update(db, id, b).db.users)
  {
  }

  /** An update touches only the addressed user. */
  lemma UpdateTouchesOneUser(db: Db, id: string, b: Body, other: string)
    requires other != id && other in db.users
    ensures other in Update(db, id, b).db.users && Update(db, id, b).db.users[other] == db.users[other]
  {
  }
}

=== FILE: vendor_ranking.dfy ===
/** `GET /api/vendors` and `GET /api/vendors/top10`: the vendor listing and
    the ten vendors with the highest spend, with their share of the top-ten
    total and the running (Pareto) share. */
module VendorRanking {
  import opened Calendar
  import opened Ledger
  import opened Text
  import opened Ordering

  // ---------------------------------------------------------------------------
  // Listing by name
  // ---------------------------------------------------------------------------

  /** The plain listing: every vendor once, ordered by name ascending. */
  function ListByName(vs: seq<Vendor>): (r: seq<Vendor>)
    ensures forall i :: 0 <= i < |r| - 1 ==> LexLe(r[i].name, r[i + 1].name)
    ensures multiset(r) == multiset(vs)
  {
    SortBy(vs, VendorName)
  }

  function VendorName(v: Vendor): string {
    v.name
  }

  // ---------------------------------------------------------------------------
  // Per-vendor spend
  // ---------------------------------------------------------------------------

  datatype VendorSpend = VendorSpend(id: string, name: string, totalSpend: real, invoiceCount: nat)

  /** `vendor.invoices` under the role's `issueDate` filter. */
  function InvoicesOf(vendorId: string, invoices: seq<Invoice>, role: string, now: Instant): (r: seq<Invoice>)
    requires ValidInstant(now)
    ensures |r| <= |invoices|
    ensures forall k :: 0 <= k < |r| ==> r[k] in invoices
    ensures forall k :: 0 <= k < |r| ==> r[k].vendorId == vendorId && InRoleWindow(role, now, r[k].issueDate)
    ensures forall k :: 0 <= k < |invoices| && invoices[k].vendorId == vendorId && InRoleWindow(role, now, invoices[k].issueDate)
              ==> invoices[k] in r
  {
    if |invoices| == 0 then []
    else
      var init := invoices[..|invoices| - 1];
      var inv := invoices[|invoices| - 1];
      var rest := InvoicesOf(vendorId, init, role, now);
      assert forall k :: 0 <= k < |init| ==> init[k] == invoices[k];
      if inv.vendorId == vendorId && InRoleWindow(role, now, inv.issueDate) then rest + [inv] else rest
  }

  /** The `vendorSpend` entry of one vendor. */
  function SpendOf(v: Vendor, invoices: seq<Invoice>, role: string, now: Instant): (s: VendorSpend)
    requires ValidInstant(now)
    ensures s.id == v.id && s.name == v.name
    ensures s.invoiceCount == |InvoicesOf(v.id, invoices, role, now)| <= |invoices|
    ensures s.totalSpend == Sum(Totals(InvoicesOf(v.id, invoices, role, now)))
  {
    var mine := InvoicesOf(v.id, invoices, role, now);
    VendorSpend(v.id, v.name, Sum(Totals(mine)), |mine|)
  }

  /** The role filter only narrows the invoices: a vendor none of whose
      invoices pass it is still listed, with spend 0. */
  lemma {:induction false} UnmatchedVendorHasZeroSpend(v: Vendor, invoices: seq<Invoice>, role: string, now: Instant)
    requires ValidInstant(now)
    requires forall k :: 0 <= k < |invoices| ==> invoices[k].vendorId != v.id || !InRoleWindow(role, now, invoices[k].issueDate)
    ensures SpendOf(v, invoices, role, now).totalSpend == 0.0
    ensures SpendOf(v, invoices, role, now).invoiceCount == 0
  {
    if |invoices| > 0 {
      var init := invoices[..|invoices| - 1];
      assert forall k :: 0 <= k < |init| ==> init[k] == invoices[k];
      UnmatchedVendorHasZeroSpend(v, init, role, now);
    }
  }

  function Spends(s: seq<VendorSpend>): (r: seq<real>)
    ensures |r| == |s|
    ensures forall i :: 0 <= i < |s| ==> r[i] == s[i].totalSpend
  {
    seq(|s|, i requires 0 <= i < |s| => s[i].totalSpend)
  }

  lemma SpendsPrefix(s: seq<VendorSpend>, i: int)
    requires 0 <= i <= |s|
    ensures Spends(s[..i]) == Spends(s)[..i]
  {
  }

  // ---------------------------------------------------------------------------
  // Sorting by spend and the top-ten slice
  // ---------------------------------------------------------------------------

  predicate SpendDescending(s: seq<VendorSpend>) {
    forall i, j :: 0 <= i < j < |s| ==> s[i].totalSpend >= s[j].totalSpend
  }

  /** Insert before the first entry that does not spend more, which keeps
      entries of equal spend in their original order, as a stable sort does. */
  function InsertBySpend(v: VendorSpend, s: seq<VendorSpend>): (r: seq<VendorSpend>)
    requires SpendDescending(s)
    ensures SpendDescending(r)
    ensures multiset(r) == multiset(s) + multiset{v}
    ensures |r| == |s| + 1
    ensures r[0] == v || (|s| > 0 && r[0] == s[0])
  {
    if |s| == 0 || v.totalSpend >= s[0].totalSpend then [v] + s
    else
      assert s == [s[0]] + s[1..];
      [s[0]] + InsertBySpend(v, s[1..])
  }

  /** `vendorSpend.sort((a, b) => b.totalSpend - a.totalSpend)`. */
  function SortBySpend(s: seq<VendorSpend>): (r: seq<VendorSpend>)
    ensures SpendDescending(r)
    ensures multiset(r) == multiset(s)
    ensures |r| == |s|
  {
    if |s| == 0 then []
    else
      assert s == [s[0]] + s[1..];
      InsertBySpend(s[0], SortBySpend(s[1..]))
  }

  /** Cutting a descending sequence leaves behind nothing that spent more
      than what was kept. */
  lemma PrefixDominates(sorted: seq<VendorSpend>, n: int)
    requires SpendDescending(sorted)
    requires 0 <= n <= |sorted|
    ensures multiset(sorted[..n]) <= multiset(sorted)
    ensures forall v :: v in multiset(sorted) - multiset(sorted[..n]) ==>
              forall i :: 0 <= i < n ==> v.totalSpend <= sorted[i].totalSpend
  {
    assert sorted == sorted[..n] + sorted[n..];
    assert multiset(sorted) - multiset(sorted[..n]) == multiset(sorted[n..]);
    forall v | v in multiset(sorted[n..])
      ensures forall i :: 0 <= i < n ==> v.totalSpend <= sorted[i].totalSpend
    {
      var j :| n <= j < |sorted| && sorted[j] == v;
    }
  }

  /** `.slice(0, 10)` of the sorted spends. */
  function Top10(s: seq<VendorSpend>): (r: seq<VendorSpend>)
    ensures |r| == if |s| < 10 then |s| else 10
    ensures SpendDescending(r)
  {
    var n := if |s| < 10 then |s| else 10;
    SortBySpend(s)[..n]
  }

  /** The top ten are drawn from the input, and every vendor left out spent
      no more than any vendor kept. */
  lemma Top10Dominates(s: seq<VendorSpend>)
    ensures multiset(Top10(s)) <= multiset(s)
    ensures forall v :: v in multiset(s) - multiset(Top10(s)) ==>
              forall i :: 0 <= i < |Top10(s)| ==> v.totalSpend <= Top10(s)[i].totalSpend
  {
    var sorted := SortBySpend(s);
    var n := |Top10(s)|;
    assert Top10(s) == sorted[..n];
    PrefixDominates(sorted, n);
  }

  // ---------------------------------------------------------------------------
  // Percentages, with JavaScript division
  // ---------------------------------------------------------------------------

  datatype Ranked = Ranked(vendor: VendorSpend, percentage: JsNumber, cumulativePercentage: JsNumber)

  /** Spend of the top ten together: the denominator of every percentage. */
  function TopTotal(top: seq<VendorSpend>): real {
    Sum(Spends(top))
  }

  /** Spend of the entries up to and including index `i`:
      `top10.slice(0, i + 1).reduce(...)`. */
  function SpendThrough(top: seq<VendorSpend>, i: int): real
    requires 0 <= i < |top|
  {
    Sum(Spends(top[..i + 1]))
  }

  /** `top10.map(...)`: each entry's share and the share of the entries up to
      and including it, both of the top-ten total. */
  function WithPercentages(top: seq<VendorSpend>): (r: seq<Ranked>)
    ensures |r| == |top|
    ensures forall i :: 0 <= i < |top| ==> r[i].vendor == top[i]
    ensures forall i :: 0 <= i < |top| ==> r[i].percentage == Times100(Divide(top[i].totalSpend, TopTotal(top)))
    ensures forall i :: 0 <= i < |top| ==> r[i].cumulativePercentage == Times100(Divide(SpendThrough(top, i), TopTotal(top)))
  {
    var total := TopTotal(top);
    seq(|top|, i requires 0 <= i < |top| =>
      Ranked(top[i], Times100(Divide(top[i].totalSpend, total)), Times100(Divide(SpendThrough(top, i), total))))
  }

  /** The `/top10` response for the given vendors and invoices. */
  function TopVendors(vendors: seq<Vendor>, invoices: seq<Invoice>, role: string, now: Instant): (r: seq<Ranked>)
    requires ValidInstant(now)
    ensures |r| == if |vendors| < 10 then |vendors| else 10
    ensures forall i, j :: 0 <= i < j < |r| ==> r[i].vendor.totalSpend >= r[j].vendor.totalSpend
  {
    var spends := seq(|vendors|, i requires 0 <= i < |vendors| => SpendOf(vendors[i], invoices, role, now));
    WithPercentages(Top10(spends))
  }

  lemma SpendThroughStep(top: seq<VendorSpend>, i: int)
    requires 0 < i < |top|
    ensures SpendThrough(top, i) == SpendThrough(top, i - 1) + top[i].totalSpend
  {
    SpendsPrefix(top, i + 1);
    SpendsPrefix(top, i);
    SumPrefixStep(Spends(top), i);
  }

  lemma SpendThroughLast(top: seq<VendorSpend>)
    requires |top| > 0
    ensures SpendThrough(top, |top| - 1) == TopTotal(top)
  {
    assert top[..|top|] == top;
  }

  lemma ScaledSum(a: real, b: real, t: real)
    requires t != 0.0
    ensures (a + b) / t * 100.0 == a / t * 100.0 + b / t * 100.0
  {
    var p, q := a / t, b / t;
    assert p * t == a && q * t == b;
    assert (p + q) * t == a + b;
  }

  /** As long as the total is not zero, each running share is the previous
      running share plus the entry's own share. */
  lemma CumulativeIsRunningShare(top: seq<VendorSpend>, i: int)
    requires 0 < i < |top|
    requires TopTotal(top) != 0.0
    ensures WithPercentages(top)[i].cumulativePercentage.value
         == WithPercentages(top)[i - 1].cumulativePercentage.value + WithPercentages(top)[i].percentage.value
  {
    SpendThroughStep(top, i);
    ScaledSum(SpendThrough(top, i - 1), top[i].totalSpend, TopTotal(top));
  }

  /** The last running share is 100 whenever the total is not zero. */
  lemma LastCumulativeIsHundred(top: seq<VendorSpend>)
    requires |top| > 0
    requires TopTotal(top) != 0.0
    ensures WithPercentages(top)[|top| - 1].cumulativePercentage == Finite(100.0)
  {
    SpendThroughLast(top);
    var t := TopTotal(top);
    assert t / t == 1.0;
  }

  /** Sum of the finite `percentage` fields. */
  function ShareSum(r: seq<Ranked>): real {
    if |r| == 0 then 0.0
    else ShareSum(r[..|r| - 1]) + (if r[|r| - 1].percentage.Finite? then r[|r| - 1].percentage.value else 0.0)
  }

  lemma {:induction false} SharesAddUp(top: seq<VendorSpend>, n: int)
    requires 0 < n <= |top|
    requires TopTotal(top) != 0.0
    ensures ShareSum(WithPercentages(top)[..n]) == WithPercentages(top)[n - 1].cumulativePercentage.value
  {
    var r := WithPercentages(top);
    if n > 1 {
      SharesAddUp(top, n - 1);
      CumulativeIsRunningShare(top, n - 1);
      assert r[..n][..n - 1] == r[..n - 1];
    } else {
      var one := [top[0].totalSpend];
      assert Spends(top[..1]) == one;
      assert one[..0] == [];
      assert Sum(one) == Sum(one[..0]) + one[0];
      assert r[..1][..0] == [];
    }
  }

  /** The individual shares add up to 100 whenever the total is not zero. */
  lemma PercentagesSumToHundred(top: seq<VendorSpend>)
    requires |top| > 0
    requires TopTotal(top) != 0.0
    ensures ShareSum(WithPercentages(top)) == 100.0
  {
    SharesAddUp(top, |top|);
    LastCumulativeIsHundred(top);
    assert WithPercentages(top)[..|top|] == WithPercentages(top);
  }

  /** With non-negative spends and a positive total the running share never
      decreases. */
  lemma CumulativeNonDecreasing(top: seq<VendorSpend>, i: int, j: int)
    requires forall k :: 0 <= k < |top| ==> top[k].totalSpend >= 0.0
    requires TopTotal(top) > 0.0
    requires 0 <= i <= j < |top|
    ensures WithPercentages(top)[i].cumulativePercentage.value <= WithPercentages(top)[j].cumulativePercentage.value
  {
    SpendsPrefix(top, i + 1);
    SpendsPrefix(top, j + 1);
    PrefixSumMonotone(Spends(top), i + 1, j + 1);
    var t := TopTotal(top);
    var a, b := SpendThrough(top, i), SpendThrough(top, j);
    assert a <= b;
    assert a / t <= b / t;
  }

  /** The code does not guard the denominator: when every top vendor spent
      nothing, each share and running share is `0 / 0`, that is NaN. */
  lemma ZeroSpendGivesNaN(top: seq<VendorSpend>, i: int)
    requires forall k :: 0 <= k < |top| ==> top[k].totalSpend >= 0.0
    requires TopTotal(top) == 0.0
    requires 0 <= i < |top|
    ensures WithPercentages(top)[i].percentage == NaN
    ensures WithPercentages(top)[i].cumulativePercentage == NaN
  {
    SumZeroMeansAllZero(Spends(top));
    SpendsPrefix(top, i + 1);
    SumNonNegative(Spends(top)[..i + 1]);
    PrefixSumMonotone(Spends(top), i + 1, |top|);
    assert Spends(top)[..|top|] == Spends(top);
  }
}

=== FILE: wrappers.dfy ===
/** Failure-carrying results shared by every route and page of the dashboard. */
module Wrappers {

  /** A value that may be absent: JavaScript `undefined`/`null`, Python `None`. */
  datatype Option<+T> = None | Some(value: T) {
    function GetOr(default: T): T {
      match this
      case Some(v) => v
      case None => default
    }
  }

  /** The outcome of one HTTP handler: a JSON body, or an error status with its message. */
  datatype Reply<+T> = Ok(value: T) | Fail(status: int, error: string) {
    predicate IsOk() { Ok? }
  }

  const BAD_REQUEST: int := 400
  const NOT_FOUND: int := 404
  const SERVER_ERROR: int := 500
  const SERVICE_UNAVAILABLE: int := 503
}
